=== FILE: README.md ===
# Public transport watcher, modelled in Dafny

This project models the computational core of the Île-de-France public transport watcher. It covers:

- **Route pipeline.** The base network is built from stations and schedules, with travel times derived from the schedule rows. Station congestion adjusts the weights. The route search works on a graph of stations, lines and transfers. The nearest station is found by walking distance. The graph builder and the predictor orchestrate these steps.
- **Line codes.** The tables of metro, RER, Transilien, tram and special line codes: normalising a code, looking it up, and reading a line code out of a free text.
- **Route display.** The route summary and the per-step texts on the search page, and the labels of the stations along a route. On the map: the transfer stations, the ride segments that can be drawn, and the centre and zoom of the view.
- **Navigo validations.** Reading the validation files into one table, and inserting them into the database.
- **Addresses.** Building street numbers and street names from the address rows.
- **Alerts.** The disruption rows read from the traffic API.
- **Traffic.** The real-time vehicle rows and the lines they are requested for.
- **Monitoring.** The severity icons and the cache age shown on the alerts page.

Python dictionaries and pandas tables become datatypes, maps and sequences. A `networkx` graph object becomes the class `Digraphs.Digraph`, whose methods update its maps in place. Loops in the source become `method`s with loop invariants, each proved equal to a specification function. The properties the code promises are lemmas about those functions. Files, the database, HTTP, the clock and the ARIMA forecasts are parameters of the model.

## Model

| member | source | states |
|---|---|---|
| Digraphs.Graph.AddNode | public_transport_watcher/predictor/graph/create_transport_network.py:7-13 | adding a new node appends it to the insertion order; re-adding an existing node keeps its place and replaces its attributes; edges are untouched |
| Digraphs.Graph.AddEdge | public_transport_watcher/predictor/graph/create_transport_network.py:46-55 | a directed graph keeps one edge per ordered pair: adding (u, v) creates it or overwrites its attributes; nodes and order are untouched |
| Digraphs.EmptyGraph | public_transport_watcher/predictor/graph/create_transport_network.py:76 | a new graph has no nodes and no edges and is well formed |
| Digraphs.AddNodeWellFormed | public_transport_watcher/predictor/graph/create_transport_network.py:7-13 | adding a node keeps every edge between nodes and every node listed once in the order |
| Digraphs.AddEdgeWellFormed | public_transport_watcher/predictor/graph/create_transport_network.py:46-55 | adding an edge between existing nodes keeps the graph well formed |
| Digraphs.Digraph.constructor | public_transport_watcher/predictor/graph/create_transport_network.py:76 | a new graph object is valid and empty |
| Digraphs.Digraph.FromValue | public_transport_watcher/predictor/graph_builder.py:46-47 | an unpickled graph is a fresh object holding the stored value |
| Digraphs.Digraph.AddNode | public_transport_watcher/predictor/graph/create_transport_network.py:7-13 | the object's new value is the old value with the node added |
| Digraphs.Digraph.AddEdge | public_transport_watcher/predictor/graph/create_transport_network.py:46-55 | the object's new value is the old value with the edge added |
| Digraphs.Digraph.Copy | public_transport_watcher/predictor/graph/adjust_station_weight.py:64 | a copy is a fresh object with the same nodes, order and edges |
| Network.ConnectionAttrs | public_transport_watcher/predictor/graph/create_transport_network.py:39-55 | an edge's weight is the row's travel time, or 5 minutes when none is known; the same value is stored as its travel time; no line is recorded |
| Network.CreateTransportNetwork | public_transport_watcher/predictor/graph/create_transport_network.py:58-81 | the loops over stations and schedule rows produce a fresh valid graph equal to `BuildNetwork` of the rows |
| Network.StationKeys | public_transport_watcher/predictor/graph/create_transport_network.py:5-13 | after the stations, there is one node per station id and no edge |
| Network.AddStations | public_transport_watcher/predictor/graph/create_transport_network.py:5-13 | the station loop as a value; StationKeys, StationLastWins and StationsWellFormed state its nodes, their attributes and the graph invariant |
| Network.StationLastWins | public_transport_watcher/predictor/graph/create_transport_network.py:5-13 | a station node carries the attributes of the last station row with its id |
| Network.StationsWellFormed | public_transport_watcher/predictor/graph/create_transport_network.py:5-13 | the graph of the stations is well formed |
| Network.ConnectionsKeepNodes | public_transport_watcher/predictor/graph/create_transport_network.py:16-37 | connections never change an existing node's attributes or position; a node they add is a placeholder without coordinates named "Station " and its id, written as read from the station column ("5") when no row names it as a next station, and as read from the next-station column ("5.0" once that column is a float column) when no row names it as a station |
| Network.PlaceholderAttrs | public_transport_watcher/predictor/graph/create_transport_network.py:16-21 | the dummy node "Station <id>" at position (0, 0) without coordinates; ConnectionsKeepNodes and FloatPlaceholderExample state where it is used and how the id reads |
| Network.EnsureNode | public_transport_watcher/predictor/graph/create_transport_network.py:33-37 | a missing station is added as a placeholder at the end of the node order, and a present one is left as it is; edges are untouched |
| Network.AddConnections | public_transport_watcher/predictor/graph/create_transport_network.py:24-42 | the connection loop as a value; ConnectionEdges, ConnectionLastWins, ConnectionWeights and ConnectionsWellFormed state its edges, their attributes and the invariant |
| Network.ConnectionEdges | public_transport_watcher/predictor/graph/create_transport_network.py:24-42 | there is an edge (u, v) exactly when some row with a next station goes from u to v, or the edge was already there |
| Network.ConnectionLastWins | public_transport_watcher/predictor/graph/create_transport_network.py:28-55 | the attributes of edge (u, v) come from the last row from u to v |
| Network.ConnectionWeights | public_transport_watcher/predictor/graph/create_transport_network.py:39-54 | every weight equals its stored travel time and has no line; a lower bound of at most 5 on the known travel times holds for every weight |
| Network.ConnectionsWellFormed | public_transport_watcher/predictor/graph/create_transport_network.py:32-42 | both endpoints of every connection are nodes, so the network is well formed |
| Network.BuildNetworkNodes | public_transport_watcher/predictor/graph/create_transport_network.py:58-81 | every node is a station (with the last row's attributes) or a placeholder for an id met only in the schedules, named from the column the id was read from: "Station 5" from the station column, "Station 5.0" from the next-station column when some row has no next station |
| Network.BuildNetwork | public_transport_watcher/predictor/graph/create_transport_network.py:58-81 | the network as a value: stations, then connections; CreateTransportNetwork, BuildNetworkNodes, BuildNetworkEdges and BuildNetworkWeights state it |
| Network.NamedSnoc | public_transport_watcher/predictor/graph/create_transport_network.py:28-37 | a station named by the first rows, as a station or as a next station, is named by all the rows |
| Network.FloatPlaceholderExample | public_transport_watcher/predictor/graph/create_transport_network.py:16-37 | with no station rows, a journey 4 -> 5 whose last row has no next station gives the placeholders "Station 4" and "Station 5.0" |
| Network.BuildNetworkEdges | public_transport_watcher/predictor/graph/create_transport_network.py:24-42 | an edge exists exactly for a schedule row with a next station |
| Network.BuildNetworkWeights | public_transport_watcher/predictor/graph/create_transport_network.py:39-54 | when every known travel time is at least one minute, the network is well formed and every weight is at least one minute |
| TravelTime.DropNullTimestamps | public_transport_watcher/predictor/graph/calculate_travel_time.py:24 | keeps exactly the rows whose timestamp is not null |
| TravelTime.KeyLessAsym | public_transport_watcher/predictor/graph/calculate_travel_time.py:35 | the (journey, timestamp) order is asymmetric |
| TravelTime.KeyNotLessTrans | public_transport_watcher/predictor/graph/calculate_travel_time.py:35 | "not less than" is transitive for the sort key |
| TravelTime.InsertSorted | public_transport_watcher/predictor/graph/calculate_travel_time.py:35 | inserting into a sorted sequence keeps it sorted and adds exactly that row |
| TravelTime.SortRowsCorrect | public_transport_watcher/predictor/graph/calculate_travel_time.py:35 | the sort orders rows by (journey_id, timestamp) and is a permutation of its input |
| TravelTime.SortRows | public_transport_watcher/predictor/graph/calculate_travel_time.py:35 | `sort_values` keeps the number of rows; SortRowsCorrect proves it sorted and a permutation |
| TravelTime.Arrival | public_transport_watcher/predictor/graph/calculate_travel_time.py:39-40 | a row's arrival is the next row's timestamp exactly when that row is in the same journey and the row has a next station |
| TravelTime.TravelMinutes | public_transport_watcher/predictor/graph/calculate_travel_time.py:43-61 | a travel time exists exactly when both timestamps parsed; it is at least one minute; it is the gap plus one when that is at least one, one minute when that is in [0, 1), and the gap modulo one day plus one when the gap plus one is negative |
| TravelTime.DayRolloverExample | public_transport_watcher/predictor/graph/calculate_travel_time.py:47-56 | taken in stop order, a departure at 23:58 with the next stop at 00:03 would take six minutes |
| TravelTime.StopOrderMinutes | public_transport_watcher/predictor/graph/calculate_travel_time.py:43-61 | taken in stop order, a ride shorter than a day less a minute gets its duration in minutes plus one, across midnight too |
| TravelTime.SortedGapsNonNegative | public_transport_watcher/predictor/graph/calculate_travel_time.py:35-56 | in rows sorted by (journey, timestamp), an arrival is never before its departure, so the travel time is the gap plus one |
| TravelTime.PipelineNeverRollsOver | public_transport_watcher/predictor/graph/calculate_travel_time.py:24-56 | after the pipeline's sort, no gap is negative: the day-transition branch is never taken |
| TravelTime.SortSwaps | public_transport_watcher/predictor/graph/calculate_travel_time.py:35 | two rows of one journey are swapped when the later one comes first |
| TravelTime.CrossMidnightExample | public_transport_watcher/predictor/graph/calculate_travel_time.py:35-56 | a journey leaving 1 at 23:58 and 2 at 00:03 is sorted 00:03 first, so the 00:03 row gets 1436 minutes and the 23:58 row none |
| TravelTime.WithTravelTimes | public_transport_watcher/predictor/graph/calculate_travel_time.py:39-61 | each sorted row gets the travel time to its arrival |
| TravelTime.DedupByCorrect | public_transport_watcher/predictor/graph/calculate_travel_time.py:64-66 | the kept rows come from the input, have distinct keys and cover every key of the input |
| TravelTime.DedupBy | public_transport_watcher/predictor/graph/calculate_travel_time.py:64-66 | `drop_duplicates` never adds a row; DedupByCorrect states which rows it keeps |
| TravelTime.KeysOfSnoc | public_transport_watcher/predictor/graph/calculate_travel_time.py:64-66 | the keys of a sequence grow by the key of an appended row |
| TravelTime.ResetSentinel | public_transport_watcher/predictor/graph/calculate_travel_time.py:29-33 | going back from the sentinel turns exactly the -1 values into nulls |
| TravelTime.GroupValuesFrom | public_transport_watcher/predictor/graph/calculate_travel_time.py:71-73 | each grouped value is the travel time of a row with that (line, station, next station) key |
| TravelTime.SumAtLeast | public_transport_watcher/predictor/graph/calculate_travel_time.py:71-73 | a sum of values that are each at least lo is at least their count times lo |
| TravelTime.MeanAtLeastOne | public_transport_watcher/predictor/graph/calculate_travel_time.py:71-73 | the mean of values that are all at least one minute is at least one minute |
| TravelTime.Averaged | public_transport_watcher/predictor/graph/calculate_travel_time.py:71-73 | every row gets the mean of the non-null travel times of its group |
| TravelTime.ToTravelRows | public_transport_watcher/predictor/graph/calculate_travel_time.py:68 | each kept row becomes a result row with the sentinel turned back into null |
| TravelTime.SurvivorsFloor | public_transport_watcher/predictor/graph/calculate_travel_time.py:58-68 | every travel time before averaging is at least one minute |
| TravelTime.Survivors | public_transport_watcher/predictor/graph/calculate_travel_time.py:20-68 | the rows that reach the averaging; SurvivorsFloor bounds their travel times |
| TravelTime.TravelTimeFloor | public_transport_watcher/predictor/graph/calculate_travel_time.py:5-76 | every non-null travel time of the result is at least one minute |
| TravelTime.CalculateTravelTime | public_transport_watcher/predictor/graph/calculate_travel_time.py:5-76 | the whole stage; TravelTimeFloor, OneRowPerKey, EveryKeyAveraged and NoNextStationKept state its result |
| TravelTime.OneRowPerKey | public_transport_watcher/predictor/graph/calculate_travel_time.py:74 | the result has at most one row per (line, station, next station) |
| TravelTime.AveragedCovers | public_transport_watcher/predictor/graph/calculate_travel_time.py:71-74 | averaging then de-duplicating keeps every key, with the mean of that key's travel times |
| TravelTime.EveryKeyAveraged | public_transport_watcher/predictor/graph/calculate_travel_time.py:5-76 | every key of a surviving row is in the result, with the mean of that key's non-null travel times |
| TravelTime.NoNextStationSurvives | public_transport_watcher/predictor/graph/calculate_travel_time.py:63-68 | a row without a next station survives the per-journey de-duplication, with a null next station |
| TravelTime.NoNextStationKept | public_transport_watcher/predictor/graph/calculate_travel_time.py:5-76 | a row without a next station appears in the result with a null next station and no travel time |
| TravelTime.JourneyDedupUnique | public_transport_watcher/predictor/graph/calculate_travel_time.py:64-66 | after the per-journey de-duplication, no two rows share (journey, line, station, next station) |
| Nearest.WalkingMinutes | public_transport_watcher/predictor/graph/find_nearest_station_with_walk.py:58 | the walking time in minutes is non-negative for a non-negative distance and a positive speed |
| Nearest.FindNearestStation | public_transport_watcher/predictor/graph/find_nearest_station_with_walk.py:44-61 | no station exactly when no node with coordinates is within range; a zero speed fails on the first candidate; otherwise the result is the first closest in-range node in node order, with its distance and walking time |
| Congestion.Loads | public_transport_watcher/predictor/graph/adjust_station_weight.py:36-53 | a dictionary argument fails; a table without both columns fails with the ValueError message; otherwise there is one load per row, keyed by its station |
| Congestion.MinLoad | public_transport_watcher/predictor/graph/adjust_station_weight.py:56 | the least load is one of the loads and at most every load |
| Congestion.MaxLoad | public_transport_watcher/predictor/graph/adjust_station_weight.py:57 | the greatest load is one of the loads and at least every load |
| Congestion.Level | public_transport_watcher/predictor/graph/adjust_station_weight.py:59-62 | a level lies in [0, 1]; it is 0.5 when all loads are equal, otherwise 0 exactly at the least load and 1 exactly at the greatest |
| Congestion.LevelMonotone | public_transport_watcher/predictor/graph/adjust_station_weight.py:59-62 | a larger load never gets a smaller level |
| Congestion.NegTimesPos | public_transport_watcher/predictor/graph/adjust_station_weight.py:59-62 | a negative difference times a positive range is negative, the step LevelMonotone needs |
| Congestion.Normalize | public_transport_watcher/predictor/graph/adjust_station_weight.py:55-62 | every load is replaced by its level, station by station |
| Congestion.NormalizeOrder | public_transport_watcher/predictor/graph/adjust_station_weight.py:55-62 | normalising keeps the order of the loads, sends the least to 0 and the greatest to 1, or all to 0.5 |
| Congestion.ZipToMap | public_transport_watcher/predictor/graph/adjust_station_weight.py:67 | the lookup has exactly the stations of the table |
| Congestion.ZipLastWins | public_transport_watcher/predictor/graph/adjust_station_weight.py:67 | a later row for the same station overrides an earlier one |
| Congestion.ZipValue | public_transport_watcher/predictor/graph/adjust_station_weight.py:67 | each looked-up level is the level of some row of that station |
| Congestion.CrowdLookup | public_transport_watcher/predictor/graph/adjust_station_weight.py:36-67 | every crowd level in the lookup lies in [0, 1] |
| Congestion.StationWeighting | public_transport_watcher/predictor/graph/adjust_station_weight.py:90-100 | a station's crowd level is its looked-up level or 0; it is a transfer exactly when it is in the transfer set |
| Congestion.PenalizedNodes | public_transport_watcher/predictor/graph/adjust_station_weight.py:89-100 | every station gets congestion attributes; its name, coordinates and position are kept |
| Congestion.ReweightedEdges | public_transport_watcher/predictor/graph/adjust_station_weight.py:102-111 | every connection keeps its attributes except the weight |
| Congestion.Adjusted | public_transport_watcher/predictor/graph/adjust_station_weight.py:64-113 | the adjusted network has the same stations, order and connections |
| Congestion.FindTransferStations | public_transport_watcher/predictor/graph/adjust_station_weight.py:69-87 | the scan returns exactly the stations whose edges in either direction carry two lines or more |
| Congestion.ConnectedLines | public_transport_watcher/predictor/graph/adjust_station_weight.py:72-84 | the lines on the outgoing and incoming edges of one station |
| Congestion.PenalizeStations | public_transport_watcher/predictor/graph/adjust_station_weight.py:89-100 | the node loop leaves order and edges alone and sets the nodes to `PenalizedNodes` |
| Congestion.PenalizeInOrder | public_transport_watcher/predictor/graph/adjust_station_weight.py:90-100 | visiting the stations in order yields `PenalizedNodes` |
| Congestion.ReweightConnections | public_transport_watcher/predictor/graph/adjust_station_weight.py:102-111 | the edge loop leaves nodes and order alone and sets the edges to `ReweightedEdges` |
| Congestion.ReweightAll | public_transport_watcher/predictor/graph/adjust_station_weight.py:103-111 | visiting the edges in any order yields `ReweightedEdges` |
| Congestion.AdjustStationWeights | public_transport_watcher/predictor/graph/adjust_station_weight.py:5-113 | fails exactly when the frequency data does, with the same error; otherwise returns a fresh graph equal to `Adjusted` of the untouched input |
| Congestion.WeightsNeverDecrease | public_transport_watcher/predictor/graph/adjust_station_weight.py:102-111 | with non-negative levels, penalties and factor, no weight decreases, and a connection into a station with no prediction keeps its weight |
| Congestion.EdgeNeverDecreases | public_transport_watcher/predictor/graph/adjust_station_weight.py:102-111 | the same for one connection |
| Congestion.AddedWeight | public_transport_watcher/predictor/graph/adjust_station_weight.py:92-109 | the weight added to a connection is the factor times the destination's penalty: base penalty times crowd level, doubled by the multiplier at a transfer |
| Congestion.BuiltNetworkHasNoTransfers | public_transport_watcher/predictor/graph/adjust_station_weight.py:77-87 | the builder never records a line on a connection, so no station of a built network is a transfer |
| Congestion.NoLinesAdded | public_transport_watcher/predictor/graph/create_transport_network.py:45-55 | connections added by the builder carry no line |
| ShortestPaths.CostAppend | public_transport_watcher/predictor/graph/find_optimal_route.py:141-142 | extending a walk by an edge adds that edge's weight to its cost |
| ShortestPaths.CostNonNegative | public_transport_watcher/predictor/graph/find_optimal_route.py:141-142 | with no negative weight, no walk has a negative cost |
| ShortestPaths.RelaxedBoundsPaths | public_transport_watcher/predictor/graph/find_optimal_route.py:141-142 | a labelling with source label zero that no edge can lower bounds the cost of every walk from the source |
| ShortestPaths.ArgMin | public_transport_watcher/predictor/graph/find_optimal_route.py:141 | the node picked from the frontier has the smallest label |
| ShortestPaths.LabelledUpdate | public_transport_watcher/predictor/graph/find_optimal_route.py:141 | lowering a label through an edge keeps a walk of that cost as its witness |
| ShortestPaths.RelaxFrom | public_transport_watcher/predictor/graph/find_optimal_route.py:141 | relaxing the edges of the node just settled keeps the witnesses, leaves settled labels alone and closes the settled set under relaxation |
| ShortestPaths.RelaxAll | public_transport_watcher/predictor/graph/find_optimal_route.py:141 | after the edge loop every edge leaving the settled node is relaxed and no label has grown |
| ShortestPaths.RelaxEdge | public_transport_watcher/predictor/graph/find_optimal_route.py:141 | relaxing one edge lowers at most its target's label, to at most the source label plus the weight |
| ShortestPaths.SettledFirstAfterLoop | public_transport_watcher/predictor/graph/find_optimal_route.py:141 | settled labels stay at most the unsettled ones |
| ShortestPaths.RelaxedAfterLoop | public_transport_watcher/predictor/graph/find_optimal_route.py:141 | the settled set stays closed under relaxation |
| ShortestPaths.ShortestPath | public_transport_watcher/predictor/graph/find_optimal_route.py:141-142 | a result is a walk from s to t whose cost is the returned length and is at most the cost of every walk from s to t; no result exactly when no walk joins them |
| RouteGraph.LinesInAdd | public_transport_watcher/predictor/graph/find_optimal_route.py:44-49 | recording one more connection adds its line to its source station only |
| RouteGraph.TransportsAtStations | public_transport_watcher/predictor/graph/find_optimal_route.py:43-49 | the map has exactly the stations with an outgoing connection, each with the set of its lines |
| RouteGraph.AddLine | public_transport_watcher/predictor/graph/find_optimal_route.py:45-49 | one connection's line is added at its source station |
| RouteGraph.AddLineNodes | public_transport_watcher/predictor/graph/find_optimal_route.py:56-60 | one node per line leaving the station is added; edges are untouched |
| RouteGraph.AddTransfersFrom | public_transport_watcher/predictor/graph/find_optimal_route.py:62-77 | transfer edges with the penalty weight go from one line of the station to each of its other lines |
| RouteGraph.PutEdge | public_transport_watcher/predictor/graph/find_optimal_route.py:70-77 | `add_edge` between two nodes already present sets that one edge and leaves the nodes and their order alone |
| RouteGraph.AddTransfers | public_transport_watcher/predictor/graph/find_optimal_route.py:62-77 | every ordered pair of distinct lines at the station gets a transfer edge with the penalty weight; no node is added |
| RouteGraph.AddStation | public_transport_watcher/predictor/graph/find_optimal_route.py:52-80 | a station gets its line nodes and transfer edges, or its plain node when no line leaves it |
| RouteGraph.AddStations | public_transport_watcher/predictor/graph/find_optimal_route.py:51-80 | after step 2 the nodes are exactly the station nodes and the edges exactly the transfer edges |
| RouteGraph.AddRideEdge | public_transport_watcher/predictor/graph/find_optimal_route.py:83-93 | a connection on line t gets a ride edge to (v, t) when t also leaves v, to the plain v when no line leaves v, and none otherwise |
| RouteGraph.RideKeysAdded | public_transport_watcher/predictor/graph/find_optimal_route.py:87-93 | the ride edge of one more connection extends the finished edges |
| RouteGraph.RideKeysNone | public_transport_watcher/predictor/graph/find_optimal_route.py:87-88 | a connection whose target has other lines only adds no edge |
| RouteGraph.AddRideEdgeFrom | public_transport_watcher/predictor/graph/find_optimal_route.py:83-93 | one more connection is handled and the set of remaining ones shrinks |
| RouteGraph.AddRideEdges | public_transport_watcher/predictor/graph/find_optimal_route.py:82-93 | after step 3 every connection's ride edge is present |
| RouteGraph.StartEdgesAdd | public_transport_watcher/predictor/graph/find_optimal_route.py:106-114 | the start edges of one more line are the old ones plus a free edge to that line |
| RouteGraph.EndEdgesAdd | public_transport_watcher/predictor/graph/find_optimal_route.py:126-134 | the end edges of one more line are the old ones plus a free edge from that line |
| RouteGraph.AddStart | public_transport_watcher/predictor/graph/find_optimal_route.py:95-116 | a start station served by some line gets a virtual node with a free edge to each of its lines; otherwise nothing changes |
| RouteGraph.AddStartEdges | public_transport_watcher/predictor/graph/find_optimal_route.py:104-114 | the edges added are exactly one free start edge from the virtual start node to each line at the start station |
| RouteGraph.AddEnd | public_transport_watcher/predictor/graph/find_optimal_route.py:118-136 | an end station served by some line gets a virtual node with a free edge from each of its lines; otherwise nothing changes |
| RouteGraph.AddEndEdges | public_transport_watcher/predictor/graph/find_optimal_route.py:124-134 | the edges added are exactly one free end edge from each line at the end station to the virtual end node |
| RouteGraph.BuildExpandedGraph | public_transport_watcher/predictor/graph/find_optimal_route.py:40-136 | the expanded graph has exactly the specified nodes and exactly the specified edges, with their weights and markers |
| RouteGraph.BuildStationGraph | public_transport_watcher/predictor/graph/find_optimal_route.py:42-93 | steps 1 to 3 give the line map, the station nodes, and the transfer and ride edges |
| RouteGraph.NoRideEdgesYet | public_transport_watcher/predictor/graph/find_optimal_route.py:51-80 | after step 2 the graph holds no ride edge |
| RouteGraph.StationLines | public_transport_watcher/predictor/graph/find_optimal_route.py:56-60 | every line leaving a station has its line node |
| RouteGraph.ExpandedNodes | public_transport_watcher/predictor/graph/find_optimal_route.py:51-136 | the node set built is exactly the specified one |
| RouteGraph.ExpandedEdges | public_transport_watcher/predictor/graph/find_optimal_route.py:62-134 | transfer, ride, start and end edges make up exactly the specified edges |
| RouteFinder.WeightsMatch | public_transport_watcher/predictor/graph/find_optimal_route.py:141-142 | walks and costs over the weight attribute are exactly walks and costs of the expanded graph |
| RouteFinder.WeightsMatchAll | public_transport_watcher/predictor/graph/find_optimal_route.py:141-142 | the same, for every walk |
| RouteFinder.WeightsValid | public_transport_watcher/predictor/graph/find_optimal_route.py:141 | the expanded graph's edges join its nodes and none has a negative weight, as Dijkstra needs when the network's weights are non-negative |
| RouteFinder.XEdgeInNet | public_transport_watcher/predictor/graph/find_optimal_route.py:56-134 | both ends of an expanded edge stand for stations of the network |
| RouteFinder.XPathInNet | public_transport_watcher/predictor/graph/find_optimal_route.py:141 | every node of an expanded walk stands for a station of the network |
| RouteFinder.Reduce | public_transport_watcher/predictor/graph/find_optimal_route.py:145-155 | reducing a walk never lengthens it (intended step 6: line and plain nodes become stations, virtual nodes are dropped) |
| RouteFinder.ReduceAsWrittenFails | public_transport_watcher/predictor/graph/find_optimal_route.py:145-155 | the code as written agrees with the intended reduction exactly when the walk has no plain node, and fails otherwise |
| RouteFinder.ReduceAppend | public_transport_watcher/predictor/graph/find_optimal_route.py:145-155 | the reduction of a concatenation is the concatenation of the reductions |
| RouteFinder.ReduceInNet | public_transport_watcher/predictor/graph/find_optimal_route.py:145-155 | every station of a reduced walk is in the network |
| RouteFinder.RouteInNet | public_transport_watcher/predictor/graph/find_optimal_route.py:145-158 | every station of the route is in the network |
| RouteFinder.Dedupe | public_transport_watcher/predictor/graph/find_optimal_route.py:158 | dropping repeats keeps the first and last station and every station, and leaves no station twice in a row |
| RouteFinder.ReduceFirst | public_transport_watcher/predictor/graph/find_optimal_route.py:145-155 | the first station of a walk that starts with at most one virtual node |
| RouteFinder.ReduceLast | public_transport_watcher/predictor/graph/find_optimal_route.py:145-155 | the last station of a walk that ends with at most one virtual node |
| RouteFinder.RouteEndpoints | public_transport_watcher/predictor/graph/find_optimal_route.py:95-158 | a route found by the search starts at the start station and ends at the end station |
| RouteFinder.DurationParts | public_transport_watcher/predictor/graph/find_optimal_route.py:165 | from an hour on, the hours are at least 1, the minutes are below 60, and together they are the whole minutes of the length |
| RouteFinder.FormatDuration | public_transport_watcher/predictor/graph/find_optimal_route.py:165-167 | the formatted time ends in "min", with the hours before it from an hour on |
| RouteFinder.FloorShift | public_transport_watcher/predictor/graph/find_optimal_route.py:165 | adding a whole number shifts the floor by that number |
| RouteFinder.StationNames | public_transport_watcher/predictor/graph/find_optimal_route.py:162 | one name per station of the route, the station's name attribute |
| RouteFinder.RouteSegments | public_transport_watcher/predictor/graph/find_optimal_route.py:172-222 | the segment loop yields the segments and the transfer count that the step function defines |
| RouteFinder.ExpandedRides | public_transport_watcher/predictor/graph/find_optimal_route.py:83-93 | between two different stations the expanded graph has only ride edges of network connections |
| RouteFinder.SegmentsMeaning | public_transport_watcher/predictor/graph/find_optimal_route.py:175-222 | every segment rides a network connection on its line and for its weight; a segment is a transfer exactly when the one before it was on another line; the transfer count counts them |
| RouteFinder.CountTransfers | public_transport_watcher/predictor/graph/find_optimal_route.py:198-203 | at most one transfer per segment, and none when no segment is a transfer |
| RouteFinder.SegmentStepMeaning | public_transport_watcher/predictor/graph/find_optimal_route.py:175-222 | one pass of the segment loop keeps the segments rides, the transfers at line changes and their count |
| RouteFinder.SearchExpanded | public_transport_watcher/predictor/graph/find_optimal_route.py:138-231 | "No path found" exactly when no walk joins the source and target nodes; otherwise, for a cheapest walk, the `startswith` error when no line leaves the end station, and the description of the walk when one does |
| RouteFinder.CheapestWalk | public_transport_watcher/predictor/graph/find_optimal_route.py:91-142 | the expanded graph is built; no walk is found exactly when none joins the source and target nodes, and a found walk is a cheapest one, with its length |
| RouteFinder.SearchIntended | public_transport_watcher/predictor/graph/find_optimal_route.py:138-228 | as intended: "No path found" exactly when no walk joins the nodes; otherwise a cheapest walk described as a route from the start station to the end station |
| RouteFinder.NoPathOutcome | public_transport_watcher/predictor/graph/find_optimal_route.py:141-142 | when the weights admit no walk between the two nodes, the expanded graph has none either |
| RouteFinder.FoundWalk | public_transport_watcher/predictor/graph/find_optimal_route.py:141-142 | a cheapest walk over the weights is a cheapest walk of the expanded graph |
| RouteFinder.DescribeRoute | public_transport_watcher/predictor/graph/find_optimal_route.py:144-224 | the path, length and route information are those of the description of the walk |
| RouteFinder.FindOptimalRoute | public_transport_watcher/predictor/graph/find_optimal_route.py:4-231 | the start-missing error, then the end-missing error, otherwise the outcome of the search as written |
| RouteFinder.FoundRoute | public_transport_watcher/predictor/graph/find_optimal_route.py:144-224 | a found route runs from start to end, never names a station twice in a row, and its segments are rides with a transfer at each change of line |
| RouteFinder.FoundRoutePath | public_transport_watcher/predictor/graph/find_optimal_route.py:145-163 | a described walk's stations run from the start to the end, never the same station twice in a row, with one name per station |
| RouteFinder.FoundRouteSegments | public_transport_watcher/predictor/graph/find_optimal_route.py:168-224 | a described walk's segments are rides of network connections, with a transfer counted at each change of line |
| RouteFinder.TerminusRouteFails | public_transport_watcher/predictor/graph/find_optimal_route.py:136-155 | as written, step 6 fails on a found walk exactly when no line leaves the end station; otherwise it gives the intended reduction |
| RouteFinder.PlainOnlyLast | public_transport_watcher/predictor/graph/find_optimal_route.py:91-136 | a plain station node has no outgoing edge in the expanded graph, so only the last node of a walk can be one |
| RouteFinder.TerminusExample | public_transport_watcher/predictor/graph/find_optimal_route.py:91-155 | on a two-station line the ride exists, the intended reduction gives [1, 2], and the code as written fails |
| Builder.NetworkPath | public_transport_watcher/predictor/graph_builder.py:34 | the configured network path, or the empty text when the key is absent |
| Builder.Stored | public_transport_watcher/predictor/graph_builder.py:41-47 | loading succeeds exactly when the path is set and a network is stored there; an unset path fails with "Network path is not set" |
| Builder.GraphBuilder.constructor | public_transport_watcher/predictor/graph_builder.py:21-23 | the builder reads its network path from the configuration |
| Builder.GraphBuilder.BuildGraph | public_transport_watcher/predictor/graph_builder.py:25-30 | the network built from the stations and the schedules' travel times, which the route search accepts |
| Builder.GraphBuilder.SaveGraph | public_transport_watcher/predictor/graph_builder.py:32-39 | fails exactly when no path is set, storing nothing; otherwise stores the built network under the path |
| Builder.GraphBuilder.LoadGraph | public_transport_watcher/predictor/graph_builder.py:41-47 | fails exactly when loading does, with its error; otherwise a fresh copy of the stored network |
| Builder.GraphBuilder.FindOptimalRoute | public_transport_watcher/predictor/graph_builder.py:53-86 | a load failure is passed on; otherwise the result of the route request on the stored network |
| Builder.GraphBuilder.AdjustStationWeights | public_transport_watcher/predictor/graph_builder.py:88-90 | a load failure is passed on; an option the function does not accept fails; otherwise the congestion adjustment of the stored network with the options as keyword arguments |
| Builder.PlanJourney | public_transport_watcher/predictor/graph_builder.py:58-86 | fails with "Impossible to find a starting or ending station" exactly when either point has no station in range; otherwise the nearest stations, the sums of both walks and the route search between those stations |
| Builder.NetworkTime | public_transport_watcher/predictor/graph_builder.py:71-82 | the network time is the route's length, and infinite exactly when there is no route |
| Builder.TotalTime | public_transport_watcher/predictor/graph_builder.py:75-77 | the total time is the walking time plus the network time, infinite when the network time is |
| Builder.JourneyIntro | public_transport_watcher/predictor/graph_builder.py:58-86 | the figures the request assembles meet the journey outcome |
| Builder.ShippedConfigNeverLoads | public_transport_watcher/predictor/graph_builder.py:42-45 | the shipped configuration sets no network path, so every load, and every request built on it, fails |
| Builder.ShippedOptionsRejected | public_transport_watcher/predictor/graph_builder.py:88-90 | the shipped options include keywords the adjustment does not accept |
| Predictors.UseWeighted | public_transport_watcher/predictor/predictor.py:64-68 | with no choice, the weighted network exactly when it exists; a request for the weighted network falls back to the base one when it is absent; the base network when asked |
| Predictors.Info | public_transport_watcher/predictor/predictor.py:123-138 | availability means "is not None"; counts are given exactly for a network with a node, and are its node and edge counts |
| Predictors.EmptyNetworkAvailableWithoutCounts | public_transport_watcher/predictor/predictor.py:126-132 | an empty base network is reported as available but without counts |
| Predictors.Predictor.Of | public_transport_watcher/predictor/predictor.py:12-36 | a predictor holding the given networks |
| Predictors.Predictor.Create | public_transport_watcher/predictor/predictor.py:13-36 | fails exactly in the start-up failure cases: an unrecoverable load error is re-raised, a refused build fails with "Base transport network graph not available"; otherwise the base network is the loaded or rebuilt one and the weighted one is loaded or absent |
| Predictors.Predictor.PredictAndUpdateGraph | public_transport_watcher/predictor/predictor.py:38-60 | succeeds exactly when the forecast is non-empty and the update returns; only then is the weighted network replaced; the base network never changes |
| Predictors.Predictor.FindOptimalRoute | public_transport_watcher/predictor/predictor.py:62-83 | the builder is asked with the choice `UseWeighted` makes; its answer is returned exactly when it returns a dictionary holding both "total_time" and "graph_type", and a raised exception or a missing key (`KeyError` in the log line) gives no result |
| Predictors.Predictor.RebuildBaseGraph | public_transport_watcher/predictor/predictor.py:85-94 | succeeds exactly when storing and reloading both succeed; only then is the base network replaced; the weighted one never changes |
| Predictors.Predictor.GetGraphInfo | public_transport_watcher/predictor/predictor.py:123-138 | the summary of the two networks the predictor holds |
| LineCodes.Find | public_transport_watcher/utils/get_transports_icons.py:75-77 | a normalised code has an entry exactly when the merged table has the key |
| LineCodes.GetLineInfo | public_transport_watcher/utils/get_transports_icons.py:69-77 | nothing for an empty code; otherwise an entry exactly when the merged table has the stripped, upper-cased code, and it is that entry |
| LineCodes.GetLineColor | public_transport_watcher/utils/get_transports_icons.py:79-82 | a colour exactly for a known line, and it is that line's colour |
| LineCodes.MetroKeys | public_transport_watcher/utils/get_transports_icons.py:6-23 | every metro key starts with a digit |
| LineCodes.RerKeys | public_transport_watcher/utils/get_transports_icons.py:25-31 | every RER key is one letter from A to E |
| LineCodes.TransilienKeys | public_transport_watcher/utils/get_transports_icons.py:33-43 | every Transilien key is one letter from H to V |
| LineCodes.TramKeys | public_transport_watcher/utils/get_transports_icons.py:45-61 | every tram key is T followed by a digit |
| LineCodes.SpecialKeys | public_transport_watcher/utils/get_transports_icons.py:63-66 | every special key has at least six characters |
| LineCodes.MetroKeysUnshared | public_transport_watcher/utils/get_transports_icons.py:6-66 | no metro key is in another table |
| LineCodes.RerKeysUnshared | public_transport_watcher/utils/get_transports_icons.py:25-66 | no RER key is in a later table |
| LineCodes.TransilienKeysUnshared | public_transport_watcher/utils/get_transports_icons.py:33-66 | no Transilien key is in a later table |
| LineCodes.TramKeysUnshared | public_transport_watcher/utils/get_transports_icons.py:45-66 | no tram key is a special key |
| LineCodes.ParisDisjoint | public_transport_watcher/utils/get_transports_icons.py:5-66 | the shipped tables share no key, so the merge order never matters for them |
| LineCodes.ParisHasNoEmptyKey | public_transport_watcher/utils/get_transports_icons.py:5-66 | the shipped tables have no empty key |
| LineCodes.UnknownKindIffNotFound | public_transport_watcher/utils/get_transports_icons.py:91-102 | a key has kind "unknown" exactly when the merged table lacks it |
| LineCodes.UnknownTypeIffUnknownLine | public_transport_watcher/utils/get_transports_icons.py:69-102 | the transport type is "unknown" exactly when the line is unknown |
| LineCodes.GetTransportType | public_transport_watcher/utils/get_transports_icons.py:84-102 | one of the six kinds, and "unknown" only for a line that has no entry |
| LineCodes.KindNamesTable | public_transport_watcher/utils/get_transports_icons.py:91-100 | with disjoint tables, the merged entry of a key is the entry of the table its kind names |
| LineCodes.TransportTypeMatchesInfo | public_transport_watcher/utils/get_transports_icons.py:69-100 | with disjoint tables, a known type names the table the merged lookup reads from |
| LineCodes.NormalizeIdempotent | public_transport_watcher/utils/get_transports_icons.py:73 | normalising a normalised code changes nothing |
| LineCodes.LookupIgnoresCaseAndSpace | public_transport_watcher/utils/get_transports_icons.py:69-102 | a code and its normalised form name the same line and type |
| LineCodes.NormalizeTramExample | public_transport_watcher/utils/get_transports_icons.py:73 | " t3a " normalises to "T3A", which is already normal |
| LineCodes.TramExample | public_transport_watcher/utils/get_transports_icons.py:69-77 | " t3a " names the tram line "T3A" |
| LineCodes.TramTypeExample | public_transport_watcher/utils/get_transports_icons.py:85-98 | " t3a " is a tram code |
| LineCodes.FirstKnownNone | public_transport_watcher/utils/get_transports_icons.py:119-124 | when the pattern loop finds nothing, no capture names a known line |
| LineCodes.FirstKnownSome | public_transport_watcher/utils/get_transports_icons.py:119-124 | the code the pattern loop returns is the earliest capture that, upper-cased, names a known line |
| LineCodes.ExtractedIsKnown | public_transport_watcher/utils/get_transports_icons.py:105-130 | an extracted code is empty or a known, upper-case code |
| LineCodes.ExtractLineCode | public_transport_watcher/utils/get_transports_icons.py:105-130 | the loop over the pattern captures returns the first known one, else the cleaned text when known, else "" |
| RouteDisplay.TransferText | public_transport_watcher/application/components/route_display.py:22-24 | "direct" exactly when there is no transfer, "1 " and the noun for one, and the count, a space and the plural noun for more |
| RouteDisplay.TransferTextReadsBack | public_transport_watcher/application/components/route_display.py:22-24 | split at its one space, the transfer text gives back the count and the noun, plural exactly for more than one |
| RouteDisplay.TransferTextPlural | public_transport_watcher/application/templates/route_display.py:16 | the transfer text ends in "s" exactly when there is more than one transfer |
| RouteDisplay.RouteSummaryShort | public_transport_watcher/application/templates/route_display.py:6-18 | the head for the network kind ("Standard" exactly for the base network), " - ", the duration or "N/A", " - " and the transfer text, with no transfers when the count is absent |
| RouteDisplay.SummaryDefaults | public_transport_watcher/application/components/route_display.py:12-26 | without a duration or a transfer count the summary reads "N/A" and "direct" |
| RouteDisplay.RideName | public_transport_watcher/application/components/route_display.py:36-38 | a segment names a ridden line exactly when it is not a transfer and has a non-empty name |
| RouteDisplay.GetTransportSummary | public_transport_watcher/application/components/route_display.py:29-44 | "No transport" when no line is ridden, otherwise the names of the lines ridden, each once in order of first ride, joined by " → " |
| RouteDisplay.TransportNames | public_transport_watcher/application/components/route_display.py:34-39 | the names of the ridden lines, each once, in first-ride order; FirstSeenSpec and FirstSeenOrder state it |
| RouteDisplay.GetTransferSegments | public_transport_watcher/application/components/route_display.py:61-70 | station i + 1 has an entry exactly when segment i is a transfer, holding that segment's time |
| RouteDisplay.GetTransferTimeForStation | public_transport_watcher/application/components/route_display.py:123-130 | the time of the segment leaving the station when it is a transfer, otherwise 0 |
| RouteDisplay.TransferTotalAbsent | public_transport_watcher/application/components/route_display.py:145-152 | a station with no transfer segment has a total of zero |
| RouteDisplay.StationTransfers | public_transport_watcher/application/components/route_display.py:145-152 | the keys are exactly the departure ids of transfer segments, and each id's value, with 0 for a missing one, is the total time of its transfer segments |
| RouteDisplay.BaseMark | public_transport_watcher/application/components/route_display.py:75-83 | the departure icon exactly at index 0, the arrival icon exactly at the last other index, and no label exactly at the stations in between |
| RouteDisplay.CountAppend | public_transport_watcher/application/templates/route_display.py:77 | character counts add up over concatenation |
| RouteDisplay.CountLabel | public_transport_watcher/application/templates/route_display.py:77 | the count over a transfer label is the sum over its pieces |
| RouteDisplay.PieceCounts | public_transport_watcher/application/templates/route_display.py:68-77 | the parentheses of the fixed pieces of a label |
| RouteDisplay.OpenCounts | public_transport_watcher/application/templates/route_display.py:68-77 | a word without parentheses wrapped as a label has one "(" and at most one ")" |
| RouteDisplay.TransferAtEndpointUnbalanced | public_transport_watcher/application/templates/route_display.py:68-77 | as written, a departure or an arrival that is also a transfer gets a label with one ")" too many |
| RouteDisplay.AsWrittenCaption | public_transport_watcher/application/templates/route_display.py:68-77 | dropping the last character of the base label gives exactly the caption the f-strings spell out: the transfer text after the ")" of the departure or arrival word |
| RouteDisplay.WrappedTransferBalanced | public_transport_watcher/application/components/route_display.py:88-89 | with the corrected label, a departure or arrival that is also a transfer keeps its parentheses balanced |
| RouteDisplay.PlainTransferBalanced | public_transport_watcher/application/components/route_display.py:90-91 | the label of an intermediate station that is a transfer is balanced |
| RouteDisplay.MarkBalanced | public_transport_watcher/application/components/route_display.py:75-91 | with the corrected label, every station label has as many "(" as ")" |
| RouteDisplay.TemplateStationMark | public_transport_watcher/application/templates/route_display.py:65-79 | the transfer icon exactly when the station ends a transfer segment, with the caption the f-strings spell out for the total of its transfer times; otherwise the plain departure, arrival or intermediate mark |
| RouteDisplay.ComponentStationMark | public_transport_watcher/application/components/route_display.py:73-93 | the transfer icon exactly when the segment leaving the station is a transfer with a positive time, with the caption the f-strings spell out for that time; otherwise the base mark |
| RouteDisplay.FindStationId | public_transport_watcher/application/components/route_display.py:206-213 | the id loop returns the id of the first segment leaving or reaching a station of that name |
| RouteDisplay.StationWithTransfersMark | public_transport_watcher/application/components/route_display.py:200-234 | the transfer icon exactly when the station's id is present, non-zero and has a positive transfer total, with the caption the f-strings spell out for that total; otherwise the base mark |
| RouteDisplay.SegmentMap | public_transport_watcher/application/components/route_display.py:154-161 | the keys are exactly the name pairs of ride segments with both names non-empty, each holding the last such segment |
| RouteDisplay.FallbackSegment | public_transport_watcher/application/components/route_display.py:174-183 | nothing exactly when no ride segment matches the stripped, upper-cased names; otherwise the first one that does |
| RouteDisplay.SegmentBetween | public_transport_watcher/application/components/route_display.py:163-186 | the last exact-name ride segment when there is one; otherwise the first loose match, and nothing exactly when none matches |
| RouteMap.TransferStation | public_transport_watcher/application/components/route_map.py:23-25 | a segment gives a station exactly when it is a transfer with a present, non-zero departure id, and it is that id |
| RouteMap.GetTransferStations | public_transport_watcher/application/components/route_map.py:14-28 | the departure ids of the transfer segments, each once in order of first transfer, never 0 |
| Common.FirstSeenSpec | public_transport_watcher/application/components/route_map.py:25-26 | an id is listed exactly when some segment gives it, and no id is listed twice |
| Common.FirstSeenOrder | public_transport_watcher/application/components/route_map.py:25-26 | ids are listed in the order of their first occurrence |
| RouteMap.Drawn | public_transport_watcher/application/components/route_map.py:40-52 | a segment has an entry exactly when it is a ride whose two stations are in the graph with all four coordinates true |
| RouteMap.CreateColoredLineSegments | public_transport_watcher/application/components/route_map.py:31-61 | one entry per drawable ride segment, in order |
| RouteMap.AttrGet | public_transport_watcher/application/components/route_map.py:49-50 | reading a node of the transport network: "longitude" and "latitude" are its coordinates, any other key is missing |
| RouteMap.NetworkDrawsNothing | public_transport_watcher/application/components/route_map.py:45-52 | reading "lat" and "lon", no segment of any route is drawn on a network the builder makes |
| RouteMap.StoredCoordsDraw | public_transport_watcher/application/components/route_map.py:45-59 | reading "latitude" and "longitude", a ride segment between two stations with true coordinates is drawn between them |
| Common.CollectSpec | public_transport_watcher/application/components/route_map.py:39-59 | an entry is produced for exactly the segments that give one, in their order |
| RouteMap.Min | public_transport_watcher/application/components/route_map.py:70-71 | the least value is one of the values and at most each of them |
| RouteMap.Max | public_transport_watcher/application/components/route_map.py:70-71 | the greatest value is one of the values and at least each of them |
| RouteMap.Lats | public_transport_watcher/application/components/route_map.py:69 | the latitudes of the points, in order |
| RouteMap.Lons | public_transport_watcher/application/components/route_map.py:69 | the longitudes of the points, in order |
| RouteMap.Zoom | public_transport_watcher/application/components/route_map.py:88-101 | the zoom lies between 10 and 16; it is 10 exactly for a span above 0.15 and 16 exactly for a span of at most 0.005 |
| RouteMap.ZoomMonotone | public_transport_watcher/application/components/route_map.py:88-101 | a wider span never zooms in further |
| RouteMap.Pad | public_transport_watcher/application/components/route_map.py:73-74 | the padding is a tenth of the span, or the given padding when that is larger |
| RouteMap.CalculateMapBounds | public_transport_watcher/application/components/route_map.py:64-103 | Paris at zoom 11 without points; otherwise the centre of the extent, and the zoom of the larger padded span, so the thresholds of `Zoom` and `ZoomMonotone` apply to it |
| RouteMap.PaddedSpan | public_transport_watcher/application/components/route_map.py:72-85 | the larger padded span is at least each raw span plus twice the padding |
| RouteMap.FrameHoldsRoute | public_transport_watcher/application/components/route_map.py:69-79 | every point of the route lies inside the padded frame, at least the padding away from its edges |
| NavigoExtract.TrimesterLabels | public_transport_watcher/extractor/extract/navigo.py:72-74 | one label "semester/trimester" per trimester, in order |
| NavigoExtract.LabelsExample | public_transport_watcher/extractor/extract/navigo.py:62-76 | `["s1", {"s2": ["3", "4"]}]` expands to "s1", "s2/3" and "s2/4" |
| NavigoExtract.ConcatMapAppend | public_transport_watcher/extractor/extract/navigo.py:64-81 | the rows of two runs of labels are the rows of the first followed by those of the second |
| NavigoExtract.ProcessYearData | public_transport_watcher/extractor/extract/navigo.py:62-81 | the rows of each period label in configuration order, empty results adding nothing |
| NavigoExtract.ProcessPeriod | public_transport_watcher/extractor/extract/navigo.py:64-76 | the rows of one configured period: its own label, or each of its trimester labels |
| NavigoExtract.ProcessSemester | public_transport_watcher/extractor/extract/navigo.py:72-76 | the rows of each trimester of a semester, processed as "semester/trimester" |
| NavigoExtract.ExtractNavigoValidations | public_transport_watcher/extractor/extract/navigo.py:16-59 | no configuration gives nothing; otherwise the rows of every year that did not raise, in order, and the list of the years that raised |
| NavigoExtract.FailedYearsAddNothing | public_transport_watcher/extractor/extract/navigo.py:41-55 | when every year raises, nothing is extracted and every year is listed as failed |
| NavigoExtract.LastWhere | public_transport_watcher/extractor/extract/navigo.py:150-156 | nothing exactly when no name passes the test; otherwise the last name that does |
| NavigoExtract.FindFileTypes | public_transport_watcher/extractor/extract/navigo.py:146-158 | the validations file is the last name containing "validations.csv" in any case; the profiles file is the last other name containing "profils" |
| NavigoExtract.ContainsPrefix | public_transport_watcher/extractor/extract/navigo.py:154 | a name containing a text contains each prefix of it |
| NavigoExtract.ProfilesTest | public_transport_watcher/extractor/extract/navigo.py:151-155 | the "profils.csv" test adds nothing to the "profils" one |
| NavigoExtract.ProcessPeriodData | public_transport_watcher/extractor/extract/navigo.py:84-143 | fewer than two files, or a file type not found, give no rows; rows come only from loading the two identified files |
| NavigoExtract.DayType | public_transport_watcher/extractor/extract/navigo.py:227-234 | as written: "DIJFP" exactly for a Sunday, "SAHV" exactly for a Saturday, "JOHV" exactly for another day; public holidays make no difference and the school-holiday categories never occur |
| NavigoExtract.HolidayNeverMatches | public_transport_watcher/extractor/extract/navigo.py:231 | a row's Timestamp is never among the holiday date keys |
| NavigoExtract.DayTypeIntended | public_transport_watcher/extractor/extract/navigo.py:227-234 | as intended: "DIJFP" exactly for a holiday or a Sunday, "SAHV" exactly for another Saturday, "JOHV" exactly for another day |
| NavigoExtract.DayTypeDiffers | public_transport_watcher/extractor/extract/navigo.py:231 | the two readings differ exactly on a holiday that is not a Sunday |
| NavigoExtract.DayTypeExample | public_transport_watcher/extractor/extract/navigo.py:227-234 | 14 July 2024 (a Sunday) is "DIJFP" and the Saturday before "SAHV"; 1 May 2024, a Wednesday holiday, is "JOHV" as written and "DIJFP" as intended |
| NavigoExtract.CountOf | public_transport_watcher/extractor/extract/navigo.py:162-165 | a published count is kept; a count that is not a number ("5 or less") is read as 3 |
| NavigoExtract.Cleaned | public_transport_watcher/extractor/extract/navigo.py:162-169 | a row is kept exactly when none of its three codes is "ND", with its count filled in |
| NavigoExtract.CleanedRows | public_transport_watcher/extractor/extract/navigo.py:162-169 | no "ND" code remains among the cleaned rows and every count is present |
| NavigoExtract.Hourly | public_transport_watcher/extractor/extract/navigo.py:203 | the hourly share of a non-negative count for a percentage in [0, 100] lies between 0 and the count |
| NavigoExtract.HourlySharesAddUp | public_transport_watcher/extractor/extract/navigo.py:203 | the hourly shares of a count add up to the count times the sum of the percentages over 100 |
| Calendar.DaysInMonth | public_transport_watcher/extractor/extract/navigo.py:182-185 | a month has between 28 and 31 days |
| Calendar.DayOfWeek | public_transport_watcher/extractor/extract/navigo.py:229 | the day of the week is between 0 (Monday) and 6 (Sunday) |
| Calendar.KnownWeekdays | public_transport_watcher/extractor/extract/navigo.py:229 | 1 January 2024 was a Monday, 1 May 2024 a Wednesday, 14 July 2024 a Sunday and 25 December 2023 a Monday |
| Calendar.NextDay | public_transport_watcher/extractor/extract/navigo.py:229 | the day after a valid date is a valid date |
| Calendar.YearTermStep | public_transport_watcher/extractor/extract/navigo.py:229 | the year term grows by one, or by two into a leap year |
| Calendar.DayNumberNext | public_transport_watcher/extractor/extract/navigo.py:229 | the day number of the next day is one more, up to a multiple of 7 |
| Calendar.NextDayWeekday | public_transport_watcher/extractor/extract/navigo.py:229 | the day after a date is one weekday later |
| NavigoInsert.ParseIsoDate | public_transport_watcher/extractor/insert/navigo.py:187 | a parsed date is a valid calendar date, and it is the year, month and day the three "-"-separated digit groups of the text spell |
| NavigoInsert.ParseIsoDateWritten | public_transport_watcher/extractor/insert/navigo.py:187 | every valid date written as "%Y-%m-%d", with month and day zero-padded or not, reads back as itself |
| NavigoInsert.ParseIsoDateParts | public_transport_watcher/extractor/insert/navigo.py:187 | four, then one or two, then one or two digits naming a valid date are read as that date |
| NavigoInsert.SplitThree | public_transport_watcher/extractor/insert/navigo.py:187 | three digit groups joined by "-" split back into those groups |
| NavigoInsert.RangeHours | public_transport_watcher/extractor/insert/navigo.py:189 | the two hours read are the integers of the two parts left after dropping every "H" and splitting on "-"; nothing exactly when there are not two integer parts |
| NavigoInsert.CreateTimestamps | public_transport_watcher/extractor/insert/navigo.py:183-194 | succeeds exactly when the date parses, the range gives two hours and both lie in 0..23; both timestamps are on the row's day, at the start and end hours |
| NavigoInsert.DigitsHaveNoLetters | public_transport_watcher/extractor/insert/navigo.py:189 | decimal digits hold no "H" and no "-" |
| NavigoInsert.RemoveHours | public_transport_watcher/extractor/insert/navigo.py:189 | dropping the "H"s of "aH-bH" leaves "a-b" |
| NavigoInsert.RangeHoursOfText | public_transport_watcher/extractor/insert/navigo.py:189 | "aH-bH" is read as the hours a and b |
| NavigoInsert.CreateTimestampsRoundTrip | public_transport_watcher/extractor/insert/navigo.py:183-194 | any range written "aH-bH" with hours in 0..23 is read back as those hours on the row's day |
| NavigoInsert.MidnightBinFails | public_transport_watcher/extractor/insert/navigo.py:191-192 | the last bin of the day, "23H-24H", is refused because hour 24 does not exist |
| NavigoInsert.Keys | public_transport_watcher/extractor/insert/navigo.py:46 | one key per bin, in order |
| NavigoInsert.GatheredBins | public_transport_watcher/extractor/insert/navigo.py:45-52 | the bins are the distinct bins the rows open, in order of first occurrence, and the key set is exactly their keys |
| NavigoInsert.BinDayIsFirstRows | public_transport_watcher/extractor/insert/navigo.py:48-52 | each bin carries the day category of the first row that opened it |
| NavigoInsert.StationKeepsLastName | public_transport_watcher/extractor/insert/navigo.py:41-43 | the last row with a convertible id names its station, whatever happens later in that row |
| NavigoInsert.StationsFromRows | public_transport_watcher/extractor/insert/navigo.py:41-43 | a station is named exactly when some row's id converts |
| NavigoInsert.RowTraffic | public_transport_watcher/extractor/insert/navigo.py:54-62 | a row yields a traffic record exactly when its bin opens and its count converts; the record has the row's station, bin and truncated count |
| NavigoInsert.GatheredTraffic | public_transport_watcher/extractor/insert/navigo.py:39-67 | one traffic record per row that got through, in row order |
| NavigoInsert.GatherRows | public_transport_watcher/extractor/insert/navigo.py:39-67 | the row loop's station names, bins and traffic are those the step function gathers |
| NavigoInsert.UpsertStationsCount | public_transport_watcher/extractor/insert/navigo.py:102-116 | no stations give 0 and no query; otherwise the database's row count |
| NavigoInsert.UpsertTrafficCount | public_transport_watcher/extractor/insert/navigo.py:169-180 | no records give 0 and no query; otherwise the database's row count |
| NavigoInsert.ExistingIds | public_transport_watcher/extractor/insert/navigo.py:140-141 | the map holds exactly the keys of the bins the database returned |
| NavigoInsert.UpsertTimeBins | public_transport_watcher/extractor/insert/navigo.py:119-166 | no bins give an empty map; otherwise the bins not found are inserted in order, found bins keep their ids, and inserted bins get the id the follow-up select finds, if any |
| NavigoInsert.FoundIds | public_transport_watcher/extractor/insert/navigo.py:140-141 | the first loop builds the ids of the bins already in the database |
| NavigoInsert.BinsToInsert | public_transport_watcher/extractor/insert/navigo.py:143-147 | the bins whose key the database does not hold, in order |
| NavigoInsert.FetchInsertedIds | public_transport_watcher/extractor/insert/navigo.py:154-164 | each inserted bin not yet known gets the id the select finds, if any; known ids are kept |
| NavigoInsert.WithBinId | public_transport_watcher/extractor/insert/navigo.py:77-80 | a traffic row gets a record exactly when its bin has an id |
| NavigoInsert.AttachTimeBins | public_transport_watcher/extractor/insert/navigo.py:75-82 | traffic rows whose bin has no id are dropped; the others are kept in order, with the bin's id |
| NavigoInsert.InsertNavigoData | public_transport_watcher/extractor/insert/navigo.py:20-97 | the station count is 0 with no stations and the database's row count otherwise; no bins give an empty map; otherwise a key has an id exactly when the database held it (keeping that id) or it is a new bin the select finds (taking that id); the traffic count is that of the records with a bin id |
| Addresses.Complete | public_transport_watcher/extractor/extract/addresses.py:52-60 | a row is kept exactly when its id, number, address and district are present; its suffixes become text, "nan" for a missing one |
| Addresses.CompleteRows | public_transport_watcher/extractor/extract/addresses.py:52 | the address of every complete row is kept, and every kept address comes from a row of the input |
| Addresses.KeptSuffixes | public_transport_watcher/extractor/extract/addresses.py:90-91 | a suffix is kept exactly when it is neither "nan" nor empty, and as many times as it occurs |
| Addresses.KeptSuffixesAppend | public_transport_watcher/extractor/extract/addresses.py:90-91 | the kept suffixes of a concatenation are those of each part in turn, and one suffix is kept exactly when it is neither "nan" nor empty, so the order of the input is kept |
| Addresses.KeptSuffixesExample | public_transport_watcher/extractor/extract/addresses.py:91 | ["B", "nan", ""] keeps "B"; three missing suffixes keep nothing |
| Addresses.StripRightKeeps | public_transport_watcher/extractor/extract/addresses.py:96 | stripping on the right keeps the text before a non-space end |
| Addresses.BuildStreetNumber | public_transport_watcher/extractor/extract/addresses.py:88-96 | the label starts with the number, and is the number alone when no suffix is kept |
| Addresses.BuildStreetNumberJoined | public_transport_watcher/extractor/extract/addresses.py:88-96 | with kept suffixes, the last not ending in white space, the label is exactly the number, a space and the kept suffixes joined by spaces, in order |
| Addresses.BuildStreetNumberExample | public_transport_watcher/extractor/extract/addresses.py:88-96 | number 12 with suffixes "B", missing and empty gives "12 B" |
| Addresses.ExtractStreetNameAsWritten | public_transport_watcher/extractor/extract/addresses.py:76-85 | the result has no leading or trailing white space |
| Addresses.RemoveEach | public_transport_watcher/extractor/extract/addresses.py:78-83 | deleting texts never lengthens the address |
| Addresses.RemoveAllNoMatch | public_transport_watcher/extractor/extract/addresses.py:79-82 | deleting a text whose first character does not occur changes nothing |
| Addresses.RemoveAllSkip | public_transport_watcher/extractor/extract/addresses.py:79-82 | a prefix without the first character of the deleted text passes through unchanged |
| Addresses.RemoveNumber | public_transport_watcher/extractor/extract/addresses.py:79 | deleting the number from "N before N after" leaves " before after" |
| Addresses.RemoveNans | public_transport_watcher/extractor/extract/addresses.py:80-82 | an address without a lower-case "n" loses nothing to the three "nan" suffixes |
| Addresses.NanAbsent | public_transport_watcher/extractor/extract/addresses.py:80-82 | a text with no lower-case "n" holds no "nan" |
| Addresses.StreetNameLosesNumber | public_transport_watcher/extractor/extract/addresses.py:76-85 | as written, an address "N before N after" without suffixes gives "before after": the number is deleted from the street name as well (at number 4, "4 RUE DU 4 SEPTEMBRE" gives "RUE DU  SEPTEMBRE") |
| Addresses.StreetNameKeepsNumber | public_transport_watcher/extractor/extract/addresses.py:76-85 | read as intended, the same address gives "before N after": the street keeps its number |
| Addresses.StreetNameDiffers | public_transport_watcher/extractor/extract/addresses.py:76-85 | the two readings differ whenever the street holds the number |
| Addresses.ExtractStreetName | public_transport_watcher/extractor/extract/addresses.py:76-85 | the intended street name has no leading or trailing white space |
| Addresses.DropSpaced | public_transport_watcher/extractor/extract/addresses.py:79-83 | taking the spaced suffixes off the front leaves the street, whatever it contains |
| Addresses.StripLeftSpace | public_transport_watcher/extractor/extract/addresses.py:85 | leading white space is skipped by stripping |
| Addresses.DropSpacedToken | public_transport_watcher/extractor/extract/addresses.py:79-83 | a token after one space is dropped whole |
| Addresses.StripAfterStripLeft | public_transport_watcher/extractor/extract/addresses.py:85 | stripping on the left first changes nothing for a full strip |
| Addresses.ExtractStreetNameWritten | public_transport_watcher/extractor/extract/addresses.py:76-85 | from an address written as number, kept suffixes and street, the intended reading gives back the stripped street, even when it holds the number or a suffix again |
| AlertsExtract.ImpactText | public_transport_watcher/extractor/extract/alerts.py:107-110 | no impacted objects give an empty text, a group left with no other stop reads "Sur l'ensemble de la ligne", and otherwise the stops are joined by ", " |
| AlertsExtract.ModeLabel | public_transport_watcher/extractor/extract/alerts.py:16-19 | the four known modes get their French label; any other mode is kept as it is |
| AlertsExtract.Kept | public_transport_watcher/extractor/extract/alerts.py:56-61 | a line is kept, unchanged, exactly when its stripped, lower-cased mode is neither "bus" nor "funicular" |
| AlertsExtract.FilterLines | public_transport_watcher/extractor/extract/alerts.py:53-61 | the loop keeps the kept lines in order: a line is in the result exactly when it is in the input and not excluded |
| AlertsExtract.KeptLines | public_transport_watcher/extractor/extract/alerts.py:56-61 | the kept lines are exactly the input lines of other modes |
| AlertsExtract.DisruptionsById | public_transport_watcher/extractor/extract/alerts.py:66 | every disruption's id is a key, and each key maps to a disruption with that id |
| AlertsExtract.DisruptionsByIdLast | public_transport_watcher/extractor/extract/alerts.py:66 | of disruptions sharing an id, the last one is kept |
| AlertsExtract.IndexDisruptions | public_transport_watcher/extractor/extract/alerts.py:66 | builds the same index as DisruptionsById |
| AlertsExtract.IdHits | public_transport_watcher/extractor/extract/alerts.py:84-86 | every hit of one impacted object carries its name and a known disruption among its ids; unknown ids give none |
| AlertsExtract.Hits | public_transport_watcher/extractor/extract/alerts.py:80-86 | every hit comes from an impacted object and one of its known disruption ids; no known id gives no hit |
| AlertsExtract.HitsComplete | public_transport_watcher/extractor/extract/alerts.py:80-86 | every known disruption id of an impacted object gives a hit with that object's name |
| AlertsExtract.IdHitsComplete | public_transport_watcher/extractor/extract/alerts.py:84-86 | every known id of an object gives a hit |
| AlertsExtract.Grouped | public_transport_watcher/extractor/extract/alerts.py:78-99 | the grouped disruptions form a well-formed dict |
| AlertsExtract.GroupedKeys | public_transport_watcher/extractor/extract/alerts.py:90-97 | the groups come in the order their keys first occur among the hits |
| AlertsExtract.GroupedStops | public_transport_watcher/extractor/extract/alerts.py:99 | a stop belongs to a group exactly when some hit with the group's key has that stop's name |
| AlertsExtract.GroupedHasKey | public_transport_watcher/extractor/extract/alerts.py:90-97 | every hit's key is a group |
| AlertsExtract.GroupedFirst | public_transport_watcher/extractor/extract/alerts.py:92-97 | a group keeps the message and cause of the first hit with its key |
| AlertsExtract.GroupedMissing | public_transport_watcher/extractor/extract/alerts.py:92 | a key no hit has is not a group |
| AlertsExtract.GroupKeysCollide | public_transport_watcher/extractor/extract/alerts.py:90 | the (message, cause) pairs ("a_b", "c") and ("a", "b_c") share the key "a_b_c" and so fall into one group |
| AlertsExtract.GroupImpact | public_transport_watcher/extractor/extract/alerts.py:102-110 | a group covers the whole line exactly when every stop, stripped, equals the stripped line name; otherwise its stops are the stops other than the line |
| AlertsExtract.LineRows | public_transport_watcher/extractor/extract/alerts.py:112-132 | a line without impacted objects writes one blank row under its line key; otherwise it writes one row per group, in group order, keyed by line key, "_" and group key |
| AlertsExtract.Processed | public_transport_watcher/extractor/extract/alerts.py:43-46 | no payload gives no rows |
| AlertsExtract.GroupDisruptions | public_transport_watcher/extractor/extract/alerts.py:78-99 | the nested loops build the same groups as Grouped over all hits |
| AlertsExtract.GroupObject | public_transport_watcher/extractor/extract/alerts.py:81-99 | the loop over one object's ids extends the groups by that object's hits |
| AlertsExtract.AddStop | public_transport_watcher/extractor/extract/alerts.py:92-99 | one known disruption: a new key gets a group with the disruption's message and cause, then the stop joins the key's group, as one pass of AddHit |
| AlertsExtract.HitsStep | public_transport_watcher/extractor/extract/alerts.py:80-86 | one more impacted object appends its hits |
| AlertsExtract.IdHitsStep | public_transport_watcher/extractor/extract/alerts.py:84-86 | one more id appends its hit, if it is known |
| AlertsExtract.GroupedAppend | public_transport_watcher/extractor/extract/alerts.py:92-99 | one more hit updates the groups as one pass of the inner loop |
| AlertsExtract.ProcessApiData | public_transport_watcher/extractor/extract/alerts.py:43-146 | the method's rows are exactly Processed of the payload |
| AlertsExtract.PutLineRows | public_transport_watcher/extractor/extract/alerts.py:101-132 | one line's rows are written into the dict in order, a later row replacing an earlier one with the same key |
| AlertsExtract.GroupRows | public_transport_watcher/extractor/extract/alerts.py:101-122 | one row per group, in group order, keyed by line key, "_" and group key |
| AlertsExtract.PutGroups | public_transport_watcher/extractor/extract/alerts.py:101-122 | the loop over a line's groups writes its group rows into the dict in order |
| AlertsExtract.AllRowsStep | public_transport_watcher/extractor/extract/alerts.py:69 | one more kept line appends its rows |
| AlertsExtract.RowsFromKeptLines | public_transport_watcher/extractor/extract/alerts.py:114-127 | every row's mode label, line name and full line name come from one of the lines |
| AlertsExtract.ProcessedRowsAreKept | public_transport_watcher/extractor/extract/alerts.py:56-61 | every output row comes from an input line that is neither bus nor funicular |
| AlertsExtract.WrittenRow | public_transport_watcher/extractor/extract/alerts.py:134 | a value read back from the filled dict was written by some pair |
| AlertsExtract.UnknownDisruptionsIgnored | public_transport_watcher/extractor/extract/alerts.py:85 | a line whose impacted objects name no known disruption writes no row at all, not even a blank one |
| AlertsExtract.GroupSummary | public_transport_watcher/extractor/extract/alerts.py:92-110 | a group carries the message and cause of the first hit with its key, and covers the whole line exactly when every hit with its key names the line itself |
| AlertsExtract.FirstIndex | public_transport_watcher/extractor/extract/alerts.py:92 | given a hit with a key, finds the first hit with that key |
| Traffic.Num2 | public_transport_watcher/extractor/extract/traffic.py:66 | two digits read as a number below 100 |
| Traffic.Num4 | public_transport_watcher/extractor/extract/traffic.py:66 | four digits read as a number below 10000 |
| Traffic.Two | public_transport_watcher/extractor/extract/traffic.py:67 | a number below 100 is written as two digits that read back as that number |
| Traffic.TwoOfNum2 | public_transport_watcher/extractor/extract/traffic.py:66-67 | two digits read and written back give the same two characters |
| Traffic.LeadingDigits | public_transport_watcher/extractor/extract/traffic.py:66 | counts exactly the digits at the start of a text |
| Traffic.DatePart | public_transport_watcher/extractor/extract/traffic.py:66 | a date read from "YYYY-MM-DD" is a valid calendar date |
| Traffic.IsoClock | public_transport_watcher/extractor/extract/traffic.py:66 | an accepted time has an hour up to 23 and a minute up to 59, and with a clock part they are the digits at positions 11-12 and 14-15 |
| Traffic.ReplaceZ | public_transport_watcher/extractor/extract/traffic.py:66 | no "Z" is left after the replacement |
| Traffic.ReplaceZAppend | public_transport_watcher/extractor/extract/traffic.py:66 | the replacement works piece by piece over a concatenation |
| Traffic.ReplaceZAbsent | public_transport_watcher/extractor/extract/traffic.py:66 | a text without "Z" is unchanged |
| Traffic.ArrivalText | public_transport_watcher/extractor/extract/traffic.py:62-69 | a missing time reads "Inconnu"; "Inconnu" and a time the ISO reader refuses are kept unchanged; an accepted time becomes "HH:MM" with its hour and minute |
| Traffic.ArrivalKeepsWrittenClock | public_transport_watcher/extractor/extract/traffic.py:64-67 | an accepted time with a clock part is shortened to the "HH:MM" written in it |
| Traffic.DateText | public_transport_watcher/extractor/extract/traffic.py:66 | a valid date is written in ten characters |
| Traffic.DateTextParses | public_transport_watcher/extractor/extract/traffic.py:66 | a written date is read back as the same date, whatever follows it |
| Traffic.SiriTimeShortened | public_transport_watcher/extractor/extract/traffic.py:62-67 | a timetable time "YYYY-MM-DDTHH:MM:SSZ" reads back as its "HH:MM" |
| Traffic.ZoneReplaced | public_transport_watcher/extractor/extract/traffic.py:66 | a time ending in its only "Z" reads as the same time at "+00:00" |
| Traffic.SecondsAndUtc | public_transport_watcher/extractor/extract/traffic.py:66 | seconds followed by "+00:00" are an accepted tail |
| Traffic.ClockParses | public_transport_watcher/extractor/extract/traffic.py:66 | a date, a separator, "HH:MM" and an accepted tail read back as that hour and minute |
| Traffic.Destination | public_transport_watcher/extractor/extract/traffic.py:59-60 | an empty display reads "Inconnu"; otherwise the first entry's value, or "Inconnu" when it has none |
| Traffic.LineName | public_transport_watcher/extractor/extract/traffic.py:55 | a vehicle without "PublishedLineName" reads "Inconnu"; otherwise the first entry's value, or "Inconnu" when it has none |
| Traffic.VehicleRows | public_transport_watcher/extractor/extract/traffic.py:54-75 | one row per call of a vehicle, in order, each with the vehicle's line name and line reference |
| Traffic.FlatRowsCount | public_transport_watcher/extractor/extract/traffic.py:51-75 | there is exactly one row per call of every vehicle |
| Traffic.FlatRowsAppend | public_transport_watcher/extractor/extract/traffic.py:51-75 | the rows of two runs of vehicles are the rows of each, one after the other |
| Traffic.RowsOf | public_transport_watcher/extractor/extract/traffic.py:55 | the rows fail exactly when some vehicle has an empty "PublishedLineName" list |
| Traffic.RowsOfAppend | public_transport_watcher/extractor/extract/traffic.py:51-75 | a failure anywhere fails the whole; otherwise the rows concatenate |
| Traffic.CleanLineRef | public_transport_watcher/extractor/extract/traffic.py:88 | the cleaned line reference is no longer and holds only digits and "C" |
| Traffic.CleanLineRefIdempotent | public_transport_watcher/extractor/extract/traffic.py:88 | cleaning twice is cleaning once |
| Traffic.CleanLineRefAppend | public_transport_watcher/extractor/extract/traffic.py:88 | cleaning works piece by piece over a concatenation |
| Traffic.UnknownLineRefCleared | public_transport_watcher/extractor/extract/traffic.py:88 | a missing line reference, "Inconnu", is cleaned to the empty text |
| Traffic.CleanRefs | public_transport_watcher/extractor/extract/traffic.py:87-88 | every row keeps all its fields except the line reference, which is cleaned |
| Traffic.TrafficData | public_transport_watcher/extractor/extract/traffic.py:44-90 | no response gives no rows; otherwise it fails exactly when some vehicle has an empty line-name list, and else gives the rows of every call in document order with cleaned line references |
| Traffic.CallRows | public_transport_watcher/extractor/extract/traffic.py:57-75 | the call loop gives the vehicle's rows |
| Traffic.ExpectedArrival | public_transport_watcher/extractor/extract/traffic.py:62-69 | the method gives the arrival text of ArrivalText |
| Traffic.VehiclesRows | public_transport_watcher/extractor/extract/traffic.py:53-75 | the vehicle loop gives the rows of RowsOf |
| Traffic.FramesRows | public_transport_watcher/extractor/extract/traffic.py:52-75 | the frame loop gives the rows of all its frames' vehicles |
| Traffic.FrameVehiclesPrefix | public_transport_watcher/extractor/extract/traffic.py:52-55 | a failure among the first frames fails all of them |
| Traffic.FrameVehiclesExtend | public_transport_watcher/extractor/extract/traffic.py:52-53 | the vehicles of the first frames are the first vehicles of all frames |
| Traffic.VehiclesExtend | public_transport_watcher/extractor/extract/traffic.py:51-53 | the vehicles of the first deliveries are the first vehicles of all deliveries |
| Traffic.ExtractTrafficData | public_transport_watcher/extractor/extract/traffic.py:44-90 | the method's result is exactly TrafficData of the response |
| Traffic.DeliveriesRows | public_transport_watcher/extractor/extract/traffic.py:51-73 | the delivery loop yields the rows of every call of every vehicle in document order, or the IndexError of a vehicle with an empty line-name list |
| Traffic.RequestedLine | public_transport_watcher/extractor/extract/traffic.py:109-117 | a record is requested exactly when its mode is rail, metro or tram and its network name does not contain "TER" in any case; its id is "STIF:Line::" + id + ":" |
| Traffic.RequestedLinesSpec | public_transport_watcher/extractor/extract/traffic.py:109-117 | an id is requested exactly when some wanted, non-TER line of the referential has it |
| Traffic.RequestedLines | public_transport_watcher/extractor/extract/traffic.py:109-117 | the requested line ids in referential order; RequestedLinesSpec states which ids |
| AlertReport.SeverityIcon | public_transport_watcher/monitoring/reports/alerts.py:15-28 | an empty message gets no icon and any other gets one; a cause naming works in any case gives the works icon; otherwise the alarm exactly for interruption words, the warning exactly for delay words without them, information exactly for neither |
| AlertReport.ContainsAppend | public_transport_watcher/monitoring/reports/alerts.py:23-28 | a word found in a message is still found after anything is appended |
| AlertReport.LowerAppend | public_transport_watcher/monitoring/reports/alerts.py:23 | lowering works piece by piece over a concatenation |
| AlertReport.SeverityMonotone | public_transport_watcher/monitoring/reports/alerts.py:23-28 | appending to a non-empty message never lowers its severity (information, then warning, then alarm) |
| AlertReport.CacheAge | public_transport_watcher/monitoring/reports/alerts.py:31-44 | under one whole minute reads "À l'instant", one minute "Il y a 1 minute", 2 to 59 minutes "Il y a N minutes", and an hour or more starts with "Il y a " |
| AlertReport.CacheAgeJustNow | public_transport_watcher/monitoring/reports/alerts.py:34-36 | less than a minute, or a negative age, reads as just now |
| AlertReport.CacheAgeMinutes | public_transport_watcher/monitoring/reports/alerts.py:34-40 | between n and n + 1 whole minutes, for 2 <= n < 60, reads "Il y a n minutes" |
| AlertReport.CacheAgeHours | public_transport_watcher/monitoring/reports/alerts.py:34-44 | between h and h + 1 whole hours reads "Il y a h heure", with an "s" from two hours on |
| Common.Trunc | public_transport_watcher/monitoring/reports/alerts.py:34-43 | Python's `int()` of a real: the floor for a non-negative value, rounded toward zero for a negative one, always less than one away |
| Common.Dict.Put | public_transport_watcher/extractor/extract/alerts.py:114-124 | writing a key sets its value; a new key goes to the end of the key order, an existing key keeps its place |
| Common.Dict.Items | public_transport_watcher/extractor/extract/alerts.py:134 | the values are read back in key order, one per key |
| Common.PutAllConcat | public_transport_watcher/extractor/extract/alerts.py:69-132 | writing two runs of pairs is writing the first, then the second |
| Common.PutAllKeys | public_transport_watcher/extractor/extract/alerts.py:134 | the keys of a filled dict come in the order they were first written |
| Common.PutAllDomain | public_transport_watcher/extractor/extract/alerts.py:112-124 | every written key is in the dict, and every key holds a value written with it |
| Common.PutAllLast | public_transport_watcher/extractor/extract/alerts.py:112-124 | a key holds the value of the last pair written with it |
| Text.StripIdempotent | public_transport_watcher/utils/get_transports_icons.py:73 | stripping twice is stripping once |
| Text.UpperIdempotent | public_transport_watcher/utils/get_transports_icons.py:73 | upper-casing twice is upper-casing once |
| Text.UpperStripCommute | public_transport_watcher/utils/get_transports_icons.py:73 | stripping and upper-casing can be done in either order |
| Text.PyInt | public_transport_watcher/extractor/insert/navigo.py:189 | Python's `int()` of a text accepts exactly an optional sign and decimal digits between white space; PyIntWritten gives the value read |
| Text.PyIntOfString | public_transport_watcher/extractor/insert/navigo.py:189 | `int(str(n))` gives n back |
| Text.PyIntWritten | public_transport_watcher/extractor/insert/navigo.py:189 | white space, an optional sign, leading zeros and the digits of n read as n, or -n after a minus |
| Text.PyIntSigned | public_transport_watcher/extractor/insert/navigo.py:189 | an optional sign and decimal digits between white space read as their value, negated after a minus |
| Text.PyIntStripped | public_transport_watcher/extractor/insert/navigo.py:189 | `int()` reads the stripped text |
| Text.PyIntOfIntString | public_transport_watcher/extractor/insert/navigo.py:189 | `int(str(i))` gives i back for every integer, negative ones included |
| Text.PyIntExample | public_transport_watcher/extractor/insert/navigo.py:189 | " 07", "+7" and "-7 " read 7, 7 and -7 |
| Text.StripSurrounded | public_transport_watcher/extractor/insert/navigo.py:189 | `strip()` of a text between white space gives that text back |
| Text.PadDigits | public_transport_watcher/extractor/insert/navigo.py:187 | zero-padded digits read back as the number, at the padded width |

## Left out

- The great-circle (haversine) distance in `find_nearest_station_with_walk` is floating-point trigonometry; it is a parameter `dist` of `Nearest.FindNearestStation`.
- The ARIMA forecasts (`predictor/arima/*`) are statistical fitting on floats; the predictions arrive as an input table.
- Floats are exact `real`s. Rounding of float sums, means and divisions is not modelled.
- networkx's Dijkstra is modelled by its result: a path of least total weight. Which of several equally short paths networkx returns is not modelled. Weights must be non-negative, as Dijkstra itself needs.
- Pickle files, `pd.read_sql`, the data lake, the CSV readers and their chunking are I/O. Their results are parameters; the path checks around them are modelled.
- The database of `extractor/insert/navigo.py` is a parameter: the rows it already holds, the ids it reports and the row counts of its upserts. SQLAlchemy sessions and commits are not modelled.
- HTTP requests, API keys, timeouts, the pauses between traffic requests and both caches (`CacheManager`, the alerts cache) are I/O and left out; responses arrive as values.
- Traffic: the merge of the rows with the line referential (traffic.py:130-162) is a pandas join and left out. The line-by-line fetch loop is left out; `Traffic.RequestedLines` gives the lines it would ask for.
- Traffic.IsoClock: only the extended ISO 8601 forms the timetable writes (date, or date, separator, hours, minutes, optional seconds, fraction and offset) are accepted; the basic forms and week dates that `datetime.fromisoformat` also reads are not modelled, so they are kept unchanged instead of shortened.
- Traffic: the five parallel lists become one row record per call; they always grow together.
- Alerts: Python joins the remaining stops in `set` iteration order, which depends on string hashing; the order is a parameter `listing` of `AlertsExtract.ImpactText`.
- Alerts: missing keys of the payload take the defaults `.get` supplies; a payload that is an empty dict reads as no payload.
- Monitoring: `datetime.now()` becomes the elapsed seconds given to `AlertReport.CacheAge`; a `None` message is the empty message. The Streamlit page `alerts()` is left out.
- Streamlit, plotly and matplotlib rendering (`display_walking_info`, `create_route_map`, `visualize_network`, the `st.*` calls) are left out; only the values they display are modelled.
- The HTML badges of `get_transports_icons.py` (lines 133-184) and the line colours chosen with Python's salted string hash are left out.
- Number formatting with `{x:.0f}` is a parameter `fmt` of the route views.
- LineCodes: the lookups take the table set as a parameter; the shipped tables are `LineCodes.Paris`. The regex search of `extract_line_code_from_text` is a parameter: the codes its patterns capture, in order.
- Text.UpperChar: 'ß', which Python upper-cases to the two letters "SS", is left unchanged, because the model maps each character to one character. Letters outside Latin-1 are left unchanged by `Text.UpperChar` and `Text.LowerChar`; Python also maps the letters of other scripts.
- Text.PyInt: underscores between digits, which Python's `int()` accepts, are not modelled, and neither are the non-ASCII decimal digits it also reads (Arabic-Indic "٧" or full-width "７" read as 7); the model accepts only "0" to "9".
- Navigo: the group-by and merge of `_compute_hourly_validations` (navigo.py:171-222) are modelled only as the row rules: which rows are cleaned away and how a daily count is spread over the hours of a profile.
- Navigo: the filter that drops profile rows whose hour range is "ND" (navigo.py:109) is a pandas row selection on the profiles file and is left out; the profile arrives already filtered.
- Navigo: the holiday calendar of the `holidays` package (navigo.py:11) is a parameter `holidays` of `NavigoExtract.DayType`; as written it makes no difference (see Findings).
- NavigoInsert.ParseIsoDate: `strptime(s, "%Y-%m-%d")` is modelled for a four-digit year and one- or two-digit month and day written with the digits "0" to "9"; the white-space and sign handling of `strptime`, and the non-ASCII decimal digits its `\d` also matches, are not modelled.
- TravelTime: a timestamp pandas cannot parse (`NaT`) is the value `Unparsed` of `TravelTime.Stamp`; pandas' own date parsing is not modelled.
- Predictor: the predictor calls a newer graph-builder API (`load_graph("base")`, `save_graph(graph_type=...)`, `update_weighted_graph`) than graph_builder.py offers. Its collaborators are therefore modelled by their outcomes, a value or the exception raised.
- Predictors.Predictor.FindOptimalRoute: graph_builder.py:53 takes no `use_weighted` argument and its result (graph_builder.py:79-86) has no "graph_type" entry, so with that builder the call raises and the predictor returns `None`; the builder's answer is a parameter, as for the rest of the newer API.
- RouteDisplay: components/route_display.py:9 calls `load_graph("base")` when the module is imported, but `GraphBuilder.load_graph` (graph_builder.py:41) takes no argument, so the import raises `TypeError`. The component functions are modelled as if the import succeeded.
- AlertReport: monitoring/reports/alerts.py:8 imports `extract_alerts_data`, which extract/alerts.py does not define (it defines `_get_transport_mode_label`, `_get_api_data`, `_process_api_data` and `extract_traffic_alerts_informations`), so the import raises `ImportError`. The report functions are modelled as if the import succeeded.
- Scheduling (`schedule_hourly_updates`, `run_scheduled_tasks`) and `optimize_all_arima_models` are clocks and threads and are left out.
- Logging and the messages printed on errors are left out; the error texts returned are modelled.

## Findings

| source | as written | input that shows it | evidently intended | confidence | as-written member | corrected member |
|---|---|---|---|---|---|---|
| public_transport_watcher/predictor/graph/find_optimal_route.py:145-155 | a node of the found path that is neither a tuple nor a virtual node is a plain integer, and `node.startswith` raises; the exception handler at lines 229-231 turns it into the error "Error finding route: 'int' object has no attribute 'startswith'" | a line 7 from station 1 to station 2, where no line leaves station 2: the cheapest walk is the virtual start of 1, (1, 7), then the plain node 2, with no virtual end | the plain node is taken as its station, giving the route [1, 2] | high (not executed) | RouteFinder.TerminusRouteFails | RouteFinder.SearchIntended |
| public_transport_watcher/application/templates/route_display.py:77 | `station_label[:-1]` cuts only the final "*" of "*(Departure)*" or "*(Arrival)*", so the transfer text is added after the ")" and a second ")" follows; the component views do the same at components/route_display.py:89 and :230 | the arrival station (the last index) is also a transfer station: "*(Arrival) - Transfer - 5 min)*" | "*(Arrival - Transfer - 5 min)*", with one pair of parentheses | high (not executed) | RouteDisplay.TransferAtEndpointUnbalanced | RouteDisplay.MarkBalanced |
| public_transport_watcher/extractor/extract/addresses.py:76-85 | `str.replace` deletes the house number and each suffix text everywhere in the address, not only at its start | "4 RUE DU 4 SEPTEMBRE" at number 4 gives "RUE DU  SEPTEMBRE" | the number and suffixes are taken off the start only, giving "RUE DU 4 SEPTEMBRE" | high (not executed) | Addresses.StreetNameLosesNumber | Addresses.ExtractStreetNameWritten |
| public_transport_watcher/extractor/extract/navigo.py:231 | `jour in _HOLIDAYS` looks a pandas Timestamp up among the `date` keys of the holiday dictionary (line 11); a Timestamp is never equal to a `date` key, so no holiday is found | 1 May 2024, a Wednesday and a public holiday, is classified "JOHV" | a holiday is "DIJFP", like a Sunday | medium (not executed) | NavigoExtract.DayTypeExample | NavigoExtract.DayTypeIntended |
| public_transport_watcher/predictor/graph/calculate_travel_time.py:35-56 | the rows are sorted by (journey_id, timestamp) before the arrival is taken from the next row, so a gap is never negative and the day-transition branch at lines 47-56 never runs; a journey that crosses midnight is put out of stop order | one journey leaving station 1 at 23:58 and station 2 at 00:03: the 00:03 row gets 1436 minutes and the 23:58 row none | the ride from 1 to 2 takes its duration in minutes plus one, six minutes | medium (not executed) | TravelTime.CrossMidnightExample | TravelTime.StopOrderMinutes |
| public_transport_watcher/application/components/route_map.py:49-50 | the segment coordinates are read from the node attributes "lat" and "lon", but the network builder stores them as "latitude" and "longitude" (create_transport_network.py:10-11) | any route on a network the builder makes: every coordinate is missing, so no segment is drawn | the stored "latitude" and "longitude" are read and each ride segment is drawn | high (not executed) | RouteMap.NetworkDrawsNothing | RouteMap.StoredCoordsDraw |

=== FILE: addresses.dfy ===
/**
 * Street addresses of Paris: rows without an id, a number, an address or a district are dropped,
 * a house-number label is built from the number and its suffixes ("12 B"), and the street name is
 * what remains of the address once the number and the suffixes are taken out. After `astype(str)`
 * a missing suffix reads "nan".
 */
module Addresses {
  import opened Common
  import opened Text

  /** One row of the address file: N_SQ_AD, N_VOIE, L_ADR, C_SUF1..3 and C_AR; `None` is missing. */
  datatype AddressRow = AddressRow(id: Option<int>, number: Option<int>, address: Option<string>,
                                   suffixes: seq<Option<string>>, district: Option<int>)

  /** A row as the later steps see it. */
  datatype Address = Address(id: int, number: int, address: string, suffixes: seq<string>, district: int)

  /** `str()` of a suffix cell: "nan" when it was missing. */
  function SuffixText(s: Option<string>): string {
    s.GetOr("nan")
  }

  /** `dropna` on the four required columns, then the cast to text of the suffixes. */
  function Complete(row: AddressRow): (a: Option<Address>)
    ensures a.Some? <==> row.id.Some? && row.number.Some? && row.address.Some? && row.district.Some?
    ensures a.Some? ==> (|a.value.suffixes| == |row.suffixes|
      && forall i :: 0 <= i < |row.suffixes| ==> a.value.suffixes[i] == SuffixText(row.suffixes[i]))
  {
    if row.id.None? || row.number.None? || row.address.None? || row.district.None? then None
    else Some(Address(row.id.value, row.number.value, row.address.value,
                      seq(|row.suffixes|, i requires 0 <= i < |row.suffixes| => SuffixText(row.suffixes[i])),
                      row.district.value))
  }

  /** Rows missing a required column are dropped, the others are kept in order. */
  lemma CompleteRows(rows: seq<AddressRow>)
    ensures forall k :: (0 <= k < |rows| && rows[k].number.Some? && rows[k].id.Some? && rows[k].address.Some?
      && rows[k].district.Some?) ==> Complete(rows[k]).value in Collect(rows, Complete)
    ensures forall a :: a in Collect(rows, Complete) ==> exists k :: 0 <= k < |rows| && Complete(rows[k]) == Some(a)
  {
    CollectSpec(rows, Complete);
  }

  // ---------------------------------------------------------------- number label

  /** The suffixes that are kept: neither "nan" nor empty, in order. */
  function KeptSuffixes(suffixes: seq<string>): (r: seq<string>)
    ensures forall x :: x in r ==> x in suffixes && x != "nan" && x != ""
    ensures forall x :: x in suffixes && x != "nan" && x != "" ==> x in r
    ensures forall x :: multiset(r)[x] == if x != "nan" && x != "" then multiset(suffixes)[x] else 0
  {
    if suffixes == [] then []
    else
      var last := suffixes[|suffixes| - 1];
      var init := suffixes[..|suffixes| - 1];
      assert suffixes == init + [last];
      assert forall x :: x in suffixes ==> x in init || x == last;
      KeptSuffixes(init) + (if last != "nan" && last != "" then [last] else [])
  }

  /**
   * The kept suffixes of a concatenation are those of each part, one after the other: together
   * with the one-suffix case this fixes the order of the result, repeats included.
   */
  lemma {:induction false} KeptSuffixesAppend(a: seq<string>, b: seq<string>)
    ensures KeptSuffixes(a + b) == KeptSuffixes(a) + KeptSuffixes(b)
    ensures |b| == 1 ==> KeptSuffixes(b) == if b[0] != "nan" && b[0] != "" then b else []
  {
    if |b| == 1 {
      assert b[..0] == [];
    }
    if b != [] {
      var init := b[..|b| - 1];
      KeptSuffixesAppend(a, init);
      assert (a + b)[..|a + b| - 1] == a + init;
    } else {
      assert a + b == a;
    }
  }

  lemma KeptSuffixesExample()
    ensures KeptSuffixes(["B", "nan", ""]) == ["B"]
    ensures KeptSuffixes(["nan", "nan", "nan"]) == []
  {
    var b1, b2, b3 := ["B"], ["B", "nan"], ["B", "nan", ""];
    assert b1[..0] == [] && b2[..1] == b1 && b3[..2] == b2;
    assert KeptSuffixes(b1) == ["B"];
    assert KeptSuffixes(b2) == ["B"];
    var n1, n2, n3 := ["nan"], ["nan", "nan"], ["nan", "nan", "nan"];
    assert n1[..0] == [] && n2[..1] == n1 && n3[..2] == n2;
    assert KeptSuffixes(n1) == [];
    assert KeptSuffixes(n2) == [];
  }

  /** Keeping a non-space end keeps the text before it when stripping on the right. */
  lemma StripRightKeeps(p: string, q: string)
    requires p != [] && !IsSpace(p[|p| - 1])
    ensures IsPrefix(p, StripRight(p + q))
  {
    var s := p + q;
    StripRightPrefix(s);
    assert s[|p| - 1] == p[|p| - 1];
  }

  /**
   * _build_street_number: the number, then a space and the kept suffixes joined by spaces, the
   * whole stripped. With no kept suffix it is the number alone.
   */
  function BuildStreetNumber(number: int, suffixes: seq<string>): (r: string)
    ensures KeptSuffixes(suffixes) == [] ==> r == IntToString(number)
    ensures IsPrefix(IntToString(number), r)
  {
    var n := IntToString(number);
    var kept := KeptSuffixes(suffixes);
    assert n != [] && '0' <= n[|n| - 1] <= '9' by {
      if number < 0 {
        assert n[|n| - 1] == NatToString(-number)[|NatToString(-number)| - 1];
      }
    }
    assert !IsSpace(n[0]) by {
      if number >= 0 {
        assert '0' <= n[0] <= '9';
      }
    }
    if |kept| > 0 then
      var full := n + " " + Join(" ", kept);
      assert full == n + (" " + Join(" ", kept));
      StripLeftNoSpace(full);
      StripRightKeeps(n, " " + Join(" ", kept));
      Strip(full)
    else
      StripLeftNoSpace(n);
      StripRightNoSpace(n);
      Strip(n)
  }

  /**
   * With kept suffixes whose last one does not end in white space, the label is the number, a
   * space and the kept suffixes joined by spaces, in order: stripping takes nothing off.
   */
  lemma BuildStreetNumberJoined(number: int, suffixes: seq<string>)
    requires KeptSuffixes(suffixes) != []
    requires var kept := KeptSuffixes(suffixes); var last := kept[|kept| - 1]; last != [] && !IsSpace(last[|last| - 1])
    ensures BuildStreetNumber(number, suffixes) == IntToString(number) + " " + Join(" ", KeptSuffixes(suffixes))
  {
    var n := IntToString(number);
    var kept := KeptSuffixes(suffixes);
    var last := kept[|kept| - 1];
    var j := Join(" ", kept);
    var full := n + " " + j;
    assert BuildStreetNumber(number, suffixes) == Strip(full);
    assert n != [] && !IsSpace(n[0]) by {
      if number < 0 {
        assert n[0] == '-';
      } else {
        assert '0' <= n[0] <= '9';
      }
    }
    JoinEndsWith(kept);
    assert full[|full| - 1] == j[|j| - 1];
    assert full[0] == n[0];
    StripLeftNoSpace(full);
    StripRightNoSpace(full);
  }

  /** A join ends with the end of its last piece, when that piece is not empty. */
  lemma JoinEndsWith(xs: seq<string>)
    requires xs != [] && xs[|xs| - 1] != []
    ensures var j := Join(" ", xs); var last := xs[|xs| - 1];
      |j| >= |last| && j[|j| - 1] == last[|last| - 1]
  {
  }

  /** A "bis" suffix with the two other cells missing or empty. */
  lemma BuildStreetNumberExample()
    ensures BuildStreetNumber(12, ["B", "nan", ""]) == "12 B"
  {
    var suffixes := ["B", "nan", ""];
    KeptSuffixesExample();
    assert NatToString(12) == "12";
    var full := "12" + " " + "B";
    assert full == "12 B";
    StripLeftNoSpace(full);
    StripRightNoSpace(full);
  }

  // ---------------------------------------------------------------- street name

  /**
   * _extract_street_name as written: every occurrence of the number and of each suffix text
   * (including the "nan" of a missing suffix) is deleted anywhere in the address, then the result
   * is stripped.
   */
  function ExtractStreetNameAsWritten(address: string, number: int, suffixes: seq<string>): (r: string)
    ensures r == [] || (!IsSpace(r[0]) && !IsSpace(r[|r| - 1]))
  {
    Strip(RemoveEach(RemoveAll(address, IntToString(number)), suffixes))
  }

  /** Deletes every occurrence of each text, in order. */
  function RemoveEach(s: string, texts: seq<string>): (r: string)
    ensures |r| <= |s|
    decreases |texts|
  {
    if texts == [] then s else RemoveEach(RemoveAll(s, texts[0]), texts[1..])
  }

  /** Deleting a text whose first character does not occur changes nothing. */
  lemma {:induction false} RemoveAllNoMatch(s: string, sub: string)
    requires sub != [] && sub[0] !in s
    ensures RemoveAll(s, sub) == s
  {
    if s != [] {
      RemoveAllNoMatch(s[1..], sub);
      assert s[0] != sub[0];
      assert [s[0]] + s[1..] == s;
    }
  }

  /** A prefix without the first character of `sub` passes through deletion unchanged. */
  lemma {:induction false} RemoveAllSkip(a: string, b: string, sub: string)
    requires sub != [] && sub[0] !in a
    ensures RemoveAll(a + b, sub) == a + RemoveAll(b, sub)
  {
    if a != [] {
      RemoveAllSkip(a[1..], b, sub);
      assert (a + b)[1..] == a[1..] + b;
      assert (a + b)[0] == a[0] && a[0] != sub[0];
    } else {
      assert a + b == b;
    }
  }

  predicate NoDigit(s: string) {
    forall i :: 0 <= i < |s| ==> !('0' <= s[i] <= '9')
  }

  /** Deleting the number from "N before N after" leaves " before after". */
  lemma RemoveNumber(n: string, before: string, after: string)
    requires n != [] && '0' <= n[0] <= '9' && NoDigit(before) && NoDigit(after)
    ensures RemoveAll(n + " " + before + n + after, n) == " " + before + after
  {
    var b := " " + before;
    assert n[0] !in before && n[0] !in after && n[0] !in b;
    var address := n + (b + (n + after));
    assert n + " " + before + n + after == address;
    RemoveAllNoMatch(after, n);
    assert RemoveAll(n + after, n) == after by {
      assert (n + after)[..|n|] == n && (n + after)[|n|..] == after;
    }
    RemoveAllSkip(b, n + after, n);
    assert address[..|n|] == n && address[|n|..] == b + (n + after);
  }

  /** A text without a lower-case "n" loses nothing to the three "nan" suffixes. */
  lemma RemoveNans(a: string)
    requires 'n' !in a
    ensures RemoveEach(a, ["nan", "nan", "nan"]) == a
  {
    var nans := ["nan", "nan", "nan"];
    NanAbsent(a);
    assert RemoveEach(a, nans) == RemoveEach(a, nans[1..]);
    assert RemoveEach(a, nans[1..]) == RemoveEach(a, nans[1..][1..]);
    assert RemoveEach(a, nans[1..][1..]) == RemoveEach(a, []);
  }

  /**
   * As written, a street whose name holds the house number again loses it: the address
   * "4 RUE DU 4 SEPTEMBRE" at number 4 gives "RUE DU  SEPTEMBRE".
   */
  lemma StreetNameLosesNumber(number: nat, before: string, after: string)
    requires NoDigit(before) && NoDigit(after) && 'n' !in before && 'n' !in after
    requires before != [] && !IsSpace(before[0]) && after != [] && !IsSpace(after[|after| - 1])
    ensures ExtractStreetNameAsWritten(Written(number, [], before + IntToString(number) + after), number, ["nan", "nan", "nan"])
      == before + after
  {
    var n := IntToString(number);
    assert n != [] && '0' <= n[0] <= '9';
    assert Written(number, [], before + n + after) == n + " " + before + n + after;
    RemoveNumber(n, before, after);
    var a := " " + before + after;
    RemoveNans(a);
    assert StripLeft(a) == StripLeft(before + after) by {
      assert a == [' '] + (before + after);
    }
    StripLeftNoSpace(before + after);
    StripRightNoSpace(before + after);
  }

  /** Read as intended, the same street keeps its number. */
  lemma StreetNameKeepsNumber(number: nat, before: string, after: string)
    requires before != [] && !IsSpace(before[0]) && after != [] && !IsSpace(after[|after| - 1])
    ensures ExtractStreetName(Written(number, [], before + IntToString(number) + after), number, ["nan", "nan", "nan"])
      == before + IntToString(number) + after
  {
    var street := before + IntToString(number) + after;
    KeptSuffixesExample();
    ExtractStreetNameWritten(number, ["nan", "nan", "nan"], street);
    StripLeftNoSpace(street);
    StripRightNoSpace(street);
  }

  /** The two readings differ whenever the street holds the number. */
  lemma StreetNameDiffers(number: nat, before: string, after: string)
    requires NoDigit(before) && NoDigit(after) && 'n' !in before && 'n' !in after
    requires before != [] && !IsSpace(before[0]) && after != [] && !IsSpace(after[|after| - 1])
    ensures var nans := ["nan", "nan", "nan"];
      var address := Written(number, [], before + IntToString(number) + after);
      ExtractStreetNameAsWritten(address, number, nans) != ExtractStreetName(address, number, nans)
  {
    StreetNameLosesNumber(number, before, after);
    StreetNameKeepsNumber(number, before, after);
    assert |IntToString(number)| >= 1;
  }

  /** A string with no lower-case "n" holds no "nan". */
  lemma {:induction false} NanAbsent(s: string)
    requires 'n' !in s
    ensures RemoveAll(s, "nan") == s
  {
    if s != [] {
      NanAbsent(s[1..]);
      assert !IsPrefix("nan", s);
      assert [s[0]] + s[1..] == s;
    }
  }

  /** Removes `token` from the start of `s`, after leading white space, when it is there. */
  function DropToken(s: string, token: string): string {
    var t := StripLeft(s);
    if token != [] && IsPrefix(token, t) then t[|token|..] else t
  }

  function DropTokens(s: string, tokens: seq<string>): string
    decreases |tokens|
  {
    if tokens == [] then s else DropTokens(DropToken(s, tokens[0]), tokens[1..])
  }

  /**
   * The street name as intended: the number and then each kept suffix are taken off the start of
   * the address only, and the rest is stripped.
   */
  function ExtractStreetName(address: string, number: int, suffixes: seq<string>): (r: string)
    ensures r == [] || (!IsSpace(r[0]) && !IsSpace(r[|r| - 1]))
  {
    Strip(DropTokens(DropToken(address, IntToString(number)), KeptSuffixes(suffixes)))
  }

  /** The address as the file writes it: the number, a space before each suffix, a space, the street. */
  function Written(number: int, kept: seq<string>, street: string): string {
    IntToString(number) + Spaced(kept) + " " + street
  }

  function Spaced(tokens: seq<string>): string {
    if tokens == [] then "" else " " + tokens[0] + Spaced(tokens[1..])
  }

  /**
   * Taking the spaced suffixes off the front leaves the street (after a space), whatever digits
   * or letters the street contains.
   */
  lemma {:induction false} DropSpaced(tokens: seq<string>, street: string)
    requires forall t :: t in tokens ==> t != [] && !IsSpace(t[0])
    requires street == [] || !IsSpace(street[0])
    ensures StripLeft(DropTokens(Spaced(tokens) + " " + street, tokens)) == street
  {
    if tokens == [] {
      assert Spaced(tokens) + " " + street == [' '] + street;
      StripLeftSpace(street);
      StripLeftNoSpace(street);
    } else {
      assert tokens[0] in tokens;
      DropSpacedFirst(tokens, street);
      assert forall x :: x in tokens[1..] ==> x in tokens;
      DropSpaced(tokens[1..], street);
    }
  }

  /** The first spaced suffix is dropped whole. */
  lemma DropSpacedFirst(tokens: seq<string>, street: string)
    requires tokens != [] && tokens[0] != [] && !IsSpace(tokens[0][0])
    ensures DropTokens(Spaced(tokens) + " " + street, tokens) == DropTokens(Spaced(tokens[1..]) + " " + street, tokens[1..])
  {
    SpacedShape(tokens, street);
    DropSpacedToken(tokens[0], Spaced(tokens[1..]) + " " + street);
  }

  lemma SpacedShape(tokens: seq<string>, street: string)
    requires tokens != []
    ensures Spaced(tokens) + " " + street == [' '] + (tokens[0] + (Spaced(tokens[1..]) + " " + street))
  {
  }

  /** Leading white space is skipped by `StripLeft`. */
  lemma StripLeftSpace(x: string)
    ensures StripLeft([' '] + x) == StripLeft(x)
  {
    assert ([' '] + x)[1..] == x;
  }

  /** A token after one space is dropped whole. */
  lemma DropSpacedToken(t: string, rest: string)
    requires t != [] && !IsSpace(t[0])
    ensures DropToken([' '] + (t + rest), t) == rest
  {
    StripLeftSpace(t + rest);
    StripLeftNoSpace(t + rest);
    assert (t + rest)[..|t|] == t && (t + rest)[|t|..] == rest;
  }

  /** Stripping on the left first changes nothing for `Strip`. */
  lemma StripAfterStripLeft(s: string)
    ensures Strip(StripLeft(s)) == Strip(s)
  {
    var l := StripLeft(s);
    StripLeftNoSpace(l);
  }

  /**
   * The intended street name: from an address written as number, suffixes and street, the
   * street comes back, stripped, even when it holds the number or a suffix again.
   */
  lemma ExtractStreetNameWritten(number: nat, suffixes: seq<string>, street: string)
    requires forall t :: t in KeptSuffixes(suffixes) ==> !IsSpace(t[0])
    requires street == [] || !IsSpace(street[0])
    ensures ExtractStreetName(Written(number, KeptSuffixes(suffixes), street), number, suffixes) == Strip(street)
  {
    var n := IntToString(number);
    var kept := KeptSuffixes(suffixes);
    var tail := Spaced(kept) + " " + street;
    var w := Written(number, kept, street);
    assert w == n + tail;
    assert !IsSpace(n[0]) by {
      assert '0' <= n[0] <= '9';
    }
    StripLeftNoSpace(w);
    assert w[..|n|] == n && w[|n|..] == tail;
    assert DropToken(w, n) == tail;
    DropSpaced(kept, street);
    StripAfterStripLeft(DropTokens(tail, kept));
  }

}

=== FILE: alert_report.dfy ===
/**
 * The labels of the alerts page: the icon for an alert's severity, read from words of its cause
 * and message, and the age of the cached alerts in French. The clock is a parameter (the elapsed
 * seconds); the Streamlit page itself is left out.
 */
module AlertReport {
  import opened Common
  import opened Text

  const Works := "\U{1F6A7}"
  const Alarm := "\U{1F6A8}"
  const Warning := "\U{26A0}\U{FE0F}"
  const Info := "\U{2139}\U{FE0F}"

  /** Words of an interruption. */
  predicate Interrupted(lowered: string) {
    Contains(lowered, "alerte") || Contains(lowered, "interrompu") || Contains(lowered, "fermé")
  }

  /** Words of a delay. */
  predicate Delayed(lowered: string) {
    Contains(lowered, "retard") || Contains(lowered, "ralenti") || Contains(lowered, "perturbé") || Contains(lowered, "dévié")
  }

  /** A cause that names works, in any case; a missing or empty cause names none. */
  predicate WorksCause(cause: Option<string>) {
    cause.Some? && cause.value != "" && Contains(Lower(cause.value), "travaux")
  }

  /**
   * get_severity_icon: nothing for an empty message; works whatever the message says when the
   * cause names them; otherwise an interruption before a delay before plain information.
   */
  function SeverityIcon(message: string, cause: Option<string>): (icon: string)
    ensures message == "" <==> icon == ""
    ensures message != "" && WorksCause(cause) ==> icon == Works
    ensures message != "" && !WorksCause(cause) ==>
      (icon == Alarm <==> Interrupted(Lower(message)))
      && (icon == Warning <==> !Interrupted(Lower(message)) && Delayed(Lower(message)))
      && (icon == Info <==> !Interrupted(Lower(message)) && !Delayed(Lower(message)))
  {
    if message == "" then ""
    else if cause.Some? && cause.value != "" && Contains(Lower(cause.value), "travaux") then Works
    else
      var lowered := Lower(message);
      if Interrupted(lowered) then Alarm
      else if Delayed(lowered) then Warning
      else Info
  }

  /** The order of the message icons: information, delay, interruption. */
  function Rank(icon: string): nat {
    if icon == Alarm then 2 else if icon == Warning then 1 else 0
  }

  lemma {:induction false} ContainsAppend(x: string, y: string, w: string)
    requires Contains(x, w)
    ensures Contains(x + y, w)
  {
    if IsPrefix(w, x) {
      assert (x + y)[..|w|] == x[..|w|];
    } else {
      ContainsAppend(x[1..], y, w);
      assert (x + y)[1..] == x[1..] + y;
    }
  }

  lemma LowerAppend(a: string, b: string)
    ensures Lower(a + b) == Lower(a) + Lower(b)
  {
    LowerAt(a + b);
    LowerAt(a);
    LowerAt(b);
  }

  /** Appending to a message never lowers its severity. */
  lemma SeverityMonotone(a: string, b: string, cause: Option<string>)
    requires a != "" && !WorksCause(cause)
    ensures Rank(SeverityIcon(a + b, cause)) >= Rank(SeverityIcon(a, cause))
  {
    LowerAppend(a, b);
    var la, lb := Lower(a), Lower(b);
    forall w | Contains(la, w)
      ensures Contains(la + lb, w)
    {
      ContainsAppend(la, lb, w);
    }
    assert a + b != "";
  }

  // ---------------------------------------------------------------- age of the cache

  /**
   * format_cache_time for `elapsed` seconds: the whole minutes (truncated), then the whole hours
   * from 60 minutes on.
   */
  function CacheAge(elapsed: real): (text: string)
    ensures Trunc(elapsed / 60.0) < 1 ==> text == "\U{C0} l'instant"
    ensures Trunc(elapsed / 60.0) == 1 ==> text == "Il y a 1 minute"
    ensures 1 < Trunc(elapsed / 60.0) < 60 ==> text == "Il y a " + IntToString(Trunc(elapsed / 60.0)) + " minutes"
    ensures 60 <= Trunc(elapsed / 60.0) ==> IsPrefix("Il y a ", text)
  {
    var minutes := Trunc(elapsed / 60.0);
    if minutes < 1 then "\U{C0} l'instant"
    else if minutes == 1 then "Il y a 1 minute"
    else if minutes < 60 then "Il y a " + IntToString(minutes) + " minutes"
    else
      var hours := Trunc(minutes as real / 60.0);
      "Il y a " + IntToString(hours) + " heure" + (if hours > 1 then "s" else "")
  }

  /** Less than a minute ago, or a clock that has gone back, reads as just now. */
  lemma CacheAgeJustNow(elapsed: real)
    requires elapsed < 60.0
    ensures CacheAge(elapsed) == "\U{C0} l'instant"
  {
  }

  /** Between n and n + 1 whole minutes ago, for 2 <= n < 60, reads as n minutes. */
  lemma CacheAgeMinutes(elapsed: real, n: int)
    requires 2 <= n < 60 && 60.0 * n as real <= elapsed < 60.0 * (n + 1) as real
    ensures CacheAge(elapsed) == "Il y a " + IntToString(n) + " minutes"
  {
    assert n as real <= elapsed / 60.0 < (n + 1) as real;
  }

  /** Between h and h + 1 whole hours ago reads as h hours, singular for one. */
  lemma CacheAgeHours(elapsed: real, h: int)
    requires 1 <= h && 3600.0 * h as real <= elapsed < 3600.0 * (h + 1) as real
    ensures CacheAge(elapsed) == "Il y a " + IntToString(h) + " heure" + (if h > 1 then "s" else "")
  {
    var minutes := Trunc(elapsed / 60.0);
    assert 60 * h <= minutes < 60 * (h + 1) by {
      assert (60 * h) as real <= elapsed / 60.0 < (60 * (h + 1)) as real;
    }
    assert h as real <= minutes as real / 60.0 < (h + 1) as real;
  }
}

=== FILE: alerts_extract.dfy ===
/**
 * Traffic alerts from the disruptions API: lines of excluded modes are dropped, each remaining
 * line's impacted objects are resolved to known disruptions, the disruptions are grouped by their
 * message and cause, and one row per line and group is written into a dict keyed by text, where a
 * later row overwrites an earlier one with the same key. The HTTP request, the cache and pandas
 * are left out; the payload arrives as a value.
 */
module AlertsExtract {
  import opened Common
  import opened Text

  // ---------------------------------------------------------------- payload and rows

  datatype Disruption = Disruption(id: string, shortMessage: string, cause: string)

  datatype ImpactedObject = ImpactedObject(name: string, disruptionIds: seq<string>)

  /** A line of the payload, with "mode", "shortName" and "impactedObjects" defaulted when missing. */
  datatype Line = Line(mode: string, shortName: string, impactedObjects: seq<ImpactedObject>)

  datatype Payload = Payload(disruptions: seq<Disruption>, lines: seq<Line>)

  /**
   * The "impacted_object_name" of a row: empty for a line without impacted objects, the whole
   * line when no other stop is left, or the stops left (Python joins them in set order).
   */
  datatype Impact = Blank | WholeLine | Stops(names: set<string>)

  datatype AlertRow = AlertRow(
    mode: string,
    shortName: string,
    fullLine: string,
    impact: Impact,
    shortMessage: string,
    enhancedMessage: string,
    cause: string)

  /**
   * The text of an impact, given the order in which Python lists the stops: a listing of a set,
   * so each name once.
   */
  function ImpactText(impact: Impact, listing: seq<string>): (text: string)
    requires impact.Stops? ==> impact.names == set s | s in listing
    requires impact.Stops? ==> forall i, j :: 0 <= i < j < |listing| ==> listing[i] != listing[j]
    ensures impact.Blank? ==> text == ""
    ensures impact.WholeLine? ==> text == "Sur l'ensemble de la ligne"
    ensures impact.Stops? ==> text == Join(", ", listing)
  {
    match impact
    case Blank => ""
    case WholeLine => "Sur l'ensemble de la ligne"
    case Stops(_) => Join(", ", listing)
  }

  // ---------------------------------------------------------------- modes

  /** _get_transport_mode_label: the four known modes get their French modeLabel, any other is kept. */
  function ModeLabel(mode: string): (name: string)
    ensures mode == "LocalTrain" ==> name == "Transilien"
    ensures mode == "RapidTransit" ==> name == "RER"
    ensures mode == "Metro" ==> name == "Métro"
    ensures mode == "Tramway" ==> name == "Tramway"
    ensures mode != "LocalTrain" && mode != "RapidTransit" && mode != "Metro" ==> name == mode
  {
    if mode == "LocalTrain" then "Transilien"
    else if mode == "RapidTransit" then "RER"
    else if mode == "Metro" then "Métro"
    else if mode == "Tramway" then "Tramway"
    else mode
  }

  /** Bus and funicular lines, whatever their case and surrounding white space. */
  predicate Excluded(mode: string) {
    Lower(Strip(mode)) == "bus" || Lower(Strip(mode)) == "funicular"
  }

  function Kept(l: Line): (r: Option<Line>)
    ensures r.Some? <==> !Excluded(l.mode)
    ensures r.Some? ==> r.value == l
  {
    if Excluded(l.mode) then None else Some(l)
  }

  /** The first loop: the lines of other modes, in order. */
  method FilterLines(lines: seq<Line>) returns (filtered: seq<Line>)
    ensures filtered == Collect(lines, Kept)
    ensures forall l :: l in filtered <==> l in lines && !Excluded(l.mode)
  {
    filtered := [];
    for i := 0 to |lines|
      invariant filtered == Collect(lines[..i], Kept)
    {
      assert lines[..i + 1][..i] == lines[..i];
      var mode := Strip(lines[i].mode);
      if Lower(mode) == "bus" || Lower(mode) == "funicular" {
        continue;
      }
      filtered := filtered + [lines[i]];
    }
    assert lines[..|lines|] == lines;
    KeptLines(lines);
  }

  /** The kept lines are the lines of other modes. */
  lemma KeptLines(lines: seq<Line>)
    ensures forall l :: l in Collect(lines, Kept) <==> l in lines && !Excluded(l.mode)
  {
    CollectSpec(lines, Kept);
    forall l | l in lines && !Excluded(l.mode)
      ensures l in Collect(lines, Kept)
    {
      var k :| 0 <= k < |lines| && lines[k] == l;
    }
    forall l | l in Collect(lines, Kept)
      ensures l in lines
    {
      var k :| 0 <= k < |lines| && Kept(lines[k]) == Some(l);
    }
  }

  // ---------------------------------------------------------------- known disruptions

  /** The disruptions by id; of two with the same id the later one is kept. */
  function DisruptionsById(ds: seq<Disruption>): (m: map<string, Disruption>)
    ensures forall id :: id in m ==> m[id].id == id
    ensures forall i :: 0 <= i < |ds| ==> ds[i].id in m
  {
    if ds == [] then map[]
    else
      var init := ds[..|ds| - 1];
      var m := DisruptionsById(init);
      assert forall i :: 0 <= i < |init| ==> init[i] == ds[i];
      m[ds[|ds| - 1].id := ds[|ds| - 1]]
  }

  /** Of two disruptions with the same id, the later one is kept. */
  lemma {:induction false} DisruptionsByIdLast(ds: seq<Disruption>, i: int)
    requires 0 <= i < |ds| && forall j :: i < j < |ds| ==> ds[j].id != ds[i].id
    ensures DisruptionsById(ds)[ds[i].id] == ds[i]
  {
    var init := ds[..|ds| - 1];
    if i < |init| {
      assert init[i] == ds[i];
      assert forall j :: i < j < |init| ==> init[j] == ds[j];
      DisruptionsByIdLast(init, i);
    }
  }

  method IndexDisruptions(ds: seq<Disruption>) returns (known: map<string, Disruption>)
    ensures known == DisruptionsById(ds)
  {
    known := map[];
    for i := 0 to |ds|
      invariant known == DisruptionsById(ds[..i])
    {
      assert ds[..i + 1][..i] == ds[..i];
      known := known[ds[i].id := ds[i]];
    }
    assert ds[..|ds|] == ds;
  }

  // ---------------------------------------------------------------- grouping a line's disruptions

  /** The (stop name, disruption) pairs of one impacted object, for its known disruption ids. */
  function IdHits(name: string, ids: seq<string>, known: map<string, Disruption>): (r: seq<(string, Disruption)>)
    ensures forall h :: h in r ==> h.0 == name && exists id :: id in ids && id in known && known[id] == h.1
    ensures (forall id :: id in ids ==> id !in known) ==> r == []
  {
    if ids == [] then []
    else
      var id := ids[|ids| - 1];
      var before := IdHits(name, ids[..|ids| - 1], known);
      assert forall x :: x in ids[..|ids| - 1] ==> x in ids;
      before + (if id in known then [(name, known[id])] else [])
  }

  /** The pairs of all impacted objects, object by object. */
  function Hits(objects: seq<ImpactedObject>, known: map<string, Disruption>): (r: seq<(string, Disruption)>)
    ensures forall h :: h in r ==> exists o, id :: o in objects && o.name == h.0 && id in o.disruptionIds && id in known && known[id] == h.1
    ensures (forall o, id :: o in objects && id in o.disruptionIds ==> id !in known) ==> r == []
  {
    if objects == [] then []
    else
      var o := objects[|objects| - 1];
      var before := Hits(objects[..|objects| - 1], known);
      assert forall x :: x in objects[..|objects| - 1] ==> x in objects;
      before + IdHits(o.name, o.disruptionIds, known)
  }

  /** A known disruption of an impacted object is a hit. */
  lemma {:induction false} HitsComplete(objects: seq<ImpactedObject>, known: map<string, Disruption>, k: int, id: string)
    requires 0 <= k < |objects| && id in objects[k].disruptionIds && id in known
    ensures (objects[k].name, known[id]) in Hits(objects, known)
  {
    var init := objects[..|objects| - 1];
    if k < |init| {
      assert init[k] == objects[k];
      HitsComplete(init, known, k, id);
    } else {
      IdHitsComplete(objects[k].name, objects[k].disruptionIds, known, id);
    }
  }

  lemma {:induction false} IdHitsComplete(name: string, ids: seq<string>, known: map<string, Disruption>, id: string)
    requires id in ids && id in known
    ensures (name, known[id]) in IdHits(name, ids, known)
  {
    if ids[|ids| - 1] != id {
      assert id in ids[..|ids| - 1] by {
        var k :| 0 <= k < |ids| && ids[k] == id;
        assert ids[..|ids| - 1][k] == id;
      }
      IdHitsComplete(name, ids[..|ids| - 1], known, id);
    }
  }

  /** The text key of a group: message and cause joined by "_". */
  function GroupKey(d: Disruption): string {
    d.shortMessage + "_" + d.cause
  }

  /** The message and cause of a group's first disruption, and the names of its stops. */
  datatype Group = Group(shortMessage: string, cause: string, stops: set<string>)

  /** One pass of the inner loop: the stop joins the group of the disruption's key, made if new. */
  function AddHit(info: Dict<string, Group>, h: (string, Disruption)): Dict<string, Group> {
    var key := GroupKey(h.1);
    var g := if key in info.values then info.values[key] else Group(h.1.shortMessage, h.1.cause, {});
    info.Put(key, g.(stops := g.stops + {h.0}))
  }

  /** disruptions_info after all the hits of a line. */
  function Grouped(hits: seq<(string, Disruption)>): (info: Dict<string, Group>)
    ensures info.Valid()
  {
    if hits == [] then EmptyDict() else AddHit(Grouped(hits[..|hits| - 1]), hits[|hits| - 1])
  }

  function HitKey(h: (string, Disruption)): Option<string> {
    Some(GroupKey(h.1))
  }

  /** The groups come in the order their keys first occur among the hits. */
  lemma {:induction false} GroupedKeys(hits: seq<(string, Disruption)>)
    ensures Grouped(hits).keys == FirstSeen(hits, HitKey)
  {
    if hits != [] {
      GroupedKeys(hits[..|hits| - 1]);
    }
  }

  /** A group's stops are the names of all hits with its key. */
  lemma {:induction false} GroupedStops(hits: seq<(string, Disruption)>, k: string, name: string)
    requires k in Grouped(hits).values
    ensures name in Grouped(hits).values[k].stops <==> exists i :: 0 <= i < |hits| && hits[i].0 == name && GroupKey(hits[i].1) == k
  {
    var init := hits[..|hits| - 1];
    var h := hits[|hits| - 1];
    var before := Grouped(init);
    GroupedStep(hits, k);
    var inInit := exists i :: 0 <= i < |init| && init[i].0 == name && GroupKey(init[i].1) == k;
    HitsSnoc(hits, init, k, name);
    if k in before.values {
      GroupedStops(init, k, name);
      assert name in before.values[k].stops <==> inInit;
    } else if inInit {
      var i :| 0 <= i < |init| && init[i].0 == name && GroupKey(init[i].1) == k;
      GroupedHasKey(init, i);
    }
  }

  /** A hit of `name` under key `k` is one before the last or the last itself. */
  lemma HitsSnoc(hits: seq<(string, Disruption)>, init: seq<(string, Disruption)>, k: string, name: string)
    requires hits != [] && init == hits[..|hits| - 1]
    ensures (exists i :: 0 <= i < |hits| && hits[i].0 == name && GroupKey(hits[i].1) == k) <==>
      (exists i :: 0 <= i < |init| && init[i].0 == name && GroupKey(init[i].1) == k)
      || (hits[|hits| - 1].0 == name && GroupKey(hits[|hits| - 1].1) == k)
  {
    if exists i :: 0 <= i < |hits| && hits[i].0 == name && GroupKey(hits[i].1) == k {
      var i :| 0 <= i < |hits| && hits[i].0 == name && GroupKey(hits[i].1) == k;
      if i < |init| {
        assert init[i] == hits[i];
      }
    }
    if exists i :: 0 <= i < |init| && init[i].0 == name && GroupKey(init[i].1) == k {
      var i :| 0 <= i < |init| && init[i].0 == name && GroupKey(init[i].1) == k;
      assert hits[i] == init[i];
    }
  }

  /** The last hit adds its stop to the group of its key, made if new; other groups are kept. */
  lemma GroupedStep(hits: seq<(string, Disruption)>, k: string)
    requires hits != []
    ensures k in Grouped(hits).values <==> k in Grouped(hits[..|hits| - 1]).values || GroupKey(hits[|hits| - 1].1) == k
    ensures k in Grouped(hits).values ==>
              Grouped(hits).values[k].stops ==
                (if k in Grouped(hits[..|hits| - 1]).values then Grouped(hits[..|hits| - 1]).values[k].stops else {})
                + (if GroupKey(hits[|hits| - 1].1) == k then {hits[|hits| - 1].0} else {})
  {
    var before := Grouped(hits[..|hits| - 1]);
    var h := hits[|hits| - 1];
    var key := GroupKey(h.1);
    var g := if key in before.values then before.values[key] else Group(h.1.shortMessage, h.1.cause, {});
    assert Grouped(hits).values == before.values[key := g.(stops := g.stops + {h.0})];
  }

  /** A group keeps the message and cause it was made with. */
  lemma GroupedStepFirst(hits: seq<(string, Disruption)>, k: string)
    requires hits != []
    ensures k in Grouped(hits).values ==>
      var g := Grouped(hits).values[k];
      if k in Grouped(hits[..|hits| - 1]).values
      then g.shortMessage == Grouped(hits[..|hits| - 1]).values[k].shortMessage
           && g.cause == Grouped(hits[..|hits| - 1]).values[k].cause
      else g.shortMessage == hits[|hits| - 1].1.shortMessage && g.cause == hits[|hits| - 1].1.cause
  {
    var before := Grouped(hits[..|hits| - 1]);
    var h := hits[|hits| - 1];
    var key := GroupKey(h.1);
    var g := if key in before.values then before.values[key] else Group(h.1.shortMessage, h.1.cause, {});
    assert Grouped(hits).values == before.values[key := g.(stops := g.stops + {h.0})];
  }

  /** Every hit's key is a group. */
  lemma {:induction false} GroupedHasKey(hits: seq<(string, Disruption)>, i: int)
    requires 0 <= i < |hits|
    ensures GroupKey(hits[i].1) in Grouped(hits).values
  {
    var init := hits[..|hits| - 1];
    if i < |init| {
      assert hits[i] == init[i];
      GroupedHasKey(init, i);
    }
  }

  /** A group keeps the message and cause of the first hit with its key. */
  lemma {:induction false} GroupedFirst(hits: seq<(string, Disruption)>, i: int)
    requires 0 <= i < |hits| && forall j :: 0 <= j < i ==> GroupKey(hits[j].1) != GroupKey(hits[i].1)
    ensures GroupKey(hits[i].1) in Grouped(hits).values
    ensures Grouped(hits).values[GroupKey(hits[i].1)].shortMessage == hits[i].1.shortMessage
    ensures Grouped(hits).values[GroupKey(hits[i].1)].cause == hits[i].1.cause
  {
    var init := hits[..|hits| - 1];
    GroupedHasKey(hits, i);
    GroupedStepFirst(hits, GroupKey(hits[i].1));
    if i < |init| {
      assert hits[i] == init[i];
      assert forall j :: 0 <= j < i ==> hits[j] == init[j];
      GroupedFirst(init, i);
    } else {
      GroupedMissing(init, GroupKey(hits[i].1));
    }
  }

  /** A key no hit has is no group. */
  lemma {:induction false} GroupedMissing(hits: seq<(string, Disruption)>, k: string)
    requires forall j :: 0 <= j < |hits| ==> GroupKey(hits[j].1) != k
    ensures k !in Grouped(hits).values
  {
    if hits != [] {
      var init := hits[..|hits| - 1];
      assert forall j :: 0 <= j < |init| ==> hits[j] == init[j];
      GroupedMissing(init, k);
    }
  }

  /** Two different (message, cause) pairs can share a key, and are then one group. */
  lemma GroupKeysCollide()
    ensures GroupKey(Disruption("1", "a_b", "c")) == GroupKey(Disruption("2", "a", "b_c"))
  {
  }

  // ---------------------------------------------------------------- rows of a line

  function LineKey(l: Line): string {
    l.mode + "_" + l.shortName
  }

  /** The impact of a group: its stops other than the line itself, or the whole line. */
  function GroupImpact(stops: set<string>, shortName: string): (impact: Impact)
    ensures impact == WholeLine <==> forall s :: s in stops ==> Strip(s) == Strip(shortName)
    ensures impact != Blank
    ensures impact.Stops? ==> forall s :: s in impact.names <==> s in stops && Strip(s) != Strip(shortName)
  {
    var left := set s | s in stops && Strip(s) != Strip(shortName);
    assert forall s :: s in stops && Strip(s) != Strip(shortName) ==> s in left;
    if left == {} then WholeLine
    else
      assert exists s :: s in left;
      Stops(left)
  }

  function GroupRow(l: Line, g: Group): AlertRow {
    var modeLabel := ModeLabel(l.mode);
    AlertRow(modeLabel, l.shortName, modeLabel + " " + l.shortName, GroupImpact(g.stops, l.shortName), g.shortMessage, g.shortMessage, g.cause)
  }

  function BlankRow(l: Line): AlertRow {
    var modeLabel := ModeLabel(l.mode);
    AlertRow(modeLabel, l.shortName, modeLabel + " " + l.shortName, Blank, "", "", "")
  }

  /** The keyed rows one line writes, in order. */
  function LineRows(l: Line, known: map<string, Disruption>): (rows: seq<(string, AlertRow)>)
    ensures l.impactedObjects == [] ==> rows == [(LineKey(l), BlankRow(l))]
    ensures l.impactedObjects != [] ==>
      var info := Grouped(Hits(l.impactedObjects, known));
      |rows| == |info.keys|
      && forall j :: 0 <= j < |rows| ==> rows[j] == (LineKey(l) + "_" + info.keys[j], GroupRow(l, info.values[info.keys[j]]))
  {
    if l.impactedObjects == [] then [(LineKey(l), BlankRow(l))]
    else
      var info := Grouped(Hits(l.impactedObjects, known));
      seq(|info.keys|, j requires 0 <= j < |info.keys| => (LineKey(l) + "_" + info.keys[j], GroupRow(l, info.values[info.keys[j]])))
  }

  /** The rows of all lines, line by line. */
  function AllRows(lines: seq<Line>, known: map<string, Disruption>): seq<(string, AlertRow)> {
    if lines == [] then [] else AllRows(lines[..|lines| - 1], known) + LineRows(lines[|lines| - 1], known)
  }

  /** _process_api_data: no payload gives no rows; otherwise the values of the filled dict, in key order. */
  function Processed(data: Option<Payload>): (rows: seq<AlertRow>)
    ensures data.None? ==> rows == []
  {
    if data.None? then []
    else
      var pairs := AllRows(Collect(data.value.lines, Kept), DisruptionsById(data.value.disruptions));
      PutAllKeys(pairs);
      PutAll(EmptyDict(), pairs).Items()
  }

  // ---------------------------------------------------------------- the loops

  /** disruptions_info of one line: the nested loops over its impacted objects and their ids. */
  method GroupDisruptions(objects: seq<ImpactedObject>, known: map<string, Disruption>) returns (info: Dict<string, Group>)
    ensures info == Grouped(Hits(objects, known))
  {
    info := EmptyDict();
    for i := 0 to |objects|
      invariant info == Grouped(Hits(objects[..i], known))
    {
      HitsStep(objects, i, known);
      info := GroupObject(info, objects[i].name, objects[i].disruptionIds, known, Hits(objects[..i], known));
    }
    assert objects[..|objects|] == objects;
  }

  /** The inner loop over the disruption ids of one impacted object. */
  method GroupObject(info: Dict<string, Group>, name: string, ids: seq<string>, known: map<string, Disruption>,
                     ghost done: seq<(string, Disruption)>) returns (out: Dict<string, Group>)
    requires info == Grouped(done)
    ensures out == Grouped(done + IdHits(name, ids, known))
  {
    out := info;
    ghost var acc := done;
    assert IdHits(name, ids[..0], known) == [] by { assert ids[..0] == []; }
    assert acc == done + [];
    for j := 0 to |ids|
      invariant acc == done + IdHits(name, ids[..j], known)
      invariant out == Grouped(acc)
    {
      IdHitsStep(name, ids, j, known);
      var id := ids[j];
      if id in known {
        out := AddStop(out, name, known[id]);
        GroupedAppend(acc, (name, known[id]));
        ConcatSnoc(done, IdHits(name, ids[..j], known), (name, known[id]));
        acc := acc + [(name, known[id])];
      } else {
        assert IdHits(name, ids[..j], known) + [] == IdHits(name, ids[..j], known);
      }
    }
    assert ids[..|ids|] == ids;
  }

  lemma ConcatSnoc<T>(a: seq<T>, b: seq<T>, x: T)
    ensures (a + b) + [x] == a + (b + [x])
  {
  }

  /** One pass of the inner loop for a known disruption: the stop joins the group of its key. */
  method AddStop(info: Dict<string, Group>, name: string, d: Disruption) returns (out: Dict<string, Group>)
    ensures out == AddHit(info, (name, d))
  {
    var key := d.shortMessage + "_" + d.cause;
    if key !in info.values {
      out := info.Put(key, Group(d.shortMessage, d.cause, {}));
    } else {
      out := info;
    }
    var g := out.values[key];
    out := out.Put(key, g.(stops := g.stops + {name}));
  }

  lemma HitsStep(objects: seq<ImpactedObject>, i: int, known: map<string, Disruption>)
    requires 0 <= i < |objects|
    ensures Hits(objects[..i + 1], known) == Hits(objects[..i], known) + IdHits(objects[i].name, objects[i].disruptionIds, known)
  {
    assert objects[..i + 1][..i] == objects[..i];
  }

  lemma IdHitsStep(name: string, ids: seq<string>, j: int, known: map<string, Disruption>)
    requires 0 <= j < |ids|
    ensures IdHits(name, ids[..j + 1], known)
      == IdHits(name, ids[..j], known) + (if ids[j] in known then [(name, known[ids[j]])] else [])
  {
    assert ids[..j + 1][..j] == ids[..j];
  }

  lemma GroupedAppend(hits: seq<(string, Disruption)>, h: (string, Disruption))
    ensures Grouped(hits + [h]) == AddHit(Grouped(hits), h)
  {
    assert (hits + [h])[..|hits|] == hits;
  }

  /**
   * _process_api_data over a payload: the rows of the kept lines written into a dict in order and
   * read back in key order.
   */
  method ProcessApiData(data: Option<Payload>) returns (rows: seq<AlertRow>)
    ensures rows == Processed(data)
  {
    if data.None? {
      return [];
    }
    var filtered := FilterLines(data.value.lines);
    var known := IndexDisruptions(data.value.disruptions);
    var linesData: Dict<string, AlertRow> := EmptyDict();
    for i := 0 to |filtered|
      invariant linesData == PutAll(EmptyDict(), AllRows(filtered[..i], known))
    {
      AllRowsStep(filtered, i, known);
      PutAllConcat(EmptyDict(), AllRows(filtered[..i], known), LineRows(filtered[i], known));
      linesData := PutLineRows(linesData, filtered[i], known);
    }
    assert filtered[..|filtered|] == filtered;
    PutAllKeys(AllRows(filtered, known));
    rows := linesData.Items();
  }

  /** The body of the loop over the kept lines: one line's rows written into the dict in order. */
  method PutLineRows(linesData: Dict<string, AlertRow>, l: Line, known: map<string, Disruption>) returns (out: Dict<string, AlertRow>)
    ensures out == PutAll(linesData, LineRows(l, known))
  {
    var modeLabel := ModeLabel(l.mode);
    var lineKey := l.mode + "_" + l.shortName;
    if l.impactedObjects != [] {
      var info := GroupDisruptions(l.impactedObjects, known);
      out := PutGroups(linesData, l, info, lineKey, modeLabel);
      LineRowsGrouped(l, known);
    } else {
      var row := AlertRow(modeLabel, l.shortName, modeLabel + " " + l.shortName, Blank, "", "", "");
      out := linesData.Put(lineKey, row);
      assert [(lineKey, row)][..0] == [];
    }
  }

  /** The rows of one line's groups, in group order. */
  function GroupRows(l: Line, info: Dict<string, Group>): (rows: seq<(string, AlertRow)>)
    requires info.Valid()
    ensures |rows| == |info.keys|
    ensures forall j :: 0 <= j < |rows| ==> rows[j] == (LineKey(l) + "_" + info.keys[j], GroupRow(l, info.values[info.keys[j]]))
  {
    seq(|info.keys|, j requires 0 <= j < |info.keys| => (LineKey(l) + "_" + info.keys[j], GroupRow(l, info.values[info.keys[j]])))
  }

  lemma LineRowsGrouped(l: Line, known: map<string, Disruption>)
    requires l.impactedObjects != []
    ensures LineRows(l, known) == GroupRows(l, Grouped(Hits(l.impactedObjects, known)))
  {
  }

  /** The loop over the groups of one line: a row per group written into the dict in order. */
  method PutGroups(linesData: Dict<string, AlertRow>, l: Line, info: Dict<string, Group>, lineKey: string, modeLabel: string)
    returns (out: Dict<string, AlertRow>)
    requires info.Valid() && lineKey == LineKey(l) && modeLabel == ModeLabel(l.mode)
    ensures out == PutAll(linesData, GroupRows(l, info))
  {
    ghost var rows := GroupRows(l, info);
    out := linesData;
    assert rows[..0] == [];
    for j := 0 to |info.keys|
      invariant out == PutAll(linesData, rows[..j])
    {
      var key := info.keys[j];
      var g := info.values[key];
      var row := AlertRow(modeLabel, l.shortName, modeLabel + " " + l.shortName, GroupImpact(g.stops, l.shortName), g.shortMessage, g.shortMessage, g.cause);
      PutAllStep(linesData, rows, j);
      out := out.Put(lineKey + "_" + key, row);
    }
    assert rows[..|rows|] == rows;
  }

  lemma AllRowsStep(lines: seq<Line>, i: int, known: map<string, Disruption>)
    requires 0 <= i < |lines|
    ensures AllRows(lines[..i + 1], known) == AllRows(lines[..i], known) + LineRows(lines[i], known)
  {
    assert lines[..i + 1][..i] == lines[..i];
  }

  // ---------------------------------------------------------------- properties

  /** Every row belongs to a kept line: its mode modeLabel, name and full line come from that line. */
  lemma {:induction false} RowsFromKeptLines(lines: seq<Line>, known: map<string, Disruption>, p: (string, AlertRow))
    requires p in AllRows(lines, known)
    ensures exists l :: (l in lines && p.1.mode == ModeLabel(l.mode) && p.1.shortName == l.shortName
      && p.1.fullLine == ModeLabel(l.mode) + " " + l.shortName)
  {
    var init := lines[..|lines| - 1];
    var l := lines[|lines| - 1];
    if p in AllRows(init, known) {
      RowsFromKeptLines(init, known, p);
      var l' :| l' in init && p.1.mode == ModeLabel(l'.mode) && p.1.shortName == l'.shortName
        && p.1.fullLine == ModeLabel(l'.mode) + " " + l'.shortName;
      assert l' in lines;
    } else {
      assert p in LineRows(l, known);
    }
  }

  /** No row of the output comes from a bus or funicular line. */
  lemma ProcessedRowsAreKept(data: Payload, r: AlertRow)
    requires r in Processed(Some(data))
    ensures exists l :: l in data.lines && !Excluded(l.mode) && r.mode == ModeLabel(l.mode) && r.shortName == l.shortName
  {
    var filtered := Collect(data.lines, Kept);
    var pairs := AllRows(filtered, DisruptionsById(data.disruptions));
    PutAllKeys(pairs);
    assert Processed(Some(data)) == PutAll(EmptyDict(), pairs).Items();
    var i := WrittenRow(pairs, r);
    RowsFromKeptLines(filtered, DisruptionsById(data.disruptions), pairs[i]);
    var l :| l in filtered && pairs[i].1.mode == ModeLabel(l.mode) && pairs[i].1.shortName == l.shortName;
    KeptLines(data.lines);
  }

  /** A value read back from a filled dict was written with some pair. */
  lemma WrittenRow(pairs: seq<(string, AlertRow)>, r: AlertRow) returns (i: int)
    requires PutAll(EmptyDict(), pairs).Valid() && r in PutAll(EmptyDict(), pairs).Items()
    ensures 0 <= i < |pairs| && pairs[i].1 == r
  {
    var d := PutAll(EmptyDict(), pairs);
    PutAllDomain(pairs);
    var k :| 0 <= k < |d.keys| && d.Items()[k] == r;
    assert d.keys[k] in d.values;
    i :| 0 <= i < |pairs| && pairs[i] == (d.keys[k], d.values[d.keys[k]]);
  }

  /** A line whose impacted objects name no known disruption writes no row. */
  lemma UnknownDisruptionsIgnored(l: Line, known: map<string, Disruption>)
    requires l.impactedObjects != []
    requires forall o, id :: o in l.impactedObjects && id in o.disruptionIds ==> id !in known
    ensures LineRows(l, known) == []
  {
    var hits := Hits(l.impactedObjects, known);
    assert Grouped(hits).keys == [];
  }

  /**
   * A line's group (its rows are `GroupRow` of each group, see `LineRows`): it carries the message
   * and cause of the first hit with its key, and covers the whole line exactly when every stop of
   * its hits is the line itself.
   */
  lemma GroupSummary(hits: seq<(string, Disruption)>, j: int, shortName: string)
    requires 0 <= j < |Grouped(hits).keys|
    ensures var key := Grouped(hits).keys[j];
      var g := Grouped(hits).values[key];
      (exists i :: 0 <= i < |hits| && GroupKey(hits[i].1) == key
            && (forall i' :: 0 <= i' < i ==> GroupKey(hits[i'].1) != key)
            && g.shortMessage == hits[i].1.shortMessage && g.cause == hits[i].1.cause)
      && (GroupImpact(g.stops, shortName) == WholeLine <==>
            forall i :: 0 <= i < |hits| && GroupKey(hits[i].1) == key ==> Strip(hits[i].0) == Strip(shortName))
  {
    var info := Grouped(hits);
    GroupedKeys(hits);
    FirstSeenSpec(hits, HitKey);
    var key := info.keys[j];
    assert key in FirstSeen(hits, HitKey);
    var i0 :| 0 <= i0 < |hits| && HitKey(hits[i0]) == Some(key);
    var i := FirstIndex(hits, key, i0);
    GroupedFirst(hits, i);
    var g := info.values[key];
    forall i' | 0 <= i' < |hits| && GroupKey(hits[i'].1) == key
      ensures hits[i'].0 in g.stops
    {
      GroupedStops(hits, key, hits[i'].0);
    }
    forall s | s in g.stops
      ensures exists i' :: 0 <= i' < |hits| && hits[i'].0 == s && GroupKey(hits[i'].1) == key
    {
      GroupedStops(hits, key, s);
    }
  }

  /** The first hit with a key, given one. */
  lemma FirstIndex(hits: seq<(string, Disruption)>, key: string, i0: int) returns (i: int)
    requires 0 <= i0 < |hits| && GroupKey(hits[i0].1) == key
    ensures 0 <= i <= i0 && GroupKey(hits[i].1) == key
    ensures forall i' :: 0 <= i' < i ==> GroupKey(hits[i'].1) != key
  {
    i := 0;
    while GroupKey(hits[i].1) != key
      decreases i0 - i
      invariant 0 <= i <= i0
      invariant forall i' :: 0 <= i' < i ==> GroupKey(hits[i'].1) != key
    {
      i := i + 1;
    }
  }
}

=== FILE: calendar.dfy ===
/** Calendar dates as Python's `datetime` accepts them, and the day of the week pandas reports. */
module Calendar {

  datatype Date = Date(year: int, month: int, day: int)

  predicate LeapYear(y: int) {
    y % 4 == 0 && (y % 100 != 0 || y % 400 == 0)
  }

  function DaysInMonth(y: int, m: int): (n: int)
    requires 1 <= m <= 12
    ensures 28 <= n <= 31
  {
    if m == 2 then (if LeapYear(y) then 29 else 28)
    else if m == 4 || m == 6 || m == 9 || m == 11 then 30
    else 31
  }

  /** A date Python's `datetime` accepts. */
  predicate ValidDate(d: Date) {
    1 <= d.year <= 9999 && 1 <= d.month <= 12 && 1 <= d.day <= DaysInMonth(d.year, d.month)
  }

  /** Sakamoto's month offsets. */
  function MonthOffset(m: int): int {
    if m == 1 then 0 else if m == 2 then 3 else if m == 3 then 2 else if m == 4 then 5
    else if m == 5 then 0 else if m == 6 then 3 else if m == 7 then 5 else if m == 8 then 1
    else if m == 9 then 4 else if m == 10 then 6 else if m == 11 then 2 else 4
  }

  /** Leap days up to and including year `y`, plus `y`: the year part of Sakamoto's sum. */
  function YearTerm(y: int): int {
    y + y / 4 - y / 100 + y / 400
  }

  /** Sakamoto's sum; modulo 7 it counts days from a Sunday. January and February count in the year before. */
  function DayNumber(d: Date): int {
    var y := if d.month < 3 then d.year - 1 else d.year;
    YearTerm(y) + MonthOffset(d.month) + d.day
  }

  /** pandas `dayofweek`: Monday is 0 and Sunday is 6. */
  function DayOfWeek(d: Date): (w: int)
    requires ValidDate(d)
    ensures 0 <= w <= 6
  {
    (DayNumber(d) % 7 + 6) % 7
  }

  /** 1 January 2024 was a Monday, 1 May 2024 a Wednesday, 14 July 2024 a Sunday and 25 December 2023 a Monday. */
  lemma KnownWeekdays()
    ensures DayOfWeek(Date(2024, 1, 1)) == 0
    ensures DayOfWeek(Date(2024, 5, 1)) == 2
    ensures DayOfWeek(Date(2024, 7, 14)) == 6
    ensures DayOfWeek(Date(2023, 12, 25)) == 0
  {
  }

  /** The next day of the calendar. */
  function NextDay(d: Date): (n: Date)
    requires ValidDate(d) && d.year < 9999
    ensures ValidDate(n)
  {
    if d.day < DaysInMonth(d.year, d.month) then Date(d.year, d.month, d.day + 1)
    else if d.month < 12 then Date(d.year, d.month + 1, 1)
    else Date(d.year + 1, 1, 1)
  }

  /** Division by a positive constant grows by one exactly at its multiples. */
  lemma DivStep(y: int, k: int)
    requires k > 0
    ensures y / k - (y - 1) / k == if y % k == 0 then 1 else 0
  {
    var q, r := y / k, y % k;
    assert y == k * q + r && 0 <= r < k;
    if r == 0 {
      assert y - 1 == k * (q - 1) + (k - 1);
      DivUnique(y - 1, k, q - 1, k - 1);
    } else {
      assert y - 1 == k * q + (r - 1);
      DivUnique(y - 1, k, q, r - 1);
    }
  }

  lemma DivUnique(y: int, k: int, q: int, r: int)
    requires k > 0 && 0 <= r < k && y == k * q + r
    ensures y / k == q
  {
    var q', r' := y / k, y % k;
    assert y == k * q' + r' && 0 <= r' < k;
    if q > q' {
      MulStep(k, q - q' - 1);
    } else if q < q' {
      MulStep(k, q' - q - 1);
    }
  }

  lemma MulStep(k: int, e: int)
    requires k > 0 && e >= 0
    ensures k * (e + 1) >= k
  {
  }

  /** The year term grows by one, or by two into a leap year. */
  lemma YearTermStep(y: int)
    ensures YearTerm(y) - YearTerm(y - 1) == if LeapYear(y) then 2 else 1
  {
    DivStep(y, 4);
    DivStep(y, 100);
    DivStep(y, 400);
    if y % 400 == 0 {
      assert y % 100 == 0 && y % 4 == 0 by {
        assert y == 400 * (y / 400);
        assert y == 100 * (4 * (y / 400));
        assert y == 4 * (100 * (y / 400));
      }
    } else if y % 100 == 0 {
      assert y % 4 == 0 by {
        assert y == 100 * (y / 100);
        assert y == 4 * (25 * (y / 100));
      }
    }
  }

  /** The day number of the next day is one more, up to a multiple of 7. */
  lemma DayNumberNext(d: Date) returns (j: int)
    requires ValidDate(d) && d.year < 9999
    ensures DayNumber(NextDay(d)) == DayNumber(d) + 1 + 7 * j
  {
    if d.day < DaysInMonth(d.year, d.month) {
      j := 0;
    } else if d.month == 2 {
      YearTermStep(d.year);
      j := -4;
    } else if d.month == 12 {
      j := -5;
    } else if d.month == 4 || d.month == 7 || d.month == 10 {
      j := -5;
    } else {
      j := -4;
    }
  }

  lemma ShiftWeekday(a: int, j: int)
    ensures ((a + 1 + 7 * j) % 7 + 6) % 7 == ((a % 7 + 6) % 7 + 1) % 7
  {
    var r := a % 7;
    assert a == 7 * (a / 7) + r;
    assert a + 1 + 7 * j == 7 * (a / 7 + j) + r + 1;
    if r < 6 {
      DivUnique(a + 1 + 7 * j, 7, a / 7 + j, r + 1);
    } else {
      DivUnique(a + 1 + 7 * j, 7, a / 7 + j + 1, 0);
    }
  }

  /** The day after `d` is one weekday later. */
  lemma NextDayWeekday(d: Date)
    requires ValidDate(d) && d.year < 9999
    ensures DayOfWeek(NextDay(d)) == (DayOfWeek(d) + 1) % 7
  {
    var j := DayNumberNext(d);
    ShiftWeekday(DayNumber(d), j);
  }
}

=== FILE: common.dfy ===
/** Option type used for nullable values (Python `None`) across the model. */
module Common {

  datatype Option<+T> = None | Some(value: T) {
    function GetOr(default: T): T {
      match this
      case Some(v) => v
      case None => default
    }
  }

  /** A value, or the message of the exception raised instead. */
  datatype Result<+T> = Ok(value: T) | Fail(error: string)

  /** Some element of a non-empty set: iteration over a Python set or dict in an unspecified order. */
  method Pick<T>(s: set<T>) returns (x: T)
    requires s != {}
    ensures x in s
  {
    x :| x in s;
  }

  /** Updating the right operand of a map union updates the union. */
  lemma UnionUpdate<K, V>(a: map<K, V>, b: map<K, V>, k: K, v: V)
    ensures a + b[k := v] == (a + b)[k := v]
  {
  }

  /**
   * The keys of `xs`, each once, in the order of their first occurrence; an element whose key is
   * `None` is skipped (a Python loop appending to a list after a `not in` test).
   */
  function FirstSeen<T, K(==)>(xs: seq<T>, key: T -> Option<K>): seq<K> {
    if xs == [] then []
    else
      var seen := FirstSeen(xs[..|xs| - 1], key);
      var k := key(xs[|xs| - 1]);
      if k.Some? && k.value !in seen then seen + [k.value] else seen
  }

  /** The keys are distinct, each is the key of some element, and every element's key is there. */
  lemma {:induction false} FirstSeenSpec<T, K>(xs: seq<T>, key: T -> Option<K>)
    ensures var seen := FirstSeen(xs, key);
      (forall i, j :: 0 <= i < j < |seen| ==> seen[i] != seen[j])
      && (forall x :: x in seen ==> exists k :: 0 <= k < |xs| && key(xs[k]) == Some(x))
      && (forall k :: 0 <= k < |xs| && key(xs[k]).Some? ==> key(xs[k]).value in seen)
  {
    if xs != [] {
      var init := xs[..|xs| - 1];
      FirstSeenSpec(init, key);
      var before := FirstSeen(init, key);
      var last := key(xs[|xs| - 1]);
      var seen := if last.Some? && last.value !in before then before + [last.value] else before;
      assert FirstSeen(xs, key) == seen;
      forall x | x in before
        ensures exists k :: 0 <= k < |xs| && key(xs[k]) == Some(x)
      {
        var k :| 0 <= k < |init| && key(init[k]) == Some(x);
        assert xs[k] == init[k];
      }
      forall k | 0 <= k < |init|
        ensures key(xs[k]) == key(init[k])
      {
      }
    }
  }

  /** First-occurrence order: every occurrence of a later key comes after an occurrence of each earlier one. */
  lemma {:induction false} FirstSeenOrder<T, K>(xs: seq<T>, key: T -> Option<K>)
    ensures var seen := FirstSeen(xs, key);
      forall a, b, k :: 0 <= a < b < |seen| && 0 <= k < |xs| && key(xs[k]) == Some(seen[b]) ==>
        exists k' :: 0 <= k' < k && key(xs[k']) == Some(seen[a])
  {
    if xs != [] {
      var init := xs[..|xs| - 1];
      FirstSeenOrder(init, key);
      FirstSeenSpec(init, key);
      var before := FirstSeen(init, key);
      var last := key(xs[|xs| - 1]);
      var seen := if last.Some? && last.value !in before then before + [last.value] else before;
      assert FirstSeen(xs, key) == seen;
      forall a, b, k | 0 <= a < b < |seen| && 0 <= k < |xs| && key(xs[k]) == Some(seen[b])
        ensures exists k' :: 0 <= k' < k && key(xs[k']) == Some(seen[a])
      {
        assert seen[a] == before[a] && before[a] in before;
        var ka :| 0 <= ka < |init| && key(init[ka]) == Some(before[a]);
        assert xs[ka] == init[ka];
        if k < |init| {
          assert key(init[k]) == Some(seen[b]);
          if b < |before| {
            assert seen[b] == before[b];
            var k' :| 0 <= k' < k && key(init[k']) == Some(before[a]);
            assert xs[k'] == init[k'];
          } else {
            assert false;
          }
        }
      }
    }
  }

  /** The values of `f` over `xs`, skipping `None`, in order (a loop appending what passes a test). */
  function Collect<T, U>(xs: seq<T>, f: T -> Option<U>): (r: seq<U>)
    ensures |r| <= |xs|
  {
    if xs == [] then [] else
      var last := f(xs[|xs| - 1]);
      Collect(xs[..|xs| - 1], f) + (if last.Some? then [last.value] else [])
  }

  /** Each value collected comes from an element, and every element's value is collected. */
  lemma {:induction false} CollectSpec<T, U>(xs: seq<T>, f: T -> Option<U>)
    ensures forall u :: u in Collect(xs, f) ==> exists k :: 0 <= k < |xs| && f(xs[k]) == Some(u)
    ensures forall k :: 0 <= k < |xs| && f(xs[k]).Some? ==> f(xs[k]).value in Collect(xs, f)
    ensures (forall k :: 0 <= k < |xs| ==> f(xs[k]).Some?) ==> |Collect(xs, f)| == |xs|
  {
    if xs != [] {
      var init := xs[..|xs| - 1];
      CollectSpec(init, f);
      forall u | u in Collect(init, f)
        ensures exists k :: 0 <= k < |xs| && f(xs[k]) == Some(u)
      {
        var k :| 0 <= k < |init| && f(init[k]) == Some(u);
        assert xs[k] == init[k];
      }
      forall k | 0 <= k < |init|
        ensures f(xs[k]) == f(init[k])
      {
      }
    }
  }

  /** A Python dict: its keys in first-insertion order and its current values. */
  datatype Dict<K(==,!new), V> = Dict(keys: seq<K>, values: map<K, V>) {
    ghost predicate Valid() {
      (forall i, j :: 0 <= i < j < |keys| ==> keys[i] != keys[j])
      && (forall k :: k in values <==> k in keys)
    }

    /** `d[k] = v`: a new key goes last, a key already there keeps its place and takes the new value. */
    function Put(k: K, v: V): (d: Dict<K, V>)
      ensures d.values == values[k := v]
      ensures Valid() ==> d.Valid() && (k in keys ==> d.keys == keys) && (k !in keys ==> d.keys == keys + [k])
    {
      Dict(if k in values then keys else keys + [k], values[k := v])
    }

    /** `list(d.values())`. */
    function Items(): (r: seq<V>)
      requires Valid()
      ensures |r| == |keys| && forall i :: 0 <= i < |keys| ==> r[i] == values[keys[i]]
    {
      seq(|keys|, i requires 0 <= i < |keys| => values[keys[i]])
    }
  }

  function EmptyDict<K(!new), V>(): Dict<K, V> {
    Dict([], map[])
  }

  /** The dict after `d[k] = v` for each pair in turn. */
  function PutAll<K(!new), V>(d: Dict<K, V>, pairs: seq<(K, V)>): Dict<K, V> {
    if pairs == [] then d
    else PutAll(d, pairs[..|pairs| - 1]).Put(pairs[|pairs| - 1].0, pairs[|pairs| - 1].1)
  }

  function KeyOf<K, V>(p: (K, V)): Option<K> {
    Some(p.0)
  }

  /** Writing two runs of pairs is writing the first and then the second. */
  lemma {:induction false} PutAllConcat<K(!new), V>(d: Dict<K, V>, a: seq<(K, V)>, b: seq<(K, V)>)
    ensures PutAll(d, a + b) == PutAll(PutAll(d, a), b)
  {
    if b == [] {
      assert a + b == a;
    } else {
      var init := b[..|b| - 1];
      PutAllConcat(d, a, init);
      assert (a + b)[..|a + b| - 1] == a + init;
    }
  }

  /** Taking one more element of a sequence appends that element. */
  lemma TakeSnoc<T>(s: seq<T>, k: int)
    requires 0 <= k < |s|
    ensures s[..k + 1] == s[..k] + [s[k]]
  {
  }

  /** The last element of a concatenation, and what comes before it. */
  lemma SplitLast<T>(a: seq<T>, b: seq<T>)
    requires b != []
    ensures (a + b)[..|a + b| - 1] == a + b[..|b| - 1]
    ensures (a + b)[|a + b| - 1] == b[|b| - 1]
  {
  }

  /** One more pair of a run is one more `d[k] = v`. */
  lemma PutAllStep<K(!new), V>(d: Dict<K, V>, pairs: seq<(K, V)>, j: int)
    requires 0 <= j < |pairs|
    ensures PutAll(d, pairs[..j + 1]) == PutAll(d, pairs[..j]).Put(pairs[j].0, pairs[j].1)
  {
    assert pairs[..j + 1][..j] == pairs[..j];
  }

  /** Filling an empty dict keeps it valid, with its keys in the order they were first written. */
  lemma {:induction false} PutAllKeys<K(!new), V>(pairs: seq<(K, V)>)
    ensures PutAll(EmptyDict(), pairs).Valid()
    ensures PutAll(EmptyDict(), pairs).keys == FirstSeen(pairs, KeyOf)
  {
    if pairs != [] {
      var init := pairs[..|pairs| - 1];
      PutAllKeys(init);
    }
  }

  /** The entries of the filled dict are pairs written, and every key written is there. */
  lemma {:induction false} PutAllDomain<K(!new), V>(pairs: seq<(K, V)>)
    ensures forall k :: k in PutAll(EmptyDict(), pairs).values ==>
      exists i :: 0 <= i < |pairs| && pairs[i] == (k, PutAll(EmptyDict(), pairs).values[k])
    ensures forall i :: 0 <= i < |pairs| ==> pairs[i].0 in PutAll(EmptyDict(), pairs).values
  {
    if pairs != [] {
      var init := pairs[..|pairs| - 1];
      var last := pairs[|pairs| - 1];
      PutAllDomain(init);
      var d := PutAll(EmptyDict(), pairs);
      assert d.values == PutAll(EmptyDict(), init).values[last.0 := last.1];
      forall k | k in d.values
        ensures exists i :: 0 <= i < |pairs| && pairs[i] == (k, d.values[k])
      {
        if k != last.0 {
          var i :| 0 <= i < |init| && init[i] == (k, PutAll(EmptyDict(), init).values[k]);
          assert pairs[i] == init[i];
        } else {
          assert pairs[|pairs| - 1] == (k, d.values[k]);
        }
      }
      forall i | 0 <= i < |init|
        ensures pairs[i] == init[i]
      {
      }
    }
  }

  /** Each key holds the value of its last write. */
  lemma {:induction false} PutAllLast<K(!new), V>(pairs: seq<(K, V)>, i: int)
    requires 0 <= i < |pairs| && forall j :: i < j < |pairs| ==> pairs[j].0 != pairs[i].0
    ensures pairs[i].0 in PutAll(EmptyDict(), pairs).values
    ensures PutAll(EmptyDict(), pairs).values[pairs[i].0] == pairs[i].1
  {
    var init := pairs[..|pairs| - 1];
    if i < |init| {
      assert pairs[i] == init[i];
      assert forall j :: i < j < |init| ==> init[j] == pairs[j];
      PutAllLast(init, i);
    }
  }

  /** Sum of a sequence of reals (pandas `sum`, Python `sum`). */
  function Sum(xs: seq<real>): real {
    if xs == [] then 0.0 else Sum(xs[..|xs| - 1]) + xs[|xs| - 1]
  }

  /** Python's `int(x)` on a float: truncation toward zero. */
  function Trunc(x: real): (r: int)
    ensures x >= 0.0 ==> r == x.Floor
    ensures x < 0.0 ==> r == -((-x).Floor)
    ensures (r as real) <= x < (r as real) + 1.0 || (r as real) - 1.0 < x <= (r as real)
  {
    if x >= 0.0 then x.Floor else -((-x).Floor)
  }

  /** Python's `%` on floats (floored modulo), for a positive modulus. */
  function FMod(x: real, m: real): (r: real)
    requires m > 0.0
    ensures 0.0 <= r < m
  {
    var q := x / m;
    var f := q.Floor as real;
    assert x == m * q;
    assert 0.0 <= q - f < 1.0;
    var d := q - f;
    assert m * d < m * 1.0 by { assert m * (1.0 - d) > 0.0; }
    assert x - m * f == m * d;
    x - m * f
  }
}

/**
 * Character and string helpers (Python `str` methods). White space is the full `str.isspace()`
 * set; only the case mapping is limited to ASCII and Latin-1.
 */
module Text {
  import opened Common

  /**
   * Whitespace removed by Python's `str.strip()`: the characters `str.isspace()` accepts (the
   * ASCII controls 9-13 and 28-31, space, next line, no-break space and the Unicode spaces and
   * separators).
   */
  predicate IsSpace(c: char) {
    || c == ' ' || '\t' <= c <= '\r' || '\U{001C}' <= c <= '\U{001F}'
    || c == '\U{0085}' || c == '\U{00A0}' || c == '\U{1680}' || '\U{2000}' <= c <= '\U{200A}'
    || c == '\U{2028}' || c == '\U{2029}' || c == '\U{202F}' || c == '\U{205F}' || c == '\U{3000}'
  }

  function StripLeft(s: string): (r: string)
    ensures |r| <= |s|
    ensures r == [] || !IsSpace(r[0])
  {
    if s != [] && IsSpace(s[0]) then StripLeft(s[1..]) else s
  }

  function StripRight(s: string): (r: string)
    ensures |r| <= |s|
    ensures r == [] || !IsSpace(r[|r| - 1])
  {
    if s != [] && IsSpace(s[|s| - 1]) then StripRight(s[..|s| - 1]) else s
  }

  /** `str.strip()`: no leading or trailing whitespace. */
  function Strip(s: string): (r: string)
    ensures |r| <= |s|
    ensures r == [] || (!IsSpace(r[0]) && !IsSpace(r[|r| - 1]))
  {
    var l := StripLeft(s);
    StripRightPrefix(l);
    StripRight(l)
  }

  /** What `StripLeft` removes is whitespace and what it keeps is a suffix of `s`. */
  lemma {:induction false} StripLeftSuffix(s: string)
    ensures StripLeft(s) == s[|s| - |StripLeft(s)|..]
    ensures forall i :: 0 <= i < |s| - |StripLeft(s)| ==> IsSpace(s[i])
  {
    if s != [] && IsSpace(s[0]) {
      StripLeftSuffix(s[1..]);
    }
  }

  /** What `StripRight` removes is whitespace and what it keeps is a prefix of `s`. */
  lemma {:induction false} StripRightPrefix(s: string)
    ensures StripRight(s) == s[..|StripRight(s)|]
    ensures forall i :: |StripRight(s)| <= i < |s| ==> IsSpace(s[i])
  {
    if s != [] && IsSpace(s[|s| - 1]) {
      StripRightPrefix(s[..|s| - 1]);
    }
  }

  lemma StripLeftNoSpace(s: string)
    requires s == [] || !IsSpace(s[0])
    ensures StripLeft(s) == s
  {
  }

  lemma StripRightNoSpace(s: string)
    requires s == [] || !IsSpace(s[|s| - 1])
    ensures StripRight(s) == s
  {
  }

  /** Stripping twice is stripping once. */
  lemma StripIdempotent(s: string)
    ensures Strip(Strip(s)) == Strip(s)
  {
    var r := Strip(s);
    StripLeftNoSpace(r);
    StripRightNoSpace(r);
  }

  /**
   * `str.upper()` on one Latin-1 character: the ASCII and accented small letters move 32 code
   * points down, 'ÿ' becomes 'Ÿ' and the micro sign becomes the Greek capital mu.
   */
  function UpperChar(c: char): (u: char)
    ensures 'a' <= c <= 'z' ==> u as int == c as int - 32
    ensures c == 'ÿ' ==> u == '\U{0178}'
    ensures c == 'µ' ==> u == '\U{039C}'
    ensures !('a' <= c <= 'z') && !('à' <= c <= 'ÿ' && c != '÷') && c != 'µ' ==> u == c
  {
    if 'a' <= c <= 'z' || ('à' <= c <= 'þ' && c != '÷') then (c as int - 32) as char
    else if c == 'ÿ' then '\U{0178}'
    else if c == 'µ' then '\U{039C}'
    else c
  }

  function LowerChar(c: char): (l: char)
    ensures 'A' <= c <= 'Z' ==> l as int == c as int + 32
    ensures !('A' <= c <= 'Z') && !('À' <= c <= 'Þ' && c != '×') ==> l == c
  {
    if 'A' <= c <= 'Z' || ('À' <= c <= 'Þ' && c != '×') then (c as int + 32) as char else c
  }

  /** Upper-casing a character neither creates nor removes whitespace. */
  lemma UpperCharSpace(c: char)
    ensures IsSpace(UpperChar(c)) <==> IsSpace(c)
  {
  }

  /** `str.upper()`, character by character. */
  function Upper(s: string): (r: string)
    ensures |r| == |s|
  {
    if s == [] then [] else [UpperChar(s[0])] + Upper(s[1..])
  }

  /** `str.lower()`, character by character. */
  function Lower(s: string): (r: string)
    ensures |r| == |s|
  {
    if s == [] then [] else [LowerChar(s[0])] + Lower(s[1..])
  }

  /** Each character of `Upper(s)` is the upper-cased character of `s`. */
  lemma {:induction false} UpperAt(s: string)
    ensures forall i :: 0 <= i < |s| ==> Upper(s)[i] == UpperChar(s[i])
  {
    if s != [] {
      UpperAt(s[1..]);
      assert forall i :: 1 <= i < |s| ==> Upper(s)[i] == Upper(s[1..])[i - 1];
    }
  }

  /** Each character of `Lower(s)` is the lower-cased character of `s`. */
  lemma {:induction false} LowerAt(s: string)
    ensures forall i :: 0 <= i < |s| ==> Lower(s)[i] == LowerChar(s[i])
  {
    if s != [] {
      LowerAt(s[1..]);
      assert forall i :: 1 <= i < |s| ==> Lower(s)[i] == Lower(s[1..])[i - 1];
    }
  }

  /** Upper-casing works piecewise. */
  lemma {:induction false} UpperAppend(a: string, b: string)
    ensures Upper(a + b) == Upper(a) + Upper(b)
  {
    if a == [] {
      assert a + b == b;
    } else {
      assert (a + b)[1..] == a[1..] + b;
      UpperAppend(a[1..], b);
    }
  }

  lemma {:induction false} UpperIdempotent(s: string)
    ensures Upper(Upper(s)) == Upper(s)
  {
    if s != [] {
      UpperIdempotent(s[1..]);
      assert UpperChar(UpperChar(s[0])) == UpperChar(s[0]);
    }
  }

  /** Upper-casing does not create or remove whitespace, so it commutes with strip. */
  lemma UpperStripCommute(s: string)
    ensures Strip(Upper(s)) == Upper(Strip(s))
  {
    UpperStripLeft(s);
    UpperStripRight(StripLeft(s));
  }

  lemma {:induction false} UpperStripLeft(s: string)
    ensures StripLeft(Upper(s)) == Upper(StripLeft(s))
  {
    if s != [] {
      UpperCharSpace(s[0]);
      if IsSpace(s[0]) {
        UpperStripLeft(s[1..]);
      }
    }
  }

  lemma {:induction false} UpperStripRight(s: string)
    ensures StripRight(Upper(s)) == Upper(StripRight(s))
  {
    if s != [] {
      var n := |s| - 1;
      assert s == s[..n] + [s[n]];
      UpperAppend(s[..n], [s[n]]);
      UpperCharSpace(s[n]);
      assert Upper(s)[..n] == Upper(s[..n]);
      if IsSpace(s[n]) {
        UpperStripRight(s[..n]);
      }
    }
  }

  predicate IsPrefix(p: string, s: string) {
    |p| <= |s| && s[..|p|] == p
  }

  /** Python's `sub in s`. */
  predicate Contains(s: string, sub: string) {
    IsPrefix(sub, s) || (s != [] && Contains(s[1..], sub))
  }

  /** `sep.join(xs)`. */
  function Join(sep: string, xs: seq<string>): string {
    if xs == [] then ""
    else if |xs| == 1 then xs[0]
    else Join(sep, xs[..|xs| - 1]) + sep + xs[|xs| - 1]
  }

  /** `s.replace(sub, "")`: delete every non-overlapping occurrence, scanning left to right. */
  function RemoveAll(s: string, sub: string): (r: string)
    ensures |r| <= |s|
    ensures sub == [] ==> r == s
    decreases |s|
  {
    if sub == [] || s == [] then s
    else if IsPrefix(sub, s) then RemoveAll(s[|sub|..], sub)
    else [s[0]] + RemoveAll(s[1..], sub)
  }

  function DigitChar(d: nat): char
    requires d < 10
  {
    ('0' as int + d) as char
  }

  /** `str(n)` for a natural number. */
  function NatToString(n: nat): (r: string)
    ensures |r| >= 1 && forall i :: 0 <= i < |r| ==> '0' <= r[i] <= '9'
  {
    if n < 10 then [DigitChar(n)] else NatToString(n / 10) + [DigitChar(n % 10)]
  }

  predicate AllDigits(s: string) {
    forall i :: 0 <= i < |s| ==> '0' <= s[i] <= '9'
  }

  /** The value of a string of decimal digits. */
  function DigitsValue(s: string): nat
    requires AllDigits(s)
  {
    if s == [] then 0 else DigitsValue(s[..|s| - 1]) * 10 + (s[|s| - 1] as int - '0' as int)
  }

  /** Reading back the decimal digits of `n` gives `n`. */
  lemma {:induction false} DigitsValueOfString(n: nat)
    ensures AllDigits(NatToString(n)) && DigitsValue(NatToString(n)) == n
  {
    if n >= 10 {
      DigitsValueOfString(n / 10);
      var s := NatToString(n);
      assert s[..|s| - 1] == NatToString(n / 10);
    }
  }

  /** `k` zero digits. */
  function Zeros(k: nat): (r: string)
    ensures |r| == k && AllDigits(r)
  {
    if k == 0 then [] else Zeros(k - 1) + "0"
  }

  /** Zero digits read as 0. */
  lemma {:induction false} ZerosValue(k: nat)
    ensures DigitsValue(Zeros(k)) == 0
  {
    if k > 0 {
      ZerosValue(k - 1);
      assert Zeros(k)[..k - 1] == Zeros(k - 1);
    }
  }

  /** Leading zeros do not change the value of a digit string. */
  lemma {:induction false} DigitsValueZeros(k: nat, s: string)
    requires AllDigits(s)
    ensures AllDigits(Zeros(k) + s) && DigitsValue(Zeros(k) + s) == DigitsValue(s)
  {
    var t := Zeros(k) + s;
    if s == [] {
      assert t == Zeros(k);
      ZerosValue(k);
    } else {
      DigitsValueZeros(k, s[..|s| - 1]);
      assert t[..|t| - 1] == Zeros(k) + s[..|s| - 1];
      assert t[|t| - 1] == s[|s| - 1];
    }
  }

  /** `str(n)` has one digit below 10, at most two below 100 and at most four below 10000. */
  lemma {:induction false} NatToStringLength(n: nat)
    ensures n < 10 ==> |NatToString(n)| == 1
    ensures n < 100 ==> |NatToString(n)| <= 2
    ensures n < 1000 ==> |NatToString(n)| <= 3
    ensures n < 10000 ==> |NatToString(n)| <= 4
  {
    if n >= 10 {
      NatToStringLength(n / 10);
    }
  }

  /** `n` written with at least `w` digits, zero-padded on the left (`f"{n:0{w}d}"`). */
  function PadDigits(n: nat, w: nat): (r: string)
    ensures AllDigits(r) && DigitsValue(r) == n
    ensures |r| == if |NatToString(n)| < w then w else |NatToString(n)|
  {
    var s := NatToString(n);
    DigitsValueOfString(n);
    var k := if |s| < w then w - |s| else 0;
    DigitsValueZeros(k, s);
    Zeros(k) + s
  }

  /** `lstrip()` takes off leading white space and stops at the first other character. */
  lemma {:induction false} StripLeftSpaces(lead: string, s: string)
    requires forall i :: 0 <= i < |lead| ==> IsSpace(lead[i])
    requires s == [] || !IsSpace(s[0])
    ensures StripLeft(lead + s) == s
  {
    if lead != [] {
      StripLeftSpaces(lead[1..], s);
      assert (lead + s)[1..] == lead[1..] + s;
    }
  }

  /** `rstrip()` takes off trailing white space and stops at the last other character. */
  lemma {:induction false} StripRightSpaces(s: string, trail: string)
    requires forall i :: 0 <= i < |trail| ==> IsSpace(trail[i])
    requires s == [] || !IsSpace(s[|s| - 1])
    ensures StripRight(s + trail) == s
  {
    if trail != [] {
      var init := trail[..|trail| - 1];
      StripRightSpaces(s, init);
      assert (s + trail)[..|s + trail| - 1] == s + init;
    }
  }

  /** `strip()` of a text between white space is that text, when it starts and ends with another character. */
  lemma StripSurrounded(lead: string, core: string, trail: string)
    requires forall i :: 0 <= i < |lead| ==> IsSpace(lead[i])
    requires forall i :: 0 <= i < |trail| ==> IsSpace(trail[i])
    requires core != [] && !IsSpace(core[0]) && !IsSpace(core[|core| - 1])
    ensures Strip(lead + core + trail) == core
  {
    assert lead + core + trail == lead + (core + trail);
    StripLeftSpaces(lead, core + trail);
    StripRightSpaces(core, trail);
  }

  /**
   * Python's `int(s)` on a string: surrounding white space is ignored, one optional sign, then at
   * least one decimal digit. Underscores between digits are not modelled.
   */
  function PyInt(s: string): (r: Option<int>)
    ensures var t := Strip(s);
      r.Some? <==> (AllDigits(t) && t != []) || (t != [] && (t[0] == '+' || t[0] == '-') && AllDigits(t[1..]) && |t| > 1)
  {
    var t := Strip(s);
    if t != [] && AllDigits(t) then Some(DigitsValue(t))
    else if |t| > 1 && t[0] == '+' && AllDigits(t[1..]) then Some(DigitsValue(t[1..]))
    else if |t| > 1 && t[0] == '-' && AllDigits(t[1..]) then Some(0 - DigitsValue(t[1..]) as int)
    else None
  }

  /** `int(str(n)) == n`. */
  lemma PyIntOfString(n: nat)
    ensures PyInt(NatToString(n)) == Some(n)
  {
    var s := NatToString(n);
    DigitsValueOfString(n);
    StripLeftNoSpace(s);
    StripRightNoSpace(s);
  }

  /**
   * `int()` of white space, an optional sign, leading zeros, the digits of `n` and white space
   * again reads `n`, negated after a minus sign.
   */
  lemma PyIntWritten(lead: string, sign: string, zeros: nat, n: nat, trail: string)
    requires forall i :: 0 <= i < |lead| ==> IsSpace(lead[i])
    requires forall i :: 0 <= i < |trail| ==> IsSpace(trail[i])
    requires sign == "" || sign == "+" || sign == "-"
    ensures PyInt(lead + sign + Zeros(zeros) + NatToString(n) + trail) == Some(if sign == "-" then -(n as int) else n as int)
  {
    var digits := Zeros(zeros) + NatToString(n);
    assert AllDigits(digits) && DigitsValue(digits) == n by {
      DigitsValueOfString(n);
      DigitsValueZeros(zeros, NatToString(n));
    }
    assert lead + sign + Zeros(zeros) + NatToString(n) + trail == lead + sign + digits + trail;
    PyIntSigned(lead, sign, digits, trail);
  }

  /** `int()` of an optional sign and decimal digits between white space. */
  lemma PyIntSigned(lead: string, sign: string, digits: string, trail: string)
    requires forall i :: 0 <= i < |lead| ==> IsSpace(lead[i])
    requires forall i :: 0 <= i < |trail| ==> IsSpace(trail[i])
    requires sign == "" || sign == "+" || sign == "-"
    requires digits != [] && AllDigits(digits)
    ensures PyInt(lead + sign + digits + trail)
      == Some(if sign == "-" then -(DigitsValue(digits) as int) else DigitsValue(digits) as int)
  {
    var core := sign + digits;
    assert !IsSpace(core[|core| - 1]) && !IsSpace(core[0]) by {
      assert core[|core| - 1] == digits[|digits| - 1];
      assert core[0] == if sign == "" then digits[0] else sign[0];
    }
    StripSurrounded(lead, core, trail);
    assert lead + sign + digits + trail == lead + core + trail;
    PyIntStripped(lead + sign + digits + trail, sign, digits);
  }

  /** `int()` of a text that strips to an optional sign and decimal digits. */
  lemma PyIntStripped(s: string, sign: string, digits: string)
    requires sign == "" || sign == "+" || sign == "-"
    requires digits != [] && AllDigits(digits)
    requires Strip(s) == sign + digits
    ensures PyInt(s) == Some(if sign == "-" then -(DigitsValue(digits) as int) else DigitsValue(digits) as int)
  {
    var core := sign + digits;
    if sign == "+" {
      assert core == ['+'] + digits;
    } else if sign == "-" {
      assert core == ['-'] + digits;
    } else {
      assert core == digits;
    }
  }

  /** `int(" 07")`, `int("+7")` and `int("-7 ")` read 7, 7 and -7. */
  lemma PyIntExample()
    ensures PyInt(" 07") == Some(7) && PyInt("+7") == Some(7) && PyInt("-7 ") == Some(-7)
  {
    PyIntWritten(" ", "", 1, 7, "");
    assert " " + "" + Zeros(1) + NatToString(7) + "" == " 07";
    PyIntWritten("", "+", 0, 7, "");
    assert "" + "+" + Zeros(0) + NatToString(7) + "" == "+7";
    PyIntWritten("", "-", 0, 7, " ");
    assert "" + "-" + Zeros(0) + NatToString(7) + " " == "-7 ";
  }

  /** `int(str(i)) == i` for every integer, negative ones included. */
  lemma PyIntOfIntString(i: int)
    ensures PyInt(IntToString(i)) == Some(i)
  {
    if i < 0 {
      var n: nat := -i;
      var digits := NatToString(n);
      DigitsValueOfString(n);
      assert IntToString(i) == "" + "-" + digits + "";
      PyIntSigned("", "-", digits, "");
    } else {
      PyIntOfString(i);
    }
  }

  /** Python's `s.split(c)` for a one-character separator: always at least one piece. */
  function Split(s: string, c: char): (r: seq<string>)
    ensures |r| >= 1
  {
    if s == [] then [""]
    else
      var rest := Split(s[1..], c);
      if s[0] == c then [""] + rest else [[s[0]] + rest[0]] + rest[1..]
  }

  /** Without the separator the string is one piece. */
  lemma {:induction false} SplitNoSeparator(s: string, c: char)
    requires c !in s
    ensures Split(s, c) == [s]
  {
    if s != [] {
      SplitNoSeparator(s[1..], c);
      assert [s[0]] + s[1..] == s;
    }
  }

  /** One separator between two separator-free strings splits them apart again. */
  lemma {:induction false} SplitOnce(x: string, y: string, c: char)
    requires c !in x && c !in y
    ensures Split(x + [c] + y, c) == [x, y]
  {
    if x == [] {
      assert x + [c] + y == [c] + y;
      assert ([c] + y)[1..] == y;
      SplitNoSeparator(y, c);
    } else {
      SplitOnce(x[1..], y, c);
      assert (x + [c] + y)[1..] == x[1..] + [c] + y;
      assert [x[0]] + x[1..] == x;
    }
  }

  /** A separator-free head and one separator come off the front as the first piece. */
  lemma {:induction false} SplitHead(x: string, z: string, c: char)
    requires c !in x
    ensures Split(x + [c] + z, c) == [x] + Split(z, c)
  {
    if x == [] {
      assert x + [c] + z == [c] + z;
      assert ([c] + z)[1..] == z;
    } else {
      SplitHead(x[1..], z, c);
      assert (x + [c] + z)[1..] == x[1..] + [c] + z;
      assert [x[0]] + x[1..] == x;
    }
  }

  /** Python's `s.replace(c, "")` for one character. */
  function RemoveChar(s: string, c: char): (r: string)
    ensures c !in r && |r| <= |s|
  {
    if s == [] then [] else (if s[0] == c then [] else [s[0]]) + RemoveChar(s[1..], c)
  }

  /** Removing `c` from the concatenation removes it from each part. */
  lemma {:induction false} RemoveCharAppend(a: string, b: string, c: char)
    ensures RemoveChar(a + b, c) == RemoveChar(a, c) + RemoveChar(b, c)
  {
    if a == [] {
      assert a + b == b;
    } else {
      var head := if a[0] == c then [] else [a[0]];
      calc {
        RemoveChar(a + b, c);
        { assert (a + b)[0] == a[0] && (a + b)[1..] == a[1..] + b; }
        head + RemoveChar(a[1..] + b, c);
        { RemoveCharAppend(a[1..], b, c); }
        head + (RemoveChar(a[1..], c) + RemoveChar(b, c));
        (head + RemoveChar(a[1..], c)) + RemoveChar(b, c);
      }
    }
  }

  /** A string without `c` is left as it is. */
  lemma {:induction false} RemoveCharAbsent(s: string, c: char)
    requires c !in s
    ensures RemoveChar(s, c) == s
  {
    if s != [] {
      RemoveCharAbsent(s[1..], c);
      assert [s[0]] + s[1..] == s;
    }
  }

  /** `str(i)` for an integer. */
  function IntToString(i: int): string {
    if i < 0 then "-" + NatToString(-i) else NatToString(i)
  }
}

=== FILE: congestion.dfy ===
/**
 * adjust_station_weights: crowd levels from predicted frequencies, min-max normalised, become a
 * congestion penalty on every station of a copy of the network; each connection's weight grows by
 * a fraction of its destination's penalty.
 */
module Congestion {
  import opened Common
  import opened Digraphs
  import opened Network
  import opened TravelTime

  /** One `predictions` entry: a number, or a forecast table whose `forecast` column is summed. */
  datatype Prediction = Number(value: real) | Forecast(forecast: seq<real>)

  /** One row of the frequency table; `total` is read only when the table has that column. */
  datatype FrequencyRow = FrequencyRow(stationId: int, prediction: Prediction, total: real)

  /**
   * The `frequency_data` argument: a dictionary from station ids to numbers, or a table with the
   * named columns present or not.
   */
  datatype FrequencyData =
    | FromDict(entries: seq<(int, real)>)
    | FromTable(hasStationId: bool, hasPredictions: bool, hasTotal: bool, rows: seq<FrequencyRow>)

  const MissingColumns := "frequency_data DataFrame must contain 'station_id' and 'predictions' columns"
  const MissingNormalizedPredictions := "KeyError: 'normalized_predictions'"
  const MissingNormalized := "KeyError: 'normalized'"
  const IncomparableLoads := "TypeError: forecast tables cannot be compared with numbers"

  /** The numeric load of an entry once forecast tables are summed. */
  function LoadOf(p: Prediction): real {
    match p
    case Number(v) => v
    case Forecast(f) => Sum(f)
  }

  /**
   * The `normalized_predictions` column: `total` when the first entry is a forecast table and the
   * table has a `total` column, otherwise the summed forecasts or the numbers. When the first entry is
   * a number the entries are kept as they are, and a forecast table further down cannot be ordered.
   */
  function Loads(data: FrequencyData): (r: Result<seq<(int, real)>>)
    ensures r.Ok? && data.FromTable? ==> |r.value| == |data.rows|
    ensures r.Ok? && data.FromTable? ==> forall i :: 0 <= i < |data.rows| ==> r.value[i].0 == data.rows[i].stationId
    ensures data.FromDict? ==> r.Fail?
    ensures data.FromTable? && !(data.hasStationId && data.hasPredictions) ==> r == Fail(MissingColumns)
  {
    match data
    case FromDict(entries) =>
      if |entries| > 0 then Fail(MissingNormalizedPredictions) else Fail(MissingNormalized)
    case FromTable(hasId, hasPred, hasTotal, rows) =>
      if !hasId || !hasPred then Fail(MissingColumns)
      else if |rows| > 0 && rows[0].prediction.Forecast? then
        if hasTotal then Ok(seq(|rows|, i requires 0 <= i < |rows| => (rows[i].stationId, rows[i].total)))
        else Ok(seq(|rows|, i requires 0 <= i < |rows| => (rows[i].stationId, LoadOf(rows[i].prediction))))
      else if exists i :: 0 <= i < |rows| && rows[i].prediction.Forecast? then Fail(IncomparableLoads)
      else Ok(seq(|rows|, i requires 0 <= i < |rows| => (rows[i].stationId, rows[i].prediction.value)))
  }

  function MinLoad(xs: seq<(int, real)>): (m: real)
    requires xs != []
    ensures (exists i :: 0 <= i < |xs| && xs[i].1 == m) && forall i :: 0 <= i < |xs| ==> m <= xs[i].1
  {
    if |xs| == 1 then xs[0].1
    else
      var m := MinLoad(xs[1..]);
      assert forall i :: 1 <= i < |xs| ==> xs[i].1 == xs[1..][i - 1].1;
      if xs[0].1 <= m then xs[0].1 else m
  }

  function MaxLoad(xs: seq<(int, real)>): (m: real)
    requires xs != []
    ensures (exists i :: 0 <= i < |xs| && xs[i].1 == m) && forall i :: 0 <= i < |xs| ==> xs[i].1 <= m
  {
    if |xs| == 1 then xs[0].1
    else
      var m := MaxLoad(xs[1..]);
      assert forall i :: 1 <= i < |xs| ==> xs[i].1 == xs[1..][i - 1].1;
      if xs[0].1 >= m then xs[0].1 else m
  }

  /** The min-max level of one load: 0 at the least load, 1 at the greatest, 0.5 when all loads are equal. */
  function Level(x: real, lo: real, hi: real): (r: real)
    requires lo <= x <= hi
    ensures 0.0 <= r <= 1.0
    ensures lo == hi ==> r == 0.5
    ensures lo < hi ==> (r == 0.0 <==> x == lo) && (r == 1.0 <==> x == hi)
  {
    if lo == hi then 0.5
    else
      var d := hi - lo;
      var q := (x - lo) / d;
      assert q * d == x - lo;
      assert q <= 1.0;
      assert q >= 0.0;
      assert q == 1.0 <==> x == hi;
      assert q == 0.0 <==> x == lo;
      q
  }

  /** A larger load never gets a smaller level. */
  lemma LevelMonotone(x: real, y: real, lo: real, hi: real)
    requires lo <= x <= y <= hi
    ensures Level(x, lo, hi) <= Level(y, lo, hi)
  {
    if lo < hi {
      var d := hi - lo;
      var qx, qy := Level(x, lo, hi), Level(y, lo, hi);
      assert qx * d == x - lo && qy * d == y - lo;
      assert (qy - qx) * d == y - x;
      if qy < qx {
        NegTimesPos(qy - qx, d);
      }
    }
  }

  /** A negative number times a positive one is negative. */
  lemma NegTimesPos(a: real, d: real)
    requires a < 0.0 < d
    ensures a * d < 0.0
  {
  }

  /** The `normalized` column: every load replaced by its level between the least and the greatest load. */
  function Normalize(xs: seq<(int, real)>): (r: seq<(int, real)>)
    requires xs != []
    ensures |r| == |xs| && forall i :: 0 <= i < |xs| ==> r[i].0 == xs[i].0 && 0.0 <= r[i].1 <= 1.0
    ensures forall i :: 0 <= i < |xs| ==> r[i].1 == Level(xs[i].1, MinLoad(xs), MaxLoad(xs))
  {
    var lo := MinLoad(xs);
    var hi := MaxLoad(xs);
    seq(|xs|, i requires 0 <= i < |xs| => (xs[i].0, Level(xs[i].1, lo, hi)))
  }

  /** Normalising keeps the order of the loads, sends the least to 0 and the greatest to 1, or all to 0.5. */
  lemma NormalizeOrder(xs: seq<(int, real)>, i: int, j: int)
    requires xs != [] && 0 <= i < |xs| && 0 <= j < |xs|
    ensures xs[i].1 <= xs[j].1 ==> Normalize(xs)[i].1 <= Normalize(xs)[j].1
    ensures MinLoad(xs) == MaxLoad(xs) ==> Normalize(xs)[i].1 == 0.5
    ensures MinLoad(xs) < MaxLoad(xs) ==> (Normalize(xs)[i].1 == 0.0 <==> xs[i].1 == MinLoad(xs))
    ensures MinLoad(xs) < MaxLoad(xs) ==> (Normalize(xs)[i].1 == 1.0 <==> xs[i].1 == MaxLoad(xs))
  {
    if xs[i].1 <= xs[j].1 {
      LevelMonotone(xs[i].1, xs[j].1, MinLoad(xs), MaxLoad(xs));
    }
  }

  /** `dict(zip(station_id, normalized))`: a later row for the same station overrides an earlier one. */
  function ZipToMap(xs: seq<(int, real)>): (m: map<int, real>)
    ensures forall u :: u in m <==> exists i :: 0 <= i < |xs| && xs[i].0 == u
  {
    if xs == [] then map[]
    else
      var m := ZipToMap(xs[..|xs| - 1]);
      assert forall i :: 0 <= i < |xs| - 1 ==> xs[..|xs| - 1][i] == xs[i];
      m[xs[|xs| - 1].0 := xs[|xs| - 1].1]
  }

  lemma {:induction false} ZipLastWins(xs: seq<(int, real)>, i: nat)
    requires i < |xs| && forall j :: i < j < |xs| ==> xs[j].0 != xs[i].0
    ensures ZipToMap(xs)[xs[i].0] == xs[i].1
  {
    if i < |xs| - 1 {
      ZipLastWins(xs[..|xs| - 1], i);
    }
  }

  /** The crowd level per station, or the error the table raises. An empty table never gets a `normalized` column. */
  function CrowdLookup(data: FrequencyData): (r: Result<map<int, real>>)
    ensures r.Ok? ==> forall u :: u in r.value ==> 0.0 <= r.value[u] <= 1.0
  {
    match Loads(data)
    case Fail(e) => Fail(e)
    case Ok(xs) =>
      if xs == [] then Fail(MissingNormalized)
      else
        var levels := Normalize(xs);
        var m := ZipToMap(levels);
        assert forall u :: u in m ==> 0.0 <= m[u] <= 1.0 by {
          forall u | u in m ensures 0.0 <= m[u] <= 1.0 {
            ZipValue(levels, u);
          }
        }
        Ok(m)
  }

  lemma {:induction false} ZipValue(xs: seq<(int, real)>, u: int)
    requires u in ZipToMap(xs)
    ensures exists i :: 0 <= i < |xs| && xs[i].0 == u && ZipToMap(xs)[u] == xs[i].1
  {
    if xs[|xs| - 1].0 != u {
      ZipValue(xs[..|xs| - 1], u);
    }
  }

  /** The lines recorded on the edges leaving or entering `u`. */
  function LinesTouching(edges: map<(int, int), EdgeAttrs>, u: int): set<int> {
    set e | e in edges && (e.0 == u || e.1 == u) && edges[e].line.Some? :: edges[e].line.value
  }

  /** The stations served by more than one line. */
  function TransferStations(net: Net): set<int> {
    set u | u in net.nodes && |LinesTouching(net.edges, u)| > 1
  }

  /** The congestion attributes of a station. */
  function StationWeighting(lookup: map<int, real>, transfers: set<int>, u: int, basePenalty: real, multiplier: real): (w: Weighting)
    ensures w.crowdLevel == (if u in lookup then lookup[u] else 0.0) && w.isTransfer == (u in transfers)
  {
    var crowd := if u in lookup then lookup[u] else 0.0;
    var penalty := basePenalty * crowd;
    Weighting(if u in transfers then penalty * multiplier else penalty, crowd, u in transfers)
  }

  /** Every station gets its congestion attributes; names, coordinates and positions are kept. */
  function PenalizedNodes(nodes: map<int, NodeAttrs>, lookup: map<int, real>, ts: set<int>, basePenalty: real, multiplier: real)
    : (r: map<int, NodeAttrs>)
    ensures r.Keys == nodes.Keys
    ensures forall u :: u in nodes ==> r[u].(weighting := None) == nodes[u].(weighting := None)
  {
    map u | u in nodes :: nodes[u].(weighting := Some(StationWeighting(lookup, ts, u, basePenalty, multiplier)))
  }

  /** The congestion penalty recorded on a station, zero when none is recorded. */
  function DestinationPenalty(nodes: map<int, NodeAttrs>, v: int): real {
    if v in nodes && nodes[v].weighting.Some? then nodes[v].weighting.value.congestionPenalty else 0.0
  }

  /** Every connection's weight grows by `factor` times its destination's penalty; other attributes are kept. */
  function ReweightedEdges(nodes: map<int, NodeAttrs>, edges: map<(int, int), EdgeAttrs>, factor: real)
    : (r: map<(int, int), EdgeAttrs>)
    ensures r.Keys == edges.Keys
    ensures forall e :: e in edges ==> r[e].(weight := 0.0) == edges[e].(weight := 0.0)
  {
    map e | e in edges :: Reweighted(nodes, e, edges[e], factor)
  }

  /** Connection `e` with attributes `a`, its weight grown by `factor` times its destination's penalty. */
  function Reweighted(nodes: map<int, NodeAttrs>, e: (int, int), a: EdgeAttrs, factor: real): EdgeAttrs {
    a.(weight := a.weight + DestinationPenalty(nodes, e.1) * factor)
  }

  /** The adjusted network as a value: same stations, order and connections, new attributes and weights. */
  function Adjusted(net: Net, lookup: map<int, real>, factor: real, basePenalty: real, multiplier: real): (r: Net)
    ensures r.nodes.Keys == net.nodes.Keys && r.order == net.order && r.edges.Keys == net.edges.Keys
  {
    var nodes := PenalizedNodes(net.nodes, lookup, TransferStations(net), basePenalty, multiplier);
    Graph(nodes, net.order, ReweightedEdges(nodes, net.edges, factor))
  }

  /** The transfer-station scan: a station is a transfer when its edges in either direction carry two lines or more. */
  method FindTransferStations(g: StationGraph) returns (ts: set<int>)
    requires g.Valid()
    ensures ts == TransferStations(g.Value())
  {
    ts := {};
    var i := 0;
    while i < |g.order|
      invariant 0 <= i <= |g.order|
      invariant ts == set u | u in g.order[..i] && |LinesTouching(g.edges, u)| > 1
    {
      var u := g.order[i];
      var lines := ConnectedLines(g, u);
      if |lines| > 1 {
        ts := ts + {u};
      }
      assert g.order[..i + 1] == g.order[..i] + [u];
      i := i + 1;
    }
    assert g.order[..i] == g.order;
    assert forall u :: u in g.nodes <==> u in g.order;
  }

  /** The lines on the outgoing and incoming edges of one station. */
  method ConnectedLines(g: StationGraph, u: int) returns (lines: set<int>)
    ensures lines == LinesTouching(g.edges, u)
  {
    lines := {};
    var rest := set e | e in g.edges && (e.0 == u || e.1 == u);
    ghost var seen: set<(int, int)> := {};
    while rest != {}
      invariant seen + rest == set e | e in g.edges && (e.0 == u || e.1 == u)
      invariant seen !! rest
      invariant lines == set e | e in seen && g.edges[e].line.Some? :: g.edges[e].line.value
      decreases rest
    {
      var e := Pick(rest);
      if g.edges[e].line.Some? {
        lines := lines + {g.edges[e].line.value};
      }
      seen := seen + {e};
      rest := rest - {e};
    }
  }

  /** Writes the congestion attributes of every station, in node order. */
  method PenalizeStations(g: StationGraph, lookup: map<int, real>, ts: set<int>, basePenalty: real, multiplier: real)
    requires g.Valid()
    modifies g
    ensures g.Valid() && g.order == old(g.order) && g.edges == old(g.edges)
    ensures g.nodes == PenalizedNodes(old(g.nodes), lookup, ts, basePenalty, multiplier)
  {
    var nodes := PenalizeInOrder(g.nodes, g.order, lookup, ts, basePenalty, multiplier);
    g.nodes := nodes;
  }

  /** The node loop on the attribute map: each station in `order` gets its congestion attributes. */
  method PenalizeInOrder(nodes: map<int, NodeAttrs>, order: seq<int>, lookup: map<int, real>, ts: set<int>, basePenalty: real, multiplier: real)
    returns (r: map<int, NodeAttrs>)
    requires forall u :: u in nodes <==> u in order
    ensures r == PenalizedNodes(nodes, lookup, ts, basePenalty, multiplier)
  {
    ghost var target := PenalizedNodes(nodes, lookup, ts, basePenalty, multiplier);
    r := nodes;
    var i := 0;
    while i < |order|
      invariant 0 <= i <= |order| && r.Keys == nodes.Keys
      invariant forall u :: u in nodes ==> r[u] == if u in order[..i] then target[u] else nodes[u]
    {
      var u := order[i];
      assert order[..i + 1] == order[..i] + [u];
      r := r[u := r[u].(weighting := Some(StationWeighting(lookup, ts, u, basePenalty, multiplier)))];
      i := i + 1;
    }
    assert order[..i] == order;
  }

  /** Adds to every connection `factor` times the congestion penalty of its destination. */
  method ReweightConnections(g: StationGraph, factor: real)
    requires g.Valid()
    modifies g
    ensures g.Valid() && g.order == old(g.order) && g.nodes == old(g.nodes)
    ensures g.edges == ReweightedEdges(old(g.nodes), old(g.edges), factor)
  {
    var edges := ReweightAll(g.nodes, g.edges, factor);
    g.edges := edges;
  }

  /** The edge loop on the attribute map, in an unspecified order. */
  method ReweightAll(nodes: map<int, NodeAttrs>, edges: map<(int, int), EdgeAttrs>, factor: real)
    returns (r: map<(int, int), EdgeAttrs>)
    ensures r == ReweightedEdges(nodes, edges, factor)
  {
    r := edges;
    var rest := edges.Keys;
    while rest != {}
      invariant rest <= edges.Keys && r.Keys == edges.Keys
      invariant forall e :: e in edges ==> r[e] == if e in rest then edges[e] else Reweighted(nodes, e, edges[e], factor)
      decreases rest
    {
      var e := Pick(rest);
      r := r[e := Reweighted(nodes, e, r[e], factor)];
      rest := rest - {e};
    }
  }

  /**
   * adjust_station_weights. The input graph is left unchanged; on success the result is a fresh
   * graph equal to `Adjusted` of the input, and on failure the error the frequency data raises.
   */
  method AdjustStationWeights(g: StationGraph, data: FrequencyData, factor: real, basePenalty: real, multiplier: real)
    returns (r: Result<StationGraph>)
    requires g.Valid()
    ensures r.Fail? <==> CrowdLookup(data).Fail?
    ensures r.Fail? ==> r.error == CrowdLookup(data).error
    ensures r.Ok? ==> (fresh(r.value) && r.value.Valid()
      && r.value.Value() == Adjusted(g.Value(), CrowdLookup(data).value, factor, basePenalty, multiplier))
  {
    var lookup := CrowdLookup(data);
    if lookup.Fail? {
      return Fail(lookup.error);
    }
    var h := g.Copy();
    var ts := FindTransferStations(h);
    PenalizeStations(h, lookup.value, ts, basePenalty, multiplier);
    ReweightConnections(h, factor);
    return Ok(h);
  }

  /**
   * With non-negative crowd levels, penalties and factor, no weight decreases, and a connection
   * into a station with no predicted crowd keeps its weight.
   */
  lemma WeightsNeverDecrease(net: Net, lookup: map<int, real>, factor: real, basePenalty: real, multiplier: real)
    requires net.WellFormed()
    requires factor >= 0.0 && basePenalty >= 0.0 && multiplier >= 0.0
    requires forall u :: u in lookup ==> lookup[u] >= 0.0
    ensures forall e :: e in net.edges ==> Adjusted(net, lookup, factor, basePenalty, multiplier).edges[e].weight >= net.edges[e].weight
    ensures forall e :: e in net.edges && e.1 !in lookup ==>
      Adjusted(net, lookup, factor, basePenalty, multiplier).edges[e].weight == net.edges[e].weight
  {
    forall e | e in net.edges
      ensures Adjusted(net, lookup, factor, basePenalty, multiplier).edges[e].weight >= net.edges[e].weight
      ensures e.1 !in lookup ==> Adjusted(net, lookup, factor, basePenalty, multiplier).edges[e].weight == net.edges[e].weight
    {
      EdgeNeverDecreases(net, lookup, factor, basePenalty, multiplier, e);
    }
  }

  lemma EdgeNeverDecreases(net: Net, lookup: map<int, real>, factor: real, basePenalty: real, multiplier: real, e: (int, int))
    requires e in net.edges && e.1 in net.nodes
    requires factor >= 0.0 && basePenalty >= 0.0 && multiplier >= 0.0
    requires e.1 in lookup ==> lookup[e.1] >= 0.0
    ensures Adjusted(net, lookup, factor, basePenalty, multiplier).edges[e].weight >= net.edges[e].weight
    ensures e.1 !in lookup ==> Adjusted(net, lookup, factor, basePenalty, multiplier).edges[e].weight == net.edges[e].weight
  {
    AddedWeight(net, lookup, factor, basePenalty, multiplier, e);
    var p := ConnectionPenalty(net, lookup, basePenalty, multiplier, e.1);
    PenaltyNonNegative(net, lookup, basePenalty, multiplier, e.1);
    var a := Adjusted(net, lookup, factor, basePenalty, multiplier);
    assert DestinationPenalty(a.nodes, e.1) == p;
    ProductNonNegative(p, factor);
  }

  lemma ProductNonNegative(x: real, y: real)
    requires x >= 0.0 && y >= 0.0
    ensures x * y >= 0.0
  {
  }

  /** A station's penalty is never negative, and is nothing without a crowd level. */
  lemma PenaltyNonNegative(net: Net, lookup: map<int, real>, basePenalty: real, multiplier: real, v: int)
    requires basePenalty >= 0.0 && multiplier >= 0.0
    requires v in lookup ==> lookup[v] >= 0.0
    ensures ConnectionPenalty(net, lookup, basePenalty, multiplier, v) >= 0.0
    ensures v !in lookup ==> ConnectionPenalty(net, lookup, basePenalty, multiplier, v) == 0.0
  {
    var crowd := if v in lookup then lookup[v] else 0.0;
    assert basePenalty * crowd >= 0.0;
    assert (basePenalty * crowd) * multiplier >= 0.0;
  }

  /** The penalty of a station: base penalty times crowd level, times the multiplier at a transfer station. */
  function ConnectionPenalty(net: Net, lookup: map<int, real>, basePenalty: real, multiplier: real, v: int): real {
    var crowd := if v in lookup then lookup[v] else 0.0;
    if v in TransferStations(net) then basePenalty * crowd * multiplier else basePenalty * crowd
  }

  /** The weight added to a connection is `factor` times its destination's recorded penalty. */
  lemma AddedWeight(net: Net, lookup: map<int, real>, factor: real, basePenalty: real, multiplier: real, e: (int, int))
    requires e in net.edges
    ensures var a := Adjusted(net, lookup, factor, basePenalty, multiplier);
      a.edges[e].weight - net.edges[e].weight == DestinationPenalty(a.nodes, e.1) * factor
      && (e.1 in net.nodes ==> (a.nodes[e.1].weighting.Some?
          && a.nodes[e.1].weighting.value.congestionPenalty == ConnectionPenalty(net, lookup, basePenalty, multiplier, e.1)))
      && (e.1 !in net.nodes ==> a.edges[e] == net.edges[e])
  {
  }

  /** The network builder never records a line on a connection, so no station of a built network is a transfer. */
  lemma BuiltNetworkHasNoTransfers(stations: seq<StationRow>, rows: seq<TravelRow>)
    ensures TransferStations(BuildNetwork(stations, rows)) == {}
  {
    var net := BuildNetwork(stations, rows);
    StationKeys(stations);
    NoLinesAdded(AddStations(EmptyGraph(), stations), rows, NextIdsFloat(rows));
    forall u | u in net.nodes
      ensures LinesTouching(net.edges, u) == {}
    {
    }
  }

  lemma {:induction false} NoLinesAdded(g: Net, rs: seq<TravelRow>, floatNext: bool)
    requires forall e :: e in g.edges ==> g.edges[e].line.None?
    ensures forall e :: e in AddConnections(g, rs, floatNext).edges ==> AddConnections(g, rs, floatNext).edges[e].line.None?
  {
    if rs != [] {
      NoLinesAdded(g, rs[..|rs| - 1], floatNext);
    }
  }
}

=== FILE: digraph.dfy ===
/**
 * A directed graph with at most one edge per ordered pair of nodes, as networkx's `DiGraph`
 * keeps it: node attributes, node insertion order and edge attributes.
 */
module Digraphs {

  /** A value snapshot of a graph. `order` lists the nodes in insertion order. */
  datatype Graph<N(==), NA, EA> = Graph(nodes: map<N, NA>, order: seq<N>, edges: map<(N, N), EA>) {

    /** Edge endpoints are nodes; `order` lists each node exactly once. */
    ghost predicate WellFormed() {
      (forall e :: e in edges ==> e.0 in nodes && e.1 in nodes)
      && (forall n :: n in nodes ==> n in order)
      && (forall i :: 0 <= i < |order| ==> order[i] in nodes)
      && (forall i, j :: 0 <= i < j < |order| ==> order[i] != order[j])
    }

    /** `add_node(n, **attrs)`: a new node goes to the end of the order; an existing node keeps its place. */
    function AddNode(n: N, a: NA): (g: Graph<N, NA, EA>)
      ensures g.nodes == nodes[n := a] && g.edges == edges
      ensures n in nodes ==> g.order == order
      ensures n !in nodes ==> g.order == order + [n]
    {
      Graph(nodes[n := a], if n in nodes then order else order + [n], edges)
    }

    /** `add_edge(u, v, **attrs)` on existing nodes: the single (u, v) edge is created or overwritten. */
    function AddEdge(u: N, v: N, a: EA): (g: Graph<N, NA, EA>)
      ensures g.nodes == nodes && g.order == order && g.edges == edges[(u, v) := a]
    {
      Graph(nodes, order, edges[(u, v) := a])
    }
  }

  function EmptyGraph<N(==), NA, EA>(): (g: Graph<N, NA, EA>)
    ensures g.WellFormed() && g.nodes == map[] && g.edges == map[]
  {
    Graph(map[], [], map[])
  }

  lemma AddNodeWellFormed<N, NA, EA>(g: Graph<N, NA, EA>, n: N, a: NA)
    requires g.WellFormed()
    ensures g.AddNode(n, a).WellFormed()
  {
    var h := g.AddNode(n, a);
    if n !in g.nodes {
      assert forall i :: 0 <= i < |g.order| ==> h.order[i] == g.order[i] && g.order[i] in g.nodes;
    }
  }

  lemma AddEdgeWellFormed<N, NA, EA>(g: Graph<N, NA, EA>, u: N, v: N, a: EA)
    requires g.WellFormed() && u in g.nodes && v in g.nodes
    ensures g.AddEdge(u, v, a).WellFormed()
  {
  }

  /** The mutable graph object. */
  class Digraph<N(==), NA, EA> {
    var nodes: map<N, NA>
    var order: seq<N>
    var edges: map<(N, N), EA>

    function Value(): Graph<N, NA, EA>
      reads this
    {
      Graph(nodes, order, edges)
    }

    ghost predicate Valid()
      reads this
    {
      Value().WellFormed()
    }

    constructor ()
      ensures Valid() && Value() == EmptyGraph()
    {
      nodes := map[];
      order := [];
      edges := map[];
    }

    /** A fresh graph object holding a given value, as unpickling produces. */
    constructor FromValue(g: Graph<N, NA, EA>)
      requires g.WellFormed()
      ensures Valid() && Value() == g
    {
      nodes := g.nodes;
      order := g.order;
      edges := g.edges;
    }

    method AddNode(n: N, a: NA)
      requires Valid()
      modifies this
      ensures Valid() && Value() == old(Value()).AddNode(n, a)
    {
      AddNodeWellFormed(Value(), n, a);
      if n !in nodes {
        order := order + [n];
      }
      nodes := nodes[n := a];
    }

    method AddEdge(u: N, v: N, a: EA)
      requires Valid() && u in nodes && v in nodes
      modifies this
      ensures Valid() && Value() == old(Value()).AddEdge(u, v, a)
    {
      AddEdgeWellFormed(Value(), u, v, a);
      edges := edges[(u, v) := a];
    }

    /** `G.copy()`: a fresh graph with the same nodes, order and edges. */
    method Copy() returns (c: Digraph<N, NA, EA>)
      requires Valid()
      ensures fresh(c) && c.Valid() && c.Value() == Value()
    {
      c := new Digraph();
      c.nodes := nodes;
      c.order := order;
      c.edges := edges;
    }
  }
}

=== FILE: graph_builder.dfy ===
/**
 * GraphBuilder: builds the network from the stations and schedules tables, stores it under the
 * configured path and answers door-to-door route requests on it, adding the walk to the nearest
 * station at each end to the network time.
 */
module Builder {
  import opened Common
  import opened Digraphs
  import opened TravelTime
  import opened Network
  import opened Nearest
  import opened Congestion
  import opened RouteGraph
  import opened RouteFinder

  const PathNotSet := "Network path is not set"
  const NoNearbyStation := "Impossible to find a starting or ending station"

  /** The search radius (kilometres) and walking speed (km/h) the route request uses. */
  const MaxWalk := 10.0
  const WalkingSpeed := 4.5

  /** The transfer penalty (minutes) the route request uses. */
  const TransferPenalty := 5.0

  function FileMissing(path: string): string {
    "No such file or directory: " + path
  }

  /** A network the route search accepts: well formed, with non-negative weights. */
  ghost predicate Routable(net: Net) {
    net.WellFormed() && forall e :: e in net.edges ==> net.edges[e].weight >= 0.0
  }

  /** `graph_config.get("network_path", "")`. */
  function NetworkPath(config: map<string, string>): (p: string)
    ensures "network_path" !in config ==> p == ""
  {
    if "network_path" in config then config["network_path"] else ""
  }

  /** The shipped configuration names `base_network_path` and `weighted_network_path` only. */
  function ShippedConfig(basePath: string, weightedPath: string): map<string, string> {
    map["base_network_path" := basePath, "weighted_network_path" := weightedPath]
  }

  /** The result of a route request: walking and network figures, and the route itself. */
  datatype Journey = Journey(
    walkingDistance: real, walkingDuration: real, networkTime: Option<real>, totalTime: Option<real>, route: RouteResult)

  /** The keyword arguments `adjust_station_weights` accepts. */
  const AdjustKeywords: set<string> := {"weight_factor", "base_penalty", "transfer_multiplier"}

  /** The shipped `adjust_station_weights` options. */
  const ShippedAdjustOptions: map<string, real> := map["weight_factor" := 0.1, "min_factor" := 0.5, "max_factor" := 1.5]

  /** The stored network, or the error loading raises. */
  function Stored(files: map<string, Net>, path: string): (r: Result<Net>)
    ensures r.Ok? <==> path != "" && path in files
    ensures path == "" ==> r == Fail(PathNotSet)
  {
    if path == "" then Fail(PathNotSet)
    else if path !in files then Fail(FileMissing(path))
    else Ok(files[path])
  }

  class GraphBuilder {
    /** The configured location of the stored network; empty when not configured. */
    var networkPath: string
    /** The stored networks, by path. */
    var files: map<string, Net>

    ghost predicate Valid()
      reads this
    {
      forall p :: p in files ==> Routable(files[p])
    }

    constructor (config: map<string, string>, disk: map<string, Net>)
      requires forall p :: p in disk ==> Routable(disk[p])
      ensures Valid() && networkPath == NetworkPath(config) && files == disk
    {
      networkPath := NetworkPath(config);
      files := disk;
    }

    /** build_graph: travel times from the schedules, then the network. */
    static method BuildGraph(stations: seq<StationRow>, schedules: seq<ScheduleRow>) returns (g: StationGraph)
      ensures fresh(g) && g.Valid() && g.Value() == BuildNetwork(stations, CalculateTravelTime(schedules))
      ensures Routable(g.Value())
    {
      var rows := CalculateTravelTime(schedules);
      g := CreateTransportNetwork(stations, rows);
      TravelTimeFloor(schedules);
      BuildNetworkWeights(stations, rows);
    }

    /** save_graph: the network is built first; storing it needs a configured path. */
    method SaveGraph(stations: seq<StationRow>, schedules: seq<ScheduleRow>) returns (r: Result<()>)
      requires Valid()
      modifies this
      ensures Valid() && networkPath == old(networkPath)
      ensures r.Fail? <==> networkPath == ""
      ensures r.Fail? ==> r.error == PathNotSet && files == old(files)
      ensures r.Ok? ==> files == old(files)[networkPath := BuildNetwork(stations, CalculateTravelTime(schedules))]
    {
      var g := BuildGraph(stations, schedules);
      if networkPath == "" {
        return Fail(PathNotSet);
      }
      files := files[networkPath := g.Value()];
      return Ok(());
    }

    /** load_graph: a fresh copy of the stored network. */
    method LoadGraph() returns (r: Result<StationGraph>)
      requires Valid()
      ensures r.Fail? <==> Stored(files, networkPath).Fail?
      ensures r.Fail? ==> r.error == Stored(files, networkPath).error
      ensures r.Ok? ==> fresh(r.value) && r.value.Valid() && r.value.Value() == files[networkPath]
    {
      if networkPath == "" {
        return Fail(PathNotSet);
      }
      if networkPath !in files {
        return Fail(FileMissing(networkPath));
      }
      var g := new Digraph.FromValue(files[networkPath]);
      return Ok(g);
    }

    /**
     * find_optimal_route between two points, given their distance functions: the nearest station to
     * each point within walking range, then the network route between exactly those two stations.
     */
    method FindOptimalRoute(startDist: (real, real) -> real, endDist: (real, real) -> real)
      returns (r: Result<Journey>, ghost startAt: int, ghost endAt: int, ghost pe: seq<XNode>, ghost xe: map<(XNode, XNode), XEdge>)
      requires Valid()
      ensures Stored(files, networkPath).Fail? ==> r == Fail(Stored(files, networkPath).error)
      ensures Stored(files, networkPath).Ok? ==>
        var net := files[networkPath];
        (r.Fail? <==> ((forall u :: u in net.nodes ==> !InRange(net, startDist, MaxWalk, u))
                       || (forall u :: u in net.nodes ==> !InRange(net, endDist, MaxWalk, u))))
        && (r.Fail? ==> r.error == NoNearbyStation)
        && (r.Ok? ==> JourneyOutcome(net, startDist, endDist, r.value, startAt, endAt, pe, xe))
    {
      var loaded := LoadGraph();
      if loaded.Fail? {
        return Fail(loaded.error), 0, 0, [], map[];
      }
      r, startAt, endAt, pe, xe := PlanJourney(loaded.value, startDist, endDist);
    }

    /**
     * GraphBuilder.adjust_station_weights: the stored network with the configured options passed as
     * keyword arguments; an option the function does not accept raises `TypeError`.
     */
    method AdjustStationWeights(data: FrequencyData, options: map<string, real>) returns (r: Result<StationGraph>)
      requires Valid()
      ensures Stored(files, networkPath).Fail? ==> r == Fail(Stored(files, networkPath).error)
      ensures Stored(files, networkPath).Ok? && !(options.Keys <= AdjustKeywords) ==> r.Fail?
      ensures Stored(files, networkPath).Ok? && options.Keys <= AdjustKeywords ==>
        var lookup := CrowdLookup(data);
        (r.Fail? <==> lookup.Fail?)
        && (r.Ok? ==> (fresh(r.value) && r.value.Valid()
              && r.value.Value() == Adjusted(files[networkPath], lookup.value,
                   Keyword(options, "weight_factor", 0.1), Keyword(options, "base_penalty", 5.0),
                   Keyword(options, "transfer_multiplier", 2.0))))
    {
      var loaded := LoadGraph();
      if loaded.Fail? {
        return Fail(loaded.error);
      }
      if !(options.Keys <= AdjustKeywords) {
        return Fail("TypeError: adjust_station_weights() got an unexpected keyword argument");
      }
      r := Congestion.AdjustStationWeights(loaded.value, data,
        Keyword(options, "weight_factor", 0.1), Keyword(options, "base_penalty", 5.0), Keyword(options, "transfer_multiplier", 2.0));
    }
  }

  /** The route request on a loaded network. */
  method PlanJourney(g: StationGraph, startDist: (real, real) -> real, endDist: (real, real) -> real)
    returns (r: Result<Journey>, ghost startAt: int, ghost endAt: int, ghost pe: seq<XNode>, ghost xe: map<(XNode, XNode), XEdge>)
    requires g.Valid() && Routable(g.Value())
    ensures r.Fail? <==> ((forall u :: u in g.nodes ==> !InRange(g.Value(), startDist, MaxWalk, u))
                          || (forall u :: u in g.nodes ==> !InRange(g.Value(), endDist, MaxWalk, u)))
    ensures r.Fail? ==> r.error == NoNearbyStation
    ensures r.Ok? ==> JourneyOutcome(g.Value(), startDist, endDist, r.value, startAt, endAt, pe, xe)
  {
    var s := FindNearestStation(g, startDist, MaxWalk, WalkingSpeed);
    var e := FindNearestStation(g, endDist, MaxWalk, WalkingSpeed);
    if !s.Station? || !e.Station? {
      return Fail(NoNearbyStation), 0, 0, [], map[];
    }
    ghost var net := g.Value();
    startAt :| NearestAt(net, startDist, MaxWalk, startAt) && net.order[startAt] == s.station.stationId;
    endAt :| NearestAt(net, endDist, MaxWalk, endAt) && net.order[endAt] == e.station.stationId;
    var route;
    route, pe, xe := RouteFinder.FindOptimalRoute(g.Value(), s.station.stationId, e.station.stationId, TransferPenalty);
    var walkingDuration := s.station.walkingDuration + e.station.walkingDuration;
    r := Ok(Journey(s.station.walkingDistance + e.station.walkingDistance, walkingDuration,
                    NetworkTime(route), TotalTime(walkingDuration, route), route));
    JourneyIntro(net, startDist, endDist, r.value, startAt, endAt, pe, xe);
  }

  /** The network time: the route's length, or infinity (`None`) when there is no route. */
  function NetworkTime(route: RouteResult): (t: Option<real>)
    ensures t.Some? <==> route.Found?
    ensures route.Found? ==> t.value == route.length
  {
    if route.Found? then Some(route.length) else None
  }

  /** Walking time plus network time; infinite when the network time is. */
  function TotalTime(walking: real, route: RouteResult): (t: Option<real>)
    ensures t.Some? <==> route.Found?
    ensures route.Found? ==> t.value - walking == route.length
  {
    if route.Found? then Some(walking + route.length) else None
  }

  lemma JourneyIntro(net: Net, startDist: (real, real) -> real, endDist: (real, real) -> real,
                     j: Journey, startAt: int, endAt: int, pe: seq<XNode>, xe: map<(XNode, XNode), XEdge>)
    requires net.WellFormed()
    requires NearestAt(net, startDist, MaxWalk, startAt) && NearestAt(net, endDist, MaxWalk, endAt)
    requires j.walkingDistance == Distance(net, startDist, net.order[startAt]) + Distance(net, endDist, net.order[endAt])
    requires j.walkingDuration == WalkingMinutes(Distance(net, startDist, net.order[startAt]), WalkingSpeed)
                                  + WalkingMinutes(Distance(net, endDist, net.order[endAt]), WalkingSpeed)
    requires SearchOutcome(net, TransferPenalty, net.order[startAt], net.order[endAt], j.route, pe, xe)
    requires j.networkTime == NetworkTime(j.route) && j.totalTime == TotalTime(j.walkingDuration, j.route)
    ensures JourneyOutcome(net, startDist, endDist, j, startAt, endAt, pe, xe)
  {
  }

  /** A keyword argument, or its default. */
  function Keyword(options: map<string, real>, key: string, default: real): real {
    if key in options then options[key] else default
  }

  /**
   * What a successful route request promises: the two stations are the nearest ones, the walking
   * figures are the sums of both walks, and the network part is the route search between those two
   * stations; the total time is the walking time plus the network time, which is infinite when no
   * route exists.
   */
  ghost predicate JourneyOutcome(net: Net, startDist: (real, real) -> real, endDist: (real, real) -> real,
                                 j: Journey, startAt: int, endAt: int, pe: seq<XNode>, xe: map<(XNode, XNode), XEdge>)
    requires net.WellFormed()
  {
    NearestAt(net, startDist, MaxWalk, startAt) && NearestAt(net, endDist, MaxWalk, endAt)
    && var s, e := net.order[startAt], net.order[endAt];
    && j.walkingDistance == Distance(net, startDist, s) + Distance(net, endDist, e)
    && j.walkingDuration == WalkingMinutes(Distance(net, startDist, s), WalkingSpeed) + WalkingMinutes(Distance(net, endDist, e), WalkingSpeed)
    && SearchOutcome(net, TransferPenalty, s, e, j.route, pe, xe)
    && j.networkTime == NetworkTime(j.route) && j.totalTime == TotalTime(j.walkingDuration, j.route)
  }

  /** With the shipped configuration no network path is set, so every load, and every request built on it, fails. */
  lemma ShippedConfigNeverLoads(basePath: string, weightedPath: string, files: map<string, Net>)
    ensures NetworkPath(ShippedConfig(basePath, weightedPath)) == ""
    ensures Stored(files, NetworkPath(ShippedConfig(basePath, weightedPath))) == Fail(PathNotSet)
  {
    assert "network_path" != "base_network_path";
    assert "network_path" !in ShippedConfig(basePath, weightedPath);
  }

  /** The shipped options include keywords `adjust_station_weights` does not accept. */
  lemma ShippedOptionsRejected()
    ensures !(ShippedAdjustOptions.Keys <= AdjustKeywords)
  {
    assert "min_factor" in ShippedAdjustOptions.Keys;
    assert "min_factor" !in AdjustKeywords;
  }
}

=== FILE: line_codes.dfy ===
/**
 * Paris line codes: the five line tables (metro, RER, Transilien, tram, special), lookups that
 * ignore case and surrounding whitespace, and the extraction of a known code from free text.
 * The lookups take the table set as a parameter `t` (the class attributes they read through
 * `cls`); `Paris` is the shipped set.
 */
module LineCodes {
  import opened Common
  import opened Text

  datatype LineInfo = LineInfo(name: string, color: string, textColor: string, id: string)

  const MetroLines: map<string, LineInfo> := map[
    "1" := LineInfo("1", "#ffbe00", "#000000", "C01371"),
    "2" := LineInfo("2", "#0055c8", "#ffffff", "C01372"),
    "3" := LineInfo("3", "#6e6e00", "#ffffff", "C01373"),
    "3B" := LineInfo("3B", "#6ec4e8", "#000000", "C01386"),
    "4" := LineInfo("4", "#a0006e", "#ffffff", "C01374"),
    "5" := LineInfo("5", "#ff7e2e", "#000000", "C01375"),
    "6" := LineInfo("6", "#6eca97", "#000000", "C01376"),
    "7" := LineInfo("7", "#f49fb3", "#000000", "C01377"),
    "7B" := LineInfo("7B", "#6eca97", "#000000", "C01387"),
    "8" := LineInfo("8", "#d282be", "#000000", "C01378"),
    "9" := LineInfo("9", "#b6bd00", "#000000", "C01379"),
    "10" := LineInfo("10", "#c9910d", "#000000", "C01380"),
    "11" := LineInfo("11", "#704b1c", "#ffffff", "C01381"),
    "12" := LineInfo("12", "#007852", "#ffffff", "C01382"),
    "13" := LineInfo("13", "#6ec4e8", "#000000", "C01383"),
    "14" := LineInfo("14", "#62259d", "#ffffff", "C01384")]

  const RerLines: map<string, LineInfo> := map[
    "A" := LineInfo("A", "#eb2132", "#ffffff", "C01742"),
    "B" := LineInfo("B", "#5091cb", "#ffffff", "C01743"),
    "C" := LineInfo("C", "#ffcc30", "#000000", "C01727"),
    "D" := LineInfo("D", "#008b5b", "#ffffff", "C01728"),
    "E" := LineInfo("E", "#b94e9a", "#ffffff", "C01729")]

  const TransilienLines: map<string, LineInfo> := map[
    "H" := LineInfo("H", "#84653d", "#ffffff", "C01737"),
    "J" := LineInfo("J", "#cec73d", "#000000", "C01739"),
    "K" := LineInfo("K", "#9b9842", "#ffffff", "C01738"),
    "L" := LineInfo("L", "#c4a4cc", "#000000", "C01740"),
    "N" := LineInfo("N", "#00b297", "#ffffff", "C01736"),
    "P" := LineInfo("P", "#f58f53", "#000000", "C01730"),
    "R" := LineInfo("R", "#f49fb3", "#000000", "C01731"),
    "U" := LineInfo("U", "#b6134c", "#ffffff", "C01741"),
    "V" := LineInfo("V", "#9f9825", "#ffffff", "C02711")]

  const TramLines: map<string, LineInfo> := map[
    "T1" := LineInfo("T1", "#003ca6", "#ffffff", "C01389"),
    "T2" := LineInfo("T2", "#cf009e", "#ffffff", "C01390"),
    "T3A" := LineInfo("T3a", "#ff7e2e", "#000000", "C01391"),
    "T3B" := LineInfo("T3b", "#00ae41", "#ffffff", "C01679"),
    "T4" := LineInfo("T4", "#dfaf47", "#000000", "C01843"),
    "T5" := LineInfo("T5", "#62259d", "#ffffff", "C01684"),
    "T6" := LineInfo("T6", "#e2231a", "#ffffff", "C01794"),
    "T7" := LineInfo("T7", "#704b1c", "#ffffff", "C01774"),
    "T8" := LineInfo("T8", "#837902", "#000000", "C01795"),
    "T9" := LineInfo("T9", "#5091cb", "#ffffff", "C02317"),
    "T10" := LineInfo("T10", "#6e6e00", "#ffffff", "C02528"),
    "T11" := LineInfo("T11", "#f58f53", "#000000", "C01999"),
    "T12" := LineInfo("T12", "#a50034", "#000000", "C02529"),
    "T13" := LineInfo("T13", "#8d653d", "#000000", "C02344"),
    "T14" := LineInfo("T14", "#00a092", "#000000", "C02732")]

  const SpecialLines: map<string, LineInfo> := map[
    "ORLYVAL" := LineInfo("ORLYVAL", "#5ec5ed", "#ffffff", "C01388"),
    "CDGVAL" := LineInfo("CDG VAL", "#5cc5ed", "#ffffff", "C00563")]

  /** The class attributes a lookup reads. */
  datatype Tables = Tables(
    metro: map<string, LineInfo>, rer: map<string, LineInfo>, transilien: map<string, LineInfo>,
    tram: map<string, LineInfo>, special: map<string, LineInfo>)
  {
    /** The merged table, `{**metro, **rer, **transilien, **tram, **special}`: a later table wins on a shared key. */
    function All(): map<string, LineInfo> {
      metro + rer + transilien + tram + special
    }

    /** No two tables share a key. */
    predicate Disjoint() {
      metro.Keys !! rer.Keys && metro.Keys !! transilien.Keys && metro.Keys !! tram.Keys && metro.Keys !! special.Keys
      && rer.Keys !! transilien.Keys && rer.Keys !! tram.Keys && rer.Keys !! special.Keys
      && transilien.Keys !! tram.Keys && transilien.Keys !! special.Keys
      && tram.Keys !! special.Keys
    }
  }

  const Paris := Tables(MetroLines, RerLines, TransilienLines, TramLines, SpecialLines)

  /** `str(code).strip().upper()`. */
  function Normalize(code: string): string {
    Upper(Strip(code))
  }

  /** The merged table's entry for an already normalised key. */
  function Find(t: Tables, c: string): (r: Option<LineInfo>)
    ensures r.Some? <==> c in t.All()
  {
    if c in t.All() then Some(t.All()[c]) else None
  }

  /** The first table, in the order metro, RER, Transilien, tram, special, that has an already normalised key. */
  function KindOf(t: Tables, c: string): string {
    if c in t.metro then "metro"
    else if c in t.rer then "rer"
    else if c in t.transilien then "transilien"
    else if c in t.tram then "tram"
    else if c in t.special then "special"
    else "unknown"
  }

  /** get_line_info: nothing for an empty code, otherwise the merged table's entry for the normalised code. */
  function GetLineInfo(t: Tables, code: string): (r: Option<LineInfo>)
    ensures r.Some? <==> code != "" && Normalize(code) in t.All()
    ensures r.Some? ==> r.value == t.All()[Normalize(code)]
  {
    if code == "" then None else Find(t, Normalize(code))
  }

  /** get_line_color: the colour of a known line, nothing for an unknown one. */
  function GetLineColor(t: Tables, code: string): (r: Option<string>)
    ensures r.Some? <==> GetLineInfo(t, code).Some?
    ensures r.Some? ==> r.value == GetLineInfo(t, code).value.color
  {
    match GetLineInfo(t, code)
    case Some(info) => Some(info.color)
    case None => None
  }

  /** get_transport_type: "unknown" for an empty code, otherwise the kind of the normalised code. */
  function GetTransportType(t: Tables, code: string): (r: string)
    ensures r == "metro" || r == "rer" || r == "transilien" || r == "tram" || r == "special" || r == "unknown"
    ensures r == "unknown" ==> GetLineInfo(t, code).None?
  {
    if code == "" then "unknown" else KindOf(t, Normalize(code))
  }

  /** Every key of a table has the shape its line kind uses: metro keys start with a digit, tram keys with T and a digit. */
  predicate MetroKey(k: string) { |k| >= 1 && '0' <= k[0] <= '9' }
  predicate RerKey(k: string) { |k| == 1 && 'A' <= k[0] <= 'E' }
  predicate TransilienKey(k: string) { |k| == 1 && 'H' <= k[0] <= 'V' }
  predicate TramKey(k: string) { |k| >= 2 && k[0] == 'T' && '0' <= k[1] <= '9' }
  predicate SpecialKey(k: string) { |k| >= 6 }

  lemma MetroKeys() ensures forall k :: k in MetroLines ==> MetroKey(k) {}
  lemma RerKeys() ensures forall k :: k in RerLines ==> RerKey(k) {}
  lemma TransilienKeys() ensures forall k :: k in TransilienLines ==> TransilienKey(k) {}
  lemma TramKeys() ensures forall k :: k in TramLines ==> TramKey(k) {}
  lemma SpecialKeys() ensures forall k :: k in SpecialLines ==> SpecialKey(k) {}

  /** The shipped tables share no key, so the merge order never matters for them. */
  lemma ParisDisjoint()
    ensures Paris.Disjoint()
  {
    MetroKeysUnshared();
    RerKeysUnshared();
    TransilienKeysUnshared();
    TramKeysUnshared();
  }

  lemma MetroKeysUnshared()
    ensures MetroLines.Keys !! RerLines.Keys && MetroLines.Keys !! TransilienLines.Keys
    ensures MetroLines.Keys !! TramLines.Keys && MetroLines.Keys !! SpecialLines.Keys
  {
    MetroKeys();
    RerKeys();
    TransilienKeys();
    TramKeys();
    SpecialKeys();
  }

  lemma RerKeysUnshared()
    ensures RerLines.Keys !! TransilienLines.Keys && RerLines.Keys !! TramLines.Keys && RerLines.Keys !! SpecialLines.Keys
  {
    RerKeys();
    TransilienKeys();
    TramKeys();
    SpecialKeys();
  }

  lemma TransilienKeysUnshared()
    ensures TransilienLines.Keys !! TramLines.Keys && TransilienLines.Keys !! SpecialLines.Keys
  {
    TransilienKeys();
    TramKeys();
    SpecialKeys();
  }

  lemma TramKeysUnshared()
    ensures TramLines.Keys !! SpecialLines.Keys
  {
    TramKeys();
    SpecialKeys();
  }

  /** A key has kind "unknown" exactly when the merged table lacks it, whatever the tables. */
  lemma UnknownKindIffNotFound(t: Tables, c: string)
    ensures KindOf(t, c) == "unknown" <==> Find(t, c).None?
  {
  }

  /** The transport type is "unknown" exactly when the line is unknown, whatever the tables. */
  lemma UnknownTypeIffUnknownLine(t: Tables, code: string)
    ensures GetTransportType(t, code) == "unknown" <==> GetLineInfo(t, code).None?
  {
    if code != "" {
      UnknownKindIffNotFound(t, Normalize(code));
    }
  }

  /** With disjoint tables the merged table holds, for a key, the entry of the table its kind names. */
  lemma KindNamesTable(t: Tables, c: string)
    requires t.Disjoint()
    ensures KindOf(t, c) == "metro" ==> Find(t, c) == Some(t.metro[c])
    ensures KindOf(t, c) == "rer" ==> Find(t, c) == Some(t.rer[c])
    ensures KindOf(t, c) == "transilien" ==> Find(t, c) == Some(t.transilien[c])
    ensures KindOf(t, c) == "tram" ==> Find(t, c) == Some(t.tram[c])
    ensures KindOf(t, c) == "special" ==> Find(t, c) == Some(t.special[c])
  {
  }

  /** With disjoint tables a known type names the table the merged lookup reads from. */
  lemma TransportTypeMatchesInfo(t: Tables, code: string)
    requires t.Disjoint()
    ensures GetTransportType(t, code) == "metro" ==> GetLineInfo(t, code) == Some(t.metro[Normalize(code)])
    ensures GetTransportType(t, code) == "rer" ==> GetLineInfo(t, code) == Some(t.rer[Normalize(code)])
    ensures GetTransportType(t, code) == "transilien" ==> GetLineInfo(t, code) == Some(t.transilien[Normalize(code)])
    ensures GetTransportType(t, code) == "tram" ==> GetLineInfo(t, code) == Some(t.tram[Normalize(code)])
    ensures GetTransportType(t, code) == "special" ==> GetLineInfo(t, code) == Some(t.special[Normalize(code)])
  {
    if code != "" {
      KindNamesTable(t, Normalize(code));
    }
  }

  /** Normalising is idempotent. */
  lemma NormalizeIdempotent(code: string)
    ensures Normalize(Normalize(code)) == Normalize(code)
  {
    UpperStripCommute(Strip(code));
    StripIdempotent(code);
    UpperIdempotent(Strip(code));
  }

  /** Lookups ignore case and surrounding whitespace: a code and its normalised form give the same line. */
  lemma LookupIgnoresCaseAndSpace(t: Tables, code: string)
    requires "" !in t.All()
    ensures GetLineInfo(t, Normalize(code)) == GetLineInfo(t, code)
    ensures GetTransportType(t, Normalize(code)) == GetTransportType(t, code)
  {
    var c := Normalize(code);
    NormalizeIdempotent(code);
    if code != "" && c == "" {
      UnknownKindIffNotFound(t, c);
    }
  }

  /** The shipped tables have no empty key. */
  lemma ParisHasNoEmptyKey()
    ensures "" !in Paris.All()
  {
    MetroKeys();
    RerKeys();
    TransilienKeys();
    TramKeys();
    SpecialKeys();
  }

  /** Normalising " t3a " gives the tram key "T3A", which is already normal. */
  lemma NormalizeTramExample()
    ensures Normalize(" t3a ") == "T3A" && Normalize("T3A") == "T3A"
  {
    assert Strip(" t3a ") == "t3a" by {
      assert IsSpace(' ') && !IsSpace('t') && !IsSpace('a');
      assert StripLeft(" t3a ") == "t3a ";
      assert StripRight("t3a ") == "t3a";
    }
    assert Strip("T3A") == "T3A" by {
      StripLeftNoSpace("T3A");
      StripRightNoSpace("T3A");
    }
    assert Upper("t3a") == "T3A" by {
      assert UpperChar('t') == 'T' && UpperChar('3') == '3' && UpperChar('a') == 'A';
      assert Upper("a") == "A";
      assert Upper("3a") == "3A";
    }
    assert Upper("T3A") == "T3A" by {
      assert UpperChar('T') == 'T' && UpperChar('3') == '3' && UpperChar('A') == 'A';
      assert Upper("A") == "A";
      assert Upper("3A") == "3A";
    }
  }

  /** " t3a " names the tram line whose key is "T3A". */
  lemma TramExample()
    ensures GetLineInfo(Paris, " t3a ") == GetLineInfo(Paris, "T3A") == Some(TramLines["T3A"])
  {
    NormalizeTramExample();
    SpecialKeys();
    assert "T3A" in TramLines;
  }

  /** " t3a " is a tram code. */
  lemma TramTypeExample()
    ensures GetTransportType(Paris, " t3a ") == "tram"
  {
    NormalizeTramExample();
    MetroKeys();
    RerKeys();
    TransilienKeys();
    assert "T3A" in TramLines;
  }

  /** A code names a known line. */
  predicate Known(t: Tables, code: string) {
    GetLineInfo(t, code).Some?
  }

  /** The first capture that, upper-cased, names a known line. */
  function FirstKnown(t: Tables, captures: seq<string>): Option<string> {
    if captures == [] then None
    else if Known(t, Upper(captures[0])) then Some(Upper(captures[0]))
    else FirstKnown(t, captures[1..])
  }

  /**
   * What extract_line_code_from_text returns: the first known capture, otherwise the stripped,
   * upper-cased text when it is known, otherwise "".
   */
  function Extracted(t: Tables, text: string, captures: seq<string>): string {
    if text == "" then ""
    else match FirstKnown(t, captures)
      case Some(c) => c
      case None => if Known(t, Strip(Upper(Strip(text)))) then Strip(Upper(Strip(text))) else ""
  }

  /** When no capture is known, none of them is. */
  lemma {:induction false} FirstKnownNone(t: Tables, captures: seq<string>)
    requires FirstKnown(t, captures).None?
    ensures forall j :: 0 <= j < |captures| ==> !Known(t, Upper(captures[j]))
  {
    if captures != [] {
      FirstKnownNone(t, captures[1..]);
      assert forall j :: 1 <= j < |captures| ==> captures[j] == captures[1..][j - 1];
    }
  }

  /** The first known capture is the earliest capture that is known. */
  lemma {:induction false} FirstKnownSome(t: Tables, captures: seq<string>)
    requires FirstKnown(t, captures).Some?
    ensures exists i :: (0 <= i < |captures| && FirstKnown(t, captures).value == Upper(captures[i]) && Known(t, Upper(captures[i]))
      && (forall j :: 0 <= j < i ==> !Known(t, Upper(captures[j]))))
  {
    if !Known(t, Upper(captures[0])) {
      FirstKnownSome(t, captures[1..]);
      var i :| 0 <= i < |captures| - 1 && FirstKnown(t, captures[1..]).value == Upper(captures[1..][i])
        && Known(t, Upper(captures[1..][i])) && forall j :: 0 <= j < i ==> !Known(t, Upper(captures[1..][j]));
      assert forall j :: 1 <= j < i + 1 ==> captures[j] == captures[1..][j - 1];
      assert captures[i + 1] == captures[1..][i];
    } else {
      assert FirstKnown(t, captures).value == Upper(captures[0]);
    }
  }

  /** An extracted code is empty or a known, upper-case code. */
  lemma ExtractedIsKnown(t: Tables, text: string, captures: seq<string>)
    ensures var code := Extracted(t, text, captures);
      code == "" || (Known(t, code) && Upper(code) == code)
  {
    var code := Extracted(t, text, captures);
    if code != "" {
      match FirstKnown(t, captures)
      case Some(c) =>
        FirstKnownSome(t, captures);
        var i :| 0 <= i < |captures| && c == Upper(captures[i]) && Known(t, Upper(captures[i]));
        UpperIdempotent(captures[i]);
      case None =>
        var s := Strip(text);
        UpperStripCommute(s);
        UpperIdempotent(Strip(s));
    }
  }

  /**
   * extract_line_code_from_text. `captures` holds, for the five patterns in order, the group each
   * pattern's first match captures, patterns without a match left out.
   */
  method ExtractLineCode(t: Tables, text: string, captures: seq<string>) returns (code: string)
    ensures code == Extracted(t, text, captures)
  {
    if text == "" {
      return "";
    }
    var s := Strip(text);
    var i := 0;
    while i < |captures|
      invariant 0 <= i <= |captures|
      invariant FirstKnown(t, captures) == FirstKnown(t, captures[i..])
    {
      var c := Upper(captures[i]);
      if GetLineInfo(t, c).Some? {
        return c;
      }
      assert captures[i..][1..] == captures[i + 1..];
      i := i + 1;
    }
    var clean := Strip(Upper(s));
    if GetLineInfo(t, clean).Some? {
      return clean;
    }
    return "";
  }
}

=== FILE: navigo_extract.dfy ===
/**
 * Extracting Navigo validations: the configured years and periods are expanded into period
 * labels, each period's two files (validations and profiles) are identified by name, rows with
 * unknown codes are dropped and daily counts are spread over the hours by the profile's
 * percentages. Reading the data lake and the CSV files is a parameter (`process`, `yearRows`).
 */
module NavigoExtract {
  import opened Common
  import opened Text
  import opened Calendar

  // ---------------------------------------------------------------- years and periods

  /** A configured period: a label such as "s1", semesters split into trimesters, or anything else. */
  datatype Period = Simple(name: string) | Nested(items: seq<(string, seq<string>)>) | Unrecognised

  /** The labels "semester/trimester" of one semester, in order. */
  function TrimesterLabels(semester: string, trimesters: seq<string>): (r: seq<string>)
    ensures |r| == |trimesters| && forall i :: 0 <= i < |r| ==> r[i] == semester + "/" + trimesters[i]
  {
    if trimesters == [] then []
    else TrimesterLabels(semester, trimesters[..|trimesters| - 1]) + [semester + "/" + trimesters[|trimesters| - 1]]
  }

  function NestedLabels(items: seq<(string, seq<string>)>): seq<string> {
    if items == [] then []
    else
      var last := items[|items| - 1];
      NestedLabels(items[..|items| - 1]) + TrimesterLabels(last.0, last.1)
  }

  function PeriodLabels(p: Period): seq<string> {
    match p
    case Simple(name) => [name]
    case Nested(items) => NestedLabels(items)
    case Unrecognised => []
  }

  /** Every period label of a year, in configuration order. */
  function Labels(periods: seq<Period>): seq<string> {
    if periods == [] then []
    else Labels(periods[..|periods| - 1]) + PeriodLabels(periods[|periods| - 1])
  }

  /** `["s1", {"s2": ["3", "4"]}]` expands to "s1", "s2/3" and "s2/4". */
  lemma LabelsExample()
    ensures Labels([Simple("s1"), Nested([("s2", ["3", "4"])])]) == ["s1", "s2/3", "s2/4"]
  {
    var ps := [Simple("s1"), Nested([("s2", ["3", "4"])])];
    assert ps[..1] == [Simple("s1")];
    assert ps[..1][..0] == [];
    assert Labels(ps[..1]) == ["s1"];
    var items := [("s2", ["3", "4"])];
    assert items[..0] == [];
    var t := TrimesterLabels("s2", ["3", "4"]);
    assert |t| == 2 && t[0] == "s2" + "/" + "3" && t[1] == "s2" + "/" + "4";
    assert "s2" + "/" + "3" == "s2/3" && "s2" + "/" + "4" == "s2/4";
    assert t == ["s2/3", "s2/4"];
    assert NestedLabels(items) == t;
  }

  /** The rows of each label, concatenated in order. */
  function ConcatMap<R>(labels: seq<string>, rows: string -> seq<R>): seq<R> {
    if labels == [] then [] else ConcatMap(labels[..|labels| - 1], rows) + rows(labels[|labels| - 1])
  }

  lemma {:induction false} ConcatMapAppend<R>(a: seq<string>, b: seq<string>, rows: string -> seq<R>)
    ensures ConcatMap(a + b, rows) == ConcatMap(a, rows) + ConcatMap(b, rows)
  {
    if b == [] {
      assert a + b == a;
    } else {
      ConcatMapAppend(a, b[..|b| - 1], rows);
      assert (a + b)[..|a + b| - 1] == a + b[..|b| - 1];
    }
  }

  /**
   * _process_year_data: each label's rows in order, empty results skipped. `process` is
   * `_process_period_data` for this year, which turns every failure into an empty frame.
   */
  method ProcessYearData<R>(periods: seq<Period>, process: string -> seq<R>) returns (rows: seq<R>)
    ensures rows == ConcatMap(Labels(periods), process)
  {
    rows := [];
    var i := 0;
    while i < |periods|
      invariant 0 <= i <= |periods|
      invariant rows == ConcatMap(Labels(periods[..i]), process)
    {
      assert periods[..i + 1][..i] == periods[..i];
      ConcatMapAppend(Labels(periods[..i]), PeriodLabels(periods[i]), process);
      var more := ProcessPeriod(periods[i], process);
      rows := rows + more;
      i := i + 1;
    }
    assert periods[..|periods|] == periods;
  }

  /** The rows of one configured period. */
  method ProcessPeriod<R>(p: Period, process: string -> seq<R>) returns (rows: seq<R>)
    ensures rows == ConcatMap(PeriodLabels(p), process)
  {
    rows := [];
    match p {
      case Simple(name) =>
        var df := process(name);
        assert [name][..0] == [];
        if df != [] {
          rows := df;
        }
      case Nested(items) =>
        var i := 0;
        while i < |items|
          invariant 0 <= i <= |items|
          invariant rows == ConcatMap(NestedLabels(items[..i]), process)
        {
          assert items[..i + 1][..i] == items[..i];
          ConcatMapAppend(NestedLabels(items[..i]), TrimesterLabels(items[i].0, items[i].1), process);
          var more := ProcessSemester(items[i].0, items[i].1, process);
          rows := rows + more;
          i := i + 1;
        }
        assert items[..|items|] == items;
      case Unrecognised =>
    }
  }

  /** The rows of the trimesters of one semester, each processed as "semester/trimester". */
  method ProcessSemester<R>(semester: string, trimesters: seq<string>, process: string -> seq<R>) returns (rows: seq<R>)
    ensures rows == ConcatMap(TrimesterLabels(semester, trimesters), process)
  {
    rows := [];
    var j := 0;
    while j < |trimesters|
      invariant 0 <= j <= |trimesters|
      invariant rows == ConcatMap(TrimesterLabels(semester, trimesters[..j]), process)
    {
      assert trimesters[..j + 1][..j] == trimesters[..j];
      var df := process(semester + "/" + trimesters[j]);
      if df != [] {
        rows := rows + df;
      }
      j := j + 1;
    }
    assert trimesters[..|trimesters|] == trimesters;
  }

  /** The years whose processing raised, in order. */
  function FailedYears<P, R>(config: seq<(int, P)>, yearRows: (int, P) -> Option<seq<R>>): seq<int> {
    if config == [] then []
    else
      var (year, periods) := config[|config| - 1];
      FailedYears(config[..|config| - 1], yearRows) + (if yearRows(year, periods).None? then [year] else [])
  }

  /** The rows of the years that did not raise, in order. */
  function YearRows<P, R>(config: seq<(int, P)>, yearRows: (int, P) -> Option<seq<R>>): seq<R> {
    if config == [] then []
    else
      var (year, periods) := config[|config| - 1];
      YearRows(config[..|config| - 1], yearRows) + yearRows(year, periods).GetOr([])
  }

  /**
   * extract_navigo_validations_informations: the rows of every year, a year that raises being
   * recorded as failed and skipped. `yearRows` is `_process_year_data` with `None` for an
   * exception. Returns the rows and the failed years.
   */
  method ExtractNavigoValidations<P, R>(config: seq<(int, P)>, yearRows: (int, P) -> Option<seq<R>>)
    returns (rows: seq<R>, failures: seq<int>)
    ensures config == [] ==> rows == [] && failures == []
    ensures rows == YearRows(config, yearRows)
    ensures failures == FailedYears(config, yearRows)
  {
    rows, failures := [], [];
    if config == [] {
      return;
    }
    var i := 0;
    while i < |config|
      invariant 0 <= i <= |config|
      invariant rows == YearRows(config[..i], yearRows)
      invariant failures == FailedYears(config[..i], yearRows)
    {
      assert config[..i + 1][..i] == config[..i];
      var (year, periods) := config[i];
      match yearRows(year, periods) {
        case Some(df) =>
          if df != [] {
            rows := rows + df;
          }
        case None =>
          failures := failures + [year];
      }
      i := i + 1;
    }
    assert config[..|config|] == config;
  }

  /** When every year raises, nothing is extracted and every year is listed as failed. */
  lemma {:induction false} FailedYearsAddNothing<P, R>(config: seq<(int, P)>, yearRows: (int, P) -> Option<seq<R>>)
    requires forall i :: 0 <= i < |config| ==> yearRows(config[i].0, config[i].1).None?
    ensures YearRows(config, yearRows) == []
    ensures |FailedYears(config, yearRows)| == |config|
  {
    if config != [] {
      FailedYearsAddNothing(config[..|config| - 1], yearRows);
    }
  }

  // ---------------------------------------------------------------- file types

  predicate IsValidationsFile(f: string) {
    Contains(Lower(f), "validations.csv")
  }

  /** Checked only when the name is not a validations file. */
  predicate IsProfilesFile(f: string) {
    !IsValidationsFile(f) && (Contains(Lower(f), "profils.csv") || Contains(Lower(f), "profils"))
  }

  /** The last element satisfying `p`. */
  function LastWhere(files: seq<string>, p: string -> bool): (r: Option<string>)
    ensures r.None? <==> forall i :: 0 <= i < |files| ==> !p(files[i])
    ensures r.Some? ==> exists i :: (0 <= i < |files| && files[i] == r.value && p(files[i])
      && forall j :: i < j < |files| ==> !p(files[j]))
  {
    if files == [] then None
    else if p(files[|files| - 1]) then Some(files[|files| - 1])
    else
      var r := LastWhere(files[..|files| - 1], p);
      assert forall i :: 0 <= i < |files| - 1 ==> files[..|files| - 1][i] == files[i];
      r
  }

  /**
   * _find_file_types: the last name containing "validations.csv" (ignoring case) is the
   * validations file, the last other name containing "profils" is the profiles file.
   */
  method FindFileTypes(files: seq<string>) returns (validations: Option<string>, profiles: Option<string>)
    ensures validations == LastWhere(files, IsValidationsFile)
    ensures profiles == LastWhere(files, IsProfilesFile)
  {
    validations, profiles := None, None;
    var i := 0;
    while i < |files|
      invariant 0 <= i <= |files|
      invariant validations == LastWhere(files[..i], IsValidationsFile)
      invariant profiles == LastWhere(files[..i], IsProfilesFile)
    {
      assert files[..i + 1][..i] == files[..i];
      var lowered := Lower(files[i]);
      if Contains(lowered, "validations.csv") {
        validations := Some(files[i]);
      } else if Contains(lowered, "profils.csv") || Contains(lowered, "profils") {
        profiles := Some(files[i]);
      }
      i := i + 1;
    }
    assert files[..|files|] == files;
  }

  /** A name containing a string contains each prefix of it. */
  lemma {:induction false} ContainsPrefix(s: string, sub: string, n: nat)
    requires n <= |sub| && Contains(s, sub)
    ensures Contains(s, sub[..n])
  {
    if IsPrefix(sub, s) {
      assert s[..n] == sub[..n];
    } else {
      ContainsPrefix(s[1..], sub, n);
    }
  }

  /** The "profils.csv" test adds nothing to the "profils" one. */
  lemma ProfilesTest(f: string)
    ensures IsProfilesFile(f) <==> !IsValidationsFile(f) && Contains(Lower(f), "profils")
  {
    if Contains(Lower(f), "profils.csv") {
      ContainsPrefix(Lower(f), "profils.csv", 7);
      assert "profils.csv"[..7] == "profils";
    }
  }

  /**
   * The guards of _process_period_data: fewer than two files, or a file type not found, give an
   * empty frame, as does any exception (listing the files, or `load` reading them, giving `None`).
   */
  function ProcessPeriodData<R>(files: Option<seq<string>>, load: (string, string) -> Option<seq<R>>): (r: seq<R>)
    ensures files.None? || |files.value| < 2 ==> r == []
    ensures files.Some? && (LastWhere(files.value, IsValidationsFile).None? || LastWhere(files.value, IsProfilesFile).None?) ==> r == []
    ensures r != [] ==> files.Some? && Some(r) == load(LastWhere(files.value, IsValidationsFile).value, LastWhere(files.value, IsProfilesFile).value)
  {
    match files
    case None => []
    case Some(fs) =>
      if |fs| < 2 then []
      else
        var v, p := LastWhere(fs, IsValidationsFile), LastWhere(fs, IsProfilesFile);
        if v.None? || p.None? then []
        else load(v.value, p.value).GetOr([])
  }

  // ---------------------------------------------------------------- rows

  const DayCategories := {"JOHV", "SAHV", "JOVS", "SAVS", "DIJFP"}

  /**
   * A key of a Python dict view: the `date` objects the holiday calendar is keyed by, or the
   * pandas `Timestamp` a parsed "jour" column holds. A Timestamp never equals a date, and hashes
   * as a datetime, so a plain key lookup never matches one against the other.
   */
  datatype DayKey = DateKey(date: Date) | StampKey(stamp: Date)

  /** `France(years=[2023, 2024]).keys()`: the holidays, as date keys. */
  function HolidayKeys(holidays: set<Date>): (keys: set<DayKey>)
    ensures forall d :: DateKey(d) in keys <==> d in holidays
  {
    set d | d in holidays :: DateKey(d)
  }

  /**
   * _determine_day_type as written: `jour in _HOLIDAYS` looks the row's Timestamp up among the
   * date keys, then a Sunday is "DIJFP", a Saturday "SAHV" and any other day "JOHV".
   */
  function DayType(d: Date, holidays: set<Date>): (c: string)
    requires ValidDate(d)
    ensures c in DayCategories && c != "JOVS" && c != "SAVS"
    ensures c == "DIJFP" <==> DayOfWeek(d) == 6
    ensures c == "SAHV" <==> DayOfWeek(d) == 5
    ensures c == "JOHV" <==> DayOfWeek(d) < 5
  {
    HolidayNeverMatches(d, holidays);
    if StampKey(d) in HolidayKeys(holidays) || DayOfWeek(d) == 6 then "DIJFP"
    else if DayOfWeek(d) == 5 then "SAHV"
    else "JOHV"
  }

  /** The row's Timestamp is never among the holiday keys, whatever the holidays are. */
  lemma HolidayNeverMatches(d: Date, holidays: set<Date>)
    ensures StampKey(d) !in HolidayKeys(holidays)
  {
  }

  /**
   * The day type as evidently intended: "DIJFP" for a public holiday or a Sunday, "SAHV" for a
   * Saturday, "JOHV" for any other day. The school-holiday categories are never produced.
   */
  function DayTypeIntended(d: Date, holidays: set<Date>): (c: string)
    requires ValidDate(d)
    ensures c in DayCategories && c != "JOVS" && c != "SAVS"
    ensures c == "DIJFP" <==> (d in holidays || DayOfWeek(d) == 6)
    ensures c == "SAHV" <==> (d !in holidays && DayOfWeek(d) == 5)
    ensures c == "JOHV" <==> (d !in holidays && DayOfWeek(d) < 5)
  {
    if DateKey(d) in HolidayKeys(holidays) || DayOfWeek(d) == 6 then "DIJFP"
    else if DayOfWeek(d) == 5 then "SAHV"
    else "JOHV"
  }

  /** The two readings agree except on a holiday that falls on a weekday or a Saturday. */
  lemma DayTypeDiffers(d: Date, holidays: set<Date>)
    requires ValidDate(d)
    ensures DayType(d, holidays) != DayTypeIntended(d, holidays) <==> (d in holidays && DayOfWeek(d) != 6)
  {
  }

  /**
   * Bastille Day 2024 fell on a Sunday and the day before was a Saturday. May Day 2024, a
   * Wednesday and a public holiday, is an ordinary weekday as written and "DIJFP" as intended.
   */
  lemma DayTypeExample()
    ensures DayType(Date(2024, 7, 14), {}) == "DIJFP"
    ensures DayType(Date(2024, 7, 13), {}) == "SAHV"
    ensures DayType(Date(2024, 5, 1), {Date(2024, 5, 1)}) == "JOHV"
    ensures DayTypeIntended(Date(2024, 5, 1), {Date(2024, 5, 1)}) == "DIJFP"
  {
    KnownWeekdays();
    NextDayWeekday(Date(2024, 7, 13));
  }

  /** A validations row: stop, network and transport codes, the stop, its id and a raw count. */
  datatype ValidationRow = ValidationRow(codeStop: string, codeNetwork: string, codeTransport: string,
                                         stopName: string, ida: int, count: Option<real>)

  /** `to_numeric(errors="coerce")` then `fillna(3)`: a count published as "5 or less" is read as 3. */
  function CountOf(raw: Option<real>): (n: real)
    ensures raw.Some? ==> n == raw.value
    ensures raw.None? ==> n == 3.0
  {
    raw.GetOr(3.0)
  }

  /** A row is kept when none of its three codes is "ND"; its count is then filled in. */
  function Cleaned(row: ValidationRow): (r: Option<ValidationRow>)
    ensures r.Some? <==> row.codeStop != "ND" && row.codeNetwork != "ND" && row.codeTransport != "ND"
    ensures r.Some? ==> r.value == row.(count := Some(CountOf(row.count)))
  {
    if row.codeStop == "ND" || row.codeNetwork == "ND" || row.codeTransport == "ND" then None
    else Some(row.(count := Some(CountOf(row.count))))
  }

  /** The cleaned validations: no "ND" code remains and every count is present. */
  lemma CleanedRows(rows: seq<ValidationRow>)
    ensures forall r :: r in Collect(rows, Cleaned) ==>
      r.codeStop != "ND" && r.codeNetwork != "ND" && r.codeTransport != "ND" && r.count.Some?
  {
    CollectSpec(rows, Cleaned);
  }

  /** The hourly share of a daily count: `nb_vald × pourc_validations / 100`. */
  function Hourly(count: real, percent: real): (h: real)
    ensures count >= 0.0 && 0.0 <= percent <= 100.0 ==> 0.0 <= h <= count
  {
    count * percent / 100.0
  }

  /** Spreading a count over a profile spreads all of it when the percentages add up to 100. */
  lemma {:induction false} HourlySharesAddUp(count: real, percents: seq<real>)
    ensures Sum(seq(|percents|, i requires 0 <= i < |percents| => Hourly(count, percents[i]))) == count * Sum(percents) / 100.0
  {
    var shares := seq(|percents|, i requires 0 <= i < |percents| => Hourly(count, percents[i]));
    if percents != [] {
      var init := percents[..|percents| - 1];
      HourlySharesAddUp(count, init);
      assert shares[..|shares| - 1] == seq(|init|, i requires 0 <= i < |init| => Hourly(count, init[i]));
    }
  }
}

=== FILE: navigo_insert.dfy ===
/**
 * Loading hourly Navigo validations: each row names a station, opens a time bin (a start and an
 * end timestamp on the row's day) and carries a validation count. The rows are gathered in memory,
 * time bins are matched against the ones the database already holds, and traffic records are kept
 * only for bins that have an id. The database itself is a parameter: the rows it reports back
 * (`existing`, `lookup`) and the row counts of its upserts.
 */
module NavigoInsert {
  import opened Common
  import opened Text
  import opened Calendar

  // ---------------------------------------------------------------- dates and timestamps

  /** A row's "jour": a pandas timestamp already, or a string. */
  datatype DateValue = Stamp(date: Date) | DateText(text: string)

  /** A timestamp at a whole hour: minutes and seconds are 0. */
  datatype Timestamp = Timestamp(date: Date, hour: int)

  type BinKey = (Timestamp, Timestamp)

  /**
   * `datetime.strptime(s, "%Y-%m-%d")`: four-digit year, one- or two-digit month and day, and a
   * day that exists in that month.
   */
  function ParseIsoDate(s: string): (r: Option<Date>)
    ensures r.Some? ==> ValidDate(r.value)
    ensures r.Some? ==> var parts := Split(s, '-');
      |parts| == 3 && |parts[0]| == 4 && 1 <= |parts[1]| <= 2 && 1 <= |parts[2]| <= 2
      && AllDigits(parts[0]) && AllDigits(parts[1]) && AllDigits(parts[2])
      && r.value == Date(DigitsValue(parts[0]), DigitsValue(parts[1]), DigitsValue(parts[2]))
  {
    var parts := Split(s, '-');
    if |parts| != 3 then None
    else
      var y, m, d := parts[0], parts[1], parts[2];
      if |y| == 4 && AllDigits(y) && 1 <= |m| <= 2 && AllDigits(m) && 1 <= |d| <= 2 && AllDigits(d) then
        var date := Date(DigitsValue(y), DigitsValue(m), DigitsValue(d));
        if ValidDate(date) then Some(date) else None
      else None
  }

  /** A date written for "%Y-%m-%d": the year in four digits, month and day with or without a leading zero. */
  function IsoDateText(d: Date, padMonth: bool, padDay: bool): string
    requires ValidDate(d)
  {
    PadDigits(d.year, 4) + "-" + PadDigits(d.month, if padMonth then 2 else 1)
      + "-" + PadDigits(d.day, if padDay then 2 else 1)
  }

  /** Every valid date, written with or without zero padding, is read back as itself. */
  lemma ParseIsoDateWritten(d: Date, padMonth: bool, padDay: bool)
    requires ValidDate(d)
    ensures ParseIsoDate(IsoDateText(d, padMonth, padDay)) == Some(d)
  {
    var y := PadDigits(d.year, 4);
    var m := PadDigits(d.month, if padMonth then 2 else 1);
    var dd := PadDigits(d.day, if padDay then 2 else 1);
    assert |y| == 4 && 1 <= |m| <= 2 && 1 <= |dd| <= 2 by {
      NatToStringLength(d.year);
      NatToStringLength(d.month);
      NatToStringLength(d.day);
    }
    SplitThree(y, m, dd);
    ParseIsoDateParts(IsoDateText(d, padMonth, padDay), y, m, dd);
  }

  /** Three digit groups joined by "-" split apart again. */
  lemma SplitThree(y: string, m: string, dd: string)
    requires AllDigits(y) && AllDigits(m) && AllDigits(dd)
    ensures Split(y + "-" + m + "-" + dd, '-') == [y, m, dd]
  {
    DigitsNoDash(y);
    DigitsNoDash(m);
    DigitsNoDash(dd);
    assert y + "-" + m + "-" + dd == y + ['-'] + (m + ['-'] + dd);
    SplitHead(y, m + "-" + dd, '-');
    SplitOnce(m, dd, '-');
  }

  /** Decimal digits hold no "-". */
  lemma DigitsNoDash(s: string)
    requires AllDigits(s)
    ensures '-' !in s
  {
    assert forall i :: 0 <= i < |s| ==> s[i] != '-';
  }

  /** Three digit groups of the right lengths that name a valid date are read as that date. */
  lemma ParseIsoDateParts(s: string, y: string, m: string, dd: string)
    requires Split(s, '-') == [y, m, dd]
    requires |y| == 4 && 1 <= |m| <= 2 && 1 <= |dd| <= 2 && AllDigits(y) && AllDigits(m) && AllDigits(dd)
    requires ValidDate(Date(DigitsValue(y), DigitsValue(m), DigitsValue(dd)))
    ensures ParseIsoDate(s) == Some(Date(DigitsValue(y), DigitsValue(m), DigitsValue(dd)))
  {
  }

  /** The date of a row: a timestamp as it is, a string through `ParseIsoDate`. */
  function DateOf(v: DateValue): Option<Date> {
    match v
    case Stamp(d) => Some(d)
    case DateText(s) => ParseIsoDate(s)
  }

  /** The two hours of a range such as "7H-8H": drop every "H", split on "-", read two integers. */
  function RangeHours(range: string): (r: Option<(int, int)>)
    ensures r.Some? ==> var parts := Split(RemoveChar(range, 'H'), '-');
      |parts| == 2 && PyInt(parts[0]) == Some(r.value.0) && PyInt(parts[1]) == Some(r.value.1)
    ensures r.None? ==> var parts := Split(RemoveChar(range, 'H'), '-');
      |parts| != 2 || PyInt(parts[0]).None? || PyInt(parts[1]).None?
  {
    var parts := Split(RemoveChar(range, 'H'), '-');
    if |parts| != 2 then None
    else
      match (PyInt(parts[0]), PyInt(parts[1]))
      case (Some(a), Some(b)) => Some((a, b))
      case _ => None
  }

  /**
   * _create_timestamps: the row's day at the start hour and at the end hour of the range. It
   * fails on a date string that is not "%Y-%m-%d", on a range that is not two integers, and on an
   * hour outside 0..23.
   */
  function CreateTimestamps(date: DateValue, range: string): (r: Result<BinKey>)
    ensures r.Ok? <==> (DateOf(date).Some? && RangeHours(range).Some?
      && 0 <= RangeHours(range).value.0 <= 23 && 0 <= RangeHours(range).value.1 <= 23)
    ensures r.Ok? ==> r.value.0.date == r.value.1.date == DateOf(date).value
    ensures r.Ok? ==> r.value.0.hour == RangeHours(range).value.0 && r.value.1.hour == RangeHours(range).value.1
  {
    match DateOf(date)
    case None => Fail("time data does not match format '%Y-%m-%d'")
    case Some(d) =>
      match RangeHours(range)
      case None => Fail("invalid time range")
      case Some((a, b)) =>
        if !(0 <= a <= 23) || !(0 <= b <= 23) then Fail("hour must be in 0..23")
        else Ok((Timestamp(d, a), Timestamp(d, b)))
  }

  /** The range text the data uses for hours `a` to `b`. */
  function RangeText(a: nat, b: nat): string {
    NatToString(a) + "H-" + NatToString(b) + "H"
  }

  /** Decimal digits hold no "H" and no "-". */
  lemma DigitsHaveNoLetters(n: nat)
    ensures 'H' !in NatToString(n) && '-' !in NatToString(n)
  {
    var x := NatToString(n);
    assert forall i :: 0 <= i < |x| ==> '0' <= x[i] <= '9';
  }

  /** Dropping the "H"s of "aH-bH" leaves "a-b". */
  lemma RemoveHours(x: string, y: string)
    requires 'H' !in x && 'H' !in y
    ensures RemoveChar(x + "H-" + y + "H", 'H') == x + ['-'] + y
  {
    var s1 := x + "H";
    var s2 := s1 + "-";
    var s3 := s2 + y;
    assert x + "H-" + y + "H" == s3 + "H";
    RemoveCharLetters();
    RemoveCharAbsent(x, 'H');
    RemoveCharAbsent(y, 'H');
    RemoveCharAppend(x, "H", 'H');
    assert RemoveChar(s1, 'H') == x;
    RemoveCharAppend(s1, "-", 'H');
    assert RemoveChar(s2, 'H') == x + "-";
    RemoveCharAppend(s2, y, 'H');
    assert RemoveChar(s3, 'H') == x + "-" + y;
    RemoveCharAppend(s3, "H", 'H');
  }

  lemma RemoveCharLetters()
    ensures RemoveChar("H", 'H') == [] && RemoveChar("-", 'H') == "-"
  {
    assert "H"[0] == 'H' && "H"[1..] == [];
    assert "-"[0] == '-' && "-"[1..] == [];
  }

  /** "aH-bH" is read as the hours a and b. */
  lemma RangeHoursOfText(a: nat, b: nat)
    ensures RangeHours(RangeText(a, b)) == Some((a as int, b as int))
  {
    var x, y := NatToString(a), NatToString(b);
    DigitsHaveNoLetters(a);
    DigitsHaveNoLetters(b);
    RemoveHours(x, y);
    SplitOnce(x, y, '-');
    PyIntOfString(a);
    PyIntOfString(b);
  }

  /** Any range written "aH-bH" with hours in 0..23 is read back as those hours on the row's day. */
  lemma CreateTimestampsRoundTrip(d: Date, a: nat, b: nat)
    requires a <= 23 && b <= 23
    ensures CreateTimestamps(Stamp(d), RangeText(a, b)) == Ok((Timestamp(d, a), Timestamp(d, b)))
  {
    RangeHoursOfText(a, b);
  }

  /** The last bin of the day, "23H-24H", is refused: hour 24 does not exist. */
  lemma MidnightBinFails(d: Date)
    ensures CreateTimestamps(Stamp(d), "23H-24H").Fail?
  {
    assert NatToString(23) == "23" && NatToString(24) == "24";
    assert RangeText(23, 24) == "23H-24H";
    RangeHoursOfText(23, 24);
  }

  // ---------------------------------------------------------------- gathering the rows

  /** One row of the validations frame; a value `int` or `float` cannot convert is `None`. */
  datatype Row = Row(ida: Option<int>, name: string, jour: DateValue, range: string, catDay: string, validations: Option<real>)

  datatype TimeBin = TimeBin(start: Timestamp, end: Timestamp, catDay: string)

  datatype TrafficRow = TrafficRow(stationId: int, start: Timestamp, end: Timestamp, validations: int)

  /** What the row loop has gathered: station names, new time bins (and their keys), traffic. */
  datatype Gathered = Gathered(stations: map<int, string>, bins: seq<TimeBin>, binKeys: set<BinKey>, traffic: seq<TrafficRow>)

  /** The bin a row opens, when its station id converts and its timestamps can be built. */
  function RowBin(row: Row): Option<BinKey> {
    if row.ida.None? then None
    else
      match CreateTimestamps(row.jour, row.range)
      case Ok(key) => Some(key)
      case Fail(_) => None
  }

  /**
   * One row, in the order the source does it: the station name is stored first, then the bin is
   * opened, then the validations are converted; an exception stops the row where it is raised and
   * keeps what was already stored.
   */
  function Step(g: Gathered, row: Row): Gathered {
    if row.ida.None? then g
    else
      var stations := g.stations[row.ida.value := row.name];
      match CreateTimestamps(row.jour, row.range)
      case Fail(_) => g.(stations := stations)
      case Ok((s, e)) =>
        var bins := if (s, e) in g.binKeys then g.bins else g.bins + [TimeBin(s, e, row.catDay)];
        var traffic := if row.validations.None? then g.traffic
                       else g.traffic + [TrafficRow(row.ida.value, s, e, Trunc(row.validations.value))];
        Gathered(stations, bins, g.binKeys + {(s, e)}, traffic)
  }

  function GatherAll(rows: seq<Row>): Gathered {
    if rows == [] then Gathered(map[], [], {}, [])
    else Step(GatherAll(rows[..|rows| - 1]), rows[|rows| - 1])
  }

  function BinKeyOf(b: TimeBin): BinKey {
    (b.start, b.end)
  }

  function Keys(bins: seq<TimeBin>): (r: seq<BinKey>)
    ensures |r| == |bins| && forall i :: 0 <= i < |bins| ==> r[i] == BinKeyOf(bins[i])
  {
    seq(|bins|, i requires 0 <= i < |bins| => BinKeyOf(bins[i]))
  }

  /**
   * The bins are the distinct bins the rows open, in first-occurrence order (see
   * `Common.FirstSeenSpec` and `Common.FirstSeenOrder`), and the key set is exactly their keys.
   */
  lemma {:induction false} GatheredBins(rows: seq<Row>)
    ensures var g := GatherAll(rows);
      Keys(g.bins) == FirstSeen(rows, RowBin) && (forall k :: k in g.binKeys <==> k in Keys(g.bins))
  {
    if rows != [] {
      var init := rows[..|rows| - 1];
      var row := rows[|rows| - 1];
      GatheredBins(init);
      var g0 := GatherAll(init);
      var g := GatherAll(rows);
      assert g == Step(g0, row);
      var seen0 := FirstSeen(init, RowBin);
      assert FirstSeen(rows, RowBin) ==
        if RowBin(row).Some? && RowBin(row).value !in seen0 then seen0 + [RowBin(row).value] else seen0;
      match RowBin(row)
      case None =>
        assert g.bins == g0.bins && g.binKeys == g0.binKeys;
      case Some(key) =>
        assert key == CreateTimestamps(row.jour, row.range).value;
        if key in g0.binKeys {
          assert g.bins == g0.bins && g.binKeys == g0.binKeys;
        } else {
          var b := TimeBin(key.0, key.1, row.catDay);
          assert g.bins == g0.bins + [b] && g.binKeys == g0.binKeys + {key};
          KeysSnoc(g0.bins, b);
        }
    }
  }

  /** One row adds a bin exactly when it opens one not seen before, with its day category. */
  lemma StepBins(g: Gathered, row: Row)
    ensures Step(g, row).bins ==
      if RowBin(row).Some? && RowBin(row).value !in g.binKeys
      then g.bins + [TimeBin(RowBin(row).value.0, RowBin(row).value.1, row.catDay)]
      else g.bins
    ensures Step(g, row).binKeys == if RowBin(row).Some? then g.binKeys + {RowBin(row).value} else g.binKeys
  {
  }

  lemma KeysSnoc(bins: seq<TimeBin>, b: TimeBin)
    ensures Keys(bins + [b]) == Keys(bins) + [BinKeyOf(b)]
  {
  }

  /** Each bin carries the day category of the first row that opened it. */
  lemma {:induction false} BinDayIsFirstRows(rows: seq<Row>, j: int)
    requires 0 <= j < |GatherAll(rows).bins|
    ensures var b := GatherAll(rows).bins[j];
      FirstOpens(rows, BinKeyOf(b), b.catDay)
  {
    var init := rows[..|rows| - 1];
    var row := rows[|rows| - 1];
    var g0 := GatherAll(init);
    var b := GatherAll(rows).bins[j];
    StepBins(g0, row);
    if j < |g0.bins| {
      assert b == g0.bins[j];
      BinDayIsFirstRows(init, j);
      FirstOpensSnoc(rows, init, BinKeyOf(b), b.catDay);
    } else {
      var key := RowBin(row).value;
      GatheredBins(init);
      FirstSeenSpec(init, RowBin);
      assert key !in FirstSeen(init, RowBin);
      assert b == TimeBin(key.0, key.1, row.catDay);
      FirstOpensLast(rows, init, key, row.catDay);
    }
  }

  /** Row `k` is the first row to open bin `key`, and has day category `day`. */
  ghost predicate FirstOpens(rows: seq<Row>, key: BinKey, day: string) {
    exists k :: 0 <= k < |rows| && RowBin(rows[k]) == Some(key) && rows[k].catDay == day
      && forall k' :: 0 <= k' < k ==> RowBin(rows[k']) != Some(key)
  }

  lemma FirstOpensSnoc(rows: seq<Row>, init: seq<Row>, key: BinKey, day: string)
    requires rows != [] && init == rows[..|rows| - 1] && FirstOpens(init, key, day)
    ensures FirstOpens(rows, key, day)
  {
    var k :| 0 <= k < |init| && RowBin(init[k]) == Some(key) && init[k].catDay == day
      && forall k' :: 0 <= k' < k ==> RowBin(init[k']) != Some(key);
    assert rows[k] == init[k];
    forall k' | 0 <= k' < k
      ensures RowBin(rows[k']) != Some(key)
    {
      assert rows[k'] == init[k'];
    }
  }

  lemma FirstOpensLast(rows: seq<Row>, init: seq<Row>, key: BinKey, day: string)
    requires rows != [] && init == rows[..|rows| - 1]
    requires RowBin(rows[|rows| - 1]) == Some(key) && rows[|rows| - 1].catDay == day
    requires forall k :: 0 <= k < |init| ==> RowBin(init[k]) != Some(key)
    ensures FirstOpens(rows, key, day)
  {
    forall k' | 0 <= k' < |rows| - 1
      ensures RowBin(rows[k']) != Some(key)
    {
      assert rows[k'] == init[k'];
    }
  }

  /** The last row with a convertible id names its station, whatever happens later in that row. */
  lemma {:induction false} StationKeepsLastName(rows: seq<Row>, k: int)
    requires 0 <= k < |rows| && rows[k].ida.Some?
    requires forall k' :: k < k' < |rows| ==> rows[k'].ida != rows[k].ida
    ensures var stations := GatherAll(rows).stations;
      rows[k].ida.value in stations && stations[rows[k].ida.value] == rows[k].name
  {
    var init := rows[..|rows| - 1];
    if k < |rows| - 1 {
      assert rows[k] == init[k];
      StationKeepsLastName(init, k);
    }
  }

  /** Only rows with a convertible id name stations. */
  lemma {:induction false} StationsFromRows(rows: seq<Row>)
    ensures forall id :: id in GatherAll(rows).stations <==> exists k :: 0 <= k < |rows| && rows[k].ida == Some(id)
  {
    if rows != [] {
      var init := rows[..|rows| - 1];
      StationsFromRows(init);
      forall id | id in GatherAll(init).stations
        ensures exists k :: 0 <= k < |rows| && rows[k].ida == Some(id)
      {
        var k :| 0 <= k < |init| && init[k].ida == Some(id);
        assert rows[k] == init[k];
      }
      forall id, k | 0 <= k < |rows| && rows[k].ida == Some(id)
        ensures id in GatherAll(rows).stations
      {
        if k < |init| {
          assert init[k] == rows[k];
        }
      }
    }
  }

  /** The traffic record a row yields: every step of the row succeeded; the count is truncated. */
  function RowTraffic(row: Row): (t: Option<TrafficRow>)
    ensures t.Some? <==> RowBin(row).Some? && row.validations.Some?
    ensures t.Some? ==> (t.value.stationId == row.ida.value && (t.value.start, t.value.end) == RowBin(row).value
      && t.value.validations == Trunc(row.validations.value))
  {
    match RowBin(row)
    case None => None
    case Some((s, e)) =>
      if row.validations.None? then None else Some(TrafficRow(row.ida.value, s, e, Trunc(row.validations.value)))
  }

  /** One traffic record per row that got through, in row order. */
  lemma {:induction false} GatheredTraffic(rows: seq<Row>)
    ensures GatherAll(rows).traffic == Collect(rows, RowTraffic)
  {
    if rows != [] {
      GatheredTraffic(rows[..|rows| - 1]);
    }
  }

  /**
   * The row loop of insert_navigo_data: rows that raise are skipped from the point where they
   * raise. Returns the station names, the new bins and the traffic rows gathered.
   */
  method GatherRows(rows: seq<Row>) returns (stations: map<int, string>, bins: seq<TimeBin>, traffic: seq<TrafficRow>)
    ensures stations == GatherAll(rows).stations
    ensures bins == GatherAll(rows).bins
    ensures traffic == GatherAll(rows).traffic
  {
    stations := map[];
    bins := [];
    var binKeys: set<BinKey> := {};
    traffic := [];
    var i := 0;
    while i < |rows|
      invariant 0 <= i <= |rows|
      invariant Gathered(stations, bins, binKeys, traffic) == GatherAll(rows[..i])
    {
      var row := rows[i];
      assert rows[..i + 1][..i] == rows[..i];
      if row.ida.Some? {
        var stationId := row.ida.value;
        stations := stations[stationId := row.name];
        var stamps := CreateTimestamps(row.jour, row.range);
        if stamps.Ok? {
          var key := stamps.value;
          if key !in binKeys {
            binKeys := binKeys + {key};
            bins := bins + [TimeBin(key.0, key.1, row.catDay)];
          }
          if row.validations.Some? {
            traffic := traffic + [TrafficRow(stationId, key.0, key.1, Trunc(row.validations.value))];
          }
        }
      }
      i := i + 1;
    }
    assert rows[..|rows|] == rows;
  }

  // ---------------------------------------------------------------- bulk upserts

  /** _bulk_upsert_stations: nothing to do for no stations, otherwise the database's row count. */
  function UpsertStationsCount(stations: map<int, string>, rowcount: int): (n: int)
    ensures stations == map[] ==> n == 0
    ensures stations != map[] ==> n == rowcount
  {
    if |stations| == 0 then 0 else rowcount
  }

  /** _bulk_upsert_traffic: nothing to do for no records, otherwise the database's row count. */
  function UpsertTrafficCount<R>(records: seq<R>, rowcount: int): (n: int)
    ensures records == [] ==> n == 0
    ensures records != [] ==> n == rowcount
  {
    if records == [] then 0 else rowcount
  }

  /** The ids of the bins found in the database; a later row for the same key wins. */
  function ExistingIds(existing: seq<(BinKey, int)>): (m: map<BinKey, int>)
    ensures forall k :: k in m <==> exists i :: 0 <= i < |existing| && existing[i].0 == k
  {
    if existing == [] then map[]
    else
      var m := ExistingIds(existing[..|existing| - 1]);
      var last := existing[|existing| - 1];
      assert forall i :: 0 <= i < |existing| - 1 ==> existing[..|existing| - 1][i] == existing[i];
      m[last.0 := last.1]
  }

  /**
   * _bulk_upsert_time_bins: for no bins, an empty map and no query. Otherwise the bins the
   * database already holds keep their ids, the others are inserted (in order) and get the id the
   * follow-up select finds for them, if any.
   */
  method UpsertTimeBins(bins: seq<TimeBin>, existing: seq<(BinKey, int)>, lookup: BinKey -> Option<int>)
    returns (ids: map<BinKey, int>, inserted: seq<TimeBin>)
    ensures bins == [] ==> ids == map[] && inserted == []
    ensures bins != [] ==> inserted == Collect(bins, b => if BinKeyOf(b) in ExistingIds(existing) then None else Some(b))
    ensures bins != [] ==> forall k :: k in ids <==>
      k in ExistingIds(existing) || (lookup(k).Some? && exists b :: b in inserted && BinKeyOf(b) == k)
    ensures bins != [] ==> forall k :: k in ExistingIds(existing) ==> ids[k] == ExistingIds(existing)[k]
    ensures forall k :: k in ids && k !in ExistingIds(existing) ==> Some(ids[k]) == lookup(k)
  {
    if bins == [] {
      return map[], [];
    }
    var found := FoundIds(existing);
    inserted := BinsToInsert(bins, found);
    ids := FetchInsertedIds(found, inserted, lookup);
  }

  /** The first loop: the ids of the bins already in the database. */
  method FoundIds(existing: seq<(BinKey, int)>) returns (ids: map<BinKey, int>)
    ensures ids == ExistingIds(existing)
  {
    ids := map[];
    var i := 0;
    while i < |existing|
      invariant 0 <= i <= |existing|
      invariant ids == ExistingIds(existing[..i])
    {
      assert existing[..i + 1][..i] == existing[..i];
      ids := ids[existing[i].0 := existing[i].1];
      i := i + 1;
    }
    assert existing[..|existing|] == existing;
  }

  /** The bins whose key the database does not hold, in order. */
  method BinsToInsert(bins: seq<TimeBin>, found: map<BinKey, int>) returns (inserted: seq<TimeBin>)
    ensures inserted == Collect(bins, b => if BinKeyOf(b) in found then None else Some(b))
  {
    inserted := [];
    var i := 0;
    while i < |bins|
      invariant 0 <= i <= |bins|
      invariant inserted == Collect(bins[..i], b => if BinKeyOf(b) in found then None else Some(b))
    {
      assert bins[..i + 1][..i] == bins[..i];
      if BinKeyOf(bins[i]) !in found {
        inserted := inserted + [bins[i]];
      }
      i := i + 1;
    }
    assert bins[..|bins|] == bins;
  }

  /** The last loop: each inserted bin not yet known gets the id the follow-up select finds, if any. */
  method FetchInsertedIds(found: map<BinKey, int>, inserted: seq<TimeBin>, lookup: BinKey -> Option<int>)
    returns (ids: map<BinKey, int>)
    ensures forall k :: k in ids <==>
      k in found || (lookup(k).Some? && exists b :: b in inserted && BinKeyOf(b) == k)
    ensures forall k :: k in found ==> ids[k] == found[k]
    ensures forall k :: k in ids && k !in found ==> Some(ids[k]) == lookup(k)
  {
    ids := found;
    var i := 0;
    while i < |inserted|
      invariant 0 <= i <= |inserted|
      invariant forall k :: k in ids <==>
        k in found || (lookup(k).Some? && exists j :: 0 <= j < i && BinKeyOf(inserted[j]) == k)
      invariant forall k :: k in found ==> ids[k] == found[k]
      invariant forall k :: k in ids && k !in found ==> Some(ids[k]) == lookup(k)
    {
      var key := BinKeyOf(inserted[i]);
      if key !in ids {
        var id := lookup(key);
        if id.Some? {
          ids := ids[key := id.value];
        }
      }
      i := i + 1;
    }
    forall k | lookup(k).Some? && (exists b :: b in inserted && BinKeyOf(b) == k)
      ensures exists j :: 0 <= j < |inserted| && BinKeyOf(inserted[j]) == k
    {
      var b :| b in inserted && BinKeyOf(b) == k;
      var j :| 0 <= j < |inserted| && inserted[j] == b;
    }
  }

  /** A traffic row ready for the database: its bin replaced by the bin's id. */
  datatype TrafficRecord = TrafficRecord(stationId: int, timeBinId: int, validations: int)

  function WithBinId(ids: map<BinKey, int>, t: TrafficRow): (r: Option<TrafficRecord>)
    ensures r.Some? <==> (t.start, t.end) in ids
  {
    var key := (t.start, t.end);
    if key in ids then Some(TrafficRecord(t.stationId, ids[key], t.validations)) else None
  }

  /** Traffic rows whose bin got no id are dropped; the others are kept, in order. */
  method AttachTimeBins(traffic: seq<TrafficRow>, ids: map<BinKey, int>) returns (records: seq<TrafficRecord>)
    ensures records == Collect(traffic, t => WithBinId(ids, t))
  {
    records := [];
    var i := 0;
    while i < |traffic|
      invariant 0 <= i <= |traffic|
      invariant records == Collect(traffic[..i], t => WithBinId(ids, t))
    {
      assert traffic[..i + 1][..i] == traffic[..i];
      var t := traffic[i];
      var key := (t.start, t.end);
      if key in ids {
        records := records + [TrafficRecord(t.stationId, ids[key], t.validations)];
      }
      i := i + 1;
    }
    assert traffic[..|traffic|] == traffic;
  }

  /**
   * insert_navigo_data without the session: gather the rows, upsert the stations and the bins,
   * attach bin ids and upsert the traffic. Returns the three counts the source logs.
   */
  method InsertNavigoData(rows: seq<Row>, existing: seq<(BinKey, int)>, lookup: BinKey -> Option<int>,
                          stationRowcount: int, trafficRowcount: int)
    returns (stationsAdded: int, binIds: map<BinKey, int>, trafficAdded: int)
    ensures GatherAll(rows).stations == map[] ==> stationsAdded == 0
    ensures GatherAll(rows).stations != map[] ==> stationsAdded == stationRowcount
    ensures GatherAll(rows).bins == [] ==> binIds == map[]
    ensures GatherAll(rows).bins != [] ==> forall k :: k in binIds <==>
      k in ExistingIds(existing) || (lookup(k).Some? && k !in ExistingIds(existing)
        && exists b :: b in GatherAll(rows).bins && BinKeyOf(b) == k)
    ensures GatherAll(rows).bins != [] ==> forall k :: k in ExistingIds(existing) ==> binIds[k] == ExistingIds(existing)[k]
    ensures forall k :: k in binIds && k !in ExistingIds(existing) ==> Some(binIds[k]) == lookup(k)
    ensures trafficAdded == UpsertTrafficCount(Collect(GatherAll(rows).traffic, t => WithBinId(binIds, t)), trafficRowcount)
  {
    var stations, bins, traffic := GatherRows(rows);
    stationsAdded := UpsertStationsCount(stations, stationRowcount);
    var inserted;
    binIds, inserted := UpsertTimeBins(bins, existing, lookup);
    if bins != [] {
      forall k | lookup(k).Some? && k !in ExistingIds(existing) && exists b :: b in bins && BinKeyOf(b) == k
        ensures exists b :: b in inserted && BinKeyOf(b) == k
      {
        var b :| b in bins && BinKeyOf(b) == k;
        CollectSpec(bins, b => if BinKeyOf(b) in ExistingIds(existing) then None else Some(b));
      }
      forall b | b in inserted
        ensures b in bins && BinKeyOf(b) !in ExistingIds(existing)
      {
        CollectSpec(bins, b => if BinKeyOf(b) in ExistingIds(existing) then None else Some(b));
      }
    }
    var records := AttachTimeBins(traffic, binIds);
    trafficAdded := UpsertTrafficCount(records, trafficRowcount);
  }
}

=== FILE: nearest.dfy ===
/**
 * find_nearest_station_with_walk: the closest station within a radius of a point, with the
 * walking distance and duration to it. The great-circle distance from the point to a station
 * is a parameter `dist` (latitude, longitude) -> metres.
 */
module Nearest {
  import opened Common
  import opened Digraphs
  import opened Network

  /** The dictionary returned for the nearest station. */
  datatype NearestStation = NearestStation(
    stationId: int, name: string, latitude: real, longitude: real, walkingDistance: real, walkingDuration: real)

  /** `Station` when one is found, `NoStation` for Python's `None`; `ZeroDivision` when the speed is zero. */
  datatype Lookup = Station(station: NearestStation) | NoStation | ZeroDivision

  /** A node with both coordinates whose distance is within `maxDistance` kilometres. */
  predicate InRange(net: Net, dist: (real, real) -> real, maxDistance: real, u: int) {
    u in net.nodes && net.nodes[u].latitude.Some? && net.nodes[u].longitude.Some?
    && dist(net.nodes[u].latitude.value, net.nodes[u].longitude.value) <= maxDistance * 1000.0
  }

  function Distance(net: Net, dist: (real, real) -> real, u: int): real
    requires u in net.nodes && net.nodes[u].latitude.Some? && net.nodes[u].longitude.Some?
  {
    dist(net.nodes[u].latitude.value, net.nodes[u].longitude.value)
  }

  /** Minutes to walk `d` metres at `speed` km/h. */
  function WalkingMinutes(d: real, speed: real): (m: real)
    requires speed != 0.0
    ensures speed > 0.0 && d >= 0.0 ==> m >= 0.0
  {
    (d / 1000.0) / speed * 60.0
  }

  /** The candidate at position `i` of the node order beats every earlier one strictly and every later one weakly. */
  ghost predicate NearestAt(net: Net, dist: (real, real) -> real, maxDistance: real, i: int)
    requires net.WellFormed()
  {
    0 <= i < |net.order| && InRange(net, dist, maxDistance, net.order[i])
    && (forall j :: 0 <= j < |net.order| && InRange(net, dist, maxDistance, net.order[j]) ==>
          Distance(net, dist, net.order[i]) <= Distance(net, dist, net.order[j]))
    && (forall j :: 0 <= j < i && InRange(net, dist, maxDistance, net.order[j]) ==>
          Distance(net, dist, net.order[i]) < Distance(net, dist, net.order[j]))
  }

  /**
   * The scan over the nodes in insertion order: a node replaces the current best only when strictly
   * closer, so among equally close stations the first one in the graph wins.
   */
  method FindNearestStation(g: StationGraph, dist: (real, real) -> real, maxDistance: real, speed: real)
    returns (r: Lookup)
    requires g.Valid()
    ensures r.NoStation? <==> forall u :: u in g.nodes ==> !InRange(g.Value(), dist, maxDistance, u)
    ensures r.ZeroDivision? <==> speed == 0.0 && exists u :: u in g.nodes && InRange(g.Value(), dist, maxDistance, u)
    ensures r.Station? ==> exists i :: NearestAt(g.Value(), dist, maxDistance, i) && g.order[i] == r.station.stationId
    ensures r.Station? ==>
      var u := r.station.stationId;
      InRange(g.Value(), dist, maxDistance, u)
      && r.station.name == g.nodes[u].name
      && r.station.latitude == g.nodes[u].latitude.value
      && r.station.longitude == g.nodes[u].longitude.value
      && r.station.walkingDistance == Distance(g.Value(), dist, u)
      && speed != 0.0 && r.station.walkingDuration == WalkingMinutes(r.station.walkingDistance, speed)
  {
    ghost var net := g.Value();
    var nearest: Option<NearestStation> := None;
    ghost var at := 0;
    var i := 0;
    while i < |g.order|
      invariant 0 <= i <= |g.order| && net == g.Value()
      invariant nearest.None? ==> forall j :: 0 <= j < i ==> !InRange(net, dist, maxDistance, net.order[j])
      invariant nearest.Some? ==> speed != 0.0 && 0 <= at < i && net.order[at] == nearest.value.stationId
      invariant nearest.Some? ==> InRange(net, dist, maxDistance, net.order[at])
      invariant nearest.Some? ==>
        var u := net.order[at];
        nearest.value == NearestStation(u, net.nodes[u].name, net.nodes[u].latitude.value, net.nodes[u].longitude.value,
          Distance(net, dist, u), WalkingMinutes(Distance(net, dist, u), speed))
      invariant nearest.Some? ==> forall j :: 0 <= j < i && InRange(net, dist, maxDistance, net.order[j]) ==>
        nearest.value.walkingDistance <= Distance(net, dist, net.order[j])
      invariant nearest.Some? ==> forall j :: 0 <= j < at && InRange(net, dist, maxDistance, net.order[j]) ==>
        nearest.value.walkingDistance < Distance(net, dist, net.order[j])
    {
      var u := g.order[i];
      var data := g.nodes[u];
      if data.latitude.Some? && data.longitude.Some? {
        var d := dist(data.latitude.value, data.longitude.value);
        if d <= maxDistance * 1000.0 && (nearest.None? || d < nearest.value.walkingDistance) {
          if speed == 0.0 {
            assert InRange(net, dist, maxDistance, u);
            return ZeroDivision;
          }
          nearest := Some(NearestStation(u, data.name, data.latitude.value, data.longitude.value, d, WalkingMinutes(d, speed)));
          at := i;
        }
      }
      i := i + 1;
    }
    if nearest.None? {
      forall u | u in g.nodes
        ensures !InRange(net, dist, maxDistance, u)
      {
        var k :| 0 <= k < |net.order| && net.order[k] == u;
      }
      return NoStation;
    }
    assert NearestAt(net, dist, maxDistance, at);
    return Station(nearest.value);
  }
}

=== FILE: network.dfy ===
/**
 * The base transport network (create_transport_network): station nodes first, then one
 * directed edge per schedule row that has a next station.
 */
module Network {
  import opened Common
  import opened Text
  import opened Digraphs
  import opened TravelTime

  datatype StationRow = StationRow(id: int, name: string, longitude: real, latitude: real)

  /** Node attributes written by the congestion adjustment. */
  datatype Weighting = Weighting(congestionPenalty: real, crowdLevel: real, isTransfer: bool)

  /** Station attributes; `longitude`/`latitude` are absent on placeholder nodes. */
  datatype NodeAttrs = NodeAttrs(
    name: string, longitude: Option<real>, latitude: Option<real>, pos: (real, real), weighting: Option<Weighting>)

  /** Connection attributes; `line` is read by the congestion adjustment but never written by the builder. */
  datatype EdgeAttrs = EdgeAttrs(transportId: int, journeyId: Option<int>, travelTime: real, weight: real, line: Option<int>)

  type Net = Graph<int, NodeAttrs, EdgeAttrs>
  type StationGraph = Digraph<int, NodeAttrs, EdgeAttrs>

  function StationAttrs(s: StationRow): NodeAttrs {
    NodeAttrs(s.name, Some(s.longitude), Some(s.latitude), (s.longitude, s.latitude), None)
  }

  /**
   * `str()` of a station id read from a schedule row: "5" from an integer column, "5.0" from a
   * float column.
   */
  function IdText(id: int, fromFloat: bool): string {
    IntToString(id) + (if fromFloat then ".0" else "")
  }

  /** The placeholder added for a station id that appears only in the schedules. */
  function PlaceholderAttrs(id: int, fromFloat: bool): NodeAttrs {
    NodeAttrs("Station " + IdText(id, fromFloat), None, None, (0.0, 0.0), None)
  }

  /**
   * The next-station column is a float column once the travel-time stage has put NaN back into
   * it for a row without a next station; the station column stays an integer column.
   */
  predicate NextIdsFloat(rows: seq<TravelRow>) {
    exists i :: 0 <= i < |rows| && rows[i].nextStationId.None?
  }

  /** The edge weight: the travel time when known, otherwise five minutes; it is also stored as `travel_time`. */
  function ConnectionAttrs(r: TravelRow): (a: EdgeAttrs)
    ensures a.weight == a.travelTime && a.line.None? && a.transportId == r.transportId
    ensures r.travelTime.Some? ==> a.weight == r.travelTime.value
    ensures r.travelTime.None? ==> a.weight == 5.0
  {
    var w := if r.travelTime.Some? then r.travelTime.value else 5.0;
    EdgeAttrs(r.transportId, Some(r.journeyId), w, w, None)
  }

  function AddStations(g: Net, ss: seq<StationRow>): Net {
    if ss == [] then g
    else AddStations(g, ss[..|ss| - 1]).AddNode(ss[|ss| - 1].id, StationAttrs(ss[|ss| - 1]))
  }

  /** A node the graph lacks is added as a placeholder; a node it has is left alone. */
  function EnsureNode(g: Net, id: int, fromFloat: bool): (r: Net)
    ensures id in r.nodes && r.edges == g.edges
    ensures id in g.nodes ==> r == g
    ensures id !in g.nodes ==> r.nodes == g.nodes[id := PlaceholderAttrs(id, fromFloat)] && r.order == g.order + [id]
  {
    if id in g.nodes then g else g.AddNode(id, PlaceholderAttrs(id, fromFloat))
  }

  /** One schedule row: rows without next station are skipped. */
  function AddConnection(g: Net, r: TravelRow, floatNext: bool): Net {
    match r.nextStationId
    case None => g
    case Some(to) => EnsureNode(EnsureNode(g, r.stationId, false), to, floatNext).AddEdge(r.stationId, to, ConnectionAttrs(r))
  }

  function AddConnections(g: Net, rs: seq<TravelRow>, floatNext: bool): Net {
    if rs == [] then g else AddConnection(AddConnections(g, rs[..|rs| - 1], floatNext), rs[|rs| - 1], floatNext)
  }

  /** The network as a value: stations, then connections. */
  function BuildNetwork(stations: seq<StationRow>, rows: seq<TravelRow>): Net {
    AddConnections(AddStations(EmptyGraph(), stations), rows, NextIdsFloat(rows))
  }

  /** create_transport_network, adding nodes and edges one row at a time. */
  method CreateTransportNetwork(stations: seq<StationRow>, rows: seq<TravelRow>) returns (g: StationGraph)
    ensures fresh(g) && g.Valid() && g.Value() == BuildNetwork(stations, rows)
  {
    g := new Digraph();
    for i := 0 to |stations|
      invariant g.Valid() && g.Value() == AddStations(EmptyGraph(), stations[..i])
    {
      assert stations[..i + 1][..i] == stations[..i];
      g.AddNode(stations[i].id, StationAttrs(stations[i]));
    }
    assert stations[..|stations|] == stations;
    ghost var base := g.Value();
    var floatNext := NextIdsFloat(rows);
    for i := 0 to |rows|
      invariant g.Valid() && g.Value() == AddConnections(base, rows[..i], floatNext)
    {
      assert rows[..i + 1][..i] == rows[..i];
      var r := rows[i];
      if r.nextStationId.Some? {
        var to := r.nextStationId.value;
        if r.stationId !in g.nodes {
          g.AddNode(r.stationId, PlaceholderAttrs(r.stationId, false));
        }
        if to !in g.nodes {
          g.AddNode(to, PlaceholderAttrs(to, floatNext));
        }
        g.AddEdge(r.stationId, to, ConnectionAttrs(r));
      }
    }
    assert rows[..|rows|] == rows;
  }

  // ---------------------------------------------------------------- properties

  /** After the stations: one node per station id and no edge. */
  lemma {:induction false} StationKeys(ss: seq<StationRow>)
    ensures forall id :: id in AddStations(EmptyGraph(), ss).nodes <==> exists i :: 0 <= i < |ss| && ss[i].id == id
    ensures AddStations(EmptyGraph(), ss).edges == map[]
  {
    if ss != [] {
      var init := ss[..|ss| - 1];
      StationKeys(init);
      forall id | id in AddStations(EmptyGraph(), ss).nodes
        ensures exists i :: 0 <= i < |ss| && ss[i].id == id
      {
        if id != ss[|ss| - 1].id {
          var i :| 0 <= i < |init| && init[i].id == id;
          assert ss[i].id == id;
        }
      }
      forall id | exists i :: 0 <= i < |ss| && ss[i].id == id
        ensures id in AddStations(EmptyGraph(), ss).nodes
      {
        var i :| 0 <= i < |ss| && ss[i].id == id;
        if i < |init| {
          assert init[i].id == id;
        }
      }
    }
  }

  /** A station node carries the attributes of the last station row with its id. */
  lemma {:induction false} StationLastWins(ss: seq<StationRow>, i: nat)
    requires i < |ss| && forall j :: i < j < |ss| ==> ss[j].id != ss[i].id
    ensures ss[i].id in AddStations(EmptyGraph(), ss).nodes
    ensures AddStations(EmptyGraph(), ss).nodes[ss[i].id] == StationAttrs(ss[i])
  {
    if i < |ss| - 1 {
      var init := ss[..|ss| - 1];
      assert init[i] == ss[i];
      assert forall j :: i < j < |init| ==> init[j] == ss[j];
      StationLastWins(init, i);
    }
  }

  /**
   * Connections never change the attributes or the position of an existing node. A node they add
   * is a placeholder without coordinates, named from the station column ("Station 5") when no row
   * names it as a next station, and from the next-station column ("Station 5.0" for a float
   * column) when no row names it as a station.
   */
  lemma {:induction false} ConnectionsKeepNodes(g: Net, rs: seq<TravelRow>, floatNext: bool)
    ensures forall id :: id in g.nodes ==> id in AddConnections(g, rs, floatNext).nodes && AddConnections(g, rs, floatNext).nodes[id] == g.nodes[id]
    ensures |g.order| <= |AddConnections(g, rs, floatNext).order| && AddConnections(g, rs, floatNext).order[..|g.order|] == g.order
    ensures forall id :: id in AddConnections(g, rs, floatNext).nodes && id !in g.nodes ==>
      AddConnections(g, rs, floatNext).nodes[id] in {PlaceholderAttrs(id, false), PlaceholderAttrs(id, floatNext)}
    ensures forall id :: id in AddConnections(g, rs, floatNext).nodes && id !in g.nodes && !NamedNext(rs, id) ==>
      AddConnections(g, rs, floatNext).nodes[id] == PlaceholderAttrs(id, false)
    ensures forall id :: id in AddConnections(g, rs, floatNext).nodes && id !in g.nodes && !NamedStation(rs, id) ==>
      AddConnections(g, rs, floatNext).nodes[id] == PlaceholderAttrs(id, floatNext)
  {
    if rs != [] {
      var init := rs[..|rs| - 1];
      ConnectionsKeepNodes(g, init, floatNext);
      NamedSnoc(rs, init);
      var h := AddConnections(g, init, floatNext);
      var r := rs[|rs| - 1];
      if r.nextStationId.Some? {
        var h1 := EnsureNode(h, r.stationId, false);
        var h2 := EnsureNode(h1, r.nextStationId.value, floatNext);
        assert h1.order[..|h.order|] == h.order;
        assert h2.order[..|h1.order|] == h1.order;
        assert h2.order[..|g.order|] == h1.order[..|g.order|];
      }
    }
  }

  /** Some row names `id` as its next station. */
  predicate NamedNext(rs: seq<TravelRow>, id: int) {
    exists i :: 0 <= i < |rs| && rs[i].nextStationId == Some(id)
  }

  /** Some row with a next station names `id` as its station. */
  predicate NamedStation(rs: seq<TravelRow>, id: int) {
    exists i :: 0 <= i < |rs| && rs[i].stationId == id && rs[i].nextStationId.Some?
  }

  /** What the first rows name, all the rows name. */
  lemma NamedSnoc(rs: seq<TravelRow>, init: seq<TravelRow>)
    requires rs != [] && init == rs[..|rs| - 1]
    ensures forall id :: NamedNext(init, id) ==> NamedNext(rs, id)
    ensures forall id :: NamedStation(init, id) ==> NamedStation(rs, id)
    ensures forall id :: rs[|rs| - 1].nextStationId == Some(id) ==> NamedNext(rs, id)
    ensures forall id :: rs[|rs| - 1].nextStationId.Some? && rs[|rs| - 1].stationId == id ==> NamedStation(rs, id)
  {
    forall id | NamedNext(init, id)
      ensures NamedNext(rs, id)
    {
      var i :| 0 <= i < |init| && init[i].nextStationId == Some(id);
      assert rs[i] == init[i];
    }
    forall id | NamedStation(init, id)
      ensures NamedStation(rs, id)
    {
      var i :| 0 <= i < |init| && init[i].stationId == id && init[i].nextStationId.Some?;
      assert rs[i] == init[i];
    }
  }

  /** There is an edge (u, v) exactly when some schedule row goes from u to v (or the edge was already there). */
  lemma {:induction false} ConnectionEdges(g: Net, rs: seq<TravelRow>, floatNext: bool, u: int, v: int)
    ensures (u, v) in AddConnections(g, rs, floatNext).edges <==>
              (u, v) in g.edges || exists i :: 0 <= i < |rs| && rs[i].stationId == u && rs[i].nextStationId == Some(v)
  {
    if rs != [] {
      var init := rs[..|rs| - 1];
      ConnectionEdges(g, init, floatNext, u, v);
      if exists i :: 0 <= i < |init| && init[i].stationId == u && init[i].nextStationId == Some(v) {
        var i :| 0 <= i < |init| && init[i].stationId == u && init[i].nextStationId == Some(v);
        assert rs[i] == init[i];
      }
      if exists i :: 0 <= i < |rs| && rs[i].stationId == u && rs[i].nextStationId == Some(v) {
        var i :| 0 <= i < |rs| && rs[i].stationId == u && rs[i].nextStationId == Some(v);
        if i < |init| {
          assert init[i] == rs[i];
        }
      }
    }
  }

  /** The attributes of edge (u, v) come from the last schedule row from u to v. */
  lemma {:induction false} ConnectionLastWins(g: Net, rs: seq<TravelRow>, floatNext: bool, i: nat)
    requires i < |rs| && rs[i].nextStationId.Some?
    requires forall j :: i < j < |rs| ==> !(rs[j].stationId == rs[i].stationId && rs[j].nextStationId == rs[i].nextStationId)
    ensures (rs[i].stationId, rs[i].nextStationId.value) in AddConnections(g, rs, floatNext).edges
    ensures AddConnections(g, rs, floatNext).edges[(rs[i].stationId, rs[i].nextStationId.value)] == ConnectionAttrs(rs[i])
  {
    var init := rs[..|rs| - 1];
    var e := (rs[i].stationId, rs[i].nextStationId.value);
    if i < |rs| - 1 {
      assert init[i] == rs[i];
      assert forall j :: i < j < |init| ==> init[j] == rs[j];
      ConnectionLastWins(g, init, floatNext, i);
      ConnectionEdges(g, init, floatNext, e.0, e.1);
    }
  }

  /** Every edge weight equals its stored travel time, is at least `lo` when every known travel time and `lo` are at most 5, and carries no line. */
  lemma {:induction false} ConnectionWeights(g: Net, rs: seq<TravelRow>, floatNext: bool, lo: real)
    requires lo <= 5.0
    requires forall e :: e in g.edges ==> g.edges[e].weight == g.edges[e].travelTime && g.edges[e].weight >= lo && g.edges[e].line.None?
    requires forall i :: 0 <= i < |rs| && rs[i].travelTime.Some? ==> rs[i].travelTime.value >= lo
    ensures forall e :: e in AddConnections(g, rs, floatNext).edges ==>
              AddConnections(g, rs, floatNext).edges[e].weight == AddConnections(g, rs, floatNext).edges[e].travelTime
              && AddConnections(g, rs, floatNext).edges[e].weight >= lo && AddConnections(g, rs, floatNext).edges[e].line.None?
  {
    if rs != [] {
      assert forall i :: 0 <= i < |rs| - 1 ==> rs[..|rs| - 1][i] == rs[i];
      ConnectionWeights(g, rs[..|rs| - 1], floatNext, lo);
    }
  }

  /** The built network is well formed: every edge joins two nodes. */
  lemma {:induction false} ConnectionsWellFormed(g: Net, rs: seq<TravelRow>, floatNext: bool)
    requires g.WellFormed()
    ensures AddConnections(g, rs, floatNext).WellFormed()
  {
    if rs != [] {
      ConnectionsWellFormed(g, rs[..|rs| - 1], floatNext);
      var h := AddConnections(g, rs[..|rs| - 1], floatNext);
      var r := rs[|rs| - 1];
      if r.nextStationId.Some? {
        if r.stationId !in h.nodes {
          AddNodeWellFormed(h, r.stationId, PlaceholderAttrs(r.stationId, false));
        }
        var h1 := EnsureNode(h, r.stationId, false);
        if r.nextStationId.value !in h1.nodes {
          AddNodeWellFormed(h1, r.nextStationId.value, PlaceholderAttrs(r.nextStationId.value, floatNext));
        }
        var h2 := EnsureNode(h1, r.nextStationId.value, floatNext);
        AddEdgeWellFormed(h2, r.stationId, r.nextStationId.value, ConnectionAttrs(r));
      }
    }
  }

  /**
   * Summary of the builder: station rows give the station nodes (last row wins); schedule ids
   * that are not stations become placeholders without coordinates, named "Station {id}" from the
   * station column, or "Station {id}.0" from the next-station column once some row has no next
   * station; an edge exists exactly for a row with a next station.
   */
  lemma BuildNetworkNodes(stations: seq<StationRow>, rows: seq<TravelRow>, id: int)
    requires id in BuildNetwork(stations, rows).nodes
    ensures (exists i :: 0 <= i < |stations| && stations[i].id == id) ||
            BuildNetwork(stations, rows).nodes[id] in {PlaceholderAttrs(id, false), PlaceholderAttrs(id, NextIdsFloat(rows))}
    ensures (forall i :: 0 <= i < |stations| ==> stations[i].id != id) && !NamedStation(rows, id) ==>
            BuildNetwork(stations, rows).nodes[id] == PlaceholderAttrs(id, NextIdsFloat(rows))
    ensures (forall i :: 0 <= i < |stations| ==> stations[i].id != id) && !NamedNext(rows, id) ==>
            BuildNetwork(stations, rows).nodes[id] == PlaceholderAttrs(id, false)
    ensures forall i :: 0 <= i < |stations| && stations[i].id == id && (forall j :: i < j < |stations| ==> stations[j].id != id) ==>
              BuildNetwork(stations, rows).nodes[id] == StationAttrs(stations[i])
  {
    StationKeys(stations);
    ConnectionsKeepNodes(AddStations(EmptyGraph(), stations), rows, NextIdsFloat(rows));
    forall i | 0 <= i < |stations| && stations[i].id == id && (forall j :: i < j < |stations| ==> stations[j].id != id)
      ensures BuildNetwork(stations, rows).nodes[id] == StationAttrs(stations[i])
    {
      StationLastWins(stations, i);
    }
  }

  lemma BuildNetworkEdges(stations: seq<StationRow>, rows: seq<TravelRow>, u: int, v: int)
    ensures (u, v) in BuildNetwork(stations, rows).edges <==>
              exists i :: 0 <= i < |rows| && rows[i].stationId == u && rows[i].nextStationId == Some(v)
  {
    StationKeys(stations);
    ConnectionEdges(AddStations(EmptyGraph(), stations), rows, NextIdsFloat(rows), u, v);
  }

  /** With the travel-time stage's floor, every weight of the built network is at least one minute. */
  lemma BuildNetworkWeights(stations: seq<StationRow>, rows: seq<TravelRow>)
    requires forall i :: 0 <= i < |rows| && rows[i].travelTime.Some? ==> rows[i].travelTime.value >= 1.0
    ensures BuildNetwork(stations, rows).WellFormed()
    ensures forall e :: e in BuildNetwork(stations, rows).edges ==>
              BuildNetwork(stations, rows).edges[e].weight == BuildNetwork(stations, rows).edges[e].travelTime
              && BuildNetwork(stations, rows).edges[e].weight >= 1.0 && BuildNetwork(stations, rows).edges[e].line.None?
  {
    StationKeys(stations);
    StationsWellFormed(stations);
    ConnectionsWellFormed(AddStations(EmptyGraph(), stations), rows, NextIdsFloat(rows));
    ConnectionWeights(AddStations(EmptyGraph(), stations), rows, NextIdsFloat(rows), 1.0);
  }

  /**
   * A two-stop journey with no station rows: its last row has no next station, so the second stop
   * enters the network from the float next-station column and is named "Station 5.0", while the
   * first stop, read from the integer station column, is "Station 4".
   */
  lemma FloatPlaceholderExample()
    ensures BuildNetwork([], [TravelRow(1, 4, Some(5), Some(2.0), 7), TravelRow(1, 5, None, None, 7)]).nodes[5].name == "Station 5.0"
    ensures BuildNetwork([], [TravelRow(1, 4, Some(5), Some(2.0), 7), TravelRow(1, 5, None, None, 7)]).nodes[4].name == "Station 4"
  {
    var rows := [TravelRow(1, 4, Some(5), Some(2.0), 7), TravelRow(1, 5, None, None, 7)];
    assert NextIdsFloat(rows) by { assert rows[1].nextStationId.None?; }
    var g0: Net := EmptyGraph();
    assert AddStations(g0, []) == g0;
    assert rows[..1] == [rows[0]] && [rows[0]][..0] == [];
    var g1 := EnsureNode(EnsureNode(g0, 4, false), 5, true);
    assert AddConnections(g0, rows, true) == AddConnections(g0, [rows[0]], true);
    assert AddConnections(g0, [rows[0]], true) == g1.AddEdge(4, 5, ConnectionAttrs(rows[0]));
    assert g1.nodes[5] == PlaceholderAttrs(5, true) && g1.nodes[4] == PlaceholderAttrs(4, false);
    assert IntToString(5) == "5" && IntToString(4) == "4";
  }

  lemma {:induction false} StationsWellFormed(ss: seq<StationRow>)
    ensures AddStations(EmptyGraph(), ss).WellFormed()
  {
    if ss != [] {
      StationsWellFormed(ss[..|ss| - 1]);
      AddNodeWellFormed(AddStations(EmptyGraph(), ss[..|ss| - 1]), ss[|ss| - 1].id, StationAttrs(ss[|ss| - 1]));
    }
  }
}

=== FILE: predictor.dfy ===
/**
 * Predictor: holds the base network and the congestion-weighted network and decides when each is
 * loaded, rebuilt, replaced or used for a route request. The graph builder and the forecaster it
 * calls are collaborators whose outcomes (a value, or the exception raised) are parameters.
 */
module Predictors {
  import opened Common
  import opened Network
  import opened Congestion

  /** The exception classes the predictor tells apart. */
  datatype ErrorKind = FileNotFound | ValueError | OtherError

  /** What a collaborator call did: returned a value or raised. */
  datatype Outcome<T> = Done(value: T) | Raised(kind: ErrorKind, message: string)

  const BaseUnavailable := "Base transport network graph not available"

  /** Only a missing file or a `ValueError` is recovered from while loading at start-up. */
  predicate Recoverable<T>(o: Outcome<T>) {
    o.Raised? && (o.kind == FileNotFound || o.kind == ValueError)
  }

  /**
   * Which network a route request uses: when not specified, the weighted one if present; when the
   * weighted one is asked for but absent, the base one.
   */
  function UseWeighted(requested: Option<bool>, weightedAvailable: bool): (b: bool)
    ensures b ==> weightedAvailable
    ensures requested.None? ==> b == weightedAvailable
    ensures requested.Some? && weightedAvailable ==> b == requested.value
    ensures requested == Some(false) ==> !b
  {
    match requested
    case None => weightedAvailable
    case Some(w) => if w && !weightedAvailable then false else w
  }

  /** Node and edge counts of a network. */
  datatype Counts = Counts(nodes: nat, edges: nat)

  /** The summary `get_graph_info` returns. */
  datatype GraphInfo = GraphInfo(baseAvailable: bool, weightedAvailable: bool, base: Option<Counts>, weighted: Option<Counts>)

  function CountsOf(net: Net): Counts {
    Counts(|net.nodes|, |net.edges|)
  }

  /** A network is truthy when it has a node. */
  predicate Truthy(g: Option<Net>) {
    g.Some? && |g.value.nodes| > 0
  }

  /**
   * Availability is "is not None", counts are given only for a truthy network: an empty network is
   * available but has no counts.
   */
  function Info(base: Option<Net>, weighted: Option<Net>): (info: GraphInfo)
    ensures info.baseAvailable <==> base.Some?
    ensures info.weightedAvailable <==> weighted.Some?
    ensures info.base.Some? <==> Truthy(base)
    ensures info.weighted.Some? <==> Truthy(weighted)
    ensures info.base.Some? ==> info.base.value.nodes == |base.value.nodes| > 0 && info.base.value.edges == |base.value.edges|
    ensures info.weighted.Some? ==> info.weighted.value.nodes == |weighted.value.nodes| > 0 && info.weighted.value.edges == |weighted.value.edges|
  {
    GraphInfo(
      base.Some?, weighted.Some?,
      if Truthy(base) then Some(CountsOf(base.value)) else None,
      if Truthy(weighted) then Some(CountsOf(weighted.value)) else None)
  }

  /** An empty network is reported as available but without counts. */
  lemma EmptyNetworkAvailableWithoutCounts(base: Net, weighted: Option<Net>)
    requires base.nodes == map[]
    ensures Info(Some(base), weighted).baseAvailable && Info(Some(base), weighted).base.None?
  {
  }

  class Predictor {
    var baseGraph: Option<Net>
    var weightedGraph: Option<Net>

    constructor Of(base: Option<Net>, weighted: Option<Net>)
      ensures baseGraph == base && weightedGraph == weighted
    {
      baseGraph := base;
      weightedGraph := weighted;
    }

    /**
     * `Predictor(build_graph_if_missing)`: load the base network; when the file is missing or the
     * load raises `ValueError`, build, store and reload it if allowed, otherwise fail. Then load the
     * weighted network, which may be absent. Any other exception propagates.
     */
    static method Create(buildIfMissing: bool, loadBase: Outcome<Net>, saveBase: Outcome<()>, reloadBase: Outcome<Net>,
                         loadWeighted: Outcome<Net>) returns (r: Result<Predictor>)
      ensures r.Ok? ==> fresh(r.value)
      ensures r.Fail? <==> InitFails(buildIfMissing, loadBase, saveBase, reloadBase, loadWeighted)
      ensures r.Ok? ==> r.value.baseGraph == Some(if loadBase.Done? then loadBase.value else reloadBase.value)
      ensures r.Ok? ==> r.value.weightedGraph == (if loadWeighted.Done? then Some(loadWeighted.value) else None)
      ensures loadBase.Raised? && !Recoverable(loadBase) ==> r == Fail(loadBase.message)
      ensures Recoverable(loadBase) && !buildIfMissing ==> r == Fail(BaseUnavailable)
    {
      var base: Net;
      match loadBase {
        case Done(g) =>
          base := g;
        case Raised(kind, message) =>
          if !Recoverable(loadBase) {
            return Fail(message);
          }
          if !buildIfMissing {
            return Fail(BaseUnavailable);
          }
          if saveBase.Raised? {
            return Fail(saveBase.message);
          }
          if reloadBase.Raised? {
            return Fail(reloadBase.message);
          }
          base := reloadBase.value;
      }
      var weighted: Option<Net> := None;
      match loadWeighted {
        case Done(g) =>
          weighted := Some(g);
        case Raised(kind, message) =>
          if !Recoverable(loadWeighted) {
            return Fail(message);
          }
      }
      var p := new Predictor.Of(Some(base), weighted);
      return Ok(p);
    }

    /**
     * predict_and_update_graph: an empty forecast leaves everything as it was and does not reach the
     * builder; a successful update replaces the weighted network; any exception leaves it unchanged.
     */
    method PredictAndUpdateGraph(predictions: Outcome<seq<FrequencyRow>>, update: Outcome<Net>) returns (ok: bool)
      modifies this
      ensures ok <==> predictions.Done? && |predictions.value| > 0 && update.Done?
      ensures baseGraph == old(baseGraph)
      ensures ok ==> weightedGraph == Some(update.value)
      ensures !ok ==> weightedGraph == old(weightedGraph)
    {
      if predictions.Raised? {
        return false;
      }
      if |predictions.value| == 0 {
        return false;
      }
      if update.Raised? {
        return false;
      }
      weightedGraph := Some(update.value);
      return true;
    }

    /**
     * find_optimal_route: the builder is asked with the network choice `UseWeighted` makes, and the
     * route dictionary it returns is logged through its "total_time" and "graph_type" entries
     * before being returned. An exception, from the builder or from a missing entry (`KeyError`),
     * becomes `None`. `route` is the builder's answer for each choice.
     */
    method FindOptimalRoute<V>(useWeighted: Option<bool>, route: bool -> Outcome<map<string, V>>) returns (r: Option<map<string, V>>)
      ensures var w := UseWeighted(useWeighted, weightedGraph.Some?);
        (r.Some? <==> route(w).Done? && "total_time" in route(w).value && "graph_type" in route(w).value)
        && (r.Some? ==> r.value == route(w).value)
    {
      var w := useWeighted;
      var flag: bool;
      if w.None? {
        flag := weightedGraph.Some?;
      } else if w.value && weightedGraph.None? {
        flag := false;
      } else {
        flag := w.value;
      }
      match route(flag) {
        case Done(info) =>
          if "total_time" !in info || "graph_type" !in info {
            return None;
          }
          return Some(info);
        case Raised(_, _) => return None;
      }
    }

    /** rebuild_base_graph: the base network is replaced only when both storing and reloading succeed. */
    method RebuildBaseGraph(save: Outcome<()>, load: Outcome<Net>) returns (ok: bool)
      modifies this
      ensures ok <==> save.Done? && load.Done?
      ensures ok ==> baseGraph == Some(load.value)
      ensures !ok ==> baseGraph == old(baseGraph)
      ensures weightedGraph == old(weightedGraph)
    {
      if save.Raised? {
        return false;
      }
      if load.Raised? {
        return false;
      }
      baseGraph := Some(load.value);
      return true;
    }

    /** get_graph_info. */
    function GetGraphInfo(): (info: GraphInfo)
      reads this
      ensures info == Info(baseGraph, weightedGraph)
    {
      Info(baseGraph, weightedGraph)
    }
  }

  /** When start-up fails: an unrecoverable load error, a refused build, or an exception while building or loading. */
  predicate InitFails(buildIfMissing: bool, loadBase: Outcome<Net>, saveBase: Outcome<()>, reloadBase: Outcome<Net>, loadWeighted: Outcome<Net>) {
    (loadBase.Raised? && (!Recoverable(loadBase) || !buildIfMissing || saveBase.Raised? || reloadBase.Raised?))
    || (loadWeighted.Raised? && !Recoverable(loadWeighted))
  }
}

=== FILE: route_display.dfy ===
/**
 * The two route views (the English template and the French component): the one-line summary,
 * the list of lines ridden, the transfer times attached to stations, the station icon and label,
 * and the choice of the ride segment drawn between two consecutive stations. Number formatting
 * (`{x:.0f}`) is a parameter `fmt`.
 */
module RouteDisplay {
  import opened Common
  import opened Text

  /** One entry of `route_info["segments"]` as the views read it; an absent key takes the default `.get` supplies. */
  datatype DisplaySegment = DisplaySegment(
    isTransfer: bool, transportName: string, travelTimeMins: real,
    fromStationId: Option<int>, toStationId: Option<int>,
    fromStationName: Option<string>, toStationName: Option<string>)

  /** The words that differ between the two views. */
  datatype Wording = Wording(departure: string, arrival: string, transfer: string, transferNoun: string)

  const English := Wording("Departure", "Arrival", "Transfer", "transfer")
  const French := Wording("Départ", "Arrivée", "Correspondance", "correspondance")

  // ---------------------------------------------------------------- summary line

  /** "direct", "1 transfer" or "n transfers". */
  function TransferText(n: int, noun: string): (r: string)
    ensures r == "direct" <==> n <= 0
    ensures n == 1 ==> r == "1 " + noun
    ensures n > 1 ==> r == IntToString(n) + " " + noun + "s"
  {
    if n > 0 then
      var digits := IntToString(n);
      assert digits[0] != 'd';
      var r := digits + " " + noun + (if n > 1 then "s" else "");
      assert r[0] == digits[0];
      r
    else "direct"
  }

  /** The transfer text ends in "s" exactly when there is more than one transfer. */
  lemma TransferTextPlural(n: int, noun: string)
    requires noun != "" && noun[|noun| - 1] != 's' && n > 0
    ensures var r := TransferText(n, noun); r[|r| - 1] == 's' <==> n > 1
  {
  }

  /** The count and the noun can be read back from the transfer text, split at its one space. */
  lemma TransferTextReadsBack(n: int, noun: string)
    requires n > 0 && ' ' !in noun
    ensures var words := Split(TransferText(n, noun), ' ');
      |words| == 2 && PyInt(words[0]) == Some(n) && words[1] == noun + (if n > 1 then "s" else "")
  {
    var d := NatToString(n);
    var tail := noun + (if n > 1 then "s" else "");
    assert ' ' !in d by {
      forall i | 0 <= i < |d|
        ensures d[i] != ' '
      {
      }
    }
    assert TransferText(n, noun) == d + [' '] + tail;
    SplitOnce(d, tail, ' ');
    PyIntOfString(n);
  }

  function TypeHead(graphType: Option<string>): string {
    if graphType == Some("base") then "🚇 **Standard**" else "⚡ **Optimized**"
  }

  /**
   * get_route_summary_short: the network kind, the formatted duration ("N/A" when absent) and the
   * transfer text (no transfers when absent).
   */
  function RouteSummaryShort(w: Wording, graphType: Option<string>, travelTime: Option<string>, numTransfers: Option<int>): (r: string)
    ensures IsPrefix("🚇 **Standard** - ", r) <==> graphType == Some("base")
    ensures IsPrefix("⚡ **Optimized** - ", r) <==> graphType != Some("base")
    ensures r == TypeHead(graphType) + " - " + travelTime.GetOr("N/A") + " - " + TransferText(numTransfers.GetOr(0), w.transferNoun)
  {
    var head := TypeHead(graphType) + " - ";
    var rest := travelTime.GetOr("N/A") + " - " + TransferText(numTransfers.GetOr(0), w.transferNoun);
    var r := head + rest;
    assert r[..|head|] == head;
    assert r[0] == head[0];
    r
  }

  /** Without a duration or a transfer count the summary reads "N/A" and "direct". */
  lemma SummaryDefaults(w: Wording, graphType: Option<string>)
    ensures RouteSummaryShort(w, graphType, None, None) == TypeHead(graphType) + " - N/A - direct"
  {
    assert TransferText(0, w.transferNoun) == "direct";
  }

  // ---------------------------------------------------------------- lines ridden

  /** The line a segment rides: none for a transfer or an unnamed segment. */
  function RideName(s: DisplaySegment): (n: Option<string>)
    ensures n.Some? <==> !s.isTransfer && s.transportName != ""
    ensures n.Some? ==> n.value == s.transportName
  {
    if !s.isTransfer && s.transportName != "" then Some(s.transportName) else None
  }

  /** The names of the lines ridden, each once, in the order of their first ride. */
  function TransportNames(segments: seq<DisplaySegment>): seq<string> {
    FirstSeen(segments, RideName)
  }

  /** get_transport_summary: the names joined by " → ", or "No transport" when no line is ridden. */
  method GetTransportSummary(segments: seq<DisplaySegment>) returns (summary: string)
    ensures TransportNames(segments) == [] ==> summary == "No transport"
    ensures TransportNames(segments) != [] ==> summary == Join(" → ", TransportNames(segments))
  {
    var names: seq<string> := [];
    var i := 0;
    while i < |segments|
      invariant 0 <= i <= |segments|
      invariant names == TransportNames(segments[..i])
    {
      var s := segments[i];
      assert segments[..i + 1][..i] == segments[..i];
      if !s.isTransfer {
        if s.transportName != "" && s.transportName !in names {
          names := names + [s.transportName];
        }
      }
      i := i + 1;
    }
    assert segments[..|segments|] == segments;
    if names == [] {
      return "No transport";
    }
    return Join(" → ", names);
  }

  // ---------------------------------------------------------------- transfers per station

  /** get_transfer_segments: station i + 1 gets the time of transfer segment i. */
  method GetTransferSegments(segments: seq<DisplaySegment>) returns (transfers: map<int, seq<real>>)
    ensures forall k :: k in transfers <==> 1 <= k <= |segments| && segments[k - 1].isTransfer
    ensures forall k :: k in transfers ==> transfers[k] == [segments[k - 1].travelTimeMins]
  {
    transfers := map[];
    var i := 0;
    while i < |segments|
      invariant 0 <= i <= |segments|
      invariant forall k :: k in transfers <==> 1 <= k <= i && segments[k - 1].isTransfer
      invariant forall k :: k in transfers ==> transfers[k] == [segments[k - 1].travelTimeMins]
    {
      if segments[i].isTransfer {
        var station := i + 1;
        if station !in transfers {
          transfers := transfers[station := []];
        }
        transfers := transfers[station := transfers[station] + [segments[i].travelTimeMins]];
      }
      i := i + 1;
    }
  }

  /** get_transfer_time_for_station: the time of the segment leaving the station, when it is a transfer. */
  function GetTransferTimeForStation(segments: seq<DisplaySegment>, index: nat): (t: real)
    ensures index < |segments| && segments[index].isTransfer ==> t == segments[index].travelTimeMins
    ensures !(index < |segments| && segments[index].isTransfer) ==> t == 0.0
  {
    if index < |segments| && segments[index].isTransfer then 0.0 + segments[index].travelTimeMins else 0.0
  }

  /** The total transfer time of the transfer segments leaving from `id`. */
  function TransferTotal(segments: seq<DisplaySegment>, id: Option<int>): real {
    if segments == [] then 0.0
    else
      var s := segments[|segments| - 1];
      TransferTotal(segments[..|segments| - 1], id) + (if s.isTransfer && s.fromStationId == id then s.travelTimeMins else 0.0)
  }

  /** A station with no transfer segment has a total of zero. */
  lemma {:induction false} TransferTotalAbsent(segments: seq<DisplaySegment>, id: Option<int>)
    requires forall k :: 0 <= k < |segments| ==> !(segments[k].isTransfer && segments[k].fromStationId == id)
    ensures TransferTotal(segments, id) == 0.0
  {
    if segments != [] {
      TransferTotalAbsent(segments[..|segments| - 1], id);
    }
  }

  /**
   * The `station_transfers` loop: the keys are the departure ids of transfer segments, and each id's
   * value, or 0 through `.get`, is the total of its transfer segments.
   */
  method StationTransfers(segments: seq<DisplaySegment>) returns (totals: map<Option<int>, real>)
    ensures forall id :: id in totals <==> exists k :: 0 <= k < |segments| && segments[k].isTransfer && segments[k].fromStationId == id
    ensures forall id :: (if id in totals then totals[id] else 0.0) == TransferTotal(segments, id)
  {
    totals := map[];
    var i := 0;
    while i < |segments|
      invariant 0 <= i <= |segments|
      invariant forall id :: id in totals <==> exists k :: 0 <= k < i && segments[k].isTransfer && segments[k].fromStationId == id
      invariant forall id :: (if id in totals then totals[id] else 0.0) == TransferTotal(segments[..i], id)
    {
      var s := segments[i];
      assert segments[..i + 1][..i] == segments[..i];
      if s.isTransfer {
        var id := s.fromStationId;
        var before := if id in totals then totals[id] else 0.0;
        totals := totals[id := before + s.travelTimeMins];
      }
      i := i + 1;
    }
    assert segments[..|segments|] == segments;
  }

  // ---------------------------------------------------------------- station icon and label

  /** The icon and the label (caption) written after a station name. */
  datatype Mark = Mark(icon: string, caption: string)

  /** Departure, arrival or an intermediate station, before any transfer is shown. */
  function BaseMark(w: Wording, index: int, total: int): (m: Mark)
    ensures m.icon == "🏁" <==> index == 0
    ensures m.icon == "🎯" <==> index != 0 && index == total - 1
    ensures m.caption == "" <==> index != 0 && index != total - 1
  {
    if index == 0 then Mark("🏁", "*(" + w.departure + ")*")
    else if index == total - 1 then Mark("🎯", "*(" + w.arrival + ")*")
    else Mark("🚉", "")
  }

  /**
   * Adding the transfer time as written: `label[:-1]` drops only the closing "*", so the label keeps
   * its ")" and gains a second one.
   */
  function WithTransferAsWritten(w: Wording, m: Mark, minutes: string): Mark {
    if m.caption == "" then Mark("🔄", "*(" + w.transfer + " - " + minutes + " min)*")
    else Mark("🔄", m.caption[..|m.caption| - 1] + " - " + w.transfer + " - " + minutes + " min)*")
  }

  /** Adding the transfer time inside the parentheses of an existing label. */
  function WithTransfer(w: Wording, m: Mark, minutes: string): Mark {
    if |m.caption| < 2 then Mark("🔄", "*(" + w.transfer + " - " + minutes + " min)*")
    else Mark("🔄", m.caption[..|m.caption| - 2] + " - " + w.transfer + " - " + minutes + " min)*")
  }

  /** Number of occurrences of a character. */
  function Count(s: string, c: char): nat {
    if s == [] then 0 else Count(s[..|s| - 1], c) + (if s[|s| - 1] == c then 1 else 0)
  }

  lemma {:induction false} CountAppend(a: string, b: string, c: char)
    ensures Count(a + b, c) == Count(a, c) + Count(b, c)
  {
    if b == [] {
      assert a + b == a;
    } else {
      assert (a + b)[..|a + b| - 1] == a + b[..|b| - 1];
      CountAppend(a, b[..|b| - 1], c);
    }
  }

  predicate NoParens(s: string) {
    Count(s, '(') == 0 && Count(s, ')') == 0
  }

  predicate Balanced(s: string) {
    Count(s, '(') == Count(s, ')')
  }

  predicate PlainWords(w: Wording) {
    NoParens(w.departure) && NoParens(w.arrival) && NoParens(w.transfer)
  }

  /** Counting over the pieces of a transfer label. */
  lemma CountLabel(a: string, t: string, minutes: string, c: char)
    ensures Count(a + " - " + t + " - " + minutes + " min)*", c)
      == Count(a, c) + Count(" - ", c) + Count(t, c) + Count(" - ", c) + Count(minutes, c) + Count(" min)*", c)
  {
    CountAppend(a, " - ", c);
    CountAppend(a + " - ", t, c);
    CountAppend(a + " - " + t, " - ", c);
    CountAppend(a + " - " + t + " - ", minutes, c);
    CountAppend(a + " - " + t + " - " + minutes, " min)*", c);
  }

  /** The parentheses of the fixed pieces of a label. */
  lemma PieceCounts()
    ensures Count("*(", '(') == 1 && Count("*(", ')') == 0
    ensures Count(")*", '(') == 0 && Count(")*", ')') == 1
    ensures Count(")", '(') == 0 && Count(")", ')') == 1
    ensures Count(" - ", '(') == 0 && Count(" - ", ')') == 0
    ensures Count(" min)*", '(') == 0 && Count(" min)*", ')') == 1
  {
    assert "*("[..1] == "*" && ")*"[..1] == ")" && " - "[..2] == " -" && " -"[..1] == " ";
    assert " min)*"[..5] == " min)" && " min)"[..4] == " min" && " min"[..3] == " mi" && " mi"[..2] == " m";
  }

  /** A word without parentheses, wrapped as "*(word" or "*(word)": one "(" and none or one ")". */
  lemma OpenCounts(word: string)
    requires NoParens(word)
    ensures Count("*(" + word, '(') == 1 && Count("*(" + word, ')') == 0
    ensures Count("*(" + word + ")", '(') == 1 && Count("*(" + word + ")", ')') == 1
    ensures Count("*(" + word + ")*", '(') == 1 && Count("*(" + word + ")*", ')') == 1
  {
    PieceCounts();
    CountAppend("*(", word, '(');
    CountAppend("*(", word, ')');
    CountAppend("*(" + word, ")", '(');
    CountAppend("*(" + word, ")", ')');
    CountAppend("*(" + word, ")*", '(');
    CountAppend("*(" + word, ")*", ')');
    assert "*(" + word + ")*" == ("*(" + word) + ")*";
  }

  /**
   * The caption the views write for a transfer of `minutes` at a station, read off their f-strings:
   * after the ")" of the departure or arrival word, or on its own for an intermediate station.
   */
  function TransferCaption(w: Wording, index: int, total: int, minutes: string): string {
    if index == 0 then "*(" + w.departure + ") - " + w.transfer + " - " + minutes + " min)*"
    else if index == total - 1 then "*(" + w.arrival + ") - " + w.transfer + " - " + minutes + " min)*"
    else "*(" + w.transfer + " - " + minutes + " min)*"
  }

  /** The `[:-1]` slice of the base label yields exactly the caption the f-strings spell out. */
  lemma AsWrittenCaption(w: Wording, index: int, total: int, minutes: string)
    ensures WithTransferAsWritten(w, BaseMark(w, index, total), minutes) == Mark("🔄", TransferCaption(w, index, total, minutes))
  {
    var base := BaseMark(w, index, total).caption;
    if index == 0 {
      assert base[..|base| - 1] == "*(" + w.departure + ")";
    } else if index == total - 1 {
      assert base[..|base| - 1] == "*(" + w.arrival + ")";
    }
  }

  /** As written, a departure or an arrival that is also a transfer gets a label with one ")" too many. */
  lemma TransferAtEndpointUnbalanced(w: Wording, index: int, total: int, minutes: string)
    requires PlainWords(w) && NoParens(minutes) && (index == 0 || index == total - 1)
    ensures !Balanced(WithTransferAsWritten(w, BaseMark(w, index, total), minutes).caption)
  {
    var word := if index == 0 then w.departure else w.arrival;
    var base := "*(" + word + ")*";
    var kept := base[..|base| - 1];
    assert kept == "*(" + word + ")";
    assert BaseMark(w, index, total).caption == base;
    OpenCounts(word);
    PieceCounts();
    CountLabel(kept, w.transfer, minutes, '(');
    CountLabel(kept, w.transfer, minutes, ')');
  }

  /** With the corrected label, a departure or arrival that is also a transfer keeps its parentheses balanced. */
  lemma WrappedTransferBalanced(word: string, transfer: string, minutes: string)
    requires NoParens(word) && NoParens(transfer) && NoParens(minutes)
    ensures var base := "*(" + word + ")*";
      Balanced(base[..|base| - 2] + " - " + transfer + " - " + minutes + " min)*")
  {
    var base := "*(" + word + ")*";
    assert base[..|base| - 2] == "*(" + word;
    OpenCounts(word);
    PieceCounts();
    CountLabel("*(" + word, transfer, minutes, '(');
    CountLabel("*(" + word, transfer, minutes, ')');
  }

  /** The label of an intermediate station that is a transfer is balanced. */
  lemma PlainTransferBalanced(transfer: string, minutes: string)
    requires NoParens(transfer) && NoParens(minutes)
    ensures Balanced("*(" + transfer + " - " + minutes + " min)*")
  {
    var a := "*(" + transfer;
    OpenCounts(transfer);
    PieceCounts();
    CountAppend(a, " - ", '(');
    CountAppend(a, " - ", ')');
    CountAppend(a + " - ", minutes, '(');
    CountAppend(a + " - ", minutes, ')');
    CountAppend(a + " - " + minutes, " min)*", '(');
    CountAppend(a + " - " + minutes, " min)*", ')');
  }

  /** With the corrected label every station label has as many "(" as ")". */
  lemma MarkBalanced(w: Wording, index: int, total: int, minutes: string)
    requires PlainWords(w) && NoParens(minutes)
    ensures Balanced(BaseMark(w, index, total).caption)
    ensures Balanced(WithTransfer(w, BaseMark(w, index, total), minutes).caption)
  {
    OpenCounts(w.departure);
    OpenCounts(w.arrival);
    var m := BaseMark(w, index, total);
    if |m.caption| < 2 {
      PlainTransferBalanced(w.transfer, minutes);
    } else if index == 0 {
      WrappedTransferBalanced(w.departure, w.transfer, minutes);
    } else {
      WrappedTransferBalanced(w.arrival, w.transfer, minutes);
    }
  }

  /**
   * The template's display_station: a station that ends a transfer segment gets the transfer icon
   * and the caption with the total of its transfer times; any other keeps its base icon and label.
   */
  function TemplateStationMark(index: int, total: int, transfers: map<int, seq<real>>, fmt: real -> string): (m: Mark)
    ensures m.icon == "🔄" <==> index in transfers
    ensures index in transfers ==> m.caption == TransferCaption(English, index, total, fmt(Sum(transfers[index])))
    ensures index !in transfers ==> m == BaseMark(English, index, total)
  {
    var base := BaseMark(English, index, total);
    if index in transfers then
      AsWrittenCaption(English, index, total, fmt(Sum(transfers[index])));
      WithTransferAsWritten(English, base, fmt(Sum(transfers[index])))
    else base
  }

  /**
   * The component's display_station: when the segment leaving the station is a transfer of positive
   * time, the transfer icon and the caption with that time; otherwise the base icon and label.
   */
  function ComponentStationMark(index: nat, total: int, segments: seq<DisplaySegment>, fmt: real -> string): (m: Mark)
    ensures m.icon == "🔄" <==> index < |segments| && segments[index].isTransfer && segments[index].travelTimeMins > 0.0
    ensures m.icon == "🔄" ==> m.caption == TransferCaption(French, index, total, fmt(segments[index].travelTimeMins))
    ensures m.icon != "🔄" ==> m == BaseMark(French, index, total)
  {
    var base := BaseMark(French, index, total);
    var t := GetTransferTimeForStation(segments, index);
    if t > 0.0 then
      AsWrittenCaption(French, index, total, fmt(t));
      WithTransferAsWritten(French, base, fmt(t))
    else base
  }

  /** The id of a station: that of the first segment leaving or, failing that, reaching a station of that name. */
  function StationIdFor(segments: seq<DisplaySegment>, station: string): Option<int> {
    if segments == [] then None
    else if segments[0].fromStationName == Some(station) then segments[0].fromStationId
    else if segments[0].toStationName == Some(station) then segments[0].toStationId
    else StationIdFor(segments[1..], station)
  }

  /** The id loop of display_station_with_transfers. */
  method FindStationId(segments: seq<DisplaySegment>, station: string) returns (id: Option<int>)
    ensures id == StationIdFor(segments, station)
  {
    var i := 0;
    while i < |segments|
      invariant 0 <= i <= |segments|
      invariant StationIdFor(segments, station) == StationIdFor(segments[i..], station)
    {
      var s := segments[i];
      if s.fromStationName == Some(station) {
        return s.fromStationId;
      } else if s.toStationName == Some(station) {
        return s.toStationId;
      }
      assert segments[i..][1..] == segments[i + 1..];
      i := i + 1;
    }
    return None;
  }

  /** Python truthiness of a station id: present and non-zero. */
  predicate TruthyId(id: Option<int>) {
    id.Some? && id.value != 0
  }

  /**
   * display_station_with_transfers: the transfer time is the total of the station's id in
   * `totals`, and none for a missing or zero id.
   */
  function StationWithTransfersMark(station: string, index: int, total: int, totals: map<Option<int>, real>,
                                    segments: seq<DisplaySegment>, fmt: real -> string): (m: Mark)
    ensures var id := StationIdFor(segments, station);
      m.icon == "🔄" <==> TruthyId(id) && id in totals && totals[id] > 0.0
    ensures var id := StationIdFor(segments, station);
      m.icon == "🔄" ==> m.caption == TransferCaption(French, index, total, fmt(totals[id]))
    ensures m.icon != "🔄" ==> m == BaseMark(French, index, total)
  {
    var base := BaseMark(French, index, total);
    var id := StationIdFor(segments, station);
    var t := if TruthyId(id) then (if id in totals then totals[id] else 0.0) else 0.0;
    if t > 0.0 then
      AsWrittenCaption(French, index, total, fmt(t));
      WithTransferAsWritten(French, base, fmt(t))
    else base
  }

  // ---------------------------------------------------------------- segment between two stations

  /** The key a ride segment has in `segment_map`, when both its names are non-empty. */
  predicate Keyed(s: DisplaySegment, key: (string, string)) {
    !s.isTransfer && s.fromStationName.GetOr("") == key.0 && s.toStationName.GetOr("") == key.1 && key.0 != "" && key.1 != ""
  }

  /** The `segment_map` loop: each key holds the last ride segment with those names. */
  method SegmentMap(segments: seq<DisplaySegment>) returns (m: map<(string, string), DisplaySegment>)
    ensures forall key :: key in m <==> exists k :: 0 <= k < |segments| && Keyed(segments[k], key)
    ensures forall key :: key in m ==>
      exists k :: (0 <= k < |segments| && Keyed(segments[k], key) && m[key] == segments[k]
        && forall j :: k < j < |segments| ==> !Keyed(segments[j], key))
  {
    m := map[];
    var i := 0;
    while i < |segments|
      invariant 0 <= i <= |segments|
      invariant forall key :: key in m <==> exists k :: 0 <= k < i && Keyed(segments[k], key)
      invariant forall key :: key in m ==>
        exists k :: (0 <= k < i && Keyed(segments[k], key) && m[key] == segments[k]
          && forall j :: k < j < i ==> !Keyed(segments[j], key))
    {
      var s := segments[i];
      if !s.isTransfer {
        var from := s.fromStationName.GetOr("");
        var to := s.toStationName.GetOr("");
        if from != "" && to != "" {
          m := m[(from, to) := s];
          assert Keyed(segments[i], (from, to));
        }
      }
      i := i + 1;
    }
  }

  /** A ride segment whose stripped, upper-cased names are those of the two stations. */
  predicate LooseMatch(s: DisplaySegment, station: string, next: string) {
    !s.isTransfer
    && Upper(Strip(s.fromStationName.GetOr(""))) == Upper(Strip(station))
    && Upper(Strip(s.toStationName.GetOr(""))) == Upper(Strip(next))
  }

  /** The fallback search: the first ride segment that matches loosely. */
  method FallbackSegment(segments: seq<DisplaySegment>, station: string, next: string) returns (r: Option<DisplaySegment>)
    ensures r.None? <==> forall k :: 0 <= k < |segments| ==> !LooseMatch(segments[k], station, next)
    ensures r.Some? ==> exists k :: (0 <= k < |segments| && LooseMatch(segments[k], station, next) && r.value == segments[k]
      && forall j :: 0 <= j < k ==> !LooseMatch(segments[j], station, next))
  {
    var i := 0;
    while i < |segments|
      invariant 0 <= i <= |segments|
      invariant forall j :: 0 <= j < i ==> !LooseMatch(segments[j], station, next)
    {
      var s := segments[i];
      if !s.isTransfer {
        var from := Upper(Strip(s.fromStationName.GetOr("")));
        var to := Upper(Strip(s.toStationName.GetOr("")));
        if from == Upper(Strip(station)) && to == Upper(Strip(next)) {
          return Some(s);
        }
      }
      i := i + 1;
    }
    return None;
  }

  /**
   * The segment drawn between two consecutive stations: the exact-name entry of `segment_map` when
   * there is one, otherwise the first loose match.
   */
  method SegmentBetween(segments: seq<DisplaySegment>, station: string, next: string) returns (r: Option<DisplaySegment>)
    ensures (exists k :: 0 <= k < |segments| && Keyed(segments[k], (station, next))) ==>
      r.Some? && exists k :: (0 <= k < |segments| && Keyed(segments[k], (station, next)) && r.value == segments[k]
        && forall j :: k < j < |segments| ==> !Keyed(segments[j], (station, next)))
    ensures (forall k :: 0 <= k < |segments| ==> !Keyed(segments[k], (station, next))) ==>
      (r.None? <==> forall k :: 0 <= k < |segments| ==> !LooseMatch(segments[k], station, next))
    ensures (forall k :: 0 <= k < |segments| ==> !Keyed(segments[k], (station, next))) && r.Some? ==>
      exists k :: (0 <= k < |segments| && LooseMatch(segments[k], station, next) && r.value == segments[k]
        && forall j :: 0 <= j < k ==> !LooseMatch(segments[j], station, next))
  {
    var m := SegmentMap(segments);
    if (station, next) in m {
      return Some(m[(station, next)]);
    }
    r := FallbackSegment(segments, station, next);
  }
}

=== FILE: route_finder.dfy ===
/**
 * find_optimal_route: a shortest path over the line-expanded graph, the reduction of that path
 * to stations, and the route information (station names, duration text, ride segments, transfers).
 */
module RouteFinder {
  import opened Common
  import opened Text
  import opened Digraphs
  import opened Network
  import opened RouteGraph
  import opened ShortestPaths

  // ---------------------------------------------------------------- walks of the expanded graph

  /** A walk along edges of the expanded graph as `XEdgeSpec` describes it. */
  ghost predicate XPath(net: Net, penalty: real, start: int, end: int, q: seq<XNode>) {
    |q| >= 1 && forall i :: 0 <= i < |q| - 1 ==> XEdgeSpec(net, penalty, start, end, q[i], q[i + 1]).Some?
  }

  /** A walk from the search source of `start` to the search target of `end`. */
  ghost predicate XPathFromTo(net: Net, penalty: real, start: int, end: int, q: seq<XNode>) {
    XPath(net, penalty, start, end, q) && q[0] == StartNode(net, start) && q[|q| - 1] == EndNode(net, end)
  }

  /** The total weight of a walk of the expanded graph. */
  ghost function XCost(net: Net, penalty: real, start: int, end: int, q: seq<XNode>): real
    requires XPath(net, penalty, start, end, q)
  {
    if |q| == 1 then 0.0
    else XCost(net, penalty, start, end, q[..|q| - 1]) + XEdgeSpec(net, penalty, start, end, q[|q| - 2], q[|q| - 1]).value.weight
  }

  /** The edge map of a built expanded graph is the one `XEdgeSpec` describes. */
  ghost predicate EdgesMatch(net: Net, penalty: real, start: int, end: int, edges: map<(XNode, XNode), XEdge>) {
    (forall a, b :: (a, b) in edges <==> XEdgeSpec(net, penalty, start, end, a, b).Some?)
    && (forall a, b :: (a, b) in edges ==> edges[(a, b)] == XEdgeSpec(net, penalty, start, end, a, b).value)
  }

  /** The `weight` attribute Dijkstra reads from each edge. */
  function Weights(edges: map<(XNode, XNode), XEdge>): map<(XNode, XNode), real> {
    map k | k in edges :: edges[k].weight
  }

  /** Walks and costs over the weight map are exactly walks and costs of the expanded graph. */
  lemma {:induction false} WeightsMatch(net: Net, penalty: real, start: int, end: int, edges: map<(XNode, XNode), XEdge>, q: seq<XNode>)
    requires EdgesMatch(net, penalty, start, end, edges)
    ensures IsPath(Weights(edges), q) <==> XPath(net, penalty, start, end, q)
    ensures IsPath(Weights(edges), q) ==> Cost(Weights(edges), q) == XCost(net, penalty, start, end, q)
  {
    var w := Weights(edges);
    if |q| > 1 {
      var p := q[..|q| - 1];
      WeightsMatch(net, penalty, start, end, edges, p);
      assert forall i :: 0 <= i < |p| ==> p[i] == q[i];
      if IsPath(w, q) {
        assert IsPath(w, p);
      }
      if XPath(net, penalty, start, end, q) {
        assert XPath(net, penalty, start, end, p);
      }
    }
  }

  lemma WeightsMatchAll(net: Net, penalty: real, start: int, end: int, edges: map<(XNode, XNode), XEdge>)
    requires EdgesMatch(net, penalty, start, end, edges)
    ensures forall q :: IsPath(Weights(edges), q) <==> XPath(net, penalty, start, end, q)
    ensures forall q :: IsPath(Weights(edges), q) ==> Cost(Weights(edges), q) == XCost(net, penalty, start, end, q)
  {
    forall q
      ensures IsPath(Weights(edges), q) <==> XPath(net, penalty, start, end, q)
      ensures IsPath(Weights(edges), q) ==> Cost(Weights(edges), q) == XCost(net, penalty, start, end, q)
    {
      WeightsMatch(net, penalty, start, end, edges, q);
    }
  }

  /** The expanded graph meets Dijkstra's demands: edges between its nodes, no negative weight. */
  lemma WeightsValid(net: Net, penalty: real, start: int, end: int, g: Graph<XNode, (), XEdge>)
    requires g.WellFormed() && EdgesMatch(net, penalty, start, end, g.edges) && penalty >= 0.0
    requires forall e :: e in net.edges ==> net.edges[e].weight >= 0.0
    ensures forall e :: e in Weights(g.edges) ==> e.0 in g.nodes.Keys && e.1 in g.nodes.Keys && Weights(g.edges)[e] >= 0.0
  {
    var w := Weights(g.edges);
    forall e | e in w
      ensures e.0 in g.nodes.Keys && e.1 in g.nodes.Keys && w[e] >= 0.0
    {
      assert e in g.edges && w[e] == g.edges[e].weight;
      var (a, b) := e;
      assert (a, b) in g.edges;
      XEdgeWeight(net, penalty, start, end, a, b);
    }
  }

  /** Every edge of the expanded graph weighs as much as its connection, or the penalty, or nothing. */
  lemma XEdgeWeight(net: Net, penalty: real, start: int, end: int, a: XNode, b: XNode)
    requires penalty >= 0.0 && forall e :: e in net.edges ==> net.edges[e].weight >= 0.0
    requires XEdgeSpec(net, penalty, start, end, a, b).Some?
    ensures XEdgeSpec(net, penalty, start, end, a, b).value.weight >= 0.0
  {
  }

  /** Every node of the expanded graph that stands for a station names a station of the network. */
  ghost predicate InNet(net: Net, n: XNode) {
    n.Virtual() || n.station in net.nodes
  }

  lemma XEdgeInNet(net: Net, penalty: real, start: int, end: int, a: XNode, b: XNode)
    requires net.WellFormed() && XEdgeSpec(net, penalty, start, end, a, b).Some?
    ensures InNet(net, a) && InNet(net, b)
  {
    if !a.Virtual() {
      var e :| e in net.edges && e.0 == a.station && net.edges[e].transportId == a.line;
    }
    if IsTransferKey(net, a, b) {
      var e :| e in net.edges && e.0 == b.station && net.edges[e].transportId == b.line;
    }
  }

  lemma XPathInNet(net: Net, penalty: real, start: int, end: int, q: seq<XNode>)
    requires net.WellFormed() && start in net.nodes
    requires XPath(net, penalty, start, end, q) && q[0] == StartNode(net, start)
    ensures forall i :: 0 <= i < |q| ==> InNet(net, q[i])
  {
    forall i | 0 <= i < |q|
      ensures InNet(net, q[i])
    {
      if i < |q| - 1 {
        XEdgeInNet(net, penalty, start, end, q[i], q[i + 1]);
      } else if i > 0 {
        XEdgeInNet(net, penalty, start, end, q[i - 1], q[i]);
      }
    }
  }

  // ---------------------------------------------------------------- step 6: back to stations

  /** Step 6 as intended: line and plain nodes become their station, the virtual nodes are dropped. */
  function Reduce(pe: seq<XNode>): (p: seq<int>)
    ensures |p| <= |pe|
  {
    if pe == [] then [] else (if pe[0].Virtual() then [] else [pe[0].station]) + Reduce(pe[1..])
  }

  /**
   * Step 6 as written: a plain station node is an `int`, and the `startswith` test it reaches
   * raises an `AttributeError`, reported here as `None`.
   */
  function ReduceAsWritten(pe: seq<XNode>): Option<seq<int>> {
    if pe == [] then Some([])
    else if pe[0].Plain? then None
    else match ReduceAsWritten(pe[1..])
      case None => None
      case Some(rest) => Some((if pe[0].Line? then [pe[0].station] else []) + rest)
  }

  /** The code as written agrees with the intended reduction exactly when the walk has no plain node. */
  lemma {:induction false} ReduceAsWrittenFails(pe: seq<XNode>)
    ensures ReduceAsWritten(pe) == if forall i :: 0 <= i < |pe| ==> !pe[i].Plain? then Some(Reduce(pe)) else None
  {
    if pe != [] {
      ReduceAsWrittenFails(pe[1..]);
      assert forall i :: 1 <= i < |pe| ==> pe[i] == pe[1..][i - 1];
    }
  }

  lemma {:induction false} ReduceAppend(a: seq<XNode>, b: seq<XNode>)
    ensures Reduce(a + b) == Reduce(a) + Reduce(b)
  {
    if a != [] {
      assert (a + b)[0] == a[0] && (a + b)[1..] == a[1..] + b;
      ReduceAppend(a[1..], b);
      var h := if a[0].Virtual() then [] else [a[0].station];
      calc {
        Reduce(a + b);
        h + Reduce(a[1..] + b);
        h + (Reduce(a[1..]) + Reduce(b));
        (h + Reduce(a[1..])) + Reduce(b);
        Reduce(a) + Reduce(b);
      }
    } else {
      assert a + b == b;
    }
  }

  lemma {:induction false} ReduceInNet(net: Net, pe: seq<XNode>)
    requires forall i :: 0 <= i < |pe| ==> InNet(net, pe[i])
    ensures forall y :: y in Reduce(pe) ==> y in net.nodes
  {
    if pe != [] {
      ReduceInNet(net, pe[1..]);
    }
  }

  lemma RouteInNet(net: Net, pe: seq<XNode>)
    requires forall i :: 0 <= i < |pe| ==> InNet(net, pe[i])
    ensures forall i :: 0 <= i < |Dedupe(Reduce(pe))| ==> Dedupe(Reduce(pe))[i] in net.nodes
  {
    ReduceInNet(net, pe);
    var p := Reduce(pe);
    var r := Dedupe(p);
    forall i | 0 <= i < |r|
      ensures r[i] in net.nodes
    {
      var y := r[i];
      assert y in r;
      assert y in p;
    }
  }

  /** `[path[i] for i in range(len(path)) if i == 0 or path[i] != path[i - 1]]`. */
  function Dedupe(p: seq<int>): (r: seq<int>)
    ensures |r| <= |p| && (r == [] <==> p == [])
    ensures p != [] ==> r[0] == p[0] && r[|r| - 1] == p[|p| - 1]
    ensures forall i :: 0 <= i < |r| - 1 ==> r[i] != r[i + 1]
    ensures forall y :: y in r <==> y in p
  {
    if |p| <= 1 then p
    else
      assert p == p[..|p| - 1] + [p[|p| - 1]];
      assert p[|p| - 2] in p[..|p| - 1];
      if p[|p| - 1] == p[|p| - 2] then Dedupe(p[..|p| - 1])
      else Dedupe(p[..|p| - 1]) + [p[|p| - 1]]
  }

  /** The first station of a walk that starts with at most one virtual node. */
  lemma ReduceFirst(q: seq<XNode>)
    requires q != [] && (!q[0].Virtual() || (|q| > 1 && !q[1].Virtual()))
    ensures Reduce(q) != [] && Reduce(q)[0] == if !q[0].Virtual() then q[0].station else q[1].station
  {
    if q[0].Virtual() {
      assert q[1..][0] == q[1];
    }
  }

  /** The last station of a walk that ends with at most one virtual node. */
  lemma ReduceLast(q: seq<XNode>)
    requires q != [] && (!q[|q| - 1].Virtual() || (|q| > 1 && !q[|q| - 2].Virtual()))
    ensures Reduce(q) != []
    ensures Reduce(q)[|Reduce(q)| - 1] == if !q[|q| - 1].Virtual() then q[|q| - 1].station else q[|q| - 2].station
  {
    var n := |q|;
    assert q == q[..n - 1] + [q[n - 1]];
    ReduceAppend(q[..n - 1], [q[n - 1]]);
    if q[n - 1].Virtual() {
      var p := q[..n - 1];
      assert p == p[..n - 2] + [q[n - 2]];
      ReduceAppend(p[..n - 2], [q[n - 2]]);
    }
  }

  /**
   * A route found by the search starts at the start station and ends at the end station: a
   * virtual start is followed by a line node of the start station, and a virtual end is preceded
   * by a line node of the end station.
   */
  lemma RouteEndpoints(net: Net, penalty: real, start: int, end: int, q: seq<XNode>)
    requires XPathFromTo(net, penalty, start, end, q)
    ensures Dedupe(Reduce(q)) != []
    ensures Dedupe(Reduce(q))[0] == start && Dedupe(Reduce(q))[|Dedupe(Reduce(q))| - 1] == end
  {
    var n := |q|;
    if q[0].Virtual() {
      assert n > 1 && XEdgeSpec(net, penalty, start, end, q[0], q[1]).Some?;
      assert IsStartKey(net, start, q[0], q[1]);
    }
    if q[n - 1].Virtual() {
      assert n > 1 && XEdgeSpec(net, penalty, start, end, q[n - 2], q[n - 1]).Some?;
      assert IsEndKey(net, end, q[n - 2], q[n - 1]);
    }
    ReduceFirst(q);
    ReduceLast(q);
  }

  // ---------------------------------------------------------------- step 7: route information

  /** `travel_time_formatted`'s hours and minutes: `int(x // 60)` and `int(x % 60)`. */
  function DurationParts(x: real): (hm: (int, int))
    requires x >= 60.0
    ensures hm.0 >= 1 && 0 <= hm.1 < 60
    ensures hm.0 * 60 + hm.1 == x.Floor
  {
    var h := (x / 60.0).Floor;
    var rest := FMod(x, 60.0);
    assert rest == x - 60.0 * (h as real);
    var m := Trunc(rest);
    assert m == rest.Floor;
    FloorShift(rest, 60 * h);
    (h, m)
  }

  lemma FloorShift(r: real, n: int)
    ensures (r + n as real).Floor == r.Floor + n
  {
  }

  /** "{h}h {m}min" from an hour on, else "{m}min" with the minutes truncated. */
  function FormatDuration(x: real): (s: string)
    ensures |s| > 3 && s[|s| - 3..] == "min"
  {
    if x >= 60.0 then
      var hm := DurationParts(x);
      IntToString(hm.0) + "h " + IntToString(hm.1) + "min"
    else IntToString(Trunc(x)) + "min"
  }

  /** The name shown for a station: its `name` attribute. */
  function StationName(net: Net, u: int): string
    requires u in net.nodes
  {
    net.nodes[u].name
  }

  function StationNames(net: Net, path: seq<int>): (names: seq<string>)
    requires forall i :: 0 <= i < |path| ==> path[i] in net.nodes
    ensures |names| == |path| && forall i :: 0 <= i < |path| ==> names[i] == net.nodes[path[i]].name
  {
    seq(|path|, i requires 0 <= i < |path| => StationName(net, path[i]))
  }

  datatype Segment = Segment(
    fromStation: int, fromName: string, toStation: int, toName: string,
    tag: Tag, travelTime: real, isTransfer: bool)

  /** The state of the segment loop: the segments so far, the current line and the transfer count. */
  datatype Walk = Walk(segments: seq<Segment>, current: Option<Tag>, transfers: nat)

  ghost predicate WalkEdges(net: Net, edges: map<(XNode, XNode), XEdge>, pe: seq<XNode>) {
    |pe| >= 1
    && (forall i :: 0 <= i < |pe| - 1 ==> (pe[i], pe[i + 1]) in edges)
    && (forall i :: 0 <= i < |pe| ==> InNet(net, pe[i]))
  }

  /**
   * One step of the segment loop. Steps touching a virtual node, and steps within one station,
   * add nothing; a step between stations is a segment, a transfer when a line is current and
   * the edge's line differs from it.
   */
  function SegmentStep(net: Net, edges: map<(XNode, XNode), XEdge>, w: Walk, a: XNode, b: XNode): Walk
    requires (a, b) in edges && InNet(net, a) && InNet(net, b)
  {
    if a.Virtual() || b.Virtual() || a.station == b.station then w
    else
      var e := edges[(a, b)];
      var transfer := w.current.Some? && e.tag != w.current.value && e.tag != EndTag;
      Walk(w.segments + [Segment(a.station, StationName(net, a.station), b.station, StationName(net, b.station), e.tag, e.weight, transfer)],
           if e.tag.Ride? then Some(e.tag) else w.current,
           if transfer then w.transfers + 1 else w.transfers)
  }

  /** The segment loop after its first `n` steps. */
  function SegmentsUpTo(net: Net, edges: map<(XNode, XNode), XEdge>, pe: seq<XNode>, n: nat): Walk
    requires WalkEdges(net, edges, pe) && n < |pe|
  {
    if n == 0 then Walk([], None, 0)
    else SegmentStep(net, edges, SegmentsUpTo(net, edges, pe, n - 1), pe[n - 1], pe[n])
  }

  /** The segment loop of step 7. */
  method RouteSegments(net: Net, edges: map<(XNode, XNode), XEdge>, pe: seq<XNode>) returns (segments: seq<Segment>, transfers: nat)
    requires WalkEdges(net, edges, pe)
    ensures segments == SegmentsUpTo(net, edges, pe, |pe| - 1).segments
    ensures transfers == SegmentsUpTo(net, edges, pe, |pe| - 1).transfers
  {
    segments, transfers := [], 0;
    var current: Option<Tag> := None;
    for i := 0 to |pe| - 1
      invariant SegmentsUpTo(net, edges, pe, i) == Walk(segments, current, transfers)
    {
      var from, to := pe[i], pe[i + 1];
      if from.Virtual() || to.Virtual() {
        continue;
      }
      if from.station != to.station {
        var e := edges[(from, to)];
        var transfer := current.Some? && e.tag != current.value && e.tag != EndTag;
        if transfer {
          transfers := transfers + 1;
        }
        if e.tag.Ride? {
          current := Some(e.tag);
        }
        segments := segments + [Segment(from.station, StationName(net, from.station), to.station, StationName(net, to.station), e.tag, e.weight, transfer)];
      }
    }
  }

  function CountTransfers(segments: seq<Segment>): (n: nat)
    ensures n <= |segments|
    ensures (forall k :: 0 <= k < |segments| ==> !segments[k].isTransfer) ==> n == 0
  {
    if segments == [] then 0
    else CountTransfers(segments[..|segments| - 1]) + (if segments[|segments| - 1].isTransfer then 1 else 0)
  }

  /** Between two different stations, the expanded graph only has ride edges of network connections. */
  ghost predicate RidesBetweenStations(net: Net, edges: map<(XNode, XNode), XEdge>) {
    forall a, b :: (a, b) in edges && !a.Virtual() && !b.Virtual() && a.station != b.station ==>
      (a.station, b.station) in net.edges && edges[(a, b)] == RideEdge(net.edges[(a.station, b.station)])
  }

  lemma ExpandedRides(net: Net, penalty: real, start: int, end: int, edges: map<(XNode, XNode), XEdge>)
    requires EdgesMatch(net, penalty, start, end, edges)
    ensures RidesBetweenStations(net, edges)
  {
  }

  /** Each segment rides one network connection, on its line and for its weight. */
  ghost predicate SegmentRides(net: Net, s: Segment) {
    (s.fromStation, s.toStation) in net.edges
    && s.tag == Ride(net.edges[(s.fromStation, s.toStation)].transportId)
    && s.travelTime == net.edges[(s.fromStation, s.toStation)].weight
  }

  /** A segment is a transfer exactly when the segment before it was on another line. */
  ghost predicate TransfersAtLineChanges(segments: seq<Segment>) {
    (segments != [] ==> !segments[0].isTransfer)
    && forall i, j :: 0 <= i && j == i + 1 && j < |segments| ==> (segments[j].isTransfer <==> segments[i].tag != segments[j].tag)
  }

  /**
   * What the segment loop keeps: its segments are rides of network connections, a segment is a
   * transfer exactly when the segment before it was on another line, the current line is the last
   * segment's, and the transfer count counts the transfers.
   */
  ghost predicate Meaningful(net: Net, w: Walk) {
    && (forall k :: 0 <= k < |w.segments| ==> SegmentRides(net, w.segments[k]))
    && TransfersAtLineChanges(w.segments)
    && w.current == (if w.segments == [] then None else Some(w.segments[|w.segments| - 1].tag))
    && w.transfers == CountTransfers(w.segments)
  }

  /**
   * The segments are rides of network connections; a segment is a transfer exactly when the
   * segment before it was on another line; the transfer count counts them.
   */
  lemma {:induction false} SegmentsMeaning(net: Net, edges: map<(XNode, XNode), XEdge>, pe: seq<XNode>, n: nat)
    requires WalkEdges(net, edges, pe) && n < |pe| && RidesBetweenStations(net, edges)
    ensures var w := SegmentsUpTo(net, edges, pe, n);
      && (forall k :: 0 <= k < |w.segments| ==> SegmentRides(net, w.segments[k]))
      && TransfersAtLineChanges(w.segments)
      && w.current == (if w.segments == [] then None else Some(w.segments[|w.segments| - 1].tag))
      && w.transfers == CountTransfers(w.segments)
  {
    if n > 0 {
      SegmentsMeaning(net, edges, pe, n - 1);
      SegmentStepMeaning(net, edges, SegmentsUpTo(net, edges, pe, n - 1), pe[n - 1], pe[n]);
    }
  }

  /** One step of the segment loop keeps what the loop keeps. */
  lemma SegmentStepMeaning(net: Net, edges: map<(XNode, XNode), XEdge>, v: Walk, a: XNode, b: XNode)
    requires (a, b) in edges && InNet(net, a) && InNet(net, b) && RidesBetweenStations(net, edges)
    requires Meaningful(net, v)
    ensures Meaningful(net, SegmentStep(net, edges, v, a, b))
  {
    if !(a.Virtual() || b.Virtual() || a.station == b.station) {
      var e := edges[(a, b)];
      assert e == RideEdge(net.edges[(a.station, b.station)]);
      var seg := Segment(a.station, StationName(net, a.station), b.station, StationName(net, b.station), e.tag, e.weight,
                         v.current.Some? && e.tag != v.current.value && e.tag != EndTag);
      assert SegmentStep(net, edges, v, a, b).segments == v.segments + [seg];
      SegmentsSnoc(net, v.segments, seg);
    }
  }

  /** A ride appended to the segments keeps them rides, with transfers at the line changes, counted. */
  lemma {:induction false} SegmentsSnoc(net: Net, segments: seq<Segment>, s: Segment)
    requires forall k :: 0 <= k < |segments| ==> SegmentRides(net, segments[k])
    requires TransfersAtLineChanges(segments) && SegmentRides(net, s)
    requires s.isTransfer <==> segments != [] && segments[|segments| - 1].tag != s.tag
    ensures forall k :: 0 <= k < |segments + [s]| ==> SegmentRides(net, (segments + [s])[k])
    ensures TransfersAtLineChanges(segments + [s])
    ensures CountTransfers(segments + [s]) == CountTransfers(segments) + (if s.isTransfer then 1 else 0)
  {
    var w := segments + [s];
    var k := |segments|;
    assert w[..k] == segments;
    forall i, j | 0 <= i && j == i + 1 && j < |w|
      ensures w[j].isTransfer <==> w[i].tag != w[j].tag
    {
      assert w[i] == segments[i];
      if j < k {
        assert w[j] == segments[j];
      }
    }
    if k > 0 {
      assert w[0] == segments[0];
    }
  }

  datatype RouteInfo = RouteInfo(
    stationNames: seq<string>, numStations: nat, travelTimeMins: real,
    travelTimeFormatted: string, segments: seq<Segment>, numTransfers: nat)

  /** The three results of find_optimal_route: a route, or no path and an infinite length with an error. */
  datatype RouteResult = Found(path: seq<int>, length: real, info: RouteInfo) | NotFound(error: string)

  function StartMissing(start: int): string {
    "Start station " + IntToString(start) + " not found in network"
  }

  function EndMissing(end: int): string {
    "End station " + IntToString(end) + " not found in network"
  }

  const NoPath := "No path found"

  // ---------------------------------------------------------------- the search

  /** A walk from the search source to the search target that no other such walk undercuts. */
  ghost predicate Cheapest(net: Net, penalty: real, start: int, end: int, pe: seq<XNode>) {
    XPathFromTo(net, penalty, start, end, pe)
    && forall q :: XPathFromTo(net, penalty, start, end, q) ==> XCost(net, penalty, start, end, pe) <= XCost(net, penalty, start, end, q)
  }

  /** The message the exception handler returns once step 6 calls `startswith` on a plain station node. */
  const NoStartswith := "Error finding route: 'int' object has no attribute 'startswith'"

  /**
   * Steps 1 to 5: build the expanded graph and search it from the start's source node to the
   * end's target node; a cheapest walk and its length, or none when no walk joins them.
   */
  method CheapestWalk(net: Net, start: int, end: int, penalty: real)
    returns (found: Option<seq<XNode>>, length: real, xe: map<(XNode, XNode), XEdge>)
    requires net.WellFormed() && start in net.nodes && end in net.nodes && penalty >= 0.0
    requires forall e :: e in net.edges ==> net.edges[e].weight >= 0.0
    ensures EdgesMatch(net, penalty, start, end, xe)
    ensures found.None? <==> forall q :: !XPathFromTo(net, penalty, start, end, q)
    ensures found.Some? ==> Cheapest(net, penalty, start, end, found.value) && WalkEdges(net, xe, found.value)
    ensures found.Some? ==> length == XCost(net, penalty, start, end, found.value)
  {
    var x := BuildExpandedGraph(net, start, end, penalty);
    xe := x.edges;
    var w := Weights(x.edges);
    var s, t := StartNode(net, start), EndNode(net, end);
    assert XNodeSpec(net, start, end, s);
    WeightsValid(net, penalty, start, end, x.Value());
    var result := ShortestPath(x.nodes.Keys, w, s, t);
    if result.None? {
      NoPathOutcome(net, penalty, start, end, xe);
      return None, 0.0, xe;
    }
    FoundWalk(net, penalty, start, end, xe, result.value.0);
    found, length := Some(result.value.0), result.value.1;
  }

  /**
   * The search as written: "No path found" when no walk joins the source and target nodes; else
   * step 6 meets the plain node of an end station without departures and the handler returns its
   * message; else the cheapest walk is described by steps 6 and 7.
   */
  method SearchExpanded(net: Net, start: int, end: int, penalty: real) returns (r: RouteResult, ghost pe: seq<XNode>, ghost xe: map<(XNode, XNode), XEdge>)
    requires net.WellFormed() && start in net.nodes && end in net.nodes && penalty >= 0.0
    requires forall e :: e in net.edges ==> net.edges[e].weight >= 0.0
    ensures SearchOutcome(net, penalty, start, end, r, pe, xe)
  {
    var found, length, edges := CheapestWalk(net, start, end, penalty);
    xe := edges;
    if found.None? {
      return NotFound(NoPath), [], xe;
    }
    var walk := found.value;
    pe := walk;
    TerminusRouteFails(net, penalty, start, end, walk);
    if ReduceAsWritten(walk).None? {
      return NotFound(NoStartswith), pe, xe;
    }
    r := DescribeRoute(net, edges, walk, length);
  }

  /**
   * What the search as written reports: "No path found" exactly when no walk joins the source and
   * target nodes; otherwise, for a cheapest walk, the `startswith` error when no line leaves the end
   * station, and the description of the walk by steps 6 and 7 when one does.
   */
  ghost predicate SearchOutcome(net: Net, penalty: real, start: int, end: int, r: RouteResult, pe: seq<XNode>, xe: map<(XNode, XNode), XEdge>) {
    && EdgesMatch(net, penalty, start, end, xe)
    && (r == NotFound(NoPath) <==> forall q :: !XPathFromTo(net, penalty, start, end, q))
    && (r != NotFound(NoPath) ==>
          && Cheapest(net, penalty, start, end, pe) && WalkEdges(net, xe, pe)
          && r == if LinesAt(net, end) == {} then NotFound(NoStartswith) else Describe(net, xe, pe, XCost(net, penalty, start, end, pe)))
  }

  /**
   * The search as intended: step 6 takes a plain node as its station, so every cheapest walk is
   * described, and the route runs from the start station to the end station.
   */
  method SearchIntended(net: Net, start: int, end: int, penalty: real) returns (r: RouteResult, ghost pe: seq<XNode>, ghost xe: map<(XNode, XNode), XEdge>)
    requires net.WellFormed() && start in net.nodes && end in net.nodes && penalty >= 0.0
    requires forall e :: e in net.edges ==> net.edges[e].weight >= 0.0
    ensures IntendedOutcome(net, penalty, start, end, r, pe, xe)
    ensures r != NotFound(NoPath) ==> r.Found? && r.path != [] && r.path[0] == start && r.path[|r.path| - 1] == end
  {
    var found, length, edges := CheapestWalk(net, start, end, penalty);
    xe := edges;
    if found.None? {
      return NotFound(NoPath), [], xe;
    }
    pe := found.value;
    r := DescribeRoute(net, edges, found.value, length);
    FoundRoute(net, penalty, start, end, xe, pe, length);
  }

  ghost predicate IntendedOutcome(net: Net, penalty: real, start: int, end: int, r: RouteResult, pe: seq<XNode>, xe: map<(XNode, XNode), XEdge>) {
    && EdgesMatch(net, penalty, start, end, xe)
    && (r == NotFound(NoPath) <==> forall q :: !XPathFromTo(net, penalty, start, end, q))
    && (r != NotFound(NoPath) ==>
          Cheapest(net, penalty, start, end, pe) && WalkEdges(net, xe, pe) && r == Describe(net, xe, pe, XCost(net, penalty, start, end, pe)))
  }

  lemma NoPathOutcome(net: Net, penalty: real, start: int, end: int, xe: map<(XNode, XNode), XEdge>)
    requires EdgesMatch(net, penalty, start, end, xe)
    requires forall q :: !PathFromTo(Weights(xe), q, StartNode(net, start), EndNode(net, end))
    ensures forall q :: !XPathFromTo(net, penalty, start, end, q)
  {
    WeightsMatchAll(net, penalty, start, end, xe);
    forall q
      ensures !XPathFromTo(net, penalty, start, end, q)
    {
      assert !PathFromTo(Weights(xe), q, StartNode(net, start), EndNode(net, end));
    }
  }

  /** A cheapest walk over the weights is a cheapest walk of the expanded graph, inside the network. */
  lemma FoundWalk(net: Net, penalty: real, start: int, end: int, xe: map<(XNode, XNode), XEdge>, walk: seq<XNode>)
    requires net.WellFormed() && start in net.nodes && EdgesMatch(net, penalty, start, end, xe)
    requires PathFromTo(Weights(xe), walk, StartNode(net, start), EndNode(net, end))
    requires forall q :: PathFromTo(Weights(xe), q, StartNode(net, start), EndNode(net, end)) ==> Cost(Weights(xe), walk) <= Cost(Weights(xe), q)
    ensures Cheapest(net, penalty, start, end, walk) && WalkEdges(net, xe, walk)
    ensures Cost(Weights(xe), walk) == XCost(net, penalty, start, end, walk)
  {
    WeightsMatchAll(net, penalty, start, end, xe);
    XPathInNet(net, penalty, start, end, walk);
    forall q | XPathFromTo(net, penalty, start, end, q)
      ensures XCost(net, penalty, start, end, walk) <= XCost(net, penalty, start, end, q)
    {
      assert PathFromTo(Weights(xe), q, StartNode(net, start), EndNode(net, end));
    }
  }

  /** Steps 6 and 7 for a walk of the expanded graph and its length. */
  ghost function Describe(net: Net, edges: map<(XNode, XNode), XEdge>, pe: seq<XNode>, length: real): RouteResult
    requires WalkEdges(net, edges, pe)
  {
    RouteInNet(net, pe);
    var path := Dedupe(Reduce(pe));
    var w := SegmentsUpTo(net, edges, pe, |pe| - 1);
    Found(path, length, RouteInfo(StationNames(net, path), |path|, length, FormatDuration(length), w.segments, w.transfers))
  }

  method DescribeRoute(net: Net, edges: map<(XNode, XNode), XEdge>, pe: seq<XNode>, length: real) returns (r: RouteResult)
    requires WalkEdges(net, edges, pe)
    ensures r == Describe(net, edges, pe, length)
  {
    RouteInNet(net, pe);
    var path := Dedupe(Reduce(pe));
    var segments, transfers := RouteSegments(net, edges, pe);
    r := Found(path, length, RouteInfo(StationNames(net, path), |path|, length, FormatDuration(length), segments, transfers));
  }

  /**
   * find_optimal_route: the error for a missing start or end station, "No path found" when no
   * walk joins them in the expanded graph, else a cheapest walk reduced to its stations.
   */
  method FindOptimalRoute(net: Net, start: int, end: int, penalty: real) returns (r: RouteResult, ghost pe: seq<XNode>, ghost xe: map<(XNode, XNode), XEdge>)
    requires net.WellFormed() && penalty >= 0.0
    requires forall e :: e in net.edges ==> net.edges[e].weight >= 0.0
    ensures start !in net.nodes ==> r == NotFound(StartMissing(start))
    ensures start in net.nodes && end !in net.nodes ==> r == NotFound(EndMissing(end))
    ensures start in net.nodes && end in net.nodes ==> SearchOutcome(net, penalty, start, end, r, pe, xe)
  {
    if start !in net.nodes {
      return NotFound(StartMissing(start)), [], map[];
    }
    if end !in net.nodes {
      return NotFound(EndMissing(end)), [], map[];
    }
    r, pe, xe := SearchExpanded(net, start, end, penalty);
  }

  /**
   * What a found route promises: it runs from the start station to the end station without
   * naming a station twice in a row, and its segments are rides of network connections with a
   * transfer counted at each change of line.
   */
  lemma FoundRoute(net: Net, penalty: real, start: int, end: int, edges: map<(XNode, XNode), XEdge>, pe: seq<XNode>, length: real)
    requires EdgesMatch(net, penalty, start, end, edges) && XPathFromTo(net, penalty, start, end, pe)
    requires WalkEdges(net, edges, pe)
    ensures var r := Describe(net, edges, pe, length);
      && r.path != [] && r.path[0] == start && r.path[|r.path| - 1] == end
      && (forall i :: 0 <= i < |r.path| - 1 ==> r.path[i] != r.path[i + 1])
      && r.info.numStations == |r.path| && |r.info.stationNames| == |r.path|
      && (forall k :: 0 <= k < |r.info.segments| ==> SegmentRides(net, r.info.segments[k]))
      && TransfersAtLineChanges(r.info.segments)
      && r.info.numTransfers == CountTransfers(r.info.segments)
  {
    FoundRoutePath(net, penalty, start, end, edges, pe, length);
    FoundRouteSegments(net, penalty, start, end, edges, pe, length);
  }

  /** The stations of a found route: from start to end, no station twice in a row, one name each. */
  lemma FoundRoutePath(net: Net, penalty: real, start: int, end: int, edges: map<(XNode, XNode), XEdge>, pe: seq<XNode>, length: real)
    requires XPathFromTo(net, penalty, start, end, pe) && WalkEdges(net, edges, pe)
    ensures var r := Describe(net, edges, pe, length);
      && r.path != [] && r.path[0] == start && r.path[|r.path| - 1] == end
      && (forall i :: 0 <= i < |r.path| - 1 ==> r.path[i] != r.path[i + 1])
      && r.info.numStations == |r.path| && |r.info.stationNames| == |r.path|
  {
    var r := Describe(net, edges, pe, length);
    RouteInNet(net, pe);
    assert r.path == Dedupe(Reduce(pe));
    RouteEndpoints(net, penalty, start, end, pe);
  }

  /** The segments of a found route: rides of network connections, with a transfer at each change of line. */
  lemma FoundRouteSegments(net: Net, penalty: real, start: int, end: int, edges: map<(XNode, XNode), XEdge>, pe: seq<XNode>, length: real)
    requires EdgesMatch(net, penalty, start, end, edges) && WalkEdges(net, edges, pe)
    ensures var r := Describe(net, edges, pe, length);
      && (forall k :: 0 <= k < |r.info.segments| ==> SegmentRides(net, r.info.segments[k]))
      && TransfersAtLineChanges(r.info.segments)
      && r.info.numTransfers == CountTransfers(r.info.segments)
  {
    var r := Describe(net, edges, pe, length);
    var w := SegmentsUpTo(net, edges, pe, |pe| - 1);
    assert r.info.segments == w.segments && r.info.numTransfers == w.transfers;
    ExpandedRides(net, penalty, start, end, edges);
    SegmentsMeaning(net, edges, pe, |pe| - 1);
  }

  // ---------------------------------------------------------------- the plain-node defect

  /** A plain station node has no outgoing edge, so it can only end a walk. */
  lemma PlainOnlyLast(net: Net, penalty: real, start: int, end: int, q: seq<XNode>)
    requires XPath(net, penalty, start, end, q)
    ensures forall i :: 0 <= i < |q| - 1 ==> !q[i].Plain?
  {
    forall i | 0 <= i < |q| - 1
      ensures !q[i].Plain?
    {
      assert XEdgeSpec(net, penalty, start, end, q[i], q[i + 1]).Some?;
    }
  }

  /**
   * As written, step 6 fails on a walk found by the search exactly when no line leaves the end
   * station: the walk then ends at that station's plain node. Otherwise it agrees with `Reduce`.
   */
  lemma TerminusRouteFails(net: Net, penalty: real, start: int, end: int, q: seq<XNode>)
    requires XPathFromTo(net, penalty, start, end, q)
    ensures ReduceAsWritten(q).None? <==> LinesAt(net, end) == {}
    ensures ReduceAsWritten(q).Some? ==> ReduceAsWritten(q).value == Reduce(q)
  {
    ReduceAsWrittenFails(q);
    PlainOnlyLast(net, penalty, start, end, q);
    if LinesAt(net, end) == {} {
      assert q[|q| - 1].Plain?;
    } else {
      assert !q[|q| - 1].Plain?;
    }
  }

  /** A two-station line: station 1 departs on line 7 to station 2, the end of the line. */
  function TerminusNet(): Net {
    var a := NodeAttrs("A", None, None, (0.0, 0.0), None);
    var b := NodeAttrs("B", None, None, (0.0, 0.0), None);
    Graph(map[1 := a, 2 := b], [1, 2], map[(1, 2) := EdgeAttrs(7, None, 3.0, 3.0, None)])
  }

  /** On that network the ride from 1 to 2 exists, the intended reduction gives [1, 2], and the code as written fails. */
  lemma TerminusExample()
    ensures var q := [VStart(1), Line(1, 7), Plain(2)];
      && XPathFromTo(TerminusNet(), 5.0, 1, 2, q)
      && XCost(TerminusNet(), 5.0, 1, 2, q) == 3.0
      && ReduceAsWritten(q).None?
      && Dedupe(Reduce(q)) == [1, 2]
  {
    var net := TerminusNet();
    var q := [VStart(1), Line(1, 7), Plain(2)];
    assert (1, 2) in net.edges;
    assert LinesAt(net, 1) == {7} by {
      forall t | t in LinesAt(net, 1)
        ensures t == 7
      {
        var e :| e in net.edges && e.0 == 1 && net.edges[e].transportId == t;
      }
    }
    assert LinesAt(net, 2) == {};
    assert IsStartKey(net, 1, q[0], q[1]);
    assert IsRideKey(net, q[1], q[2]);
    assert XPath(net, 5.0, 1, 2, q);
    assert q[..2][..1] == [q[0]];
    assert XCost(net, 5.0, 1, 2, q[..2]) == 0.0;
    assert Reduce(q) == [1, 2] by {
      assert q[1..] == [Line(1, 7), Plain(2)] && q[1..][1..] == [Plain(2)] && q[1..][1..][1..] == [];
    }
    assert ReduceAsWritten(q[1..][1..]).None?;
  }
}

=== FILE: route_graph.dfy ===
/**
 * The line-expanded graph of find_optimal_route: one node per (station, line leaving it),
 * transfer edges between the lines of a station, ride edges along connections, and virtual
 * start and end nodes.
 */
module RouteGraph {
  import opened Common
  import opened Digraphs
  import opened Network

  /** Nodes of the expanded graph: a station on a line, a station without departures, or a virtual start or end. */
  datatype XNode = Line(station: int, line: int) | Plain(station: int) | VStart(startId: int) | VEnd(endId: int) {
    predicate Virtual() { VStart? || VEnd? }
  }

  /** The `transport_id` attribute of an expanded edge: a line, or one of the markers "Transfer", "Start", "End". */
  datatype Tag = Ride(line: int) | TransferTag | StartTag | EndTag

  datatype XEdge = XEdge(weight: real, tag: Tag, isTransfer: bool, originalEdge: bool)

  type XGraph = Digraph<XNode, (), XEdge>

  /** The lines leaving station `u` (its outgoing edges' transport ids). */
  function LinesAt(net: Net, u: int): set<int> {
    set e | e in net.edges && e.0 == u :: net.edges[e].transportId
  }

  function TransferEdge(penalty: real): XEdge {
    XEdge(penalty, TransferTag, true, false)
  }

  function RideEdge(a: EdgeAttrs): XEdge {
    XEdge(a.weight, Ride(a.transportId), false, true)
  }

  function StartEdge(): XEdge {
    XEdge(0.0, StartTag, false, false)
  }

  function EndEdge(): XEdge {
    XEdge(0.0, EndTag, false, false)
  }

  /** The expanded node a station is searched from or to: its virtual node when lines leave it, else the station itself. */
  function StartNode(net: Net, start: int): XNode {
    if LinesAt(net, start) != {} then VStart(start) else Plain(start)
  }

  function EndNode(net: Net, end: int): XNode {
    if LinesAt(net, end) != {} then VEnd(end) else Plain(end)
  }

  /** Nodes made for station `u`: one per line leaving it, or the plain station when none does. */
  ghost predicate StationNode(net: Net, n: XNode) {
    match n
    case Line(u, t) => u in net.nodes && t in LinesAt(net, u)
    case Plain(u) => u in net.nodes && LinesAt(net, u) == {}
    case VStart(_) => false
    case VEnd(_) => false
  }

  /** The node set of the expanded graph. */
  ghost predicate XNodeSpec(net: Net, start: int, end: int, n: XNode) {
    match n
    case VStart(s) => s == start && LinesAt(net, start) != {}
    case VEnd(e) => e == end && LinesAt(net, end) != {}
    case _ => StationNode(net, n)
  }

  /** A transfer edge: between two different lines of the same station. */
  ghost predicate IsTransferKey(net: Net, a: XNode, b: XNode) {
    a.Line? && b.Line? && a.station == b.station && a.line != b.line
    && a.line in LinesAt(net, a.station) && b.line in LinesAt(net, b.station)
  }

  function StationOf(n: XNode): int
    requires n.Line? || n.Plain?
  {
    n.station
  }

  /**
   * Where the ride edge of connection (u, v) on line t leads: to (v, t) when line t also leaves
   * v, to the plain v when no line leaves v, and nowhere when v has departures on other lines only.
   */
  function RideTarget(net: Net, e: (int, int)): Option<XNode>
    requires e in net.edges
  {
    var t := net.edges[e].transportId;
    if t in LinesAt(net, e.1) then Some(Line(e.1, t))
    else if LinesAt(net, e.1) == {} then Some(Plain(e.1))
    else None
  }

  /** A ride edge: from the line node of a connection's source to its ride target. */
  ghost predicate IsRideKey(net: Net, a: XNode, b: XNode) {
    a.Line? && (b.Line? || b.Plain?)
    && (a.station, StationOf(b)) in net.edges && net.edges[(a.station, StationOf(b))].transportId == a.line
    && RideTarget(net, (a.station, StationOf(b))) == Some(b)
  }

  ghost predicate IsStartKey(net: Net, start: int, a: XNode, b: XNode) {
    a == VStart(start) && b.Line? && b.station == start && b.line in LinesAt(net, start)
  }

  ghost predicate IsEndKey(net: Net, end: int, a: XNode, b: XNode) {
    b == VEnd(end) && a.Line? && a.station == end && a.line in LinesAt(net, end)
  }

  /** The edge of the expanded graph from `a` to `b`, if any. */
  ghost function XEdgeSpec(net: Net, penalty: real, start: int, end: int, a: XNode, b: XNode): Option<XEdge> {
    if IsTransferKey(net, a, b) then Some(TransferEdge(penalty))
    else if IsRideKey(net, a, b) then Some(RideEdge(net.edges[(a.station, StationOf(b))]))
    else if IsStartKey(net, start, a, b) then Some(StartEdge())
    else if IsEndKey(net, end, a, b) then Some(EndEdge())
    else None
  }

  // ---------------------------------------------------------------- step 1: lines per station

  function LinesIn(net: Net, done: set<(int, int)>, u: int): set<int>
    requires done <= net.edges.Keys
  {
    set e | e in done && e.0 == u :: net.edges[e].transportId
  }

  lemma LinesInAdd(net: Net, done: set<(int, int)>, e: (int, int), u: int)
    requires done <= net.edges.Keys && e in net.edges
    ensures LinesIn(net, done + {e}, u) == LinesIn(net, done, u) + (if u == e.0 then {net.edges[e].transportId} else {})
  {
    var l := LinesIn(net, done + {e}, u);
    var r := LinesIn(net, done, u) + (if u == e.0 then {net.edges[e].transportId} else {});
    forall t | t in l
      ensures t in r
    {
      var f :| f in done + {e} && f.0 == u && net.edges[f].transportId == t;
      if f != e {
        assert f in done;
      }
    }
    forall t | t in r
      ensures t in l
    {
      if t !in LinesIn(net, done, u) {
        assert u == e.0 && t == net.edges[e].transportId;
      }
    }
  }

  /** `transport_at_station`: the stations with an outgoing edge, each with the set of its lines. */
  method TransportsAtStations(net: Net) returns (m: map<int, set<int>>)
    ensures forall u :: u in m <==> LinesAt(net, u) != {}
    ensures forall u :: u in m ==> m[u] == LinesAt(net, u)
  {
    m := map[];
    var rest := net.edges.Keys;
    while rest != {}
      invariant rest <= net.edges.Keys
      invariant forall u :: u in m <==> LinesIn(net, net.edges.Keys - rest, u) != {}
      invariant forall u :: u in m ==> m[u] == LinesIn(net, net.edges.Keys - rest, u)
      decreases |rest|
    {
      var e :| e in rest;
      ghost var before := net.edges.Keys - rest;
      m := AddLine(net, m, before, e);
      rest := rest - {e};
      assert net.edges.Keys - rest == before + {e};
    }
    assert net.edges.Keys - rest == net.edges.Keys;
  }

  /** Record the line of edge `e` at its source station. */
  method AddLine(net: Net, m0: map<int, set<int>>, ghost before: set<(int, int)>, e: (int, int)) returns (m: map<int, set<int>>)
    requires before <= net.edges.Keys && e in net.edges
    requires forall u :: u in m0 <==> LinesIn(net, before, u) != {}
    requires forall u :: u in m0 ==> m0[u] == LinesIn(net, before, u)
    ensures forall u :: u in m <==> LinesIn(net, before + {e}, u) != {}
    ensures forall u :: u in m ==> m[u] == LinesIn(net, before + {e}, u)
  {
    var lines := if e.0 in m0 then m0[e.0] else {};
    m := m0[e.0 := lines + {net.edges[e].transportId}];
    forall u
      ensures LinesIn(net, before + {e}, u) == LinesIn(net, before, u) + (if u == e.0 then {net.edges[e].transportId} else {})
    {
      LinesInAdd(net, before, e, u);
    }
  }

  // ---------------------------------------------------------------- step 2: station nodes and transfer edges

  /** One node per line leaving station `u`. */
  method AddLineNodes(x: XGraph, u: int, lines: set<int>)
    requires x.Valid()
    modifies x
    ensures x.Valid() && x.edges == old(x.edges)
    ensures forall n :: n in x.nodes <==> n in old(x.nodes) || (n.Line? && n.station == u && n.line in lines)
  {
    var rest := lines;
    while rest != {}
      invariant x.Valid() && rest <= lines
      invariant forall n :: n in x.nodes <==> n in old(x.nodes) || (n.Line? && n.station == u && n.line in lines - rest)
      invariant x.edges == old(x.edges)
      decreases |rest|
    {
      var t := Pick(rest);
      x.AddNode(Line(u, t), ());
      rest := rest - {t};
    }
  }

  /** Transfer edges from line `t1` of station `u` to each other line of `u`. */
  method AddTransfersFrom(x: XGraph, net: Net, u: int, t1: int, lines: set<int>, penalty: real)
    requires x.Valid() && lines == LinesAt(net, u) && t1 in lines
    requires forall t :: t in lines ==> Line(u, t) in x.nodes
    requires forall k :: k in x.edges ==> x.edges[k] == TransferEdge(penalty)
    modifies x
    ensures x.Valid() && x.nodes == old(x.nodes)
    ensures forall a, b :: (a, b) in x.edges <==> ((a, b) in old(x.edges) || (IsTransferKey(net, a, b) && a == Line(u, t1)))
    ensures forall k :: k in x.edges ==> x.edges[k] == TransferEdge(penalty)
  {
    var tos := lines;
    while tos != {}
      invariant x.Valid() && tos <= lines && x.nodes == old(x.nodes)
      invariant forall a, b :: (a, b) in x.edges <==>
                  ((a, b) in old(x.edges) || (IsTransferKey(net, a, b) && a == Line(u, t1) && b.line !in tos))
      invariant forall k :: k in x.edges ==> x.edges[k] == TransferEdge(penalty)
      decreases |tos|
    {
      var t2 := Pick(tos);
      ghost var before := x.edges;
      if t1 != t2 {
        PutEdge(x, Line(u, t1), Line(u, t2), TransferEdge(penalty));
      }
      TransferKeysStep(net, u, t1, t2, tos, old(x.edges), before, x.edges, penalty);
      tos := tos - {t2};
    }
  }

  /** `extended_G.add_edge(a, b, ...)` between two existing nodes, seen on the edge map. */
  method PutEdge(x: XGraph, a: XNode, b: XNode, e: XEdge)
    requires x.Valid() && a in x.nodes && b in x.nodes
    modifies x
    ensures x.Valid() && x.nodes == old(x.nodes) && x.order == old(x.order)
    ensures x.edges == old(x.edges)[(a, b) := e]
  {
    x.AddEdge(a, b, e);
  }

  /** One pass of the transfer loop: the edge to line `t2` is added unless `t2` is `t1` itself. */
  lemma TransferKeysStep(net: Net, u: int, t1: int, t2: int, tos: set<int>,
                         start: map<(XNode, XNode), XEdge>, before: map<(XNode, XNode), XEdge>,
                         after: map<(XNode, XNode), XEdge>, penalty: real)
    requires t1 in LinesAt(net, u) && t2 in tos && tos <= LinesAt(net, u)
    requires t1 != t2 ==> after == before[(Line(u, t1), Line(u, t2)) := TransferEdge(penalty)]
    requires t1 == t2 ==> after == before
    requires forall a, b :: (a, b) in before <==>
               ((a, b) in start || (IsTransferKey(net, a, b) && a == Line(u, t1) && b.line !in tos))
    requires forall k :: k in before ==> before[k] == TransferEdge(penalty)
    ensures forall k :: k in after ==> after[k] == TransferEdge(penalty)
    ensures forall a, b :: (a, b) in after <==>
              ((a, b) in start || (IsTransferKey(net, a, b) && a == Line(u, t1) && b.line !in tos - {t2}))
  {
    forall a, b
      ensures (a, b) in after <==> ((a, b) in start || (IsTransferKey(net, a, b) && a == Line(u, t1) && b.line !in tos - {t2}))
    {
      if IsTransferKey(net, a, b) && a == Line(u, t1) && b.line == t2 {
        assert b == Line(u, t2);
      }
    }
  }

  /** One pass of the station loop: the transfer edges out of line `t1` join those already added. */
  lemma StationKeysStep(net: Net, u: int, t1: int, froms: set<int>,
                        start: map<(XNode, XNode), XEdge>, before: map<(XNode, XNode), XEdge>,
                        after: map<(XNode, XNode), XEdge>)
    requires t1 in froms
    requires forall a, b :: (a, b) in before <==>
               ((a, b) in start || (IsTransferKey(net, a, b) && a.station == u && a.line !in froms))
    requires forall a, b :: (a, b) in after <==> ((a, b) in before || (IsTransferKey(net, a, b) && a == Line(u, t1)))
    ensures forall a, b :: (a, b) in after <==>
              ((a, b) in start || (IsTransferKey(net, a, b) && a.station == u && a.line !in froms - {t1}))
  {
    forall a, b
      ensures (a, b) in after <==>
                ((a, b) in start || (IsTransferKey(net, a, b) && a.station == u && a.line !in froms - {t1}))
    {
      if IsTransferKey(net, a, b) && a.station == u && a.line == t1 {
        assert a == Line(u, t1);
      }
    }
  }

  /** The nodes and transfer edges of one station. */
  method AddStation(x: XGraph, net: Net, u: int, lines: set<int>, penalty: real)
    requires x.Valid() && u in net.nodes && lines == LinesAt(net, u)
    requires forall k :: k in x.edges ==> x.edges[k] == TransferEdge(penalty)
    modifies x
    ensures x.Valid()
    ensures forall n :: n in x.nodes <==> n in old(x.nodes) || (StationNode(net, n) && n.station == u)
    ensures forall a, b :: (a, b) in x.edges <==> ((a, b) in old(x.edges) || (IsTransferKey(net, a, b) && a.station == u))
    ensures forall k :: k in x.edges ==> x.edges[k] == TransferEdge(penalty)
  {
    if lines == {} {
      x.AddNode(Plain(u), ());
      return;
    }
    AddLineNodes(x, u, lines);
    assert forall n :: n in x.nodes <==> n in old(x.nodes) || (StationNode(net, n) && n.station == u);
    AddTransfers(x, net, u, lines, penalty);
  }

  /** The transfer edges of one station, between any two of its lines. */
  method AddTransfers(x: XGraph, net: Net, u: int, lines: set<int>, penalty: real)
    requires x.Valid() && lines == LinesAt(net, u)
    requires forall t :: t in lines ==> Line(u, t) in x.nodes
    requires forall k :: k in x.edges ==> x.edges[k] == TransferEdge(penalty)
    modifies x
    ensures x.Valid() && x.nodes == old(x.nodes)
    ensures forall a, b :: (a, b) in x.edges <==> ((a, b) in old(x.edges) || (IsTransferKey(net, a, b) && a.station == u))
    ensures forall k :: k in x.edges ==> x.edges[k] == TransferEdge(penalty)
  {
    var froms := lines;
    while froms != {}
      invariant x.Valid() && froms <= lines && x.nodes == old(x.nodes)
      invariant forall a, b :: (a, b) in x.edges <==> ((a, b) in old(x.edges) || (IsTransferKey(net, a, b) && a.station == u && a.line !in froms))
      invariant forall k :: k in x.edges ==> x.edges[k] == TransferEdge(penalty)
      decreases |froms|
    {
      var t1 := Pick(froms);
      ghost var before := x.edges;
      AddTransfersFrom(x, net, u, t1, lines, penalty);
      StationKeysStep(net, u, t1, froms, old(x.edges), before, x.edges);
      froms := froms - {t1};
    }
  }

  /** Step 2 over every station of the network, in node order. */
  method AddStations(x: XGraph, net: Net, m: map<int, set<int>>, penalty: real)
    requires net.WellFormed() && x.Valid() && x.nodes == map[] && x.edges == map[]
    requires LinesMap(net, m)
    modifies x
    ensures x.Valid()
    ensures forall n :: n in x.nodes <==> StationNode(net, n)
    ensures forall a, b :: (a, b) in x.edges <==> IsTransferKey(net, a, b)
    ensures forall k :: k in x.edges ==> x.edges[k] == TransferEdge(penalty)
  {
    for i := 0 to |net.order|
      invariant x.Valid()
      invariant forall n :: n in x.nodes <==> StationNode(net, n) && n.station in net.order[..i]
      invariant forall a, b :: (a, b) in x.edges <==> IsTransferKey(net, a, b) && a.station in net.order[..i]
      invariant forall k :: k in x.edges ==> x.edges[k] == TransferEdge(penalty)
    {
      var u := net.order[i];
      assert net.order[..i + 1] == net.order[..i] + [u];
      AddStation(x, net, u, if u in m then m[u] else {}, penalty);
    }
    assert net.order[..|net.order|] == net.order;
  }

  // ---------------------------------------------------------------- step 3: ride edges

  /** `m` maps each station served by some line to exactly the lines at it. */
  ghost predicate LinesMap(net: Net, m: map<int, set<int>>) {
    (forall u :: u in m <==> LinesAt(net, u) != {})
    && (forall u :: u in m ==> m[u] == LinesAt(net, u))
  }

  /** The nodes of the expanded graph built so far are its station nodes. */
  ghost predicate NodesOf(net: Net, nodes: map<XNode, ()>) {
    forall n :: n in nodes <==> StationNode(net, n)
  }

  /** Transfer edges plus the ride edges of the connections in `done`. */
  ghost predicate RideEdgesDone(edges: map<(XNode, XNode), XEdge>, net: Net, penalty: real, done: set<(int, int)>) {
    (forall a, b :: (a, b) in edges <==> IsTransferKey(net, a, b) || (IsRideKey(net, a, b) && (a.station, StationOf(b)) in done))
    && (forall a, b :: (a, b) in edges && IsTransferKey(net, a, b) ==> edges[(a, b)] == TransferEdge(penalty))
    && (forall a, b :: (a, b) in edges && IsRideKey(net, a, b) ==> edges[(a, b)] == RideEdge(net.edges[(a.station, StationOf(b))]))
  }

  /** The ride edge of one connection, when its target station still has this line or no line at all. */
  method AddRideEdge(x: XGraph, net: Net, m: map<int, set<int>>, penalty: real, ghost done: set<(int, int)>, e: (int, int))
    requires net.WellFormed() && x.Valid() && e in net.edges && e !in done
    requires LinesMap(net, m)
    requires NodesOf(net, x.nodes)
    requires RideEdgesDone(x.edges, net, penalty, done)
    modifies x
    ensures x.Valid() && x.nodes == old(x.nodes)
    ensures RideEdgesDone(x.edges, net, penalty, done + {e})
  {
    var (u, v) := e;
    var t := net.edges[e].transportId;
    assert t in LinesAt(net, u);
    if u in m && t in m[u] {
      var target := if v in m && t in m[v] then Some(Line(v, t)) else if v !in m then Some(Plain(v)) else None;
      assert target == RideTarget(net, e);
      if target.Some? {
        assert StationNode(net, target.value);
        x.AddEdge(Line(u, t), target.value, RideEdge(net.edges[e]));
        assert IsRideKey(net, Line(u, t), target.value);
        RideKeysAdded(x.edges, net, penalty, done, e, old(x.edges));
      } else {
        RideKeysNone(x.edges, net, penalty, done, e);
      }
    }
  }

  lemma RideKeysAdded(edges: map<(XNode, XNode), XEdge>, net: Net, penalty: real, done: set<(int, int)>, e: (int, int), before: map<(XNode, XNode), XEdge>)
    requires e in net.edges && RideTarget(net, e).Some?
    requires edges == before[(Line(e.0, net.edges[e].transportId), RideTarget(net, e).value) := RideEdge(net.edges[e])]
    requires forall a, b :: (a, b) in before <==> IsTransferKey(net, a, b) || (IsRideKey(net, a, b) && (a.station, StationOf(b)) in done)
    requires forall a, b :: (a, b) in before && IsTransferKey(net, a, b) ==> before[(a, b)] == TransferEdge(penalty)
    requires forall a, b :: (a, b) in before && IsRideKey(net, a, b) ==> before[(a, b)] == RideEdge(net.edges[(a.station, StationOf(b))])
    ensures RideEdgesDone(edges, net, penalty, done + {e})
  {
  }

  lemma RideKeysNone(edges: map<(XNode, XNode), XEdge>, net: Net, penalty: real, done: set<(int, int)>, e: (int, int))
    requires e in net.edges && RideTarget(net, e).None?
    requires RideEdgesDone(edges, net, penalty, done)
    ensures RideEdgesDone(edges, net, penalty, done + {e})
  {
  }

  /** One connection of `rest` gets its ride edge; the connections left are returned. */
  method AddRideEdgeFrom(x: XGraph, net: Net, m: map<int, set<int>>, penalty: real, rest: set<(int, int)>) returns (rest': set<(int, int)>)
    requires net.WellFormed() && x.Valid() && rest != {} && rest <= net.edges.Keys
    requires LinesMap(net, m)
    requires NodesOf(net, x.nodes)
    requires RideEdgesDone(x.edges, net, penalty, net.edges.Keys - rest)
    modifies x
    ensures x.Valid() && x.nodes == old(x.nodes) && rest' < rest
    ensures RideEdgesDone(x.edges, net, penalty, net.edges.Keys - rest')
  {
    var e := Pick(rest);
    AddRideEdge(x, net, m, penalty, net.edges.Keys - rest, e);
    assert net.edges.Keys - rest + {e} == net.edges.Keys - (rest - {e});
    rest' := rest - {e};
  }

  /** Step 3 over every connection. */
  method AddRideEdges(x: XGraph, net: Net, m: map<int, set<int>>, penalty: real)
    requires net.WellFormed() && x.Valid()
    requires LinesMap(net, m)
    requires NodesOf(net, x.nodes)
    requires RideEdgesDone(x.edges, net, penalty, {})
    modifies x
    ensures x.Valid() && x.nodes == old(x.nodes)
    ensures RideEdgesDone(x.edges, net, penalty, net.edges.Keys)
  {
    var rest := net.edges.Keys;
    while rest != {}
      invariant x.Valid() && x.nodes == old(x.nodes) && rest <= net.edges.Keys
      invariant RideEdgesDone(x.edges, net, penalty, net.edges.Keys - rest)
      decreases rest
    {
      rest := AddRideEdgeFrom(x, net, m, penalty, rest);
    }
    assert net.edges.Keys - rest == net.edges.Keys;
  }

  // ---------------------------------------------------------------- step 4: virtual start and end

  /** The free edges from the virtual start node to the given lines of `start`. */
  function StartEdges(start: int, lines: set<int>): map<(XNode, XNode), XEdge> {
    map t | t in lines :: (VStart(start), Line(start, t)) := StartEdge()
  }

  /** The free edges from the given lines of `end` to the virtual end node. */
  function EndEdges(end: int, lines: set<int>): map<(XNode, XNode), XEdge> {
    map t | t in lines :: (Line(end, t), VEnd(end)) := EndEdge()
  }

  lemma StartEdgesAdd(start: int, lines: set<int>, t: int)
    ensures StartEdges(start, lines + {t}) == StartEdges(start, lines)[(VStart(start), Line(start, t)) := StartEdge()]
  {
  }

  lemma EndEdgesAdd(end: int, lines: set<int>, t: int)
    ensures EndEdges(end, lines + {t}) == EndEdges(end, lines)[(Line(end, t), VEnd(end)) := EndEdge()]
  {
  }

  /** A virtual start node with a free edge to every line leaving `start`, when some line does. */
  method AddStart(x: XGraph, m: map<int, set<int>>, start: int)
    requires x.Valid()
    requires start in m ==> forall t :: t in m[start] ==> Line(start, t) in x.nodes
    modifies x
    ensures x.Valid()
    ensures start !in m ==> x.nodes == old(x.nodes) && x.edges == old(x.edges)
    ensures start in m ==> x.nodes == old(x.nodes)[VStart(start) := ()] && x.edges == old(x.edges) + StartEdges(start, m[start])
  {
    if start !in m {
      return;
    }
    x.AddNode(VStart(start), ());
    AddStartEdges(x, start, m[start]);
  }

  /** The loop of step 4 at the start: a free edge from the virtual start node to each line. */
  method AddStartEdges(x: XGraph, start: int, lines: set<int>)
    requires x.Valid() && VStart(start) in x.nodes
    requires forall t :: t in lines ==> Line(start, t) in x.nodes
    modifies x
    ensures x.Valid() && x.nodes == old(x.nodes) && x.edges == old(x.edges) + StartEdges(start, lines)
  {
    var rest := lines;
    ghost var done: set<int> := {};
    assert StartEdges(start, {}) == map[];
    assert old(x.edges) + map[] == old(x.edges);
    while rest != {}
      invariant x.Valid() && rest <= lines && done + rest == lines
      invariant x.nodes == old(x.nodes)
      invariant x.edges == old(x.edges) + StartEdges(start, done)
      decreases rest
    {
      var t := Pick(rest);
      StartEdgesAdd(start, done, t);
      UnionUpdate(old(x.edges), StartEdges(start, done), (VStart(start), Line(start, t)), StartEdge());
      PutEdge(x, VStart(start), Line(start, t), StartEdge());
      done, rest := done + {t}, rest - {t};
    }
  }

  /** A virtual end node with a free edge from every line leaving `end`, when some line does. */
  method AddEnd(x: XGraph, m: map<int, set<int>>, end: int)
    requires x.Valid()
    requires end in m ==> forall t :: t in m[end] ==> Line(end, t) in x.nodes
    modifies x
    ensures x.Valid()
    ensures end !in m ==> x.nodes == old(x.nodes) && x.edges == old(x.edges)
    ensures end in m ==> x.nodes == old(x.nodes)[VEnd(end) := ()] && x.edges == old(x.edges) + EndEdges(end, m[end])
  {
    if end !in m {
      return;
    }
    x.AddNode(VEnd(end), ());
    AddEndEdges(x, end, m[end]);
  }

  /** The loop of step 4 at the end: a free edge from each line to the virtual end node. */
  method AddEndEdges(x: XGraph, end: int, lines: set<int>)
    requires x.Valid() && VEnd(end) in x.nodes
    requires forall t :: t in lines ==> Line(end, t) in x.nodes
    modifies x
    ensures x.Valid() && x.nodes == old(x.nodes) && x.edges == old(x.edges) + EndEdges(end, lines)
  {
    var rest := lines;
    ghost var done: set<int> := {};
    assert EndEdges(end, {}) == map[];
    assert old(x.edges) + map[] == old(x.edges);
    while rest != {}
      invariant x.Valid() && rest <= lines && done + rest == lines
      invariant x.nodes == old(x.nodes)
      invariant x.edges == old(x.edges) + EndEdges(end, done)
      decreases rest
    {
      var t := Pick(rest);
      EndEdgesAdd(end, done, t);
      UnionUpdate(old(x.edges), EndEdges(end, done), (Line(end, t), VEnd(end)), EndEdge());
      PutEdge(x, Line(end, t), VEnd(end), EndEdge());
      done, rest := done + {t}, rest - {t};
    }
  }

  // ---------------------------------------------------------------- the whole construction

  /**
   * Steps 1 to 4 of find_optimal_route: the expanded graph has exactly the nodes of `XNodeSpec`
   * and exactly the edges of `XEdgeSpec`, with their attributes.
   */
  method BuildExpandedGraph(net: Net, start: int, end: int, penalty: real) returns (x: XGraph)
    requires net.WellFormed()
    ensures fresh(x) && x.Valid()
    ensures forall n :: n in x.nodes <==> XNodeSpec(net, start, end, n)
    ensures forall a, b :: (a, b) in x.edges <==> XEdgeSpec(net, penalty, start, end, a, b).Some?
    ensures forall a, b :: (a, b) in x.edges ==> x.edges[(a, b)] == XEdgeSpec(net, penalty, start, end, a, b).value
  {
    var m;
    x, m := BuildStationGraph(net, penalty);
    ghost var stations, rides := x.nodes, x.edges;
    StationLines(net, m, start, stations);
    AddStart(x, m, start);
    ghost var starts, startNodes := x.edges, x.nodes;
    StationLines(net, m, end, stations);
    AddEnd(x, m, end);
    ExpandedNodes(net, m, start, end, stations, startNodes, x.nodes);
    ExpandedEdges(net, m, penalty, start, end, rides, starts, x.edges);
  }

  /** Steps 1 to 3: the line nodes, plain nodes, transfer edges and ride edges. */
  method BuildStationGraph(net: Net, penalty: real) returns (x: XGraph, m: map<int, set<int>>)
    requires net.WellFormed()
    ensures fresh(x) && x.Valid()
    ensures LinesMap(net, m) && NodesOf(net, x.nodes)
    ensures RideEdgesDone(x.edges, net, penalty, net.edges.Keys)
  {
    m := TransportsAtStations(net);
    x := new Digraph();
    AddStations(x, net, m, penalty);
    NoRideEdgesYet(x.edges, net, penalty);
    AddRideEdges(x, net, m, penalty);
  }

  /** After step 2 the graph holds the transfer edges and none of the ride edges. */
  lemma NoRideEdgesYet(edges: map<(XNode, XNode), XEdge>, net: Net, penalty: real)
    requires forall a, b :: (a, b) in edges <==> IsTransferKey(net, a, b)
    requires forall k :: k in edges ==> edges[k] == TransferEdge(penalty)
    ensures RideEdgesDone(edges, net, penalty, {})
  {
  }

  /** Every line leaving a station of the network has its line node. */
  lemma StationLines(net: Net, m: map<int, set<int>>, u: int, nodes: map<XNode, ()>)
    requires net.WellFormed() && LinesMap(net, m) && NodesOf(net, nodes)
    ensures u in m ==> forall t :: t in m[u] ==> Line(u, t) in nodes
  {
    if u in m {
      forall t | t in m[u]
        ensures Line(u, t) in nodes
      {
        var e :| e in net.edges && e.0 == u && net.edges[e].transportId == t;
        assert StationNode(net, Line(u, t));
      }
    }
  }

  lemma ExpandedNodes(net: Net, m: map<int, set<int>>, start: int, end: int, stations: map<XNode, ()>,
                      starts: map<XNode, ()>, nodes: map<XNode, ()>)
    requires LinesMap(net, m) && NodesOf(net, stations)
    requires starts == if start in m then stations[VStart(start) := ()] else stations
    requires nodes == if end in m then starts[VEnd(end) := ()] else starts
    ensures forall n :: n in nodes <==> XNodeSpec(net, start, end, n)
  {
  }

  /** Transfer and ride edges, then start edges, then end edges, make up `XEdgeSpec`. */
  lemma ExpandedEdges(net: Net, m: map<int, set<int>>, penalty: real, start: int, end: int,
                      rides: map<(XNode, XNode), XEdge>, starts: map<(XNode, XNode), XEdge>, edges: map<(XNode, XNode), XEdge>)
    requires LinesMap(net, m) && RideEdgesDone(rides, net, penalty, net.edges.Keys)
    requires starts == if start in m then rides + StartEdges(start, m[start]) else rides
    requires edges == if end in m then starts + EndEdges(end, m[end]) else starts
    ensures forall a, b :: (a, b) in edges <==> XEdgeSpec(net, penalty, start, end, a, b).Some?
    ensures forall a, b :: (a, b) in edges ==> edges[(a, b)] == XEdgeSpec(net, penalty, start, end, a, b).value
  {
    forall a, b
      ensures (a, b) in edges <==> XEdgeSpec(net, penalty, start, end, a, b).Some?
      ensures (a, b) in edges ==> edges[(a, b)] == XEdgeSpec(net, penalty, start, end, a, b).value
    {
      if IsRideKey(net, a, b) {
        assert (a, b) in rides;
      }
      if IsStartKey(net, start, a, b) {
        assert (a, b) in StartEdges(start, m[start]);
      }
      if IsEndKey(net, end, a, b) {
        assert (a, b) in EndEdges(end, m[end]);
      }
    }
  }
}

=== FILE: route_map.dfy ===
/**
 * The route map: the stations where a transfer starts, the ride segments that can be drawn, and
 * the centre and zoom that frame a route. The map reads the node attributes "lat" and "lon"
 * (`Coords`); line colours come from Python's salted string hash and are left out.
 */
module RouteMap {
  import opened Common
  import opened RouteDisplay
  import Network

  // ---------------------------------------------------------------- transfer stations

  /** A station id Python treats as true: present and not zero. */
  predicate Truthy(id: Option<int>) {
    id.Some? && id.value != 0
  }

  /** The station a transfer segment leaves from, when its id is true. */
  function TransferStation(s: DisplaySegment): (id: Option<int>)
    ensures id.Some? <==> s.isTransfer && Truthy(s.fromStationId)
    ensures id.Some? ==> s.fromStationId == id
  {
    if s.isTransfer && Truthy(s.fromStationId) then s.fromStationId else None
  }

  /**
   * get_transfer_stations: the departure ids of the transfer segments, each once, in the order of
   * their first transfer (`Common.FirstSeenSpec`, `Common.FirstSeenOrder`); missing and zero ids
   * are skipped. Empty route data has no segments.
   */
  method GetTransferStations(segments: seq<DisplaySegment>) returns (ids: seq<int>)
    ensures ids == FirstSeen(segments, TransferStation)
    ensures forall id :: id in ids ==> id != 0
  {
    ids := [];
    var i := 0;
    while i < |segments|
      invariant 0 <= i <= |segments|
      invariant ids == FirstSeen(segments[..i], TransferStation)
    {
      var s := segments[i];
      assert segments[..i + 1][..i] == segments[..i];
      if s.isTransfer {
        var id := s.fromStationId;
        if Truthy(id) && id.value !in ids {
          ids := ids + [id.value];
        }
      }
      i := i + 1;
    }
    assert segments[..|segments|] == segments;
    FirstSeenSpec(segments, TransferStation);
  }

  // ---------------------------------------------------------------- coloured ride segments

  /** The "lat" and "lon" attributes of a node. */
  datatype Coords = Coords(lat: Option<real>, lon: Option<real>)

  /** A coordinate Python treats as true: present and not zero. */
  predicate TruthyCoord(x: Option<real>) {
    x.Some? && x.value != 0.0
  }

  /** One entry of create_colored_line_segments, without its colour. */
  datatype ColoredSegment = ColoredSegment(from: (real, real), to: (real, real), transportName: string)

  /** A ride segment whose two stations are in the graph with all four coordinates true. */
  predicate Drawable(g: map<int, Coords>, s: DisplaySegment) {
    !s.isTransfer && s.fromStationId.Some? && s.toStationId.Some?
    && s.fromStationId.value in g && s.toStationId.value in g
    && TruthyCoord(g[s.fromStationId.value].lat) && TruthyCoord(g[s.fromStationId.value].lon)
    && TruthyCoord(g[s.toStationId.value].lat) && TruthyCoord(g[s.toStationId.value].lon)
  }

  function Draw(g: map<int, Coords>, s: DisplaySegment): ColoredSegment
    requires Drawable(g, s)
  {
    var a := g[s.fromStationId.value];
    var b := g[s.toStationId.value];
    ColoredSegment((a.lat.value, a.lon.value), (b.lat.value, b.lon.value), s.transportName)
  }

  /** A segment's entry on the map, when it can be drawn. */
  function Drawn(g: map<int, Coords>, s: DisplaySegment): (c: Option<ColoredSegment>)
    ensures c.Some? <==> Drawable(g, s)
  {
    if Drawable(g, s) then Some(Draw(g, s)) else None
  }

  /**
   * create_colored_line_segments: one entry per drawable ride segment, in order (see
   * `Common.CollectSpec`); empty route data has no segments.
   */
  method CreateColoredLineSegments(g: map<int, Coords>, segments: seq<DisplaySegment>) returns (colored: seq<ColoredSegment>)
    ensures colored == Collect(segments, s => Drawn(g, s))
  {
    colored := [];
    var i := 0;
    while i < |segments|
      invariant 0 <= i <= |segments|
      invariant colored == Collect(segments[..i], s => Drawn(g, s))
    {
      var s := segments[i];
      assert segments[..i + 1][..i] == segments[..i];
      if !s.isTransfer {
        var from := s.fromStationId;
        var to := s.toStationId;
        if from.Some? && to.Some? && from.value in g && to.value in g {
          var a := g[from.value];
          var b := g[to.value];
          if TruthyCoord(a.lat) && TruthyCoord(a.lon) && TruthyCoord(b.lat) && TruthyCoord(b.lon) {
            colored := colored + [ColoredSegment((a.lat.value, a.lon.value), (b.lat.value, b.lon.value), s.transportName)];
          }
        }
      }
      i := i + 1;
    }
    assert segments[..|segments|] == segments;
  }

  /**
   * `G.nodes[id].get(key)` for a coordinate key on a node of the transport network, whose
   * attributes are "name", "longitude", "latitude" and "pos" (and, once weighted, the congestion
   * entries): any other key is missing.
   */
  function AttrGet(a: Network.NodeAttrs, key: string): (v: Option<real>)
    ensures key == "longitude" ==> v == a.longitude
    ensures key == "latitude" ==> v == a.latitude
    ensures key != "longitude" && key != "latitude" ==> v.None?
  {
    if key == "longitude" then a.longitude else if key == "latitude" then a.latitude else None
  }

  /** What create_colored_line_segments reads from a network: the "lat" and "lon" entries. */
  function NetCoords(net: Network.Net): map<int, Coords> {
    map id | id in net.nodes :: Coords(AttrGet(net.nodes[id], "lat"), AttrGet(net.nodes[id], "lon"))
  }

  /** The coordinates the network does store, under "latitude" and "longitude". */
  function StoredCoords(net: Network.Net): map<int, Coords> {
    map id | id in net.nodes :: Coords(AttrGet(net.nodes[id], "latitude"), AttrGet(net.nodes[id], "longitude"))
  }

  /**
   * On any network the builder makes, no ride segment is drawn: every node lacks "lat" and "lon",
   * so the coordinate test fails for every segment.
   */
  lemma {:induction false} NetworkDrawsNothing(net: Network.Net, segments: seq<DisplaySegment>)
    ensures Collect(segments, s => Drawn(NetCoords(net), s)) == []
  {
    if segments != [] {
      NetworkDrawsNothing(net, segments[..|segments| - 1]);
      var s := segments[|segments| - 1];
      if s.fromStationId.Some? && s.fromStationId.value in net.nodes {
        var u := s.fromStationId.value;
        assert "lat" != "longitude" && "lat" != "latitude" by {
          assert |"lat"| == 3 && |"latitude"| == 8 && |"longitude"| == 9;
        }
        assert AttrGet(net.nodes[u], "lat").None?;
        assert NetCoords(net)[u].lat.None?;
      }
    }
  }

  /**
   * Read under the keys the builder writes, a ride segment between two stations with true
   * latitudes and longitudes is drawn between those coordinates.
   */
  lemma StoredCoordsDraw(net: Network.Net, s: DisplaySegment)
    requires !s.isTransfer && s.fromStationId.Some? && s.toStationId.Some?
    requires s.fromStationId.value in net.nodes && s.toStationId.value in net.nodes
    requires var a, b := net.nodes[s.fromStationId.value], net.nodes[s.toStationId.value];
      TruthyCoord(a.latitude) && TruthyCoord(a.longitude) && TruthyCoord(b.latitude) && TruthyCoord(b.longitude)
    ensures var a, b := net.nodes[s.fromStationId.value], net.nodes[s.toStationId.value];
      Drawn(StoredCoords(net), s) ==
        Some(ColoredSegment((a.latitude.value, a.longitude.value), (b.latitude.value, b.longitude.value), s.transportName))
  {
    var u, v := s.fromStationId.value, s.toStationId.value;
    assert StoredCoords(net)[u] == Coords(net.nodes[u].latitude, net.nodes[u].longitude);
    assert StoredCoords(net)[v] == Coords(net.nodes[v].latitude, net.nodes[v].longitude);
  }

  // ---------------------------------------------------------------- centre and zoom

  function Min(xs: seq<real>): (m: real)
    requires xs != []
    ensures m in xs && forall x :: x in xs ==> m <= x
  {
    if |xs| == 1 then xs[0]
    else
      var m := Min(xs[..|xs| - 1]);
      assert forall x :: x in xs ==> x in xs[..|xs| - 1] || x == xs[|xs| - 1];
      if xs[|xs| - 1] < m then xs[|xs| - 1] else m
  }

  function Max(xs: seq<real>): (m: real)
    requires xs != []
    ensures m in xs && forall x :: x in xs ==> x <= m
  {
    if |xs| == 1 then xs[0]
    else
      var m := Max(xs[..|xs| - 1]);
      assert forall x :: x in xs ==> x in xs[..|xs| - 1] || x == xs[|xs| - 1];
      if xs[|xs| - 1] > m then xs[|xs| - 1] else m
  }

  function Lats(coords: seq<(real, real)>): (r: seq<real>)
    ensures |r| == |coords| && forall i :: 0 <= i < |coords| ==> r[i] == coords[i].0
  {
    seq(|coords|, i requires 0 <= i < |coords| => coords[i].0)
  }

  function Lons(coords: seq<(real, real)>): (r: seq<real>)
    ensures |r| == |coords| && forall i :: 0 <= i < |coords| ==> r[i] == coords[i].1
  {
    seq(|coords|, i requires 0 <= i < |coords| => coords[i].1)
  }

  /** The zoom for a span: one step per threshold 0.15, 0.08, 0.04, 0.02, 0.01 and 0.005. */
  function Zoom(span: real): (z: int)
    ensures 10 <= z <= 16
    ensures z == 10 <==> span > 0.15
    ensures z == 16 <==> span <= 0.005
  {
    if span > 0.15 then 10
    else if span > 0.08 then 11
    else if span > 0.04 then 12
    else if span > 0.02 then 13
    else if span > 0.01 then 14
    else if span > 0.005 then 15
    else 16
  }

  /** A wider span never zooms in further. */
  lemma ZoomMonotone(a: real, b: real)
    requires a <= b
    ensures Zoom(b) <= Zoom(a)
  {
  }

  /** The padding of one axis: a tenth of the span, at least `padding`. */
  function Pad(lo: real, hi: real, padding: real): (p: real)
    ensures p >= padding && p >= (hi - lo) * 0.1
    ensures p == padding || p == (hi - lo) * 0.1
  {
    if (hi - lo) * 0.1 > padding then (hi - lo) * 0.1 else padding
  }

  /** The larger of the two padded spans of the frame around the points. */
  function PaddedSpan(coords: seq<(real, real)>, padding: real): (span: real)
    requires coords != []
    ensures span >= Max(Lats(coords)) - Min(Lats(coords)) + 2.0 * padding
    ensures span >= Max(Lons(coords)) - Min(Lons(coords)) + 2.0 * padding
  {
    var minLat, maxLat := Min(Lats(coords)), Max(Lats(coords));
    var minLon, maxLon := Min(Lons(coords)), Max(Lons(coords));
    var latSpan := maxLat - minLat + 2.0 * Pad(minLat, maxLat, padding);
    var lonSpan := maxLon - minLon + 2.0 * Pad(minLon, maxLon, padding);
    if latSpan > lonSpan then latSpan else lonSpan
  }

  datatype Bounds = Bounds(centerLat: real, centerLon: real, zoom: int)

  const DefaultBounds := Bounds(48.8566, 2.3522, 11)

  /**
   * calculate_map_bounds: Paris at zoom 11 for no coordinates; otherwise the centre of the raw
   * extent, and the zoom of the larger padded span.
   */
  function CalculateMapBounds(coords: seq<(real, real)>, padding: real): (b: Bounds)
    ensures coords == [] ==> b == DefaultBounds
    ensures coords != [] ==> b.centerLat == (Min(Lats(coords)) + Max(Lats(coords))) / 2.0
    ensures coords != [] ==> b.centerLon == (Min(Lons(coords)) + Max(Lons(coords))) / 2.0
    ensures 10 <= b.zoom <= 16
    ensures coords != [] && padding > 0.075 ==> b.zoom == 10
    ensures coords != [] ==> b.zoom == Zoom(PaddedSpan(coords, padding))
  {
    if coords == [] then DefaultBounds
    else
      var minLat, maxLat := Min(Lats(coords)), Max(Lats(coords));
      var minLon, maxLon := Min(Lons(coords)), Max(Lons(coords));
      var latPad := Pad(minLat, maxLat, padding);
      var lonPad := Pad(minLon, maxLon, padding);
      var south, north := minLat - latPad, maxLat + latPad;
      var west, east := minLon - lonPad, maxLon + lonPad;
      var latSpan, lonSpan := north - south, east - west;
      var span := if latSpan > lonSpan then latSpan else lonSpan;
      Bounds((south + north) / 2.0, (west + east) / 2.0, Zoom(span))
  }

  /** Every point of the route lies inside the padded frame, at least `padding` from its edge. */
  lemma FrameHoldsRoute(coords: seq<(real, real)>, padding: real, i: int)
    requires 0 <= i < |coords| && padding >= 0.0
    ensures var minLat, maxLat := Min(Lats(coords)), Max(Lats(coords));
      var latPad := Pad(minLat, maxLat, padding);
      minLat - latPad + padding <= coords[i].0 <= maxLat + latPad - padding
    ensures var minLon, maxLon := Min(Lons(coords)), Max(Lons(coords));
      var lonPad := Pad(minLon, maxLon, padding);
      minLon - lonPad + padding <= coords[i].1 <= maxLon + lonPad - padding
  {
    assert Lats(coords)[i] in Lats(coords);
    assert Lons(coords)[i] in Lons(coords);
  }
}

=== FILE: shortest_path.dfy ===
/**
 * Shortest paths on a weighted directed graph with non-negative weights (the search behind
 * networkx's `dijkstra_path` and `dijkstra_path_length`).
 */
module ShortestPaths {
  import opened Common

  /** A walk along existing edges with at least one node. */
  ghost predicate IsPath<N>(w: map<(N, N), real>, p: seq<N>) {
    |p| >= 1 && forall i :: 0 <= i < |p| - 1 ==> (p[i], p[i + 1]) in w
  }

  /** Total weight of a walk. */
  ghost function Cost<N>(w: map<(N, N), real>, p: seq<N>): real
    requires IsPath(w, p)
  {
    if |p| == 1 then 0.0 else Cost(w, p[..|p| - 1]) + w[(p[|p| - 2], p[|p| - 1])]
  }

  /** A walk from `s` to `t`. */
  ghost predicate PathFromTo<N>(w: map<(N, N), real>, p: seq<N>, s: N, t: N) {
    IsPath(w, p) && p[0] == s && p[|p| - 1] == t
  }

  lemma CostAppend<N>(w: map<(N, N), real>, p: seq<N>, x: N)
    requires IsPath(w, p) && (p[|p| - 1], x) in w
    ensures IsPath(w, p + [x]) && Cost(w, p + [x]) == Cost(w, p) + w[(p[|p| - 1], x)]
  {
    assert (p + [x])[..|p|] == p;
  }

  /** Costs are never negative when no weight is. */
  lemma {:induction false} CostNonNegative<N>(w: map<(N, N), real>, p: seq<N>)
    requires IsPath(w, p) && forall e :: e in w ==> w[e] >= 0.0
    ensures Cost(w, p) >= 0.0
  {
    if |p| > 1 {
      CostNonNegative(w, p[..|p| - 1]);
    }
  }

  /**
   * A distance labelling closed under relaxation bounds every walk: if `d[s]` is zero and no
   * edge leaving a labelled node can lower its target's label, every walk from `s` ends at a
   * labelled node whose label is at most the walk's cost.
   */
  lemma {:induction false} RelaxedBoundsPaths<N>(w: map<(N, N), real>, d: map<N, real>, s: N, q: seq<N>)
    requires s in d && d[s] == 0.0
    requires forall e :: e in w && e.0 in d ==> e.1 in d && d[e.1] <= d[e.0] + w[e]
    requires IsPath(w, q) && q[0] == s
    ensures q[|q| - 1] in d && d[q[|q| - 1]] <= Cost(w, q)
  {
    if |q| > 1 {
      var init := q[..|q| - 1];
      assert IsPath(w, init);
      RelaxedBoundsPaths(w, d, s, init);
      assert (q[|q| - 2], q[|q| - 1]) in w;
    }
  }

  /** A node of `frontier` with the smallest label. */
  method ArgMin<N>(d: map<N, real>, frontier: set<N>) returns (u: N)
    requires frontier != {} && frontier <= d.Keys
    ensures u in frontier && forall y :: y in frontier ==> d[u] <= d[y]
  {
    u :| u in frontier;
    var rest := frontier - {u};
    while rest != {}
      invariant rest <= frontier && u in frontier
      invariant forall y :: y in frontier - rest ==> d[u] <= d[y]
      decreases |rest|
    {
      var y :| y in rest;
      if d[y] < d[u] {
        u := y;
      }
      rest := rest - {y};
    }
  }

  /** Labels with witnesses: every labelled node has a walk from `s` whose cost is its label; `s` has label zero. */
  ghost predicate Labelled<N>(w: map<(N, N), real>, s: N, d: map<N, real>, p: map<N, seq<N>>) {
    d.Keys <= p.Keys && s in d && d[s] == 0.0
    && (forall x :: x in d ==> d[x] >= 0.0)
    && (forall x :: x in d ==> PathFromTo(w, p[x], s, x) && Cost(w, p[x]) == d[x])
  }

  /** No edge leaving a node of `from` can lower the label of its target. */
  ghost predicate Relaxed<N>(w: map<(N, N), real>, d: map<N, real>, from: set<N>) {
    forall e :: e in w && e.0 in from ==> e.0 in d && e.1 in d && d[e.1] <= d[e.0] + w[e]
  }

  /** Settled labels are at most the unsettled ones. */
  ghost predicate SettledFirst<N>(d: map<N, real>, settled: set<N>) {
    settled <= d.Keys && forall x, y :: x in settled && y in d && y !in settled ==> d[x] <= d[y]
  }

  /** Lowering the label of `v` through the edge (u, v) keeps the labelling's witnesses. */
  lemma LabelledUpdate<N>(w: map<(N, N), real>, s: N, d: map<N, real>, p: map<N, seq<N>>, u: N, v: N)
    requires Labelled(w, s, d, p) && u in d && (u, v) in w && w[(u, v)] >= 0.0
    requires v in d ==> d[u] + w[(u, v)] < d[v]
    ensures Labelled(w, s, d[v := d[u] + w[(u, v)]], p[v := p[u] + [v]])
  {
    CostAppend(w, p[u], v);
  }

  /** Relax every edge leaving the node `u` just settled. */
  method RelaxFrom<N(==)>(nodes: set<N>, w: map<(N, N), real>, s: N, u: N, settled: set<N>, d0: map<N, real>, p0: map<N, seq<N>>)
    returns (d: map<N, real>, p: map<N, seq<N>>)
    requires forall e :: e in w ==> e.0 in nodes && e.1 in nodes && w[e] >= 0.0
    requires Labelled(w, s, d0, p0) && d0.Keys <= nodes
    requires u in settled && SettledFirst(d0, settled - {u}) && settled <= d0.Keys
    requires forall x :: x in settled ==> d0[x] <= d0[u]
    requires forall y :: y in d0 && y !in settled ==> d0[u] <= d0[y]
    requires Relaxed(w, d0, settled - {u})
    ensures Labelled(w, s, d, p) && d0.Keys <= d.Keys <= nodes
    ensures forall x :: x in settled ==> d[x] == d0[x]
    ensures SettledFirst(d, settled) && Relaxed(w, d, settled)
  {
    d, p := RelaxAll(nodes, w, s, u, settled, d0, p0);
    RelaxedAfterLoop(w, d0, d, u, settled);
    SettledFirstAfterLoop(d0, d, u, d0[u], settled);
  }

  method RelaxAll<N(==)>(nodes: set<N>, w: map<(N, N), real>, s: N, u: N, settled: set<N>, d0: map<N, real>, p0: map<N, seq<N>>)
    returns (d: map<N, real>, p: map<N, seq<N>>)
    requires forall e :: e in w ==> e.0 in nodes && e.1 in nodes && w[e] >= 0.0
    requires Labelled(w, s, d0, p0) && d0.Keys <= nodes && u in settled && settled <= d0.Keys
    requires forall x :: x in settled ==> d0[x] <= d0[u]
    requires forall y :: y in d0 && y !in settled ==> d0[u] <= d0[y]
    ensures Labelled(w, s, d, p) && d0.Keys <= d.Keys <= nodes
    ensures forall x :: x in settled ==> d[x] == d0[x] && d[x] <= d0[u]
    ensures forall x :: x in d0 ==> d[x] <= d0[x]
    ensures forall y :: y in d && y !in settled ==> d0[u] <= d[y]
    ensures forall e :: e in w && e.0 == u ==> e.1 in d && d[e.1] <= d[u] + w[e]
  {
    d, p := d0, p0;
    var du := d[u];
    var outs := set e | e in w && e.0 == u;
    while outs != {}
      invariant Labelled(w, s, d, p) && d0.Keys <= d.Keys <= nodes
      invariant forall x :: x in settled ==> d[x] == d0[x] && d[x] <= du
      invariant forall x :: x in d0 ==> d[x] <= d0[x]
      invariant forall y :: y in d && y !in settled ==> du <= d[y]
      invariant forall e :: e in w && e.0 == u && e !in outs ==> e.1 in d && d[e.1] <= du + w[e]
      invariant forall e :: e in outs ==> e in w && e.0 == u
      decreases outs
    {
      var e :| e in outs;
      ghost var before := d;
      d, p := RelaxEdge(w, s, u, settled, e, d, p);
      RelaxStep(nodes, w, u, settled, du, outs, e, before, d);
      outs := outs - {e};
    }
  }

  /** One pass of the edge loop keeps the unsettled labels above `u`'s and relaxes one more edge. */
  lemma RelaxStep<N>(nodes: set<N>, w: map<(N, N), real>, u: N, settled: set<N>, du: real, outs: set<(N, N)>, e: (N, N),
                     before: map<N, real>, after: map<N, real>)
    requires e in outs && e in w && e.0 == u && w[e] >= 0.0
    requires before.Keys <= nodes && e.1 in nodes
    requires after.Keys == before.Keys + {e.1}
    requires after[e.1] <= du + w[e]
    requires after[e.1] == du + w[e] || (e.1 in before && after[e.1] == before[e.1])
    requires forall x :: x in before ==> after[x] <= before[x]
    requires forall x :: x in after && x != e.1 ==> after[x] == before[x]
    requires forall y :: y in before && y !in settled ==> du <= before[y]
    requires forall f :: f in w && f.0 == u && f !in outs ==> f.1 in before && before[f.1] <= du + w[f]
    ensures after.Keys <= nodes
    ensures forall y :: y in after && y !in settled ==> du <= after[y]
    ensures forall f :: f in w && f.0 == u && f !in outs - {e} ==> f.1 in after && after[f.1] <= du + w[f]
  {
    forall f | f in w && f.0 == u && f !in outs - {e}
      ensures f.1 in after && after[f.1] <= du + w[f]
    {
      if f != e {
        assert f.1 in before && after[f.1] <= before[f.1];
      }
    }
  }

  lemma SettledFirstAfterLoop<N>(d0: map<N, real>, d: map<N, real>, u: N, du: real, settled: set<N>)
    requires u in settled && settled <= d0.Keys <= d.Keys
    requires forall x :: x in settled ==> d[x] == d0[x] && d[x] <= du
    requires forall y :: y in d && y !in settled ==> du <= d[y]
    ensures SettledFirst(d, settled)
  {
  }

  /** Relax one edge leaving `u`: a settled node never gets a lower label. */
  method RelaxEdge<N(==)>(w: map<(N, N), real>, s: N, u: N, settled: set<N>, e: (N, N), d0: map<N, real>, p0: map<N, seq<N>>)
    returns (d: map<N, real>, p: map<N, seq<N>>)
    requires e in w && e.0 == u && w[e] >= 0.0 && u in d0
    requires Labelled(w, s, d0, p0)
    requires forall x :: x in settled ==> x in d0 && d0[x] <= d0[u]
    ensures Labelled(w, s, d, p) && d.Keys == d0.Keys + {e.1}
    ensures d[u] == d0[u] && d[e.1] <= d0[u] + w[e]
    ensures d[e.1] == d0[u] + w[e] || (e.1 in d0 && d[e.1] == d0[e.1])
    ensures forall x :: x in d0 ==> d[x] <= d0[x]
    ensures forall x :: x in settled ==> d[x] == d0[x]
    ensures forall x :: x in d && x != e.1 ==> d[x] == d0[x]
  {
    d, p := d0, p0;
    var nd := d[u] + w[e];
    if e.1 !in d || nd < d[e.1] {
      LabelledUpdate(w, s, d, p, u, e.1);
      d := d[e.1 := nd];
      p := p[e.1 := p[u] + [e.1]];
    }
  }

  lemma RelaxedAfterLoop<N>(w: map<(N, N), real>, d0: map<N, real>, d: map<N, real>, u: N, settled: set<N>)
    requires u in settled && settled <= d0.Keys <= d.Keys
    requires Relaxed(w, d0, settled - {u})
    requires forall x :: x in settled ==> d[x] == d0[x]
    requires forall x :: x in d0 ==> d[x] <= d0[x]
    requires forall e :: e in w && e.0 == u ==> e.1 in d && d[e.1] <= d[u] + w[e]
    ensures Relaxed(w, d, settled)
  {
    forall e | e in w && e.0 in settled
      ensures e.0 in d && e.1 in d && d[e.1] <= d[e.0] + w[e]
    {
      if e.0 != u {
        assert e.0 in settled - {u};
      }
    }
  }

  /**
   * Dijkstra's search from `s`, run until every reachable node is settled. The result is a
   * walk from `s` to `t` of least cost, with that cost, or nothing when `t` is unreachable.
   */
  method ShortestPath<N(==)>(nodes: set<N>, w: map<(N, N), real>, s: N, t: N) returns (r: Option<(seq<N>, real)>)
    requires s in nodes
    requires forall e :: e in w ==> e.0 in nodes && e.1 in nodes && w[e] >= 0.0
    ensures r.Some? ==> PathFromTo(w, r.value.0, s, t) && Cost(w, r.value.0) == r.value.1
    ensures r.Some? ==> forall q :: PathFromTo(w, q, s, t) ==> r.value.1 <= Cost(w, q)
    ensures r.None? ==> forall q :: !PathFromTo(w, q, s, t)
  {
    var d: map<N, real> := map[s := 0.0];
    var p: map<N, seq<N>> := map[s := [s]];
    var settled: set<N> := {};
    while d.Keys - settled != {}
      invariant Labelled(w, s, d, p) && d.Keys <= nodes
      invariant SettledFirst(d, settled) && Relaxed(w, d, settled)
      decreases |nodes - settled|
    {
      var u := ArgMin(d, d.Keys - settled);
      assert nodes - (settled + {u}) == (nodes - settled) - {u};
      assert (settled + {u}) - {u} == settled;
      settled := settled + {u};
      d, p := RelaxFrom(nodes, w, s, u, settled, d, p);
    }
    if t in d {
      r := Some((p[t], d[t]));
      forall q | PathFromTo(w, q, s, t)
        ensures d[t] <= Cost(w, q)
      {
        RelaxedBoundsPaths(w, d, s, q);
      }
    } else {
      r := None;
      forall q | PathFromTo(w, q, s, t)
        ensures false
      {
        RelaxedBoundsPaths(w, d, s, q);
      }
    }
  }
}

=== FILE: traffic.dfy ===
/**
 * Flattening of an Estimated Timetable response of SIRI (CEN/TS 15531-3): one row per estimated
 * call, across deliveries, version frames and vehicle journeys, with "Inconnu" for what is
 * missing, the expected arrival time shortened to "HH:MM" and the line reference cut down to its
 * digits and "C". Also the choice of lines whose timetable is requested. The HTTP requests, the
 * pauses between them, the cache, the referential CSV and the final merge are left out.
 */
module Traffic {
  import opened Common
  import opened Text
  import opened Calendar

  // ---------------------------------------------------------------- the response

  /**
   * An estimated call. A missing "DestinationDisplay" is an empty list; each of its entries has
   * an optional "value".
   */
  datatype Call = Call(arrivalStatus: Option<string>, destinationDisplay: seq<Option<string>>, expectedArrivalTime: Option<string>)

  /**
   * A vehicle journey: its "LineRef" value, its "PublishedLineName" list (None when the key is
   * missing) and its calls.
   */
  datatype Vehicle = Vehicle(lineRef: Option<string>, publishedLineName: Option<seq<Option<string>>>, calls: seq<Call>)

  datatype Frame = Frame(vehicles: seq<Vehicle>)

  datatype Delivery = Delivery(frames: seq<Frame>)

  /** One row: the five lists the loops append to, taken together. */
  datatype TrafficRow = TrafficRow(lineName: string, lineRef: string, status: string, destination: string, expectedArrivalTime: string)

  const Unknown := "Inconnu"

  // ---------------------------------------------------------------- ISO times

  predicate DigitAt(s: string, i: int) {
    0 <= i < |s| && '0' <= s[i] <= '9'
  }

  function Num2(s: string, i: int): (n: nat)
    requires DigitAt(s, i) && DigitAt(s, i + 1)
    ensures n < 100
  {
    (s[i] as int - '0' as int) * 10 + (s[i + 1] as int - '0' as int)
  }

  function Num4(s: string, i: int): (n: nat)
    requires DigitAt(s, i) && DigitAt(s, i + 1) && DigitAt(s, i + 2) && DigitAt(s, i + 3)
    ensures n < 10000
  {
    Num2(s, i) * 100 + Num2(s, i + 2)
  }

  /** Two digits, zero-padded: strftime's "%H" and "%M". */
  function Two(n: nat): (s: string)
    requires n < 100
    ensures |s| == 2 && DigitAt(s, 0) && DigitAt(s, 1) && Num2(s, 0) == n
  {
    [DigitChar(n / 10), DigitChar(n % 10)]
  }

  /** Reading two digits and writing them back gives the same two characters. */
  lemma TwoOfNum2(s: string, i: int)
    requires DigitAt(s, i) && DigitAt(s, i + 1)
    ensures Two(Num2(s, i)) == s[i..i + 2]
  {
    var n := Num2(s, i);
    assert n / 10 == s[i] as int - '0' as int;
    assert n % 10 == s[i + 1] as int - '0' as int;
  }

  /** The number of digits at the start of `s`. */
  function LeadingDigits(s: string): (n: nat)
    ensures n <= |s| && forall i :: 0 <= i < n ==> DigitAt(s, i)
    ensures n < |s| ==> !DigitAt(s, n)
  {
    if s != [] && '0' <= s[0] <= '9' then
      var n := LeadingDigits(s[1..]);
      assert forall i :: 1 <= i < 1 + n ==> DigitAt(s[1..], i - 1) && s[i] == s[1..][i - 1];
      assert 1 + n < |s| ==> s[1 + n] == s[1..][n];
      1 + n
    else 0
  }

  /** A UTC offset "+HH:MM" or "-HH:MM", or nothing. */
  predicate Offset(t: string) {
    t == []
    || (|t| == 6 && (t[0] == '+' || t[0] == '-') && DigitAt(t, 1) && DigitAt(t, 2) && t[3] == ':'
        && DigitAt(t, 4) && DigitAt(t, 5) && Num2(t, 1) <= 23 && Num2(t, 4) <= 59)
  }

  /** What may follow the seconds: a fraction of one to six digits, then an offset. */
  predicate SecondsTail(t: string) {
    Offset(t)
    || (|t| >= 1 && t[0] == '.' && 1 <= LeadingDigits(t[1..]) <= 6 && Offset(t[1 + LeadingDigits(t[1..])..]))
  }

  /** What may follow the minutes: seconds, then the rest, or an offset alone. */
  predicate TimeTail(t: string) {
    Offset(t)
    || (|t| >= 3 && t[0] == ':' && DigitAt(t, 1) && DigitAt(t, 2) && Num2(t, 1) <= 59 && SecondsTail(t[3..]))
  }

  /** The calendar date written at the start of `s` as "YYYY-MM-DD", when it is one. */
  function DatePart(s: string): (d: Option<Date>)
    ensures d.Some? ==> ValidDate(d.value)
  {
    if |s| >= 10 && DigitAt(s, 0) && DigitAt(s, 1) && DigitAt(s, 2) && DigitAt(s, 3) && s[4] == '-'
      && DigitAt(s, 5) && DigitAt(s, 6) && s[7] == '-' && DigitAt(s, 8) && DigitAt(s, 9)
      && ValidDate(Date(Num4(s, 0), Num2(s, 5), Num2(s, 8)))
    then Some(Date(Num4(s, 0), Num2(s, 5), Num2(s, 8)))
    else None
  }

  /**
   * The hour and minute of `datetime.fromisoformat(s)` for the extended form: a date alone (at
   * midnight), or a date, one separator character, "HH:MM" and a tail as `TimeTail` describes.
   */
  function IsoClock(s: string): (r: Option<(nat, nat)>)
    ensures r.Some? ==> r.value.0 <= 23 && r.value.1 <= 59
    ensures r.Some? && |s| > 10 ==> (DigitAt(s, 11) && DigitAt(s, 12) && DigitAt(s, 14) && DigitAt(s, 15)
      && r.value == (Num2(s, 11), Num2(s, 14)))
  {
    if DatePart(s).None? then None
    else if |s| == 10 then Some((0, 0))
    else if |s| >= 16 && DigitAt(s, 11) && DigitAt(s, 12) && s[13] == ':' && DigitAt(s, 14) && DigitAt(s, 15)
      && Num2(s, 11) <= 23 && Num2(s, 14) <= 59 && TimeTail(s[16..])
    then Some((Num2(s, 11), Num2(s, 14)))
    else None
  }

  /** `s.replace("Z", "+00:00")`. */
  function ReplaceZ(s: string): (r: string)
    ensures 'Z' !in r
  {
    if s == [] then []
    else (if s[0] == 'Z' then "+00:00" else [s[0]]) + ReplaceZ(s[1..])
  }

  lemma {:induction false} ReplaceZAppend(a: string, b: string)
    ensures ReplaceZ(a + b) == ReplaceZ(a) + ReplaceZ(b)
  {
    if a != [] {
      assert (a + b)[0] == a[0] && (a + b)[1..] == a[1..] + b;
      ReplaceZAppend(a[1..], b);
      var head := if a[0] == 'Z' then "+00:00" else [a[0]];
      assert head + (ReplaceZ(a[1..]) + ReplaceZ(b)) == (head + ReplaceZ(a[1..])) + ReplaceZ(b);
    } else {
      assert a + b == b;
    }
  }

  lemma {:induction false} ReplaceZAbsent(s: string)
    requires 'Z' !in s
    ensures ReplaceZ(s) == s
  {
    if s != [] {
      ReplaceZAbsent(s[1..]);
    }
  }

  /**
   * The expected arrival time of a row: "Inconnu" when missing; an ISO time (with "Z" read as
   * "+00:00") as "HH:MM"; any other text unchanged.
   */
  function ArrivalText(t: Option<string>): (r: string)
    ensures t.None? ==> r == Unknown
    ensures t.Some? && (t.value == Unknown || IsoClock(ReplaceZ(t.value)).None?) ==> r == t.value
    ensures t.Some? && t.value != Unknown && IsoClock(ReplaceZ(t.value)).Some? ==>
      (|r| == 5 && r[2] == ':' && DigitAt(r, 0) && DigitAt(r, 1) && DigitAt(r, 3) && DigitAt(r, 4)
      && Num2(r, 0) == IsoClock(ReplaceZ(t.value)).value.0 && Num2(r, 3) == IsoClock(ReplaceZ(t.value)).value.1)
  {
    if t.None? || t.value == Unknown then t.GetOr(Unknown)
    else
      match IsoClock(ReplaceZ(t.value))
      case Some((h, m)) => Two(h) + ":" + Two(m)
      case None => t.value
  }

  /** A parsed time with a clock part is shortened to the "HH:MM" written in it. */
  lemma ArrivalKeepsWrittenClock(s: string)
    requires s != Unknown && IsoClock(ReplaceZ(s)).Some? && |ReplaceZ(s)| > 10
    ensures ArrivalText(Some(s)) == ReplaceZ(s)[11..16]
  {
    var x := ReplaceZ(s);
    TwoOfNum2(x, 11);
    TwoOfNum2(x, 14);
    assert x[11..16] == x[11..13] + ":" + x[14..16];
  }

  /** "YYYY-MM-DD" for a valid date. */
  function DateText(d: Date): (s: string)
    requires ValidDate(d)
    ensures |s| == 10
  {
    Two(d.year / 100) + Two(d.year % 100) + "-" + Two(d.month) + "-" + Two(d.day)
  }

  lemma DateTextParses(d: Date, rest: string)
    requires ValidDate(d)
    ensures DatePart(DateText(d) + rest) == Some(d)
  {
    var s := DateText(d) + rest;
    var y1, y2, m, dd := Two(d.year / 100), Two(d.year % 100), Two(d.month), Two(d.day);
    assert s == y1 + y2 + "-" + m + "-" + dd + rest;
    assert s[0..2] == y1 && s[2..4] == y2 && s[5..7] == m && s[8..10] == dd;
    assert Num2(s, 0) == Num2(y1, 0) && Num2(s, 2) == Num2(y2, 0);
    assert Num2(s, 5) == Num2(m, 0) && Num2(s, 8) == Num2(dd, 0);
    assert Num4(s, 0) == d.year;
  }

  /**
   * The times of the timetable read back: a date, "T", "HH:MM:SS", then "Z", gives "HH:MM".
   */
  lemma SiriTimeShortened(d: Date, h: nat, m: nat, sec: nat)
    requires ValidDate(d) && h <= 23 && m <= 59 && sec <= 59
    ensures ArrivalText(Some(DateText(d) + "T" + Two(h) + ":" + Two(m) + ":" + Two(sec) + "Z")) == Two(h) + ":" + Two(m)
  {
    var head := DateText(d) + "T" + Two(h) + ":" + Two(m) + ":" + Two(sec);
    var tail := ":" + Two(sec) + "+00:00";
    ZoneReplaced(head);
    assert head + "+00:00" == DateText(d) + "T" + Two(h) + ":" + Two(m) + tail;
    SecondsAndUtc(sec);
    ClockParses(d, h, m, tail);
  }

  /** A time written without "Z" and ending in "Z" reads as the same time at "+00:00". */
  lemma ZoneReplaced(head: string)
    requires forall i :: 0 <= i < |head| ==> head[i] != 'Z'
    ensures ReplaceZ(head + "Z") == head + "+00:00"
  {
    assert 'Z' !in head;
    ReplaceZAppend(head, "Z");
    ReplaceZAbsent(head);
    ReplaceZOfZ();
  }

  lemma ReplaceZOfZ()
    ensures ReplaceZ("Z") == "+00:00"
  {
    assert "Z"[0] == 'Z' && "Z"[1..] == [];
  }

  lemma SecondsAndUtc(sec: nat)
    requires sec <= 59
    ensures TimeTail(":" + Two(sec) + "+00:00")
  {
    var t := ":" + Two(sec) + "+00:00";
    assert t[1..3] == Two(sec);
    assert Num2(t, 1) == sec;
    assert t[3..] == "+00:00";
  }

  /** A date, a separator, "HH:MM" and a valid tail read back as that hour and minute. */
  lemma ClockParses(d: Date, h: nat, m: nat, tail: string)
    requires ValidDate(d) && h <= 23 && m <= 59 && TimeTail(tail)
    ensures IsoClock(DateText(d) + "T" + Two(h) + ":" + Two(m) + tail) == Some((h, m))
  {
    var rest := "T" + Two(h) + ":" + Two(m) + tail;
    var x := DateText(d) + rest;
    assert x == DateText(d) + "T" + Two(h) + ":" + Two(m) + tail;
    DateTextParses(d, rest);
    assert x[11..13] == Two(h) && x[14..16] == Two(m) && x[13] == ':';
    assert Num2(x, 11) == Num2(Two(h), 0) && Num2(x, 14) == Num2(Two(m), 0);
    assert x[16..] == tail;
  }

  // ---------------------------------------------------------------- rows

  /** The "value" of the first "DestinationDisplay" entry; "Inconnu" for an empty list or no value. */
  function Destination(display: seq<Option<string>>): (r: string)
    ensures display == [] ==> r == Unknown
    ensures display != [] ==> r == display[0].GetOr(Unknown)
  {
    if display == [] then Unknown else display[0].GetOr(Unknown)
  }

  /**
   * A vehicle whose "PublishedLineName" is an empty list: taking its first entry raises
   * IndexError, which ends the whole extraction.
   */
  predicate Broken(v: Vehicle) {
    v.publishedLineName == Some([])
  }

  /** The line name of a vehicle that is not broken. */
  function LineName(v: Vehicle): (r: string)
    requires !Broken(v)
    ensures v.publishedLineName.None? ==> r == Unknown
    ensures v.publishedLineName.Some? ==> r == v.publishedLineName.value[0].GetOr(Unknown)
  {
    match v.publishedLineName
    case None => Unknown
    case Some(names) => names[0].GetOr(Unknown)
  }

  function CallRow(name: string, lineRef: string, c: Call): TrafficRow {
    TrafficRow(name, lineRef, c.arrivalStatus.GetOr(Unknown), Destination(c.destinationDisplay), ArrivalText(c.expectedArrivalTime))
  }

  /** The rows of one vehicle: one per call, in order, all with the vehicle's line. */
  function VehicleRows(v: Vehicle): (rows: seq<TrafficRow>)
    requires !Broken(v)
    ensures |rows| == |v.calls|
    ensures forall k :: 0 <= k < |rows| ==> rows[k] == CallRow(LineName(v), v.lineRef.GetOr(Unknown), v.calls[k])
  {
    seq(|v.calls|, k requires 0 <= k < |v.calls| => CallRow(LineName(v), v.lineRef.GetOr(Unknown), v.calls[k]))
  }

  predicate NoneBroken(vs: seq<Vehicle>) {
    forall k :: 0 <= k < |vs| ==> !Broken(vs[k])
  }

  /** The rows of the vehicles in order. */
  function FlatRows(vs: seq<Vehicle>): (rows: seq<TrafficRow>)
    requires NoneBroken(vs)
  {
    if vs == [] then [] else FlatRows(vs[..|vs| - 1]) + VehicleRows(vs[|vs| - 1])
  }

  /** There is one row per call of every vehicle. */
  lemma {:induction false} FlatRowsCount(vs: seq<Vehicle>)
    requires NoneBroken(vs)
    ensures |FlatRows(vs)| == CallCount(vs)
  {
    if vs != [] {
      FlatRowsCount(vs[..|vs| - 1]);
    }
  }

  function CallCount(vs: seq<Vehicle>): nat {
    if vs == [] then 0 else CallCount(vs[..|vs| - 1]) + |vs[|vs| - 1].calls|
  }

  lemma {:induction false} FlatRowsAppend(a: seq<Vehicle>, b: seq<Vehicle>)
    requires NoneBroken(a) && NoneBroken(b)
    ensures NoneBroken(a + b) && FlatRows(a + b) == FlatRows(a) + FlatRows(b)
  {
    NoneBrokenAppend(a, b);
    if b != [] {
      var init := b[..|b| - 1];
      FlatRowsSnoc(b);
      FlatRowsAppend(a, init);
      FlatRowsSnoc(a + b);
      SplitLast(a, b);
    } else {
      assert a + b == a;
    }
  }

  /** The rows of some vehicles are the rows of all but the last, then the last one's. */
  lemma FlatRowsSnoc(vs: seq<Vehicle>)
    requires vs != [] && NoneBroken(vs)
    ensures NoneBroken(vs[..|vs| - 1]) && !Broken(vs[|vs| - 1])
    ensures FlatRows(vs) == FlatRows(vs[..|vs| - 1]) + VehicleRows(vs[|vs| - 1])
  {
  }

  lemma NoneBrokenAppend(a: seq<Vehicle>, b: seq<Vehicle>)
    requires NoneBroken(a) && NoneBroken(b)
    ensures NoneBroken(a + b)
  {
    forall k | 0 <= k < |a + b|
      ensures !Broken((a + b)[k])
    {
      if k < |a| {
        assert (a + b)[k] == a[k];
      } else {
        assert (a + b)[k] == b[k - |a|];
      }
    }
  }

  /** The vehicles of some frames, frame by frame. */
  function FrameVehicles(frames: seq<Frame>): seq<Vehicle> {
    if frames == [] then [] else FrameVehicles(frames[..|frames| - 1]) + frames[|frames| - 1].vehicles
  }

  /** The vehicles of some deliveries, delivery by delivery (document order). */
  function Vehicles(ds: seq<Delivery>): seq<Vehicle> {
    if ds == [] then [] else Vehicles(ds[..|ds| - 1]) + FrameVehicles(ds[|ds| - 1].frames)
  }

  /** The rows of some vehicles, or the IndexError of the first broken one. */
  function RowsOf(vs: seq<Vehicle>): (r: Result<seq<TrafficRow>>)
    ensures r.Fail? <==> exists k :: 0 <= k < |vs| && Broken(vs[k])
  {
    if NoneBroken(vs) then Ok(FlatRows(vs)) else Fail("IndexError")
  }

  lemma RowsOfAppend(a: seq<Vehicle>, b: seq<Vehicle>)
    ensures RowsOf(a + b) == if RowsOf(a).Fail? || RowsOf(b).Fail? then Fail("IndexError") else Ok(RowsOf(a).value + RowsOf(b).value)
  {
    if NoneBroken(a) && NoneBroken(b) {
      FlatRowsAppend(a, b);
    } else if !NoneBroken(a) {
      var k :| 0 <= k < |a| && Broken(a[k]);
      assert (a + b)[k] == a[k];
    } else {
      var k :| 0 <= k < |b| && Broken(b[k]);
      assert (a + b)[|a| + k] == b[k];
    }
  }

  /** `str.replace(r"[^0-9C]", "")`: only the digits and "C" are kept. */
  function CleanLineRef(s: string): (r: string)
    ensures |r| <= |s| && forall i :: 0 <= i < |r| ==> ('0' <= r[i] <= '9' || r[i] == 'C')
  {
    if s == [] then []
    else (if '0' <= s[0] <= '9' || s[0] == 'C' then [s[0]] else []) + CleanLineRef(s[1..])
  }

  /** Cleaning twice is cleaning once. */
  lemma {:induction false} CleanLineRefIdempotent(s: string)
    ensures CleanLineRef(CleanLineRef(s)) == CleanLineRef(s)
  {
    if s != [] {
      CleanLineRefIdempotent(s[1..]);
      var head := if '0' <= s[0] <= '9' || s[0] == 'C' then [s[0]] else [];
      CleanLineRefAppend(head, CleanLineRef(s[1..]));
    }
  }

  lemma {:induction false} CleanLineRefAppend(a: string, b: string)
    ensures CleanLineRef(a + b) == CleanLineRef(a) + CleanLineRef(b)
  {
    if a != [] {
      assert (a + b)[0] == a[0] && (a + b)[1..] == a[1..] + b;
      CleanLineRefAppend(a[1..], b);
      var head := if '0' <= a[0] <= '9' || a[0] == 'C' then [a[0]] else [];
      assert head + (CleanLineRef(a[1..]) + CleanLineRef(b)) == (head + CleanLineRef(a[1..])) + CleanLineRef(b);
    } else {
      assert a + b == b;
    }
  }

  /** A missing line reference ends up empty. */
  lemma UnknownLineRefCleared()
    ensures CleanLineRef(Unknown) == ""
  {
  }

  function CleanRefs(rows: seq<TrafficRow>): (r: seq<TrafficRow>)
    ensures |r| == |rows|
    ensures forall i :: 0 <= i < |rows| ==> r[i] == rows[i].(lineRef := CleanLineRef(rows[i].lineRef))
  {
    seq(|rows|, i requires 0 <= i < |rows| => rows[i].(lineRef := CleanLineRef(rows[i].lineRef)))
  }

  /**
   * _extract_traffic_data: no rows for no response; otherwise the rows of every call in document
   * order with their line references cleaned, unless some vehicle has an empty line-name list.
   */
  function TrafficData(data: Option<seq<Delivery>>): (r: Result<seq<TrafficRow>>)
    ensures data.None? ==> r == Ok([])
    ensures data.Some? ==> (r.Fail? <==> RowsOf(Vehicles(data.value)).Fail?)
    ensures data.Some? && r.Ok? ==> r.value == CleanRefs(RowsOf(Vehicles(data.value)).value)
  {
    if data.None? then Ok([])
    else
      match RowsOf(Vehicles(data.value))
      case Fail(e) => Fail(e)
      case Ok(rows) => Ok(CleanRefs(rows))
  }

  // ---------------------------------------------------------------- the loops

  /** The innermost loop: one row per call of a vehicle. */
  method CallRows(v: Vehicle) returns (rows: seq<TrafficRow>)
    requires !Broken(v)
    ensures rows == VehicleRows(v)
  {
    var lineRef := if v.lineRef.Some? then v.lineRef.value else Unknown;
    var lineName := if v.publishedLineName.None? then Unknown else v.publishedLineName.value[0].GetOr(Unknown);
    ghost var all := VehicleRows(v);
    rows := [];
    for k := 0 to |v.calls|
      invariant rows == all[..k]
    {
      var c := v.calls[k];
      var status := if c.arrivalStatus.Some? then c.arrivalStatus.value else Unknown;
      var station := if c.destinationDisplay != [] then c.destinationDisplay[0].GetOr(Unknown) else Unknown;
      var expected := ExpectedArrival(c.expectedArrivalTime);
      var row := TrafficRow(lineName, lineRef, status, station, expected);
      assert row == all[k];
      TakeSnoc(all, k);
      rows := rows + [row];
    }
    assert all[..|v.calls|] == all;
  }

  /** The expected arrival time of one call; a value `fromisoformat` refuses is kept. */
  method ExpectedArrival(t: Option<string>) returns (expected: string)
    ensures expected == ArrivalText(t)
  {
    expected := if t.Some? then t.value else Unknown;
    if expected != Unknown {
      match IsoClock(ReplaceZ(expected))
      case Some((h, m)) =>
        expected := Two(h) + ":" + Two(m);
      case None =>
    }
  }

  /** The vehicle loop of one frame. */
  method VehiclesRows(vs: seq<Vehicle>) returns (r: Result<seq<TrafficRow>>)
    ensures r == RowsOf(vs)
  {
    var rows := [];
    for k := 0 to |vs|
      invariant NoneBroken(vs[..k]) && rows == FlatRows(vs[..k])
    {
      var v := vs[k];
      if v.publishedLineName == Some([]) {
        return Fail("IndexError");
      }
      var more := CallRows(v);
      assert vs[..k + 1][..k] == vs[..k];
      rows := rows + more;
    }
    assert vs[..|vs|] == vs;
    return Ok(rows);
  }

  /** The frame loop of one delivery. */
  method FramesRows(frames: seq<Frame>) returns (r: Result<seq<TrafficRow>>)
    ensures r == RowsOf(FrameVehicles(frames))
  {
    var rows := [];
    for j := 0 to |frames|
      invariant RowsOf(FrameVehicles(frames[..j])) == Ok(rows)
    {
      assert frames[..j + 1][..j] == frames[..j];
      RowsOfAppend(FrameVehicles(frames[..j]), frames[j].vehicles);
      var more := VehiclesRows(frames[j].vehicles);
      if more.Fail? {
        FrameVehiclesPrefix(frames, j + 1);
        return more;
      }
      rows := rows + more.value;
    }
    assert frames[..|frames|] == frames;
    return Ok(rows);
  }

  /** A failure among the first frames is a failure of all of them. */
  lemma FrameVehiclesPrefix(frames: seq<Frame>, j: int)
    requires 0 <= j <= |frames| && RowsOf(FrameVehicles(frames[..j])).Fail?
    ensures RowsOf(FrameVehicles(frames)) == Fail("IndexError")
  {
    var k :| 0 <= k < |FrameVehicles(frames[..j])| && Broken(FrameVehicles(frames[..j])[k]);
    FrameVehiclesExtend(frames, j, k);
  }

  lemma {:induction false} FrameVehiclesExtend(frames: seq<Frame>, j: int, k: int)
    requires 0 <= j <= |frames| && 0 <= k < |FrameVehicles(frames[..j])|
    ensures k < |FrameVehicles(frames)| && FrameVehicles(frames)[k] == FrameVehicles(frames[..j])[k]
    decreases |frames| - j
  {
    if j < |frames| {
      assert frames[..j + 1][..j] == frames[..j];
      FrameVehiclesExtend(frames, j + 1, k);
    } else {
      assert frames[..j] == frames;
    }
  }

  lemma {:induction false} VehiclesExtend(ds: seq<Delivery>, i: int, k: int)
    requires 0 <= i <= |ds| && 0 <= k < |Vehicles(ds[..i])|
    ensures k < |Vehicles(ds)| && Vehicles(ds)[k] == Vehicles(ds[..i])[k]
    decreases |ds| - i
  {
    if i < |ds| {
      assert ds[..i + 1][..i] == ds[..i];
      VehiclesExtend(ds, i + 1, k);
    } else {
      assert ds[..i] == ds;
    }
  }

  /**
   * _extract_traffic_data: the delivery loop over the frame and vehicle loops, then the cleaning
   * of the line references.
   */
  method ExtractTrafficData(data: Option<seq<Delivery>>) returns (r: Result<seq<TrafficRow>>)
    ensures r == TrafficData(data)
  {
    if data.None? {
      return Ok([]);
    }
    var all := DeliveriesRows(data.value);
    if all.Fail? {
      return Fail("IndexError");
    }
    var rows := all.value;
    if rows != [] {
      rows := seq(|rows|, i requires 0 <= i < |rows| => rows[i].(lineRef := CleanLineRef(rows[i].lineRef)));
    }
    return Ok(rows);
  }

  /** The delivery loop: the rows of every delivery's frames, or the IndexError of a broken vehicle. */
  method DeliveriesRows(ds: seq<Delivery>) returns (r: Result<seq<TrafficRow>>)
    ensures r == RowsOf(Vehicles(ds))
  {
    var rows := [];
    for i := 0 to |ds|
      invariant RowsOf(Vehicles(ds[..i])) == Ok(rows)
    {
      assert ds[..i + 1][..i] == ds[..i];
      RowsOfAppend(Vehicles(ds[..i]), FrameVehicles(ds[i].frames));
      var more := FramesRows(ds[i].frames);
      if more.Fail? {
        BrokenPrefix(ds, i + 1);
        return Fail("IndexError");
      }
      rows := rows + more.value;
    }
    assert ds[..|ds|] == ds;
    return Ok(rows);
  }

  /** A broken vehicle among the first deliveries fails the whole extraction. */
  lemma BrokenPrefix(ds: seq<Delivery>, i: int)
    requires 0 <= i <= |ds| && RowsOf(Vehicles(ds[..i])).Fail?
    ensures RowsOf(Vehicles(ds)) == Fail("IndexError")
  {
    var k :| 0 <= k < |Vehicles(ds[..i])| && Broken(Vehicles(ds[..i])[k]);
    VehiclesExtend(ds, i, k);
  }

  // ---------------------------------------------------------------- the lines asked for

  /** A row of the line referential. */
  datatype LineRecord = LineRecord(id: string, transportMode: Option<string>, networkName: Option<string>)

  predicate DesiredMode(mode: Option<string>) {
    mode == Some("rail") || mode == Some("metro") || mode == Some("tram")
  }

  /** A network name containing "TER" in any case. */
  predicate RegionalNetwork(name: Option<string>) {
    name.Some? && Contains(Lower(name.value), "ter")
  }

  /** The line id requested for a record, when its mode is wanted and its network is not a TER one. */
  function RequestedLine(l: LineRecord): (id: Option<string>)
    ensures id.Some? <==> DesiredMode(l.transportMode) && !RegionalNetwork(l.networkName)
    ensures id.Some? ==> id.value == "STIF:Line::" + l.id + ":"
  {
    if DesiredMode(l.transportMode) && !RegionalNetwork(l.networkName) then Some("STIF:Line::" + l.id + ":") else None
  }

  /**
   * The line ids of `_fetch_fresh_data`, in the referential's order. A referential without the
   * NetworkName column reads here as every network name missing, which keeps every line.
   */
  function RequestedLines(lines: seq<LineRecord>): seq<string> {
    Collect(lines, RequestedLine)
  }

  /** An id is requested exactly when some wanted, non-TER line has it. */
  lemma RequestedLinesSpec(lines: seq<LineRecord>)
    ensures forall id :: id in RequestedLines(lines) ==>
      exists k :: (0 <= k < |lines| && DesiredMode(lines[k].transportMode) && !RegionalNetwork(lines[k].networkName)
        && id == "STIF:Line::" + lines[k].id + ":")
    ensures forall k :: 0 <= k < |lines| && DesiredMode(lines[k].transportMode) && !RegionalNetwork(lines[k].networkName) ==>
      "STIF:Line::" + lines[k].id + ":" in RequestedLines(lines)
  {
    CollectSpec(lines, RequestedLine);
    forall id | id in RequestedLines(lines)
      ensures exists k :: (0 <= k < |lines| && DesiredMode(lines[k].transportMode) && !RegionalNetwork(lines[k].networkName)
        && id == "STIF:Line::" + lines[k].id + ":")
    {
      var k :| 0 <= k < |lines| && RequestedLine(lines[k]) == Some(id);
    }
  }
}

=== FILE: travel_time.dfy ===
/**
 * Travel times from schedule rows (calculate_travel_time).
 *
 * Each pandas column rewrite of the private copy is a whole-sequence function here; the
 * caller's frame is a value and cannot be modified.
 */
module TravelTime {
  import opened Common

  /** A schedule timestamp: null, unparseable (pandas `NaT` after `errors="coerce"`) or seconds after midnight. */
  datatype Stamp = Null | Unparsed | At(seconds: int)

  datatype ScheduleRow = ScheduleRow(
    transportId: int, stationId: int, nextStationId: Option<int>, timestamp: Stamp, journeyId: int)

  /** A schedule row with its derived travel time (minutes). */
  datatype TimedRow = TimedRow(row: ScheduleRow, travelTime: Option<real>)

  /** A row of the result table. */
  datatype TravelRow = TravelRow(
    transportId: int, stationId: int, nextStationId: Option<int>, travelTime: Option<real>, journeyId: int)

  // ---------------------------------------------------------------- step 1: drop null timestamps

  function DropNullTimestamps(rows: seq<ScheduleRow>): (r: seq<ScheduleRow>)
    ensures forall x :: x in r <==> x in rows && x.timestamp != Null
    ensures |r| <= |rows|
  {
    if rows == [] then []
    else
      var p := DropNullTimestamps(rows[..|rows| - 1]);
      assert rows == rows[..|rows| - 1] + [rows[|rows| - 1]];
      if rows[|rows| - 1].timestamp == Null then p else p + [rows[|rows| - 1]]
  }

  // ---------------------------------------------------------------- step 2: sort by (journey_id, timestamp)

  /** Timestamp order used by the sort; unparseable values go last. */
  predicate StampLess(a: Stamp, b: Stamp) {
    (a.At? && b.At? && a.seconds < b.seconds) || (a.At? && !b.At?)
  }

  /** Strict order of the sort key (journey_id, timestamp). */
  predicate KeyLess(a: ScheduleRow, b: ScheduleRow) {
    a.journeyId < b.journeyId || (a.journeyId == b.journeyId && StampLess(a.timestamp, b.timestamp))
  }

  predicate SortedByKey(s: seq<ScheduleRow>) {
    forall i, j :: 0 <= i < j < |s| ==> !KeyLess(s[j], s[i])
  }

  /** Insert `x` after every element it is not strictly smaller than (keeps the sort stable). */
  function Insert(s: seq<ScheduleRow>, x: ScheduleRow): (r: seq<ScheduleRow>)
    ensures |r| == |s| + 1
  {
    if s == [] || !KeyLess(x, s[|s| - 1]) then s + [x]
    else Insert(s[..|s| - 1], x) + [s[|s| - 1]]
  }

  lemma KeyLessAsym(a: ScheduleRow, b: ScheduleRow)
    ensures KeyLess(a, b) ==> !KeyLess(b, a)
  {
  }

  lemma KeyNotLessTrans(a: ScheduleRow, b: ScheduleRow, c: ScheduleRow)
    requires !KeyLess(a, b) && !KeyLess(b, c)
    ensures !KeyLess(a, c)
  {
  }

  lemma {:induction false} InsertSorted(s: seq<ScheduleRow>, x: ScheduleRow)
    requires SortedByKey(s)
    ensures SortedByKey(Insert(s, x))
    ensures multiset(Insert(s, x)) == multiset(s) + multiset{x}
  {
    if s == [] {
    } else if !KeyLess(x, s[|s| - 1]) {
      forall i | 0 <= i < |s|
        ensures !KeyLess(x, s[i])
      {
        if i < |s| - 1 {
          KeyNotLessTrans(x, s[|s| - 1], s[i]);
        }
      }
      assert Insert(s, x) == s + [x];
    } else {
      var init := s[..|s| - 1];
      var last := s[|s| - 1];
      InsertSorted(init, x);
      assert s == init + [last];
      var p := Insert(init, x);
      assert Insert(s, x) == p + [last];
      forall i | 0 <= i < |p|
        ensures !KeyLess(last, p[i])
      {
        assert p[i] in multiset(p);
        if p[i] == x {
          KeyLessAsym(x, last);
        } else {
          assert p[i] in multiset(init);
          var j :| 0 <= j < |init| && init[j] == p[i];
          assert s[j] == p[i];
        }
      }
    }
  }

  /** pandas `sort_values(by=["journey_id", "timestamp"])` (a stable sort). */
  function SortRows(rows: seq<ScheduleRow>): (r: seq<ScheduleRow>)
    ensures |r| == |rows|
  {
    if rows == [] then []
    else Insert(SortRows(rows[..|rows| - 1]), rows[|rows| - 1])
  }

  /** The sort orders the rows by (journey_id, timestamp) and keeps every row. */
  lemma {:induction false} SortRowsCorrect(rows: seq<ScheduleRow>)
    ensures SortedByKey(SortRows(rows))
    ensures multiset(SortRows(rows)) == multiset(rows)
  {
    if rows != [] {
      SortRowsCorrect(rows[..|rows| - 1]);
      InsertSorted(SortRows(rows[..|rows| - 1]), rows[|rows| - 1]);
      assert rows == rows[..|rows| - 1] + [rows[|rows| - 1]];
    }
  }

  // ---------------------------------------------------------------- steps 3-5: arrival and travel time

  /** The groupwise shift: the next row's timestamp when it belongs to the same journey, and nothing for a row without next station. */
  function Arrival(s: seq<ScheduleRow>, i: nat): (a: Option<Stamp>)
    requires i < |s|
    ensures a.Some? <==> s[i].nextStationId.Some? && i + 1 < |s| && s[i + 1].journeyId == s[i].journeyId
    ensures a.Some? ==> a.value == s[i + 1].timestamp
  {
    if s[i].nextStationId.None? then None
    else if i + 1 < |s| && s[i + 1].journeyId == s[i].journeyId then Some(s[i + 1].timestamp)
    else None
  }

  /** Raw travel time in minutes, `gap + 1`, before any correction. */
  function RawMinutes(departure: int, arrival: int): real {
    (arrival - departure) as real / 60.0 + 1.0
  }

  /** Travel time in minutes: gap + 1, a negative value recomputed modulo one day, floored at one minute. */
  function TravelMinutes(departure: Stamp, arrival: Option<Stamp>): (t: Option<real>)
    ensures t.Some? <==> departure.At? && arrival.Some? && arrival.value.At?
    ensures t.Some? ==> t.value >= 1.0
    ensures t.Some? && RawMinutes(departure.seconds, arrival.value.seconds) >= 1.0 ==>
              t.value == RawMinutes(departure.seconds, arrival.value.seconds)
    ensures t.Some? && 0.0 <= RawMinutes(departure.seconds, arrival.value.seconds) < 1.0 ==> t.value == 1.0
    ensures t.Some? && RawMinutes(departure.seconds, arrival.value.seconds) < 0.0 ==>
              t.value == FMod((arrival.value.seconds - departure.seconds) as real / 60.0, 1440.0) + 1.0
  {
    if departure.At? && arrival.Some? && arrival.value.At? then
      var gap := (arrival.value.seconds - departure.seconds) as real / 60.0;
      var t := gap + 1.0;
      var fixed := if t < 0.0 then FMod(gap, 1440.0) + 1.0 else t;
      Some(if 1.0 < fixed then fixed else 1.0)
    else None
  }

  /**
   * Taken in stop order, a ride of `duration` seconds (under one day less a minute) leaving at
   * `departure` gets its duration in minutes plus one, across midnight too: the day-transition
   * branch is what recovers a ride that crosses midnight.
   */
  lemma StopOrderMinutes(departure: int, duration: int)
    requires 0 <= departure < 86400 && 0 <= duration < 86340
    ensures TravelMinutes(At(departure), Some(At((departure + duration) % 86400))) == Some(duration as real / 60.0 + 1.0)
  {
    var arrival := (departure + duration) % 86400;
    var gap := (arrival - departure) as real / 60.0;
    if departure + duration < 86400 {
      assert arrival == departure + duration;
      assert gap == duration as real / 60.0;
    } else {
      assert arrival == departure + duration - 86400;
      assert gap == duration as real / 60.0 - 1440.0;
      assert gap + 1.0 < 0.0;
      assert (gap / 1440.0).Floor == -1;
      assert FMod(gap, 1440.0) == duration as real / 60.0;
    }
  }

  /** In stop order, a departure at 23:58 with the next stop at 00:03 takes six minutes. */
  lemma DayRolloverExample()
    ensures TravelMinutes(At(23 * 3600 + 58 * 60), Some(At(3 * 60))) == Some(6.0)
  {
    StopOrderMinutes(23 * 3600 + 58 * 60, 5 * 60);
  }

  /**
   * Once sorted by (journey_id, timestamp), a row's arrival within its journey is never earlier
   * than its departure: every gap is non-negative, so the day-transition branch is never taken
   * and each travel time is the gap plus one.
   */
  lemma SortedGapsNonNegative(s: seq<ScheduleRow>, i: nat)
    requires SortedByKey(s) && i < |s|
    requires s[i].timestamp.At? && Arrival(s, i).Some? && Arrival(s, i).value.At?
    ensures Arrival(s, i).value.seconds >= s[i].timestamp.seconds
    ensures TravelMinutes(s[i].timestamp, Arrival(s, i)) == Some(RawMinutes(s[i].timestamp.seconds, Arrival(s, i).value.seconds))
  {
    assert !KeyLess(s[i + 1], s[i]);
  }

  /** The same for the rows as the pipeline sorts them. */
  lemma PipelineNeverRollsOver(rows: seq<ScheduleRow>)
    ensures var s := SortRows(DropNullTimestamps(rows));
      forall i :: 0 <= i < |s| && s[i].timestamp.At? && Arrival(s, i).Some? && Arrival(s, i).value.At? ==>
        Arrival(s, i).value.seconds >= s[i].timestamp.seconds
  {
    var s := SortRows(DropNullTimestamps(rows));
    SortRowsCorrect(DropNullTimestamps(rows));
    forall i | 0 <= i < |s| && s[i].timestamp.At? && Arrival(s, i).Some? && Arrival(s, i).value.At?
      ensures Arrival(s, i).value.seconds >= s[i].timestamp.seconds
    {
      SortedGapsNonNegative(s, i);
    }
  }

  /**
   * A journey leaving station 1 at 23:58 and station 2 at 00:03, both read onto the same day: the
   * sort puts 00:03 first, so the 00:03 row is given the 23:58 row as its arrival, 1436 minutes,
   * and the 23:58 row gets none.
   */
  lemma CrossMidnightExample()
    ensures var r1 := ScheduleRow(7, 1, Some(2), At(23 * 3600 + 58 * 60), 1);
      var r2 := ScheduleRow(7, 2, Some(3), At(3 * 60), 1);
      && SortRows([r1, r2]) == [r2, r1]
      && WithTravelTimes(SortRows([r1, r2])) == [TimedRow(r2, Some(1436.0)), TimedRow(r1, None)]
  {
    var r1 := ScheduleRow(7, 1, Some(2), At(23 * 3600 + 58 * 60), 1);
    var r2 := ScheduleRow(7, 2, Some(3), At(3 * 60), 1);
    SortSwaps(r1, r2);
    var s := [r2, r1];
    var t := WithTravelTimes(s);
    assert t[0] == TimedRow(r2, TravelMinutes(r2.timestamp, Arrival(s, 0)));
    assert Arrival(s, 0) == Some(r1.timestamp);
    assert TravelMinutes(r2.timestamp, Some(r1.timestamp)) == Some(1436.0) by {
      assert RawMinutes(3 * 60, 23 * 3600 + 58 * 60) == 1436.0;
    }
    assert Arrival(s, 1).None?;
    assert t[1] == TimedRow(r1, None);
  }

  /** Sorting two rows of one journey, the later one first, swaps them. */
  lemma SortSwaps(r1: ScheduleRow, r2: ScheduleRow)
    requires KeyLess(r2, r1)
    ensures SortRows([r1, r2]) == [r2, r1]
  {
    assert [r1, r2][..1] == [r1];
    assert [r1][..0] == [];
    assert SortRows([r1]) == [r1];
    assert Insert([r1][..0], r2) == [r2];
  }

  /** The sorted rows with their travel time. */
  function WithTravelTimes(s: seq<ScheduleRow>): (r: seq<TimedRow>)
    ensures |r| == |s|
    ensures forall i :: 0 <= i < |s| ==> r[i].row == s[i] && r[i].travelTime == TravelMinutes(s[i].timestamp, Arrival(s, i))
  {
    seq(|s|, i requires 0 <= i < |s| => TimedRow(s[i], TravelMinutes(s[i].timestamp, Arrival(s, i))))
  }

  // ---------------------------------------------------------------- steps 6-9: de-duplication and mean per key

  function KeysOf<T, K>(xs: seq<T>, key: T -> K): set<K> {
    set i | 0 <= i < |xs| :: key(xs[i])
  }

  /** `drop_duplicates(subset=key)`: keep the first row of each key, in order. */
  function DedupBy<T, K(==)>(xs: seq<T>, key: T -> K): (r: seq<T>)
    ensures |r| <= |xs|
  {
    if xs == [] then []
    else if key(xs[|xs| - 1]) in KeysOf(xs[..|xs| - 1], key) then DedupBy(xs[..|xs| - 1], key)
    else DedupBy(xs[..|xs| - 1], key) + [xs[|xs| - 1]]
  }

  lemma KeysOfSnoc<T, K>(xs: seq<T>, x: T, key: T -> K)
    ensures KeysOf(xs + [x], key) == KeysOf(xs, key) + {key(x)}
  {
    var ys := xs + [x];
    forall k | k in KeysOf(ys, key)
      ensures k in KeysOf(xs, key) + {key(x)}
    {
      var i :| 0 <= i < |ys| && key(ys[i]) == k;
      if i < |xs| {
        assert ys[i] == xs[i];
      }
    }
    forall k | k in KeysOf(xs, key) + {key(x)}
      ensures k in KeysOf(ys, key)
    {
      if k == key(x) {
        assert key(ys[|xs|]) == k;
      } else {
        var i :| 0 <= i < |xs| && key(xs[i]) == k;
        assert key(ys[i]) == k;
      }
    }
  }

  /** The kept rows come from the input, have distinct keys and cover every key of the input. */
  lemma {:induction false} DedupByCorrect<T, K>(xs: seq<T>, key: T -> K)
    ensures forall i :: 0 <= i < |DedupBy(xs, key)| ==> exists j :: 0 <= j < |xs| && DedupBy(xs, key)[i] == xs[j]
    ensures forall i, j :: 0 <= i < j < |DedupBy(xs, key)| ==> key(DedupBy(xs, key)[i]) != key(DedupBy(xs, key)[j])
    ensures KeysOf(DedupBy(xs, key), key) == KeysOf(xs, key)
  {
    if xs != [] {
      var init := xs[..|xs| - 1];
      var last := xs[|xs| - 1];
      DedupByCorrect(init, key);
      var p := DedupBy(init, key);
      assert xs == init + [last];
      KeysOfSnoc(init, last, key);
      forall i | 0 <= i < |p|
        ensures exists j :: 0 <= j < |xs| && p[i] == xs[j]
      {
        var j :| 0 <= j < |init| && p[i] == init[j];
        assert p[i] == xs[j];
      }
      if key(last) !in KeysOf(init, key) {
        var r := p + [last];
        assert DedupBy(xs, key) == r;
        KeysOfSnoc(p, last, key);
        forall i | 0 <= i < |r|
          ensures exists j :: 0 <= j < |xs| && r[i] == xs[j]
        {
          if i == |p| {
            assert r[i] == xs[|xs| - 1];
          } else {
            assert r[i] == p[i];
          }
        }
        forall i | 0 <= i < |p|
          ensures key(r[i]) != key(last)
        {
          assert key(p[i]) in KeysOf(p, key);
        }
      } else {
        assert DedupBy(xs, key) == p;
        assert forall i :: 0 <= i < |p| ==> exists j :: 0 <= j < |xs| && p[i] == xs[j];
      }
    } else {
      assert DedupBy(xs, key) == [];
    }
  }

  /** Next-station key with the `-1` sentinel the source writes for a missing value. */
  function NextKey(o: Option<int>): int {
    match o
    case Some(v) => v
    case None => -1
  }

  function JourneyKey(t: TimedRow): (int, int, int, int) {
    (t.row.journeyId, t.row.transportId, t.row.stationId, NextKey(t.row.nextStationId))
  }

  /** Back from the sentinel: every `-1`, including a genuine station id -1, becomes null. */
  function ResetSentinel(k: int): (o: Option<int>)
    ensures o.None? <==> k == -1
  {
    if k == -1 then None else Some(k)
  }

  function ToTravelRow(t: TimedRow): TravelRow {
    TravelRow(t.row.transportId, t.row.stationId, ResetSentinel(NextKey(t.row.nextStationId)), t.travelTime, t.row.journeyId)
  }

  function LineKey(r: TravelRow): (int, int, Option<int>) {
    (r.transportId, r.stationId, r.nextStationId)
  }

  /** Non-null travel times of the rows with key `k` (null next station is never a group). */
  function GroupValues(rs: seq<TravelRow>, k: (int, int, Option<int>)): (vs: seq<real>)
    ensures |vs| <= |rs|
  {
    if rs == [] || k.2.None? then []
    else
      var p := GroupValues(rs[..|rs| - 1], k);
      var last := rs[|rs| - 1];
      if LineKey(last) == k && last.travelTime.Some? then p + [last.travelTime.value] else p
  }

  /** Each grouped value is the travel time of a row with that key. */
  lemma {:induction false} GroupValuesFrom(rs: seq<TravelRow>, k: (int, int, Option<int>))
    ensures forall v :: v in GroupValues(rs, k) ==> exists i :: 0 <= i < |rs| && LineKey(rs[i]) == k && rs[i].travelTime == Some(v)
  {
    if rs != [] && k.2.Some? {
      var init := rs[..|rs| - 1];
      GroupValuesFrom(init, k);
      forall v | v in GroupValues(init, k)
        ensures exists i :: 0 <= i < |rs| && LineKey(rs[i]) == k && rs[i].travelTime == Some(v)
      {
        var i :| 0 <= i < |init| && LineKey(init[i]) == k && init[i].travelTime == Some(v);
        assert rs[i] == init[i];
      }
    }
  }

  function Mean(vs: seq<real>): Option<real> {
    if vs == [] then None else Some(Sum(vs) / (|vs| as real))
  }

  lemma {:induction false} SumAtLeast(vs: seq<real>, lo: real)
    requires forall v :: v in vs ==> v >= lo
    ensures Sum(vs) >= (|vs| as real) * lo
  {
    if vs != [] {
      var init := vs[..|vs| - 1];
      assert forall v :: v in init ==> v in vs;
      SumAtLeast(init, lo);
      assert Sum(vs) == Sum(init) + vs[|vs| - 1];
      assert vs[|vs| - 1] in vs;
      assert (|vs| as real) == (|init| as real) + 1.0;
      assert (|vs| as real) * lo == (|init| as real) * lo + lo;
    }
  }

  /** The mean of values that are all at least one minute is at least one minute. */
  lemma MeanAtLeastOne(vs: seq<real>)
    requires forall v :: v in vs ==> v >= 1.0
    ensures Mean(vs).Some? ==> Mean(vs).value >= 1.0
  {
    if vs != [] {
      SumAtLeast(vs, 1.0);
    }
  }

  /** The surviving rows, each with the mean travel time of its (line, station, next station) group. */
  function Averaged(rs: seq<TravelRow>): (r: seq<TravelRow>)
    ensures |r| == |rs|
    ensures forall i :: 0 <= i < |rs| ==> r[i] == rs[i].(travelTime := Mean(GroupValues(rs, LineKey(rs[i]))))
  {
    seq(|rs|, i requires 0 <= i < |rs| => rs[i].(travelTime := Mean(GroupValues(rs, LineKey(rs[i])))))
  }

  /** Rows kept by the per-journey de-duplication, converted back from the sentinel. */
  function Kept(rows: seq<ScheduleRow>): seq<TimedRow> {
    DedupBy(WithTravelTimes(SortRows(DropNullTimestamps(rows))), JourneyKey)
  }

  function ToTravelRows(kept: seq<TimedRow>): (r: seq<TravelRow>)
    ensures |r| == |kept| && forall i :: 0 <= i < |kept| ==> r[i] == ToTravelRow(kept[i])
  {
    seq(|kept|, i requires 0 <= i < |kept| => ToTravelRow(kept[i]))
  }

  function Survivors(rows: seq<ScheduleRow>): seq<TravelRow> {
    ToTravelRows(Kept(rows))
  }

  /** calculate_travel_time: one row per (line, station, next station) with the mean travel time. */
  function CalculateTravelTime(rows: seq<ScheduleRow>): (r: seq<TravelRow>) {
    DedupBy(Averaged(Survivors(rows)), LineKey)
  }

  // ---------------------------------------------------------------- properties

  /** Every computed travel time, before averaging, is at least one minute. */
  lemma SurvivorsFloor(rows: seq<ScheduleRow>)
    ensures forall i :: 0 <= i < |Survivors(rows)| && Survivors(rows)[i].travelTime.Some? ==>
              Survivors(rows)[i].travelTime.value >= 1.0
  {
    var timed := WithTravelTimes(SortRows(DropNullTimestamps(rows)));
    var kept := Kept(rows);
    DedupByCorrect(timed, JourneyKey);
    forall i | 0 <= i < |kept| && kept[i].travelTime.Some?
      ensures kept[i].travelTime.value >= 1.0
    {
      var j :| 0 <= j < |timed| && kept[i] == timed[j];
    }
  }

  /** Every non-null travel time of the result is at least one minute (the floor survives the mean). */
  lemma TravelTimeFloor(rows: seq<ScheduleRow>)
    ensures forall i :: 0 <= i < |CalculateTravelTime(rows)| && CalculateTravelTime(rows)[i].travelTime.Some? ==>
              CalculateTravelTime(rows)[i].travelTime.value >= 1.0
  {
    var s := Survivors(rows);
    SurvivorsFloor(rows);
    var avg := Averaged(s);
    var res := DedupBy(avg, LineKey);
    DedupByCorrect(avg, LineKey);
    forall i | 0 <= i < |res| && res[i].travelTime.Some?
      ensures res[i].travelTime.value >= 1.0
    {
      var j :| 0 <= j < |avg| && res[i] == avg[j];
      MeanFloor(s, LineKey(s[j]));
    }
  }

  /** The mean travel time of a group is at least one minute when every travel time is. */
  lemma MeanFloor(s: seq<TravelRow>, k: (int, int, Option<int>))
    requires forall i :: 0 <= i < |s| && s[i].travelTime.Some? ==> s[i].travelTime.value >= 1.0
    ensures Mean(GroupValues(s, k)).Some? ==> Mean(GroupValues(s, k)).value >= 1.0
  {
    var vs := GroupValues(s, k);
    GroupValuesFrom(s, k);
    forall v | v in vs
      ensures v >= 1.0
    {
      var i :| 0 <= i < |s| && LineKey(s[i]) == k && s[i].travelTime == Some(v);
    }
    MeanAtLeastOne(vs);
  }

  /** The result has at most one row per (line, station, next station). */
  lemma OneRowPerKey(rows: seq<ScheduleRow>)
    ensures forall i, j :: 0 <= i < j < |CalculateTravelTime(rows)| ==>
              LineKey(CalculateTravelTime(rows)[i]) != LineKey(CalculateTravelTime(rows)[j])
  {
    DedupByCorrect(Averaged(Survivors(rows)), LineKey);
  }

  /** Averaging then de-duplicating keeps every key, with the mean of that key's non-null travel times. */
  lemma AveragedCovers(s: seq<TravelRow>, i: nat)
    requires i < |s|
    ensures exists k :: 0 <= k < |DedupBy(Averaged(s), LineKey)| && LineKey(DedupBy(Averaged(s), LineKey)[k]) == LineKey(s[i])
                        && DedupBy(Averaged(s), LineKey)[k].travelTime == Mean(GroupValues(s, LineKey(s[i])))
  {
    var avg := Averaged(s);
    var res := DedupBy(avg, LineKey);
    DedupByCorrect(avg, LineKey);
    assert LineKey(avg[i]) in KeysOf(avg, LineKey);
    var k :| 0 <= k < |res| && LineKey(res[k]) == LineKey(avg[i]);
    var j :| 0 <= j < |avg| && res[k] == avg[j];
    assert LineKey(s[j]) == LineKey(avg[j]);
  }

  /** Every key of a surviving row is present in the result, with the mean of that key's non-null travel times. */
  lemma EveryKeyAveraged(rows: seq<ScheduleRow>, i: nat)
    requires i < |Survivors(rows)|
    ensures exists k :: 0 <= k < |CalculateTravelTime(rows)| && LineKey(CalculateTravelTime(rows)[k]) == LineKey(Survivors(rows)[i])
                        && CalculateTravelTime(rows)[k].travelTime == Mean(GroupValues(Survivors(rows), LineKey(Survivors(rows)[i])))
  {
    var s := Survivors(rows);
    AveragedCovers(s, i);
    var res := DedupBy(Averaged(s), LineKey);
    assert CalculateTravelTime(rows) == res;
    var k :| 0 <= k < |res| && LineKey(res[k]) == LineKey(s[i]) && res[k].travelTime == Mean(GroupValues(s, LineKey(s[i])));
  }

  /** A row without next station survives the per-journey de-duplication with a null next station. */
  lemma NoNextStationSurvives(rows: seq<ScheduleRow>, x: ScheduleRow)
    requires x in rows && x.timestamp != Null && x.nextStationId.None?
    ensures exists i :: 0 <= i < |Survivors(rows)| && Survivors(rows)[i].transportId == x.transportId
                        && Survivors(rows)[i].stationId == x.stationId && Survivors(rows)[i].nextStationId.None?
  {
    var sorted := SortRows(DropNullTimestamps(rows));
    SortRowsCorrect(DropNullTimestamps(rows));
    assert x in multiset(sorted);
    var timed := WithTravelTimes(sorted);
    var k :| 0 <= k < |sorted| && sorted[k] == x;
    var kept := Kept(rows);
    DedupByCorrect(timed, JourneyKey);
    assert JourneyKey(timed[k]) in KeysOf(timed, JourneyKey);
    var i :| 0 <= i < |kept| && JourneyKey(kept[i]) == JourneyKey(timed[k]);
    assert Survivors(rows)[i] == ToTravelRow(kept[i]);
  }

  /** A row with no next station is kept: the result holds a row of its line and station with a null next station and no travel time. */
  lemma NoNextStationKept(rows: seq<ScheduleRow>, x: ScheduleRow)
    requires x in rows && x.timestamp != Null && x.nextStationId.None?
    ensures exists k :: 0 <= k < |CalculateTravelTime(rows)| && CalculateTravelTime(rows)[k].transportId == x.transportId
                        && CalculateTravelTime(rows)[k].stationId == x.stationId
                        && CalculateTravelTime(rows)[k].nextStationId.None? && CalculateTravelTime(rows)[k].travelTime.None?
  {
    NoNextStationSurvives(rows, x);
    var s := Survivors(rows);
    var i :| 0 <= i < |s| && s[i].transportId == x.transportId && s[i].stationId == x.stationId && s[i].nextStationId.None?;
    AveragedCovers(s, i);
    assert GroupValues(s, LineKey(s[i])) == [];
    var res := DedupBy(Averaged(s), LineKey);
    assert CalculateTravelTime(rows) == res;
    var k :| 0 <= k < |res| && LineKey(res[k]) == LineKey(s[i]) && res[k].travelTime == Mean(GroupValues(s, LineKey(s[i])));
  }

  function SurvivorKey(r: TravelRow): (int, int, int, Option<int>) {
    (r.journeyId, r.transportId, r.stationId, r.nextStationId)
  }

  /** After the per-journey de-duplication no two rows share (journey, line, station, next station). */
  lemma JourneyDedupUnique(rows: seq<ScheduleRow>)
    ensures forall i, j :: 0 <= i < j < |Survivors(rows)| ==> SurvivorKey(Survivors(rows)[i]) != SurvivorKey(Survivors(rows)[j])
  {
    var timed := WithTravelTimes(SortRows(DropNullTimestamps(rows)));
    var kept := Kept(rows);
    DedupByCorrect(timed, JourneyKey);
    forall i, j | 0 <= i < j < |kept|
      ensures SurvivorKey(ToTravelRow(kept[i])) != SurvivorKey(ToTravelRow(kept[j]))
    {
      assert JourneyKey(kept[i]) != JourneyKey(kept[j]);
    }
  }
}
